=== FILE: README.md ===
# SEC data insights: a Dafny model of the client and the statement processing

This project models the core of a Python toolkit that reads company data
from the SEC's public JSON API (`data.sec.gov`) and turns it into
standardized financial statements. The model covers these parts:

- **The API client** (`SECClient`):
  - CIK validation and zero-padding.
  - The period string of a frames request (`CY2023`, `CY2023Q1`, `CY2023Q4I`).
  - The URL of each endpoint.
  - The retry loop of `_make_request`: linear back-off after a 429, a flat
    pause after any other failure.
  - The `_rate_limit` throttle.
  - The cache lifetime of each endpoint, and the cache key the decorator
    builds for a call.
- **The response cache** (`cache_sec_response` and `clear_cache`):
  - Hit and miss, strict expiry, failed writes, hash collisions.
  - Deleting entries with or without a pattern.
- **The statement templates** (balance sheet, income statement, cash flow):
  - Each template's skeleton of sections.
  - Its `concept_map` and `get_path_for_concept`.
- **The processor helpers** (`BaseProcessor`):
  - Concept and frame data, line-item standardization, required fields.
  - Date conversion and the period-over-period changes.
- **The three statement processors**: `process_company_facts` and each
  processor's derived fields.
- **`facts_to_dataframe`**: flattening a company-facts document into one
  frame per taxonomy, concept and unit.
- **`IndustryAnalyzer`**: industry metrics from the frames endpoint, a
  company's position among its peers, and the top-N peer rankings with
  their value formatting.
- **`CompanyData`**: `from_json`, the filing queries, and
  `process_financial_statements`.

pandas frames are modelled as `Tables.Table`: column names plus rows that
map column names to cells. A cell holds a JSON value, NaN, or an exact
quotient. JSON is a datatype whose objects are ordered association lists,
as Python dicts are. The model treats these as parameters:

- The server's replies: a function from attempt number to reply.
- The clock readings.
- The md5 hash.
- Date parsing.
- What `get_frames` returns to the industry analyzer.

One Dafny module corresponds to each source file:

| file | module |
|---|---|
| `sec_client.dfy` | `SecClient` |
| `request_policy.dfy` | `RequestPolicy` |
| `cache.dfy` | `ResponseCache` |
| `template_tree.dfy` and the three `*_template.dfy` files | the templates |
| `base_processor.dfy`, plus `tables.dfy` for the frame operations | `BaseProcessor` |
| `statement_pipeline.dfy` | the shared `process_company_facts` |
| the three `*_processor.dfy` files | the statement processors |
| `data_processor.dfy` | `DataProcessor` |
| `industry_analyzer.dfy` | `IndustryAnalyzer` |
| `company_data.dfy` | `CompanyData` |

`text.dfy`, `json.dfy`, `dicts.dfy` and `wrappers.dfy` hold the Python
string, JSON and dict semantics the other modules share.

## Model

| member | source | states |
|---|---|---|
| SecClient.ValidateCik | src/utils/sec_client.py:87-103 | A CIK is accepted exactly when, after stripping whitespace, it is ASCII digits that denote a positive number. The result is that number zero-padded to at least 10 digits. Anything else raises `ValueError`. |
| SecClient.ValidateCikIdempotent | src/utils/sec_client.py:100-103 | A normalised CIK is accepted again and normalises to itself. |
| SecClient.ValidateCikSameCompany | src/utils/sec_client.py:100-103 | Two accepted CIKs normalise to the same string if and only if they denote the same number. |
| SecClient.SignificantDigitsAccepted | src/utils/sec_client.py:100-103 | Any run of leading zeros before a digit string that does not start with 0 is dropped, and the digits are padded to 10. |
| SecClient.ZerosRejected | src/utils/sec_client.py:100-102 | A CIK of zeros only (or the empty string) leaves nothing after `lstrip('0')` and is refused. |
| SecClient.NonDigitRejected | src/utils/sec_client.py:100-102 | A non-digit inside the CIK makes it invalid. |
| SecClient.FramePeriod | src/utils/sec_client.py:231-240 | A quarter that is given (truthy) and outside 1-4 raises. Otherwise the period starts with `CY`. |
| SecClient.FramePeriodIsPeriodOf | src/utils/sec_client.py:234-240 | The period string is the rendering of the requested spec. A missing or zero quarter means the whole year, and the instant flag is then ignored. |
| SecClient.ParseIntToString | src/utils/sec_client.py:235 | The year rendered in the period string reads back as the same integer, negative years included. |
| SecClient.ParsePeriodOf | src/utils/sec_client.py:234-240 | Reading a rendered period back gives the year, the quarter and the instant flag. |
| SecClient.FramePeriodRoundTrip | src/utils/sec_client.py:231-240 | Round trip: parsing `FramePeriod(year, quarter, instantaneous)` gives back the requested spec. |
| SecClient.ParseFramePeriodRoundTrip | src/utils/sec_client.py:234-240 | Reverse round trip: every string the parser accepts is the rendering of the spec it reads. |
| SecClient.FramePeriodInjective | src/utils/sec_client.py:234-240 | Two requests get the same period string if and only if they request the same spec. |
| SecClient.FramePeriodExamples | src/utils/sec_client.py:231-240 | `CY2023`, `CY2023Q1`, `CY2023Q4I`. Quarter 0 means the whole year. Quarters 5 and -1 are refused. |
| SecClient.NewClient | src/utils/sec_client.py:29-40 | The client's base URL is `https://data.sec.gov`. It keeps the configured retry count and delay. |
| SecClient.RequestUrl | src/utils/sec_client.py:105-243 | The URL of each endpoint. A call fails with `ValueError` exactly when its CIK is invalid, or when it is a frames call whose quarter is truthy and outside 1-4. |
| SecClient.SubmissionsUrlIdentifiesCompany | src/utils/sec_client.py:138-139 | Two valid CIKs give the same submissions URL if and only if they denote the same company. |
| SecClient.CompanyFactsUrlIdentifiesCompany | src/utils/sec_client.py:173-174 | Two valid CIKs give the same company-facts URL if and only if they denote the same company. |
| SecClient.CompanyConceptUrlIdentifiesCompany | src/utils/sec_client.py:197-198 | For one taxonomy and tag, two valid CIKs give the same concept URL if and only if they denote the same company. |
| SecClient.FramesUrlShape | src/utils/sec_client.py:242 | A frames URL is the prefix for its taxonomy, tag and unit, then the period, then `.json`. |
| SecClient.FramesUrlIdentifiesPeriod | src/utils/sec_client.py:231-242 | For one concept and unit, two frames calls share a URL if and only if they request the same period. |
| SecClient.IntendedLifetime | src/utils/sec_client.py:105-202 | The lifetimes the decorators were written with: 1 day, 6 hours, 7 days, 7 days and 30 days. Every endpoint is cached. |
| SecClient.Perform | src/utils/sec_client.py:50-85 | An endpoint body: bad arguments raise before any request is sent. Otherwise it sends at least one and at most `max_retries` requests. Its only errors are the two request failures. |
| SecClient.SendsBounded | src/utils/sec_client.py:65-85 | `_make_request` sends between 1 and `max_retries` requests. It sends none when `max_retries` is not positive. |
| SecClient.CallWith | src/utils/cache.py:45-84 | An uncached endpoint always runs its body. A cached one runs the body, and sends requests, only when the cache misses. |
| SecClient.BadArgumentsSendNothing | src/utils/sec_client.py:138 | A refused CIK or quarter sends no request. Unless a stored entry answers the call, the call raises. |
| SecClient.RepeatCallServedFromCache | src/utils/cache.py:54-64 | Within an endpoint's lifetime, a repeat of a successful cached call sends nothing and returns the first result. |
| SecClient.CompanyFactsAlwaysFetched | src/utils/sec_client.py:142-176 | As written, the undecorated second definition wins. Two identical company-facts calls both go to the network and leave the cache untouched. |
| SecClient.IntendedCompanyFactsCached | src/utils/sec_client.py:142-161 | With the intended 7-day lifetime, a repeat company-facts call made within the week sends nothing. |
| SecClient.SpellingsCachedApart | src/utils/cache.py:47 | Two spellings of one CIK share a URL but not a cache key, because the key holds the argument as passed. |
| SecClient.ClientsCachedApart | src/utils/cache.py:47 | `str(args)` includes `repr(self)`, so two client objects never share a cache key. |
| SecClient.IntendedCacheShared | src/utils/cache.py:47-64 | With a key that leaves out the client object, a second client is served the entry a first client stored. |
| SecClient.KeyShape | src/utils/cache.py:47 | A key is the method name, then `_(`, then `repr(self)`, then the remaining arguments as passed. This holds for both positional and keyword calls. An optional argument that was left out is absent, and one passed as `None` appears as `None`. |
| SecClient.ExplicitNoneCachedApart | src/utils/cache.py:47 | `get_frames(..., quarter=None)` and the same call without `quarter` request the same URL but get different keys, in both call styles. `get_industry_metrics` and `get_peer_rankings` always pass `quarter` (src/utils/industry_analyzer.py:47-53). |
| RequestPolicy.FirstSuccess | src/utils/sec_client.py:65-74 | The first attempt in range whose reply passes `raise_for_status` and decodes. If none is found, no attempt in range succeeds. |
| RequestPolicy.Attempt | src/utils/sec_client.py:65-85 | From attempt `k`: the result is the first success's payload. Failing that, the last attempt's error is raised: a rate-limit error after a 429, otherwise a data error. Every send is preceded by a throttle call. |
| RequestPolicy.MakeRequest | src/utils/sec_client.py:65-85 | The first success among the `max_retries` attempts is returned. Without one, the call raises. With no attempts allowed it returns `None`, and only then. |
| RequestPolicy.FirstSuccessUnique | src/utils/sec_client.py:65-74 | The first successful attempt is unique. |
| RequestPolicy.AttemptUnfold | src/utils/sec_client.py:76-85 | A failed attempt other than the last one sends once, sleeps, and hands over to the next. The pause is `retry_delay*(attempt+1)` after a 429 and `retry_delay` otherwise. |
| RequestPolicy.NeverSucceeds | src/utils/sec_client.py:76-83 | Against a server that never succeeds, the error raised is the last attempt's. |
| RequestPolicy.AlwaysRateLimitedFrom | src/utils/sec_client.py:76-79 | Against constant 429s, the attempts from `k` on sleep the linear back-off sum. |
| RequestPolicy.BackoffClosedForm | src/utils/sec_client.py:79 | The linear back-off sum is `d` times a difference of triangular numbers. |
| RequestPolicy.AlwaysRateLimited | src/utils/sec_client.py:65-79 | Constant 429s: the rate-limit error, `max_retries` requests, and a total sleep of `retry_delay * (1 + ... + (max_retries-1))`. |
| RequestPolicy.RateLimitedResult | src/utils/sec_client.py:76-78 | Constant 429s end in the rate-limit error. |
| RequestPolicy.FailingResult | src/utils/sec_client.py:81-83 | Constant non-429 failures end in the data error. |
| RequestPolicy.AlwaysFailingFrom | src/utils/sec_client.py:81-85 | Constant non-429 failures from attempt `k` on sleep `retry_delay` per remaining attempt. |
| RequestPolicy.LastAttemptFails | src/utils/sec_client.py:76-83 | The last attempt, failing, raises its error after one request and no sleep. |
| RequestPolicy.FlatClosedForm | src/utils/sec_client.py:85 | The flat back-off sum is `d` times the number of pauses. |
| RequestPolicy.AlwaysFailing | src/utils/sec_client.py:65-85 | Constant non-429 failures (transport errors and 4xx/5xx): the data error and a total sleep of `retry_delay*(max_retries-1)`. |
| RequestPolicy.RateLimit | src/utils/sec_client.py:42-48 | The throttle waits exactly when less than the minimum interval has passed. The new timestamp is at least the previous one plus the interval. |
| RequestPolicy.Stamps | src/utils/sec_client.py:42-48 | Successive throttled requests are stamped at least the minimum interval apart. |
| RequestPolicy.StampsSpan | src/utils/sec_client.py:42-48 | N throttled requests span at least N-1 minimum intervals. |
| ResponseCache.Lookup | src/utils/cache.py:54-66 | A hit happens exactly when the file is readable, its `cached_at` is not expired and it has a `data` key. The hit returns that `data`. Any failure on the way is a miss. |
| ResponseCache.KeptEntryServed | src/utils/cache.py:54-64 | An entry already on disk, from an earlier call or an earlier run, is served while fresh. The function does not run and the directory is unchanged. |
| ResponseCache.CachedCall | src/utils/cache.py:45-84 | The function runs exactly on a miss. A hit returns the stored data and leaves the directory alone. Only the call's own file changes. |
| ResponseCache.EntryFields | src/utils/cache.py:73-77 | A stored document holds `cached_at`, `data` and `cache_key`. |
| ResponseCache.CacheRoundTrip | src/utils/cache.py:54-79 | Round trip: a written entry is served back unchanged, without running the function, until it expires. |
| ResponseCache.CacheExpiry | src/utils/cache.py:60 | An entry older than a non-zero lifetime is not served, and the function runs again. |
| ResponseCache.ExpiryBoundary | src/utils/cache.py:60 | Expiry is strict: an entry exactly as old as its lifetime is still served. No lifetime, or a zero one, means no expiry. |
| ResponseCache.HashCollisionServesOtherEntry | src/utils/cache.py:48-64 | The stored key is never compared, so a different key with the same md5 is served the other call's data. |
| ResponseCache.CallsIsolated | src/utils/cache.py:48-79 | A call only touches its own file. A call whose key hashes elsewhere sees the same entry before and after. |
| ResponseCache.FailedWriteRecomputes | src/utils/cache.py:72-82 | A failed dump leaves no usable entry, so the next call runs the function again. |
| ResponseCache.ClearCache | src/utils/cache.py:12-39 | Without a directory the count is 0. Otherwise it deletes the listed `*.json` files: all of them, or those whose stored key contains the pattern. It returns how many were deleted. |
| ResponseCache.ClearAllLeavesNoEntry | src/utils/cache.py:19-31 | Clearing without a pattern (or with an empty one) leaves no listed file, so every later call misses. |
| ResponseCache.ClearPatternForcesMiss | src/utils/cache.py:21-28 | After clearing with a pattern, the entry of any key containing it is gone. |
| ResponseCache.ClearIdempotent | src/utils/cache.py:12-39 | A second clear with the same pattern deletes nothing. |
| ResponseCache.ClearKeepsTheRest | src/utils/cache.py:19-31 | Clearing only deletes. Every kept file is unchanged. |
| TemplateTree.PathForConceptResolves | src/templates/balance_sheet_template.py:91-100 | In a template whose mapped paths resolve, `get_path_for_concept` returns a path naming a node of the skeleton. The path is empty exactly for an unmapped concept, and otherwise it is the path the concept is mapped to. |
| TemplateTree.ResolvesHead | src/templates/balance_sheet_template.py:51-89 | A resolving path starts with one of the template's attributes. |
| TemplateTree.UntargetedNeverReturned | src/templates/cash_flow_template.py:84-93 | A path no concept maps to is never returned. |
| BalanceSheetTemplate.CurrentAssetPathsResolve | src/templates/balance_sheet_template.py:52-55 | These concept_map entries name nodes of the assets skeleton. |
| BalanceSheetTemplate.CurrentItemPathsResolve | src/templates/balance_sheet_template.py:56-57 | These concept_map entries name nodes of the skeleton. |
| BalanceSheetTemplate.PrepaidPathsResolve | src/templates/balance_sheet_template.py:58-59 | These concept_map entries name nodes of the skeleton. |
| BalanceSheetTemplate.NonCurrentAssetPathsResolve | src/templates/balance_sheet_template.py:61-63 | These concept_map entries name nodes of the skeleton. |
| BalanceSheetTemplate.NonCurrentItemPathsResolve | src/templates/balance_sheet_template.py:64-66 | These concept_map entries name nodes of the skeleton. |
| BalanceSheetTemplate.LiabilityPathsResolve | src/templates/balance_sheet_template.py:68-80 | The liability entries name nodes of the `liabilities` skeleton. |
| BalanceSheetTemplate.EquityPathsResolve | src/templates/balance_sheet_template.py:82-88 | The equity entries name nodes of the `equity` skeleton. |
| BalanceSheetTemplate.BalancePathsResolve | src/templates/balance_sheet_template.py:7-89 | Every mapped path is non-empty and names a node of the skeleton built in the constructor. |
| BalanceSheetTemplate.AttributeSection | src/templates/balance_sheet_template.py:7-48 | The template's attributes are `assets`, `liabilities` and `equity`. |
| BalanceSheetTemplate.GetPathForConcept | src/templates/balance_sheet_template.py:91-100 | `concept_map.get(concept, [])`: a mapped concept gets the path it is mapped to, and an unmapped one gets `[]`. The path resolves in the skeleton and starts with a section. |
| IncomeStatementTemplate.PathsResolve0 | src/templates/income_statement_template.py:46-50 | These concept_map entries name nodes of the skeleton. |
| IncomeStatementTemplate.PathsResolve1 | src/templates/income_statement_template.py:51-57 | These concept_map entries name nodes of the skeleton. |
| IncomeStatementTemplate.PathsResolve2 | src/templates/income_statement_template.py:58-64 | These concept_map entries name nodes of the skeleton. |
| IncomeStatementTemplate.PathsResolve3 | src/templates/income_statement_template.py:65-69 | These concept_map entries name nodes of the skeleton. |
| IncomeStatementTemplate.IncomePathsResolve | src/templates/income_statement_template.py:6-70 | Every mapped path is non-empty and names a node of the skeleton. |
| IncomeStatementTemplate.AttributeSection | src/templates/income_statement_template.py:7-42 | Every attribute is one of the nine the constructor sets. |
| IncomeStatementTemplate.GetPathForConcept | src/templates/income_statement_template.py:72-81 | `concept_map.get(concept, [])`: a mapped concept gets the path it is mapped to, and an unmapped one gets `[]`. The path resolves in the skeleton and starts with an attribute. |
| IncomeStatementTemplate.NonOperatingExpenseLeaf | src/templates/income_statement_template.py:26 | `other_income_expense.other_non_operating_expense` is a leaf of the skeleton. |
| IncomeStatementTemplate.NonOperatingExpenseUntargeted | src/templates/income_statement_template.py:45-70 | No concept maps to that leaf. |
| IncomeStatementTemplate.MapNotOnto | src/templates/income_statement_template.py:26-81 | The leaf exists, but `get_path_for_concept` never returns it: the map does not cover the skeleton. |
| CashFlowTemplate.OperatingHeadPathsResolve | src/templates/cash_flow_template.py:53-54 | These concept_map entries name nodes of the skeleton. |
| CashFlowTemplate.AdjustmentPathsResolve | src/templates/cash_flow_template.py:55-56 | These concept_map entries name nodes of the skeleton. |
| CashFlowTemplate.ImpairmentPathsResolve | src/templates/cash_flow_template.py:57-58 | These concept_map entries name nodes of the skeleton. |
| CashFlowTemplate.ReceivablePathsResolve | src/templates/cash_flow_template.py:60-61 | These concept_map entries name nodes of the skeleton. |
| CashFlowTemplate.PayablePathsResolve | src/templates/cash_flow_template.py:62-63 | These concept_map entries name nodes of the skeleton. |
| CashFlowTemplate.InvestingPathsResolve | src/templates/cash_flow_template.py:65-68 | These concept_map entries name nodes of the skeleton. |
| CashFlowTemplate.DebtPathsResolve | src/templates/cash_flow_template.py:70-71 | These concept_map entries name nodes of the skeleton. |
| CashFlowTemplate.ShareholderPathsResolve | src/templates/cash_flow_template.py:72-74 | These concept_map entries name nodes of the skeleton. |
| CashFlowTemplate.KeyMetricPathsResolve | src/templates/cash_flow_template.py:76-81 | The six key-metric entries name the key-metric attributes. |
| CashFlowTemplate.CashFlowPathsResolve | src/templates/cash_flow_template.py:6-82 | Every mapped path is non-empty and names a node of the skeleton. |
| CashFlowTemplate.PathShapes | src/templates/cash_flow_template.py:52-82 | Every mapped path has one to three keys, and a one-key path names a key metric. |
| CashFlowTemplate.GetPathForConcept | src/templates/cash_flow_template.py:84-93 | `concept_map.get(concept, [])`: a mapped concept gets the path it is mapped to, and an unmapped one gets `[]`. The path resolves in the skeleton and has the shape above. |
| CashFlowTemplate.OtherLeavesExist | src/templates/cash_flow_template.py:15-40 | The four `other_*` entries are leaves of the skeleton. |
| CashFlowTemplate.OtherLeavesNotMapped | src/templates/cash_flow_template.py:52-82 | No concept maps to an `other_*` leaf. |
| CashFlowTemplate.OtherLeavesUntargeted | src/templates/cash_flow_template.py:15-93 | The `other_*` leaves exist, but `get_path_for_concept` never returns them. |
| BaseProcessor.StandardizeLineItems | src/processors/base_processor.py:94-121 | Mapping `tag -> name`: the result has column `name` exactly when some tag mapped to it is a column. That column holds the last such tag's values. The columns come in the order the mapping first feeds them, with no repeats. The frame is empty when no tag is present, and otherwise has the input's rows. |
| BaseProcessor.MissingFields | src/processors/base_processor.py:137 | The missing fields are exactly the required ones that are not columns. |
| BaseProcessor.MissingFieldsAppend | src/processors/base_processor.py:137 | The missing fields keep the order of `required`: for a list made of two parts they are the first part's missing fields, then the second's. |
| BaseProcessor.ValidateRequiredFields | src/processors/base_processor.py:123-140 | Returns `True` exactly when every required field is a column. Otherwise it raises "Missing required fields: ..." listing the missing ones. |
| BaseProcessor.DateColumns | src/processors/base_processor.py:153-155 | A column is a date column exactly when its lower-cased name contains `date`, `period`, `end` or `start`. |
| BaseProcessor.ProcessDates | src/processors/base_processor.py:142-164 | Every date column is converted cell by cell. Every other column, the column names and the row count stay as they were. |
| BaseProcessor.UnitFrame | src/processors/base_processor.py:53-56 | A unit's records become one row each, all tagged with the unit. |
| BaseProcessor.UnitFrames | src/processors/base_processor.py:52-56 | One frame per unit, exactly when every unit holds a list of records. |
| BaseProcessor.ProcessConceptData | src/processors/base_processor.py:35-67 | Every failure leaves as "Failed to process concept data: ...". A concept without `units` fails with "No units data found in concept data". |
| BaseProcessor.ConceptDataRows | src/processors/base_processor.py:49-63 | An empty `units` dict fails with "No data found in concept". Units of record lists give one row per record in total. The rows come unit by unit in the order of `units`: the rows of unit `j` are those between the record counts of the units before `j` and up to `j`, and each carries unit `j`. |
| BaseProcessor.FramesRowCount | src/processors/base_processor.py:52-61 | The concatenated frames have as many rows as the units have records. |
| BaseProcessor.FramesCarryUnits | src/processors/base_processor.py:53-61 | Every row of the concatenation carries the unit it came from. Unit `j`'s rows are the block after the records of the units before it. |
| BaseProcessor.FrameBlock | src/processors/base_processor.py:53-61 | When every row of frame `j` carries a unit, so does every row of its block in the concatenation, which starts after the rows of the frames before it. |
| BaseProcessor.BlockBounds | src/processors/base_processor.py:52-56 | The record counts of the units before and up to `j` are the row counts of their frames. |
| BaseProcessor.DatesKeepBlocks | src/processors/base_processor.py:62 | Date conversion keeps each unit's block of rows. |
| BaseProcessor.DatesKeepUnit | src/processors/base_processor.py:62 | Date conversion keeps every row's `unit`. |
| BaseProcessor.ProcessFrameData | src/processors/base_processor.py:69-92 | Without `data` it fails with "No data found in frame". With `data`, it succeeds exactly when `data` is a list of records, giving one row per record. |
| BaseProcessor.SortRows | src/processors/base_processor.py:179 | The rows come out sorted by the key and are a permutation of the input. |
| BaseProcessor.SortByEnd | src/processors/base_processor.py:179 | The frame's rows are permuted so that `end` ascends. The column names are unchanged. |
| BaseProcessor.Diff | src/processors/base_processor.py:182-186 | `diff(k)`: NaN for the first `k` rows, then the difference to the row `k` places earlier. |
| BaseProcessor.AddChanges | src/processors/base_processor.py:182-186 | Adds `change_from_previous` (`diff(1)`) and `change_from_previous_year` (`diff(4)`). All other columns are unchanged. |
| BaseProcessor.CalculatePeriodMetrics | src/processors/base_processor.py:166-193 | A frame without both `val` and `end` is returned unchanged. Otherwise the rows are sorted by `end` and the two change columns added; a null `val` counts as NaN. A `val` column that is not numeric (a string, a list, or nulls only) returns the sorted frame, the way the `except` does. |
| Tables.Records | src/processors/base_processor.py:54 | `pd.DataFrame(values)` succeeds exactly on a list of dicts. It gives one row per dict, and its columns are the keys of the dicts. |
| Tables.Concat | src/processors/base_processor.py:61 | The rows of the concatenation are the rows of the parts, and so are its columns. |
| Tables.ConcatAllRows | src/processors/base_processor.py:61 | `pd.concat(..., ignore_index=True)` keeps the rows of its frames in order, one frame after the other. |
| Tables.AllRowsBlock | src/processors/base_processor.py:61 | Frame `j`'s rows are the slice of the concatenated rows that starts after the rows of the frames before it. |
| Tables.MergeOuter | src/processors/balance_sheet_processor.py:64 | An outer merge on `end`: the columns and the `end` keys are the union of both sides. |
| StatementPipeline.UsdRecords | src/processors/balance_sheet_processor.py:45-48 | A tag without `units` contributes nothing. A frame comes only from `units['USD']`. |
| StatementPipeline.SelectItems | src/processors/balance_sheet_processor.py:39-50 | The selected items are the mapped `us-gaap` tags whose USD records give a non-empty frame, each tag once. The selection is empty exactly when no mapped tag supplies records. |
| StatementPipeline.SelectedItem | src/processors/balance_sheet_processor.py:40-50 | Each mapped, supplied tag is selected with its own USD frame. |
| StatementPipeline.Combine | src/processors/balance_sheet_processor.py:56-64 | Frames with both `val` and `end` are merged on `end`, each under its tag. The result is empty exactly when no item has both. |
| StatementPipeline.CombineKeys | src/processors/balance_sheet_processor.py:56-64 | The `end` dates of the merged frame are exactly the dates of the merged items. |
| StatementPipeline.Sections | src/processors/balance_sheet_processor.py:70-72 | One standardized frame per section mapping. |
| StatementPipeline.HConcatAll | src/processors/balance_sheet_processor.py:75 | `pd.concat(axis=1)`: the columns of the parts side by side. |
| StatementPipeline.SideBySide | src/processors/balance_sheet_processor.py:70-79 | Every column is a standard name or `period_end_date`. A mapped tag that is present gives its standard name. `period_end_date` is added when `end` is a column. |
| StatementPipeline.Standardize | src/processors/balance_sheet_processor.py:34-82 | Missing `us-gaap` raises "No US GAAP data found in company facts". A result has every required field, and every column is a standard name or `period_end_date`. |
| StatementPipeline.Reraise | src/processors/balance_sheet_processor.py:89-94 | A `ProcessingError` propagates as it is. Anything else becomes "Failed to {task}: {message}". |
| StatementPipeline.ProcessCompanyFacts | src/processors/balance_sheet_processor.py:21-94 | Every failure is a `ProcessingError`. A result is the standardized frame with the derived fields added. |
| StatementPipeline.SuppliedFactsProcess | src/processors/balance_sheet_processor.py:34-82 | When every required field is fed by a supplied, mapped tag, standardization succeeds. |
| StatementPipeline.NothingSuppliedNoData | src/processors/balance_sheet_processor.py:52-53 | When no mapped tag supplies USD records, the statement fails with its "No ... data found". |
| StatementPipeline.AsWrittenProcessCompanyFacts | src/processors/balance_sheet_processor.py:34-94 | As written, no input gives a table. Any `us-gaap` tag fails on the missing mapping attribute; an empty `us-gaap` fails with "No ... data found". |
| StatementPipeline.WithColumn | src/processors/balance_sheet_processor.py:100-109 | A derived column is added only when both inputs are columns, and then holds their row-by-row combination. Other columns are kept. |
| BalanceSheetProcessor.CalculateDerivedFields | src/processors/balance_sheet_processor.py:96-115 | Adds at most Working Capital, Total Assets (Calculated) and Debt to Equity Ratio. Every other column is kept with its values. If the first step raises, the frame comes back unchanged. |
| BalanceSheetProcessor.DerivedSteps | src/processors/balance_sheet_processor.py:96-115 | The columns are assigned in place, so the `except` returns the frame built before the failing step: the input if the difference raises, the frame with Working Capital if the sum raises, the frame with both if the quotient raises. With no failure, the frame has all three steps applied. A step raises when both its inputs are columns and some row has two present values, one of them not a number. A NaN or null operand does not raise. |
| BalanceSheetProcessor.DerivedFieldValues | src/processors/balance_sheet_processor.py:100-109 | Each derived column, when its inputs are columns and neither its step nor an earlier one raises, is the row-by-row difference, sum or quotient of the inputs. |
| BalanceSheetProcessor.DerivedFieldsPresent | src/processors/balance_sheet_processor.py:99-115 | Each derived column is present exactly when it already was, or its inputs are columns and neither its step nor an earlier one raises. |
| BalanceSheetProcessor.RatioPresent | src/processors/balance_sheet_processor.py:99-115 | For a frame with the required fields, Debt to Equity Ratio is present exactly when it already was or no step raises. |
| BalanceSheetProcessor.ProcessCompanyFacts | src/processors/balance_sheet_processor.py:21-94 | With section mappings supplied, it succeeds exactly when standardizing does, and the result is the derived fields of the standardized frame. A result has Total Assets, Total Liabilities and Total Stockholders Equity. It has the debt to equity ratio exactly when the standardized frame had it or no derived-field step raises. |
| BalanceSheetProcessor.AsWrittenProcessCompanyFacts | src/processors/balance_sheet_processor.py:40-43 | As written, facts with any `us-gaap` tag fail with "Failed to process balance sheet", caused by the missing `ASSETS_MAPPING`. |
| IncomeStatementProcessor.CalculateDerivedFields | src/processors/income_statement_processor.py:97-116 | Adds at most the three margins. Every other column is kept. If the gross margin step raises, the frame comes back unchanged. |
| IncomeStatementProcessor.DerivedSteps | src/processors/income_statement_processor.py:97-116 | The `except` returns the frame built before the failing step: the input, the frame with the gross margin, or the frame with two margins. With no failure, all three margins are added. A step raises when some row has its numerator and `Revenue` both present, one of them not a number. |
| IncomeStatementProcessor.DerivedFieldValues | src/processors/income_statement_processor.py:100-110 | Each margin, when its inputs are columns and neither its step nor an earlier one raises, is, row by row, its numerator over `Revenue`, times 100. |
| IncomeStatementProcessor.DerivedFieldsPresent | src/processors/income_statement_processor.py:99-116 | Each margin is present exactly when it already was, or its numerator and `Revenue` are columns and neither its step nor an earlier one raises. |
| IncomeStatementProcessor.MarginsPresent | src/processors/income_statement_processor.py:99-116 | For a frame with the required fields, each margin is present exactly when it already was or neither its step nor an earlier one raises. |
| IncomeStatementProcessor.ProcessCompanyFacts | src/processors/income_statement_processor.py:22-95 | With section mappings supplied, it succeeds exactly when standardizing does, and the result is the derived fields of the standardized frame. A result has the four required fields. It has the gross margin unless that step raised, and the net margin unless any step raised. |
| IncomeStatementProcessor.AsWrittenProcessCompanyFacts | src/processors/income_statement_processor.py:41-44 | As written, any `us-gaap` tag fails on the missing `REVENUE_MAPPING`. |
| CashFlowProcessor.FreeCashFlow | src/processors/cash_flow_processor.py:100-105 | `operating - abs(capex)` is added exactly when both are columns. It raises when `abs` meets a value that is neither NaN nor a number (a null counts only in a column that is not numeric), or when the difference has a row with two present values, one of them not a number. |
| CashFlowProcessor.TotalCashFlow | src/processors/cash_flow_processor.py:107-119 | Total Cash Flow is added exactly when all three activity totals are columns, and is their row-by-row sum. It raises exactly when the first sum, or the second on the first's result, has a row with two present values, one of them not a number. |
| CashFlowProcessor.OperatingRatio | src/processors/cash_flow_processor.py:121-128 | The ratio is added exactly when its inputs are columns and current liabilities has a non-zero value. It is their row-by-row quotient. It raises exactly when it is computed and some row has two present values, one of them not a number. |
| CashFlowProcessor.CalculateDerivedFields | src/processors/cash_flow_processor.py:96-134 | Adds at most Free Cash Flow, Total Cash Flow and the ratio. Every other column is kept. If the free cash flow step raises, the frame comes back unchanged. |
| CashFlowProcessor.DerivedSteps | src/processors/cash_flow_processor.py:96-134 | Adding free cash flow, and then the total, changes neither whether the later steps raise nor their inputs. |
| CashFlowProcessor.FreeCashPresent | src/processors/cash_flow_processor.py:98-134 | Free Cash Flow is present exactly when it already was, or its inputs are columns and its step does not raise. |
| CashFlowProcessor.RatioOnlyWithLiabilities | src/processors/cash_flow_processor.py:121-134 | The ratio is present exactly when it already was, or its inputs are columns, current liabilities has a non-zero value and no step raises. |
| CashFlowProcessor.TotalPresent | src/processors/cash_flow_processor.py:107-134 | Total Cash Flow is present exactly when it already was, or the three activity totals are columns and neither the free cash flow step nor the sum raises. |
| CashFlowProcessor.ProcessCompanyFacts | src/processors/cash_flow_processor.py:21-94 | With section mappings supplied, it succeeds exactly when standardizing does, and the result is the derived fields of the standardized frame. A result has the three activity totals. It has Total Cash Flow exactly when the frame had it or neither the free cash flow step nor the sum raises. |
| CashFlowProcessor.AsWrittenProcessCompanyFacts | src/processors/cash_flow_processor.py:40-43 | As written, any `us-gaap` tag fails on the missing `OPERATING_ACTIVITIES_MAPPING`. |
| DataProcessor.UnitFrame | src/utils/data_processor.py:28-41 | A unit's frame is built exactly when its values are a list of records. It has one row per record, and every row carries the taxonomy, concept, unit and label. |
| DataProcessor.Tagged | src/utils/data_processor.py:32-35 | The four metadata columns are set on every row. |
| DataProcessor.DatedKeepsMetadata | src/utils/data_processor.py:38-41 | Converting `end` and `filed` keeps the metadata. |
| DataProcessor.ConceptUnits | src/utils/data_processor.py:21-27 | A concept with no or falsy `units` contributes nothing. Otherwise it contributes the items of `units`, each with the concept's label. |
| DataProcessor.StoreConceptsFlat | src/utils/data_processor.py:21-45 | The concept loop stores exactly the flat sequence of its units' entries, in order. |
| DataProcessor.StoreTaxonomiesFlat | src/utils/data_processor.py:19-45 | The taxonomy loop stores exactly the flat sequence of all entries, in order. |
| DataProcessor.EntriesMembers | src/utils/data_processor.py:19-27 | The flat entries are exactly the units of the concepts of the taxonomies. |
| DataProcessor.StoreLast | src/utils/data_processor.py:44-45 | A later entry with the same key replaces an earlier one, so a key holds the last entry's frame. |
| DataProcessor.StoreUnique | src/utils/data_processor.py:44-45 | No key is stored twice. |
| DataProcessor.FactsToDataframe | src/utils/data_processor.py:6-47 | A non-dict document raises. A document without `facts` gives no frames. |
| DataProcessor.FactsToDataframeContents | src/utils/data_processor.py:6-47 | A key is present exactly when some unit has it. The frame under it is the one built for the last unit with that key, and keys are unique. |
| IndustryAnalyzer.Registry | src/utils/industry_analyzer.py:14-20 | The five metrics, in order, each once, with their tags and units. |
| IndustryAnalyzer.MetricFrame | src/utils/industry_analyzer.py:45-57 | A frame comes out exactly when the fetch succeeds and its `data` is a list of records. It is the frame of those records. |
| IndustryAnalyzer.Collect | src/utils/industry_analyzer.py:40-62 | A metric is in the result exactly when it was requested and contributes a frame, and then it maps to that frame. Keys are unique. |
| IndustryAnalyzer.GetIndustryMetrics | src/utils/industry_analyzer.py:22-62 | Only requested, supported metrics appear (all five by default), each once and with its own frame. |
| IndustryAnalyzer.PerformValidates | src/utils/industry_analyzer.py:47-53 | The client refuses a bad quarter before any request. |
| IndustryAnalyzer.InvalidQuarterNoMetrics | src/utils/industry_analyzer.py:45-62 | With a quarter outside 1-4 every fetch raises, is caught, and the result is empty. |
| IndustryAnalyzer.EmptyDataEmptyFrame | src/utils/industry_analyzer.py:55-57 | An empty `data` list is kept as an empty frame. |
| IndustryAnalyzer.CountAtMost | src/utils/industry_analyzer.py:98 | `(df['val'] <= v).sum()`: the number of positions holding a number at most `v`; NaN and null compare false. It is within the column size, and at least 1 when `v` is a number in the column. |
| IndustryAnalyzer.MatchingRows | src/utils/industry_analyzer.py:90 | The matching rows are exactly the rows whose `cik` equals the argument, in order. |
| IndustryAnalyzer.MetricPosition | src/utils/industry_analyzer.py:84-111 | A position exists exactly when the frame is non-empty, has `cik` and `val`, lists the company, and has a numeric `val` (numbers, nulls and NaN, not nulls only). It holds the first match's value (NaN for a null), the count of values at or below it, and the number of companies. |
| IndustryAnalyzer.Where | src/utils/industry_analyzer.py:84-92 | The positions of the kept elements: each kept, every kept element listed, strictly increasing. |
| IndustryAnalyzer.Positions | src/utils/industry_analyzer.py:84-113 | Row `k` is the position of the `k`-th metric, in dict order, whose frame gives one. So every row comes from some metric, and every metric with a position has its row. |
| IndustryAnalyzer.PositionsStep | src/utils/industry_analyzer.py:84-108 | Appending the last metric's position, when it has one, keeps row `k` matched to the `k`-th kept metric. |
| IndustryAnalyzer.PositionsIndexed | src/utils/industry_analyzer.py:84-108 | Rows matched to the kept metrics are at most one per metric, each from some metric, and include every metric's position. |
| IndustryAnalyzer.WhereBounded | src/utils/industry_analyzer.py:84-108 | A strictly increasing list of indices below `n` has at most `n` entries, so there are at most as many rows as metrics. |
| IndustryAnalyzer.PositionsInMetricOrder | src/utils/industry_analyzer.py:84-108 | Row `k` names the `k`-th kept metric, the metrics appear in dict order, and with distinct keys no metric appears twice. |
| IndustryAnalyzer.PositionsFacts | src/utils/industry_analyzer.py:94-108 | Every row has the period label, a metric of the frames, and a count within the number of companies that includes a numeric company value. |
| IndustryAnalyzer.AnalyzeCompanyPosition | src/utils/industry_analyzer.py:64-113 | One row per fetched metric whose frame gives a position, in the order of the fetched metrics, each metric once. Each row is the position that metric's frame gives, with the period label and a count within the number of companies, at least 1 when the company's value is a number. |
| IndustryAnalyzer.MiddleOfThree | src/utils/industry_analyzer.py:98 | With peers at 1, 2 and 3 million and the company at 2 million, 2 of the 3 values are at most the company's. |
| IndustryAnalyzer.SortRanked | src/utils/industry_analyzer.py:149 | The ranking order: larger values first, ties in row order, as a permutation of the input. |
| IndustryAnalyzer.Candidates | src/utils/industry_analyzer.py:149 | The rows `nlargest` ranks by value: every row with a number in `val`, with that number, in row order. |
| IndustryAnalyzer.Gaps | src/utils/industry_analyzer.py:149 | The rows whose `val` is NaN or null: every such row, in row order. |
| IndustryAnalyzer.GapsCount | src/utils/industry_analyzer.py:149 | Every row is either ranked by value or a NaN row. |
| IndustryAnalyzer.TopN | src/utils/industry_analyzer.py:149 | `nlargest(n)` keeps `min(n, count)` rows in ranking order. |
| IndustryAnalyzer.TopNIsTop | src/utils/industry_analyzer.py:149 | No row left out ranks above a kept one. |
| IndustryAnalyzer.SortIncreasing | src/utils/industry_analyzer.py:149 | Values that strictly increase down the frame are ranked in reverse order. |
| IndustryAnalyzer.TopOfIncreasing | src/utils/industry_analyzer.py:149 | For numbers that increase down the column, the top `n` are the last `n` rows, the last one first. |
| IndustryAnalyzer.GroupDigitsUncomma | src/utils/industry_analyzer.py:152-155 | Removing the thousands separators gives back the digits. |
| IndustryAnalyzer.GroupDigitsCommas | src/utils/industry_analyzer.py:152-155 | The `,` separator stands exactly at every fourth place from the right, so the digits go in groups of three from the right. |
| IndustryAnalyzer.FormatValue | src/utils/industry_analyzer.py:152-155 | Without its commas, the formatted value is `$` + `str(v)` for USD and `str(v)` + `.00` otherwise. |
| IndustryAnalyzer.Rank | src/utils/industry_analyzer.py:145-159 | The result is empty exactly when the frame is empty, `val` is missing or not numeric, or `entityName` or `cik` is missing. Otherwise it has the columns `entityName`, `val` and `cik` and `min(n, len(df))` rows (none for `n <= 0`). First come the numbers in ranking order with their values formatted, then the NaN rows in row order with `$nan` or `nan`. |
| IndustryAnalyzer.Rankings | src/utils/industry_analyzer.py:149-157 | The first `min(n, len(df))` rankings: the kept numbers formatted, then NaN rows. |
| IndustryAnalyzer.PeerRankingIncreasing | src/utils/industry_analyzer.py:149-157 | For numbers that increase down the frame and `0 < n <= len(df)`, the `n` rows name the last `n` companies, bottom up. |
| IndustryAnalyzer.PeerRankingOfFive | tests/test_industry_analyzer.py:68-90 | Five companies with 1 to 5 million and `top_n=3` give three rows naming the fifth, fourth and third company. |
| IndustryAnalyzer.GetPeerRankings | src/utils/industry_analyzer.py:115-163 | An unsupported metric raises `ValueError`. A missing frame gives an empty frame. Otherwise the result is the ranking of the fetched frame. |
| IndustryAnalyzer.UnsupportedBeforeFetch | src/utils/industry_analyzer.py:132-133 | An unsupported metric is refused without any fetch. |
| CompanyData.FromJson | src/models/company_data.py:32-60 | Any dict is accepted. Each field is the value under its camelCase key when the key is present and its default (`''`, `[]` or `{}`) when it is not. `cik` and `sic` are `str` of the value, or `"None"` when missing. A non-dict raises `ValueError` with the message of the failed `.get`. |
| CompanyData.FromJsonRoundTrip | src/models/company_data.py:47-57 | Round trip: reading back a record's own JSON gives the record. |
| CompanyData.SliceTo | src/models/company_data.py:77 | `x[:n]` on lists and strings, negative `n` included. Anything else raises. |
| CompanyData.GetRecentFilings | src/models/company_data.py:62-80 | The first `n` recent files. It returns `[]` when there is no `recent` key or on an error. |
| CompanyData.FilterForm | src/models/company_data.py:99 | Keeps exactly the files whose `form` equals the type. |
| CompanyData.FilterFormAppend | src/models/company_data.py:99 | The filter keeps the order: filtering a concatenation concatenates the results. |
| CompanyData.GetFilingDetails | src/models/company_data.py:82-103 | Without `recent` the result is `[]`. Otherwise it is the recent files, filtered when a form type is given. |
| CompanyData.ProcessFinancialStatements | src/models/company_data.py:105-131 | Always the three statement keys, in order. Each holds its processor's table, or an empty frame when that processor raised. |
| CompanyData.FailureIsolated | src/models/company_data.py:123-129 | One processor failing changes only its own entry. |
| CompanyData.AsWrittenAllEmpty | src/models/company_data.py:116-131 | With the processors as written, all three statements come out empty, whatever the filings. |
| CompanyData.FilingsHaveNoFacts | src/models/company_data.py:126 | The processors are handed the submission `filings`. Without `us-gaap` there, all three statements come out empty, even with mappings supplied. |
| Text.StripLeadingZeros | src/utils/sec_client.py:100 | `lstrip('0')`: the result does not start with `0`, and the input is zeros followed by it. |
| Text.ZFill | src/utils/sec_client.py:103 | `zfill(width)`: zeros in front, up to the width. |
| Dicts.Put | src/utils/data_processor.py:45 | `d[k] = v`: `k` maps to `v` and nothing else changes. An existing key keeps its place; a new one goes last. Keys stay unique. |

## Left out

- Floating point: every number is an integer. The ratios and margins are kept as exact quotients. The industry median and mean (`describe()`) and `pct_change` are not modelled.
- BaseProcessor.CalculatePeriodMetrics: the two `pct_change` columns are not modelled (floating point).
- IndustryAnalyzer.FormatValue: stated on integer values only. The `.0f` and `.2f` roundings of a float are not modelled.
- Date parsing (`pd.to_datetime`): a parameter `toDate`. A failed parse is not modelled, since the parameter is total.
- HTTP, JSON decoding of a response, `time.time()` and `time.sleep`: the server's replies are a function of the attempt number. The clock readings are integer ticks, and sleeps are recorded as steps. The minimum request interval is an integer, not the configured 0.1 s.
- `hashlib.md5`: a parameter of the cache model.
- File system errors other than a failed open or dump, and concurrent access to the cache directory.
- `repr` of floats and of other objects: arguments are strings, integers, booleans or `None`. The client's own `repr` is a parameter.
- Non-ASCII digits: `str.isdigit` also accepts other Unicode digits. The model accepts ASCII digits only. `strip` removes every character `str.isspace` accepts, as Python does.
- Logging, the SQLAlchemy models (src/models/company_data.py:133 onwards), `load_and_process_facts` (file I/O), the CLI, the example scripts, settings loading, and the unused `Period` enum.
- pandas shapes other than a list of records for `pd.DataFrame(...)`: they are reported as errors.
- Tables.MergeOuter: only the columns and the `end` keys of `pd.merge(how='outer')` are stated. The row order and the values in each row are not.
- StatementPipeline.SideBySide: stated on the columns only. The alignment of rows of sections of different lengths is not stated.
- IndustryAnalyzer.AnalyzeCompanyPosition: the percentile is kept as a count and a size, not as the float `mean() * 100`.
- BalanceSheetProcessor.CalculateDerivedFields: a step raises on a row whose two values are both present and not both numbers. Python does compute two such values in some cases: two strings or two lists are concatenated by `+`, and booleans count as 0 and 1. Those cases are modelled as raising. A division by zero in an object column, which raises `ZeroDivisionError`, is modelled as a quotient with denominator 0.
- IncomeStatementProcessor.CalculateDerivedFields: the same reading of when a margin raises as for the balance sheet. A string or boolean `Revenue` raises, and a zero `Revenue` in an object column gives a quotient with denominator 0 instead of raising.
- CashFlowProcessor.CalculateDerivedFields: the same reading of when a step raises. `abs` is taken to raise on every value that is not a number or NaN, booleans included, and on a null only when the column is not numeric.
- BaseProcessor.SortByEnd: `sort_values('end')` places NaN/NaT ends last. The model orders rows by the `endDay` key of each cell and does not give missing dates that placement.
- Json.Repr: strings are written in single quotes without escaping. Python switches to double quotes for a string that contains a single quote and escapes backslashes and control characters.
- Json.JObj: an object's fields may repeat a key, which `json.loads` never produces. Lookups read the first occurrence, and the statements that need unique keys require them.
- SecClient.CallKey: the positional key is built from the same list of passed arguments as the keyword key. So a call that leaves `quarter` out but passes `instantaneous` also gets a positional key, although Python can only make that call by keyword.

## Findings

| source | as written | input that shows it | evidently intended | confidence | as-written member | corrected member |
|---|---|---|---|---|---|---|
| src/utils/sec_client.py:142-176 | `get_company_facts` is defined twice. The second definition, without `@cache_sec_response`, replaces the cached one. | Two calls `get_company_facts("320193")` in a row: both send requests. | Company facts cached for 7 days, like the decorator says. | not executed | SecClient.CompanyFactsAlwaysFetched | SecClient.IntendedCompanyFactsCached |
| src/utils/cache.py:47 | The cache key is built from `str(args)`, which for a method includes `repr(self)` with the object's address. | Two live `SECClient()` objects calling `get_company_list()` get different keys, so an entry one stored is not served to the other. A later client that happens to get a freed client's address does get its entries. | One key per endpoint and arguments, shared by all clients and runs. | not executed | SecClient.ClientsCachedApart | SecClient.IntendedCacheShared |
| src/processors/balance_sheet_processor.py:41-43 | The processors read `ASSETS_MAPPING` (and `REVENUE_MAPPING`, `OPERATING_ACTIVITIES_MAPPING`), which the templates never define. | Any facts document with a `us-gaap` tag: `AttributeError`, re-raised as "Failed to process balance sheet". | Section mappings from tag to standard name, so that a statement can be produced. | not executed | BalanceSheetProcessor.AsWrittenProcessCompanyFacts | BalanceSheetProcessor.ProcessCompanyFacts |

=== FILE: balance_sheet_processor.dfy ===
/** `BalanceSheetProcessor` (src/processors/balance_sheet_processor.py). */
module BalanceSheetProcessor {
  import opened Wrappers
  import opened Json
  import opened Tables
  import Dicts
  import opened BaseProcessor
  import StatementPipeline

  /** The fields a balance sheet must have. */
  const Required: seq<string> := ["Total Assets", "Total Liabilities", "Total Stockholders Equity"]

  const Balance: StatementPipeline.Statement := StatementPipeline.Statement(
    "process balance sheet", "No balance sheet data found", "BalanceSheetTemplate", "ASSETS_MAPPING", Required)

  /** The columns `_calculate_derived_fields` may add. */
  predicate Derived(c: string) {
    c == "Working Capital" || c == "Total Assets (Calculated)" || c == "Debt to Equity Ratio"
  }

  /** Some step of `_calculate_derived_fields` raises on `df`: an operand
      of the difference, the sum or the quotient is not a number. */
  predicate DerivedRaises(df: Table) {
    || StatementPipeline.StepRaises(df, "Total Current Assets", "Total Current Liabilities")
    || StatementPipeline.StepRaises(df, "Total Current Assets", "Total Non Current Assets")
    || StatementPipeline.StepRaises(df, "Total Liabilities", "Total Stockholders Equity")
  }

  /** `_calculate_derived_fields`: working capital, the recomputed total
      assets and the debt to equity ratio are added in turn, each only when
      both of its inputs are columns. The columns are assigned to `df` in
      place, so when a step raises, the `except` branch returns the frame
      with the columns added before it. Every other column keeps its
      values (see `DerivedFieldValues` for the added ones). */
  function CalculateDerivedFields(df: Table): (r: Table)
    ensures forall c :: HasColumn(r, c) ==> HasColumn(df, c) || Derived(c)
    ensures forall c :: HasColumn(df, c) ==> HasColumn(r, c)
    ensures forall c :: HasColumn(df, c) && !Derived(c) ==> Column(r, c) == Column(df, c)
    ensures StatementPipeline.StepRaises(df, "Total Current Assets", "Total Current Liabilities") ==> r == df
  {
    var wc, ta, de := "Working Capital", "Total Assets (Calculated)", "Debt to Equity Ratio";
    var tca, tcl, tnca := "Total Current Assets", "Total Current Liabilities", "Total Non Current Assets";
    var tl, tse := "Total Liabilities", "Total Stockholders Equity";
    match StatementPipeline.TryWithColumn(df, wc, tca, tcl, Sub)
    case None => df
    case Some(t1) =>
      StatementPipeline.WithColumnFrame(df, wc, tca, tcl, Sub);
      match StatementPipeline.TryWithColumn(t1, ta, tca, tnca, Add)
      case None => t1
      case Some(t2) =>
        StatementPipeline.WithColumnFrame(t1, ta, tca, tnca, Add);
        match StatementPipeline.TryWithColumn(t2, de, tl, tse, StatementPipeline.Divide)
        case None => t2
        case Some(t3) =>
          StatementPipeline.WithColumnFrame(t2, de, tl, tse, StatementPipeline.Divide);
          t3
  }

  /** The three frames `_calculate_derived_fields` may return, and which
      step's failure returns which. */
  lemma DerivedSteps(df: Table)
    ensures var wc, ta, de := "Working Capital", "Total Assets (Calculated)", "Debt to Equity Ratio";
      var tca, tcl, tnca := "Total Current Assets", "Total Current Liabilities", "Total Non Current Assets";
      var tl, tse := "Total Liabilities", "Total Stockholders Equity";
      var t1 := StatementPipeline.WithColumn(df, wc, tca, tcl, Sub);
      var t2 := StatementPipeline.WithColumn(t1, ta, tca, tnca, Add);
      var r := CalculateDerivedFields(df);
      && (StatementPipeline.StepRaises(df, tca, tcl) ==> r == df)
      && (!StatementPipeline.StepRaises(df, tca, tcl) && StatementPipeline.StepRaises(df, tca, tnca) ==> r == t1)
      && ((!StatementPipeline.StepRaises(df, tca, tcl) && !StatementPipeline.StepRaises(df, tca, tnca)
           && StatementPipeline.StepRaises(df, tl, tse)) ==> r == t2)
      && (!DerivedRaises(df) ==> r == StatementPipeline.WithColumn(t2, de, tl, tse, StatementPipeline.Divide))
  {
    var wc, ta := "Working Capital", "Total Assets (Calculated)";
    var tca, tcl, tnca := "Total Current Assets", "Total Current Liabilities", "Total Non Current Assets";
    var tl, tse := "Total Liabilities", "Total Stockholders Equity";
    var t1 := StatementPipeline.WithColumn(df, wc, tca, tcl, Sub);
    StatementPipeline.WithColumnRaises(df, wc, tca, tcl, Sub, tca, tnca);
    StatementPipeline.WithColumnRaises(df, wc, tca, tcl, Sub, tl, tse);
    StatementPipeline.WithColumnRaises(t1, ta, tca, tnca, Add, tl, tse);
  }

  /** The derived columns a run adds hold, row by row, the difference, sum
      and quotient of their inputs. */
  lemma DerivedFieldValues(df: Table)
    ensures var r := CalculateDerivedFields(df);
      && (HasColumn(df, "Total Current Assets") && HasColumn(df, "Total Current Liabilities")
          && !StatementPipeline.StepRaises(df, "Total Current Assets", "Total Current Liabilities") ==>
            Column(r, "Working Capital") == Zip(Column(df, "Total Current Assets"), Column(df, "Total Current Liabilities"), Sub))
      && (HasColumn(df, "Total Current Assets") && HasColumn(df, "Total Non Current Assets")
          && !StatementPipeline.StepRaises(df, "Total Current Assets", "Total Current Liabilities")
          && !StatementPipeline.StepRaises(df, "Total Current Assets", "Total Non Current Assets") ==>
            Column(r, "Total Assets (Calculated)") == Zip(Column(df, "Total Current Assets"), Column(df, "Total Non Current Assets"), Add))
      && (HasColumn(df, "Total Liabilities") && HasColumn(df, "Total Stockholders Equity") && !DerivedRaises(df) ==>
            Column(r, "Debt to Equity Ratio") == Zip(Column(df, "Total Liabilities"), Column(df, "Total Stockholders Equity"), StatementPipeline.Divide))
  {
    var wc, ta, de := "Working Capital", "Total Assets (Calculated)", "Debt to Equity Ratio";
    var tca, tcl, tnca := "Total Current Assets", "Total Current Liabilities", "Total Non Current Assets";
    var tl, tse := "Total Liabilities", "Total Stockholders Equity";
    var t1 := StatementPipeline.WithColumn(df, wc, tca, tcl, Sub);
    var t2 := StatementPipeline.WithColumn(t1, ta, tca, tnca, Add);
    DerivedSteps(df);
    if HasColumn(df, tca) && HasColumn(df, tcl) {
      StatementPipeline.WithColumnKeeps(t1, ta, tca, tnca, Add, wc);
      StatementPipeline.WithColumnKeeps(t2, de, tl, tse, StatementPipeline.Divide, wc);
    }
    if HasColumn(df, tca) && HasColumn(df, tnca) {
      StatementPipeline.WithColumnKeeps(df, wc, tca, tcl, Sub, tca);
      StatementPipeline.WithColumnKeeps(df, wc, tca, tcl, Sub, tnca);
      StatementPipeline.WithColumnKeeps(t2, de, tl, tse, StatementPipeline.Divide, ta);
    }
    if HasColumn(df, tl) && HasColumn(df, tse) {
      StatementPipeline.WithColumnKeeps(df, wc, tca, tcl, Sub, tl);
      StatementPipeline.WithColumnKeeps(df, wc, tca, tcl, Sub, tse);
      StatementPipeline.WithColumnKeeps(t1, ta, tca, tnca, Add, tl);
      StatementPipeline.WithColumnKeeps(t1, ta, tca, tnca, Add, tse);
    }
  }

  /** A derived column is present exactly when it was already there, or its
      inputs are columns and neither its step nor an earlier one raises. */
  lemma DerivedFieldsPresent(df: Table)
    ensures var r := CalculateDerivedFields(df);
      && (HasColumn(r, "Working Capital") <==>
            || HasColumn(df, "Working Capital")
            || (HasColumn(df, "Total Current Assets") && HasColumn(df, "Total Current Liabilities")
                && !StatementPipeline.StepRaises(df, "Total Current Assets", "Total Current Liabilities")))
      && (HasColumn(r, "Total Assets (Calculated)") <==>
            || HasColumn(df, "Total Assets (Calculated)")
            || (HasColumn(df, "Total Current Assets") && HasColumn(df, "Total Non Current Assets")
                && !StatementPipeline.StepRaises(df, "Total Current Assets", "Total Current Liabilities")
                && !StatementPipeline.StepRaises(df, "Total Current Assets", "Total Non Current Assets")))
      && (HasColumn(r, "Debt to Equity Ratio") <==>
            || HasColumn(df, "Debt to Equity Ratio")
            || (HasColumn(df, "Total Liabilities") && HasColumn(df, "Total Stockholders Equity") && !DerivedRaises(df)))
  {
    var wc, ta, de := "Working Capital", "Total Assets (Calculated)", "Debt to Equity Ratio";
    var tca, tcl, tnca := "Total Current Assets", "Total Current Liabilities", "Total Non Current Assets";
    var tl, tse := "Total Liabilities", "Total Stockholders Equity";
    var t1 := StatementPipeline.WithColumn(df, wc, tca, tcl, Sub);
    var t2 := StatementPipeline.WithColumn(t1, ta, tca, tnca, Add);
    DerivedSteps(df);
    StatementPipeline.WithColumnHas(df, wc, tca, tcl, Sub, wc);
    StatementPipeline.WithColumnHas(df, wc, tca, tcl, Sub, ta);
    StatementPipeline.WithColumnHas(df, wc, tca, tcl, Sub, de);
    StatementPipeline.WithColumnHas(df, wc, tca, tcl, Sub, tca);
    StatementPipeline.WithColumnHas(df, wc, tca, tcl, Sub, tnca);
    StatementPipeline.WithColumnHas(df, wc, tca, tcl, Sub, tl);
    StatementPipeline.WithColumnHas(df, wc, tca, tcl, Sub, tse);
    StatementPipeline.WithColumnHas(t1, ta, tca, tnca, Add, wc);
    StatementPipeline.WithColumnHas(t1, ta, tca, tnca, Add, ta);
    StatementPipeline.WithColumnHas(t1, ta, tca, tnca, Add, de);
    StatementPipeline.WithColumnHas(t1, ta, tca, tnca, Add, tl);
    StatementPipeline.WithColumnHas(t1, ta, tca, tnca, Add, tse);
    StatementPipeline.WithColumnHas(t2, de, tl, tse, StatementPipeline.Divide, wc);
    StatementPipeline.WithColumnHas(t2, de, tl, tse, StatementPipeline.Divide, ta);
    StatementPipeline.WithColumnHas(t2, de, tl, tse, StatementPipeline.Divide, de);
  }

  /** For a frame with every required field, the debt to equity ratio is
      there exactly when it already was or no step raises. */
  lemma RatioPresent(df: Table)
    requires forall f :: f in Required ==> HasColumn(df, f)
    ensures HasColumn(CalculateDerivedFields(df), "Debt to Equity Ratio") <==>
      HasColumn(df, "Debt to Equity Ratio") || !DerivedRaises(df)
  {
    DerivedFieldsPresent(df);
    assert Required[1] in Required && Required[2] in Required;
  }

  /** `process_company_facts` with the three section mappings given: a
      result has every required field, and its columns are standard names,
      `period_end_date` or derived fields; it has the debt to equity ratio
      unless a derived-field step raised. */
  function ProcessCompanyFacts(facts: Json, sections: seq<Dicts.Dict<string>>, toDate: Cell -> Cell): (r: Result<Table, Exception>)
    ensures r.Err? ==> IsProcessingError(r.error)
    ensures facts.JObj? && !Dicts.HasKey(facts.fields, "us-gaap") ==>
      r == Err(ProcessingError("No US GAAP data found in company facts"))
    ensures r.Ok? ==> forall f :: f in Required ==> HasColumn(r.value, f)
    ensures r.Ok? ==> forall c :: HasColumn(r.value, c) ==>
      c == "period_end_date" || StatementPipeline.StandardName(sections, c) || Derived(c)
    ensures r.Ok? <==> StatementPipeline.Standardize(facts, sections, Balance, toDate).Ok?
    ensures r.Ok? ==> r.value == CalculateDerivedFields(StatementPipeline.Standardize(facts, sections, Balance, toDate).value)
    ensures r.Ok? ==> var s := StatementPipeline.Standardize(facts, sections, Balance, toDate).value;
      (HasColumn(r.value, "Debt to Equity Ratio") <==> HasColumn(s, "Debt to Equity Ratio") || !DerivedRaises(s))
  {
    var r := StatementPipeline.ProcessCompanyFacts(facts, sections, Balance, CalculateDerivedFields, toDate);
    if r.Ok? then RatioPresent(StatementPipeline.Standardize(facts, sections, Balance, toDate).value); r else r
  }

  /** `process_company_facts` as written: the template has no
      `ASSETS_MAPPING`, so no input gives a table, and any `us-gaap` tag
      makes it fail with the AttributeError wrapped in a ProcessingError. */
  function AsWrittenProcessCompanyFacts(facts: Json): (r: Result<Table, Exception>)
    ensures r.Err? && IsProcessingError(r.error)
    ensures (facts.JObj? && Dicts.HasKey(facts.fields, "us-gaap") && Dicts.Get(facts.fields, "us-gaap").value.JObj?
             && |Dicts.Get(facts.fields, "us-gaap").value.fields| > 0) ==>
      r.error == Failed("process balance sheet", NoAttribute("BalanceSheetTemplate", "ASSETS_MAPPING"))
  {
    StatementPipeline.AsWrittenProcessCompanyFacts(facts, Balance)
  }
}

=== FILE: balance_sheet_template.dfy ===
/** `BalanceSheetTemplate` (src/templates/balance_sheet_template.py): the
    assets / liabilities / equity skeleton and the concept map into it. */
module BalanceSheetTemplate {
  import opened Wrappers
  import opened TemplateTree
  import Dicts

  const Assets: Node := Branch([
    ("current_assets", Branch([
      ("cash_and_equivalents", Leaf), ("short_term_investments", Leaf), ("accounts_receivable", Leaf),
      ("inventory", Leaf), ("prepaid_expenses", Leaf), ("other_current_assets", Leaf)])),
    ("non_current_assets", Branch([
      ("long_term_investments", Leaf), ("property_plant_equipment", Leaf), ("intangible_assets", Leaf),
      ("goodwill", Leaf), ("other_non_current_assets", Leaf)]))])

  const Liabilities: Node := Branch([
    ("current_liabilities", Branch([
      ("accounts_payable", Leaf), ("short_term_debt", Leaf), ("accrued_expenses", Leaf),
      ("deferred_revenue", Leaf), ("other_current_liabilities", Leaf)])),
    ("non_current_liabilities", Branch([
      ("long_term_debt", Leaf), ("deferred_tax_liabilities", Leaf), ("pension_obligations", Leaf),
      ("other_non_current_liabilities", Leaf)]))])

  const Equity: Node := Branch([
    ("common_stock", Leaf), ("additional_paid_in_capital", Leaf), ("retained_earnings", Leaf),
    ("treasury_stock", Leaf), ("accumulated_other_comprehensive_income", Leaf),
    ("non_controlling_interest", Leaf)])

  const ConceptMap: Dicts.Dict<seq<string>> := [
    ("Assets", ["assets"]),
    ("AssetsCurrent", ["assets", "current_assets"]),
    ("CashAndCashEquivalentsAtCarryingValue", ["assets", "current_assets", "cash_and_equivalents"]),
    ("ShortTermInvestments", ["assets", "current_assets", "short_term_investments"]),
    ("AccountsReceivableNet", ["assets", "current_assets", "accounts_receivable"]),
    ("InventoryNet", ["assets", "current_assets", "inventory"]),
    ("PrepaidExpense", ["assets", "current_assets", "prepaid_expenses"]),
    ("OtherAssetsCurrent", ["assets", "current_assets", "other_current_assets"]),
    ("AssetsNoncurrent", ["assets", "non_current_assets"]),
    ("LongTermInvestments", ["assets", "non_current_assets", "long_term_investments"]),
    ("PropertyPlantAndEquipmentNet", ["assets", "non_current_assets", "property_plant_equipment"]),
    ("IntangibleAssetsNet", ["assets", "non_current_assets", "intangible_assets"]),
    ("Goodwill", ["assets", "non_current_assets", "goodwill"]),
    ("OtherAssetsNoncurrent", ["assets", "non_current_assets", "other_non_current_assets"]),
    ("Liabilities", ["liabilities"]),
    ("LiabilitiesCurrent", ["liabilities", "current_liabilities"]),
    ("AccountsPayableCurrent", ["liabilities", "current_liabilities", "accounts_payable"]),
    ("ShortTermBorrowings", ["liabilities", "current_liabilities", "short_term_debt"]),
    ("AccruedLiabilitiesCurrent", ["liabilities", "current_liabilities", "accrued_expenses"]),
    ("DeferredRevenueCurrent", ["liabilities", "current_liabilities", "deferred_revenue"]),
    ("OtherLiabilitiesCurrent", ["liabilities", "current_liabilities", "other_current_liabilities"]),
    ("LiabilitiesNoncurrent", ["liabilities", "non_current_liabilities"]),
    ("LongTermDebt", ["liabilities", "non_current_liabilities", "long_term_debt"]),
    ("DeferredTaxLiabilitiesNoncurrent", ["liabilities", "non_current_liabilities", "deferred_tax_liabilities"]),
    ("PensionAndOtherPostretirementBenefitPlansLiabilities", ["liabilities", "non_current_liabilities", "pension_obligations"]),
    ("OtherLiabilitiesNoncurrent", ["liabilities", "non_current_liabilities", "other_non_current_liabilities"]),
    ("StockholdersEquity", ["equity"]),
    ("CommonStockValue", ["equity", "common_stock"]),
    ("AdditionalPaidInCapital", ["equity", "additional_paid_in_capital"]),
    ("RetainedEarningsAccumulatedDeficit", ["equity", "retained_earnings"]),
    ("TreasuryStockValue", ["equity", "treasury_stock"]),
    ("AccumulatedOtherComprehensiveIncomeLossNetOfTax", ["equity", "accumulated_other_comprehensive_income"]),
    ("MinorityInterest", ["equity", "non_controlling_interest"])
  ]

  /** The object `BalanceSheetTemplate()` builds. */
  const Balance: Template := Template([("assets", Assets), ("liabilities", Liabilities), ("equity", Equity)], ConceptMap)

  /** The sections a mapped path can start in. */
  predicate Section(name: string) {
    name == "assets" || name == "liabilities" || name == "equity"
  }

  /** The three sections are the template's attributes. */
  lemma SectionsAreAttributes()
    ensures Child(Balance.attributes, "assets") == Some(Assets)
    ensures Child(Balance.attributes, "liabilities") == Some(Liabilities)
    ensures Child(Balance.attributes, "equity") == Some(Equity)
  {
    var a := Balance.attributes;
    assert a[0].0 == "assets" && a[1].0 == "liabilities" && a[2].0 == "equity";
    assert ChildFrom(a, "liabilities", 0) == ChildFrom(a, "liabilities", 1);
    assert ChildFrom(a, "equity", 0) == ChildFrom(a, "equity", 1) == ChildFrom(a, "equity", 2);
  }

  /** The entries for `assets`, its current part and its first current items resolve. */
  lemma CurrentAssetPathsResolve()
    ensures forall i :: 0 <= i < 4 ==> Resolves(Root(Balance), ConceptMap[i].1)
  {
    SectionsAreAttributes();
  }

  /** The receivable and inventory entries resolve. */
  lemma CurrentItemPathsResolve()
    ensures forall i :: 4 <= i < 6 ==> Resolves(Root(Balance), ConceptMap[i].1)
  {
    SectionsAreAttributes();
  }

  /** The prepaid and other current-asset entries resolve. */
  lemma PrepaidPathsResolve()
    ensures forall i :: 6 <= i < 8 ==> Resolves(Root(Balance), ConceptMap[i].1)
  {
    SectionsAreAttributes();
  }

  /** The entries for the non-current assets and the first of their items resolve. */
  lemma NonCurrentAssetPathsResolve()
    ensures forall i :: 8 <= i < 11 ==> Resolves(Root(Balance), ConceptMap[i].1)
  {
    SectionsAreAttributes();
  }

  /** The remaining non-current-asset entries resolve. */
  lemma NonCurrentItemPathsResolve()
    ensures forall i :: 11 <= i < 14 ==> Resolves(Root(Balance), ConceptMap[i].1)
  {
    SectionsAreAttributes();
  }

  /** The entries for `liabilities` and its parts resolve. */
  lemma LiabilityPathsResolve()
    ensures forall i :: 14 <= i < 26 ==> Resolves(Root(Balance), ConceptMap[i].1)
  {
    SectionsAreAttributes();
  }

  /** The entries for `equity` resolve. */
  lemma EquityPathsResolve()
    ensures forall i :: 26 <= i < |ConceptMap| ==> Resolves(Root(Balance), ConceptMap[i].1)
  {
    SectionsAreAttributes();
  }

  /** Every path of the concept map is non-empty and names a node of the
      skeleton. */
  lemma BalancePathsResolve()
    ensures PathsResolve(Balance)
  {
    CurrentAssetPathsResolve();
    CurrentItemPathsResolve();
    PrepaidPathsResolve();
    NonCurrentAssetPathsResolve();
    NonCurrentItemPathsResolve();
    LiabilityPathsResolve();
    EquityPathsResolve();
  }

  /** Every attribute name is a section. */
  lemma AttributeSection(k: string)
    requires Dicts.HasKey(Balance.attributes, k)
    ensures Section(k)
  {
    var i :| 0 <= i < |Balance.attributes| && Balance.attributes[i].0 == k;
  }

  /** `get_path_for_concept`: the mapped path, or [] for an unmapped concept;
      a mapped path names a node of the skeleton inside one of the three
      sections. */
  function GetPathForConcept(concept: string): (r: seq<string>)
    ensures Resolves(Root(Balance), r)
    ensures r == [] <==> !Dicts.HasKey(ConceptMap, concept)
    ensures r != [] ==> Section(r[0])
    ensures r != [] ==> exists i :: 0 <= i < |ConceptMap| && ConceptMap[i] == (concept, r)
  {
    BalancePathsResolve();
    PathForConceptResolves(Balance, concept);
    var r := PathForConcept(Balance, concept);
    if r == [] then r
    else
      ResolvesHead(Balance, r);
      AttributeSection(r[0]);
      r
  }
}

=== FILE: base_processor.dfy ===
/** `BaseProcessor` (src/processors/base_processor.py): the helpers every
    statement processor shares, and the exceptions the processors raise. */
module BaseProcessor {
  import opened Wrappers
  import opened Json
  import opened Tables
  import Dicts
  import Text

  /** The exceptions of the processing code. A `Failed` is the
      `ProcessingError(f"Failed to {task}: {cause}")` an `except` clause
      raises around another exception; `DataError` is whatever pandas or a
      dict/list access raises on ill-shaped data (its text is not
      modelled). */
  datatype Exception =
    | ProcessingError(message: string)
    | Failed(task: string, cause: Exception)
    | NoAttribute(owner: string, name: string)
    | DataError

  /** The exception is a `ProcessingError`. */
  predicate IsProcessingError(e: Exception) {
    e.ProcessingError? || e.Failed?
  }

  /** `str(e)`, where it is determined by the code. */
  function Message(e: Exception): Option<string> {
    match e
    case ProcessingError(m) => Some(m)
    case Failed(task, cause) =>
      (match Message(cause)
       case Some(m) => Some("Failed to " + task + ": " + m)
       case None => None)
    case NoAttribute(owner, name) => Some("'" + owner + "' object has no attribute '" + name + "'")
    case DataError => None
  }

  /** A dict or list access that raises inside a processor's `try`. */
  function AsDataError<T>(r: Result<T, PyError>): (r': Result<T, Exception>)
    ensures r'.Ok? <==> r.Ok?
    ensures r.Ok? ==> r'.value == r.value
    ensures r.Err? ==> r'.error == DataError
  {
    match r
    case Ok(v) => Ok(v)
    case Err(_) => Err(DataError)
  }

  /** ---- standardize_line_items ---- */

  /** The tag whose values end up under `name`: the last mapping entry for
      `name` whose tag is a column of the frame. */
  function Source(df: Table, mapping: Dicts.Dict<string>, name: string): (r: Option<string>)
    ensures r.Some? ==> HasColumn(df, r.value)
    ensures r.Some? <==> exists i :: 0 <= i < |mapping| && mapping[i].1 == name && HasColumn(df, mapping[i].0)
    decreases |mapping|
  {
    if |mapping| == 0 then None
    else
      var init := mapping[..|mapping| - 1];
      var last := mapping[|mapping| - 1];
      var r := if last.1 == name && HasColumn(df, last.0) then Some(last.0) else Source(df, init, name);
      assert (exists i :: 0 <= i < |init| && init[i].1 == name && HasColumn(df, init[i].0)) ==>
             exists i :: 0 <= i < |mapping| && mapping[i].1 == name && HasColumn(df, mapping[i].0) by {
        if exists i :: 0 <= i < |init| && init[i].1 == name && HasColumn(df, init[i].0) {
          var i :| 0 <= i < |init| && init[i].1 == name && HasColumn(df, init[i].0);
          assert mapping[i] == init[i];
        }
      }
      assert (exists i :: 0 <= i < |mapping| && mapping[i].1 == name && HasColumn(df, mapping[i].0)) ==>
             r.Some? by {
        if exists i :: 0 <= i < |mapping| && mapping[i].1 == name && HasColumn(df, mapping[i].0) {
          var i :| 0 <= i < |mapping| && mapping[i].1 == name && HasColumn(df, mapping[i].0);
          if i < |init| { assert init[i] == mapping[i]; }
        }
      }
      r
  }

  /** `standardize_line_items(df, mapping)`: a new frame with, for each
      standard name some present tag maps to, that tag's values (the last
      such tag when several do); unmapped and absent tags contribute
      nothing. */
  function StandardizeLineItems(df: Table, mapping: Dicts.Dict<string>): (r: Table)
    ensures r == Empty || |r.rows| == |df.rows|
    ensures r == Empty <==> forall i :: 0 <= i < |mapping| ==> !HasColumn(df, mapping[i].0)
    ensures forall n :: HasColumn(r, n) <==> Source(df, mapping, n).Some?
    ensures forall n :: Source(df, mapping, n).Some? ==> Column(r, n) == Column(df, Source(df, mapping, n).value)
    ensures FirstFedOrder(df, mapping, r.names)
    decreases |mapping|
  {
    if |mapping| == 0 then Empty
    else
      var init := mapping[..|mapping| - 1];
      var prev := StandardizeLineItems(df, init);
      var tag := mapping[|mapping| - 1].0;
      var name := mapping[|mapping| - 1].1;
      assert mapping == init + [(tag, name)];
      StepRows(df, (tag, name), prev);
      StepEmpty(df, init, (tag, name), prev);
      StepColumns(df, init, (tag, name), prev);
      StepOrder(df, init, (tag, name), prev);
      Step(df, (tag, name), prev)
  }

  /** One more mapping entry `tag -> name`: column `name` set from column
      `tag` when the frame has it, nothing otherwise. */
  function Step(df: Table, last: (string, string), prev: Table): Table
    requires prev == Empty || |prev.rows| == |df.rows|
  {
    if HasColumn(df, last.0) then SetColumn(prev, last.1, Column(df, last.0)) else prev
  }

  /** The rows stay those of the frame. */
  lemma StepRows(df: Table, last: (string, string), prev: Table)
    requires prev == Empty || |prev.rows| == |df.rows|
    ensures var r := Step(df, last, prev); r == Empty || |r.rows| == |df.rows|
  {
  }

  /** The result stays empty exactly while no entry names a column. */
  lemma StepEmpty(df: Table, init: Dicts.Dict<string>, last: (string, string), prev: Table)
    requires prev == Empty || |prev.rows| == |df.rows|
    requires prev == Empty <==> forall i :: 0 <= i < |init| ==> !HasColumn(df, init[i].0)
    ensures var mapping := init + [last];
      Step(df, last, prev) == Empty <==> forall i :: 0 <= i < |mapping| ==> !HasColumn(df, mapping[i].0)
  {
    var mapping := init + [last];
    var r := Step(df, last, prev);
    assert forall i :: 0 <= i < |init| ==> init[i] == mapping[i];
    if HasColumn(df, last.0) {
      assert last.1 in r.names;
      assert mapping[|init|] == last;
    }
  }

  /** Every column keeps coming from its source. */
  lemma StepColumns(df: Table, init: Dicts.Dict<string>, last: (string, string), prev: Table)
    requires prev == Empty || |prev.rows| == |df.rows|
    requires forall n :: HasColumn(prev, n) <==> Source(df, init, n).Some?
    requires forall n :: Source(df, init, n).Some? ==> Column(prev, n) == Column(df, Source(df, init, n).value)
    ensures var mapping, r := init + [last], Step(df, last, prev);
      && (forall n :: HasColumn(r, n) <==> Source(df, mapping, n).Some?)
      && (forall n :: Source(df, mapping, n).Some? ==> Column(r, n) == Column(df, Source(df, mapping, n).value))
  {
    forall n ensures Source(df, init + [last], n) == if last.1 == n && HasColumn(df, last.0) then Some(last.0) else Source(df, init, n) {
      SourceSnoc(df, init, last, n);
    }
  }

  /** The names keep the order in which entries first feed them. */
  lemma StepOrder(df: Table, init: Dicts.Dict<string>, last: (string, string), prev: Table)
    requires prev == Empty || |prev.rows| == |df.rows|
    requires forall n :: HasColumn(prev, n) <==> Source(df, init, n).Some?
    requires FirstFedOrder(df, init, prev.names)
    ensures FirstFedOrder(df, init + [last], Step(df, last, prev).names)
  {
    forall n ensures n in prev.names <==> FedBefore(df, init, n, |init|) {
      SourceFed(df, init, n);
    }
    FirstFedOrderStep(df, init, last, prev.names);
  }

  /** `Source` over a mapping with one more entry. */
  lemma SourceSnoc(df: Table, init: Dicts.Dict<string>, last: (string, string), name: string)
    ensures Source(df, init + [last], name) == if last.1 == name && HasColumn(df, last.0) then Some(last.0) else Source(df, init, name)
  {
    assert (init + [last])[..|init|] == init;
  }

  /** Entry `i` of the mapping feeds column `name`: it maps a column of the
      frame to that name. */
  predicate Feeds(df: Table, mapping: Dicts.Dict<string>, i: int, name: string) {
    0 <= i < |mapping| && mapping[i].1 == name && HasColumn(df, mapping[i].0)
  }

  /** Some entry before entry `j` feeds `name`. */
  predicate FedBefore(df: Table, mapping: Dicts.Dict<string>, name: string, j: int) {
    exists i :: 0 <= i < j && Feeds(df, mapping, i, name)
  }

  /** A name has a source exactly when some entry feeds it. */
  lemma SourceFed(df: Table, mapping: Dicts.Dict<string>, name: string)
    ensures Source(df, mapping, name).Some? <==> FedBefore(df, mapping, name, |mapping|)
  {
    if Source(df, mapping, name).Some? {
      var i :| 0 <= i < |mapping| && mapping[i].1 == name && HasColumn(df, mapping[i].0);
      assert Feeds(df, mapping, i, name);
    }
  }

  /** The names are distinct and come in the order of the mapping entries
      that first feed them: whatever entry feeds a later name, an earlier
      entry feeds each name before it. */
  predicate FirstFedOrder(df: Table, mapping: Dicts.Dict<string>, names: seq<string>) {
    && (forall a, b :: 0 <= a < b < |names| ==> names[a] != names[b])
    && (forall a, b, j :: 0 <= a < b < |names| && 0 <= j < |mapping| && Feeds(df, mapping, j, names[b]) ==> FedBefore(df, mapping, names[a], j))
  }

  /** One more mapping entry appends its name when it is fed for the first
      time, and the order is kept. */
  lemma FirstFedOrderStep(df: Table, init: Dicts.Dict<string>, last: (string, string), prev: seq<string>)
    requires FirstFedOrder(df, init, prev)
    requires forall n :: n in prev <==> FedBefore(df, init, n, |init|)
    ensures var names := if HasColumn(df, last.0) && last.1 !in prev then prev + [last.1] else prev;
      FirstFedOrder(df, init + [last], names)
  {
    var mapping := init + [last];
    var n := |init|;
    var names := if HasColumn(df, last.0) && last.1 !in prev then prev + [last.1] else prev;
    forall i, x | 0 <= i < n ensures Feeds(df, mapping, i, x) <==> Feeds(df, init, i, x) {
      assert mapping[i] == init[i];
    }
    forall a, b, j | 0 <= a < b < |names| && 0 <= j < |mapping| && Feeds(df, mapping, j, names[b])
      ensures FedBefore(df, mapping, names[a], j)
    {
      assert names[a] == prev[a];
      if b < |prev| {
        assert names[b] == prev[b];
        var j' := j;
        if j == n {
          assert prev[b] in prev;
          j' :| 0 <= j' < n && Feeds(df, init, j', prev[b]);
        }
        assert Feeds(df, init, j', prev[b]);
        var i :| 0 <= i < j' && Feeds(df, init, i, prev[a]);
        assert Feeds(df, mapping, i, names[a]);
      } else {
        assert names[b] == last.1 && last.1 !in prev;
        if j < n {
          assert Feeds(df, init, j, last.1);
          assert FedBefore(df, init, last.1, n);
          assert false;
        }
        assert prev[a] in prev;
        var i :| 0 <= i < n && Feeds(df, init, i, prev[a]);
        assert Feeds(df, mapping, i, names[a]);
      }
    }
  }

  /** ---- validate_required_fields ---- */

  /** The required fields that are not columns, in the order listed. */
  function MissingFields(df: Table, required: seq<string>): (r: seq<string>)
    ensures forall f :: f in r <==> f in required && !HasColumn(df, f)
    ensures |r| <= |required|
  {
    if |required| == 0 then []
    else (if HasColumn(df, required[0]) then [] else [required[0]]) + MissingFields(df, required[1..])
  }

  /** The missing fields keep the order of `required`: the fields of a
      list made of two parts are the missing fields of the first part
      followed by those of the second. */
  lemma {:induction false} MissingFieldsAppend(df: Table, a: seq<string>, b: seq<string>)
    ensures MissingFields(df, a + b) == MissingFields(df, a) + MissingFields(df, b)
    decreases |a|
  {
    if |a| == 0 {
      assert a + b == b;
    } else {
      assert (a + b)[0] == a[0] && (a + b)[1..] == a[1..] + b;
      MissingFieldsAppend(df, a[1..], b);
    }
  }

  /** `validate_required_fields`: True when every required field is a
      column, otherwise a ProcessingError naming the missing fields in
      order. */
  function ValidateRequiredFields(df: Table, required: seq<string>): (r: Result<bool, Exception>)
    ensures r.Ok? <==> forall f :: f in required ==> HasColumn(df, f)
    ensures r.Ok? ==> r.value
    ensures r.Err? ==> r.error == ProcessingError("Missing required fields: " + Text.Join(", ", MissingFields(df, required)))
  {
    var missing := MissingFields(df, required);
    if |missing| > 0 then
      assert missing[0] in missing;
      Err(ProcessingError("Missing required fields: " + Text.Join(", ", missing)))
    else
      Ok(true)
  }

  /** ---- process_dates ---- */

  const DateTerms: seq<string> := ["date", "period", "end", "start"]

  /** The lower-cased column name contains one of the date terms. */
  predicate IsDateName(c: string) {
    exists i :: 0 <= i < |DateTerms| && Text.Contains(Text.Lower(c), DateTerms[i])
  }

  /** The columns `process_dates` converts, in column order. */
  function DateColumns(names: seq<string>): (r: seq<string>)
    ensures forall c :: c in r <==> c in names && IsDateName(c)
  {
    if |names| == 0 then []
    else (if IsDateName(names[0]) then [names[0]] else []) + DateColumns(names[1..])
  }

  /** `process_dates`: every date column is converted cell by cell with
      `toDate` (standing for `pd.to_datetime(..., errors='coerce')`); every
      other column and the column order stay as they were. */
  function ProcessDates(df: Table, toDate: Cell -> Cell): (r: Table)
    ensures r.names == df.names && |r.rows| == |df.rows|
    ensures forall c :: c in df.names && IsDateName(c) ==>
      forall i :: 0 <= i < |df.rows| ==> CellAt(r.rows[i], c) == toDate(CellAt(df.rows[i], c))
    ensures forall c :: !IsDateName(c) ==> Column(r, c) == Column(df, c)
  {
    ConvertAll(df, DateColumns(df.names), toDate)
  }

  /** Convert one column of the frame in place. */
  function ConvertColumn(df: Table, c: string, toDate: Cell -> Cell): (r: Table)
    requires c in df.names
    ensures r.names == df.names && |r.rows| == |df.rows|
    ensures forall i :: 0 <= i < |df.rows| ==> CellAt(r.rows[i], c) == toDate(CellAt(df.rows[i], c))
    ensures forall d :: d != c ==> Column(r, d) == Column(df, d)
  {
    Table(df.names, seq(|df.rows|, i requires 0 <= i < |df.rows| => df.rows[i][c := toDate(CellAt(df.rows[i], c))]))
  }

  /** Convert the listed columns one after the other. */
  function ConvertAll(df: Table, cols: seq<string>, toDate: Cell -> Cell): (r: Table)
    requires forall c :: c in cols ==> c in df.names
    ensures r.names == df.names && |r.rows| == |df.rows|
    ensures forall c :: c in cols ==> forall i :: 0 <= i < |df.rows| ==> CellAt(r.rows[i], c) == toDate(CellAt(df.rows[i], c))
    ensures forall c :: c !in cols ==> Column(r, c) == Column(df, c)
    decreases |cols|
  {
    if |cols| == 0 then df
    else
      var c := cols[0];
      assert cols == [c] + cols[1..];
      if c in cols[1..] then
        ConvertAll(df, cols[1..], toDate)
      else
        var next := ConvertColumn(df, c, toDate);
        var r := ConvertAll(next, cols[1..], toDate);
        assert forall i :: 0 <= i < |df.rows| ==> CellAt(r.rows[i], c) == Column(r, c)[i] == Column(next, c)[i];
        r
  }

  /** ---- process_concept_data / process_frame_data ---- */

  /** One unit's records as a frame with a constant `unit` column. */
  function UnitFrame(unit: (string, Json)): (r: Result<Table, Exception>)
    ensures r.Ok? <==> Records(unit.1).Ok?
    ensures r.Ok? ==> |r.value.rows| == |unit.1.items|
    ensures r.Ok? ==> forall i :: 0 <= i < |r.value.rows| ==> CellAt(r.value.rows[i], "unit") == Of(JStr(unit.0))
  {
    match Records(unit.1)
    case Err(_) => Err(DataError)
    case Ok(df) => Ok(SetConstant(df, "unit", Of(JStr(unit.0))))
  }

  /** `[f(x) for x in xs]` where `f` may raise: the results in order, or
      the exception of the first element that raises. */
  function MapResults<A, B>(xs: seq<A>, f: A -> Result<B, Exception>): (r: Result<seq<B>, Exception>)
    ensures r.Ok? <==> forall i :: 0 <= i < |xs| ==> f(xs[i]).Ok?
    ensures r.Ok? ==> |r.value| == |xs| && forall i :: 0 <= i < |xs| ==> r.value[i] == f(xs[i]).value
    ensures r.Err? ==>
      exists i :: 0 <= i < |xs| && f(xs[i]) == Err(r.error) && forall j :: 0 <= j < i ==> f(xs[j]).Ok?
    decreases |xs|
  {
    if |xs| == 0 then Ok([])
    else
      var init := xs[..|xs| - 1];
      var prev := MapResults(init, f);
      var last := f(xs[|xs| - 1]);
      assert forall i :: 0 <= i < |init| ==> init[i] == xs[i];
      if prev.Err? then prev
      else if last.Err? then Err(last.error)
      else Ok(prev.value + [last.value])
  }

  /** The frames of `units.items()`, each tagged with its unit. */
  function UnitFrames(units: seq<(string, Json)>): (r: Result<seq<Table>, Exception>)
    ensures r.Ok? <==> forall i :: 0 <= i < |units| ==> Records(units[i].1).Ok?
    ensures r.Ok? ==> |r.value| == |units| && forall i :: 0 <= i < |units| ==> r.value[i] == UnitFrame(units[i]).value
  {
    MapResults(units, UnitFrame)
  }

  /** The body of `process_concept_data` inside its `try`. */
  function ConceptTable(conceptData: Json): (r: Result<Table, Exception>)
  {
    match PyIn("units", conceptData)
    case Err(_) => Err(DataError)
    case Ok(present) =>
      if !present then Err(ProcessingError("No units data found in concept data"))
      else
        var units :- AsDataError(PyGetItem(conceptData, "units"));
        var items :- AsDataError(PyItems(units));
        var frames :- UnitFrames(items);
        if |frames| == 0 then Err(ProcessingError("No data found in concept"))
        else Ok(Concat(frames))
  }

  /** `process_concept_data`: every failure, its own included, leaves as
      "Failed to process concept data: ..."; on success the frame holds the
      records of every unit, one after the other, with dates converted. */
  function ProcessConceptData(conceptData: Json, toDate: Cell -> Cell): (r: Result<Table, Exception>)
    ensures r.Err? ==> r.error.Failed? && r.error.task == "process concept data"
    ensures conceptData.JObj? && !Dicts.HasKey(conceptData.fields, "units") ==>
      r == Err(Failed("process concept data", ProcessingError("No units data found in concept data")))
  {
    match ConceptTable(conceptData)
    case Ok(t) => Ok(ProcessDates(t, toDate))
    case Err(e) => Err(Failed("process concept data", e))
  }

  /** The number of records of every unit. */
  function RecordCount(units: seq<(string, Json)>): nat {
    if |units| == 0 then 0
    else
      var last := units[|units| - 1].1;
      RecordCount(units[..|units| - 1]) + (if last.JArr? then |last.items| else 0)
  }

  /** The rows of unit `j`'s records, those after the records of the units
      before it, carry unit `j`'s name. */
  predicate UnitBlock(units: seq<(string, Json)>, rows: seq<Row>, j: int)
    requires 0 <= j < |units|
  {
    RowsCarry(rows, RecordCount(units[..j]), RecordCount(units[..j + 1]), Of(JStr(units[j].0)))
  }

  /** Every row from `lo` up to `hi` carries unit `u`. */
  predicate RowsCarry(rows: seq<Row>, lo: nat, hi: int, u: Cell) {
    forall i :: lo <= i < hi && i < |rows| ==> CellAt(rows[i], "unit") == u
  }

  /** A concept object whose `units` dict maps each unit to a list of
      records is processed into one row per record, each row carrying the
      unit it came from; an empty `units` dict is an error. */
  lemma {:induction false} ConceptDataRows(conceptData: Json, toDate: Cell -> Cell)
    requires conceptData.JObj? && Dicts.HasKey(conceptData.fields, "units")
    requires Dicts.Get(conceptData.fields, "units").value.JObj?
    ensures var units := Dicts.Get(conceptData.fields, "units").value.fields;
      var r := ProcessConceptData(conceptData, toDate);
      && (|units| == 0 ==> r == Err(Failed("process concept data", ProcessingError("No data found in concept"))))
      && ((forall i :: 0 <= i < |units| ==> Records(units[i].1).Ok?) && |units| > 0 ==>
            r.Ok? && |r.value.rows| == RecordCount(units)
            && (forall x :: x in r.value.rows ==> exists j :: 0 <= j < |units| && CellAt(x, "unit") == Of(JStr(units[j].0)))
            && forall j :: 0 <= j < |units| ==> UnitBlock(units, r.value.rows, j))
  {
    var units := Dicts.Get(conceptData.fields, "units").value.fields;
    if (forall i :: 0 <= i < |units| ==> Records(units[i].1).Ok?) && |units| > 0 {
      ConceptTableOk(conceptData);
      var frames := UnitFrames(units).value;
      FramesRowCount(units, frames);
      FramesCarryUnits(units, frames);
      DatesCarryUnits(Concat(frames), toDate, units);
      DatesKeepBlocks(Concat(frames), toDate, units);
    }
  }

  /** With a non-empty `units` dict of record lists, the concept's frame is
      the concatenation of the unit frames. */
  lemma ConceptTableOk(conceptData: Json)
    requires conceptData.JObj? && Dicts.HasKey(conceptData.fields, "units")
    requires Dicts.Get(conceptData.fields, "units").value.JObj?
    requires var units := Dicts.Get(conceptData.fields, "units").value.fields;
      (forall i :: 0 <= i < |units| ==> Records(units[i].1).Ok?) && |units| > 0
    ensures var units := Dicts.Get(conceptData.fields, "units").value.fields;
      UnitFrames(units).Ok? && ConceptTable(conceptData) == Ok(Concat(UnitFrames(units).value))
  {
  }

  /** Converting the date columns keeps every row's unit among the given ones. */
  lemma DatesCarryUnits(t: Table, toDate: Cell -> Cell, units: seq<(string, Json)>)
    requires forall x :: x in t.rows ==> exists j :: 0 <= j < |units| && CellAt(x, "unit") == Of(JStr(units[j].0))
    ensures |ProcessDates(t, toDate).rows| == |t.rows|
    ensures forall x :: x in ProcessDates(t, toDate).rows ==> exists j :: 0 <= j < |units| && CellAt(x, "unit") == Of(JStr(units[j].0))
  {
    var r := ProcessDates(t, toDate);
    DatesKeepUnit(t, toDate);
    forall x | x in r.rows ensures exists j :: 0 <= j < |units| && CellAt(x, "unit") == Of(JStr(units[j].0)) {
      var i :| 0 <= i < |r.rows| && r.rows[i] == x;
      assert t.rows[i] in t.rows;
    }
  }

  /** Converting the date columns keeps each unit's block of rows. */
  lemma DatesKeepBlocks(t: Table, toDate: Cell -> Cell, units: seq<(string, Json)>)
    requires forall j :: 0 <= j < |units| ==> UnitBlock(units, t.rows, j)
    ensures forall j :: 0 <= j < |units| ==> UnitBlock(units, ProcessDates(t, toDate).rows, j)
  {
    DatesKeepUnit(t, toDate);
    var rows := ProcessDates(t, toDate).rows;
    forall j | 0 <= j < |units| ensures UnitBlock(units, rows, j) {
      assert UnitBlock(units, t.rows, j);
    }
  }

  /** Every row of the concatenated unit frames carries the unit it came
      from: the rows of unit `j`'s records, which follow those of the units
      before it, carry unit `j`. */
  lemma FramesCarryUnits(units: seq<(string, Json)>, frames: seq<Table>)
    requires UnitFrames(units) == Ok(frames)
    ensures forall x :: x in Concat(frames).rows ==> exists j :: 0 <= j < |units| && CellAt(x, "unit") == Of(JStr(units[j].0))
    ensures forall j :: 0 <= j < |units| ==> UnitBlock(units, Concat(frames).rows, j)
  {
    ConcatAllRows(frames);
    forall j | 0 <= j < |units| ensures UnitBlock(units, Concat(frames).rows, j) {
      BlockBounds(units, frames, j);
      assert frames[j] == UnitFrame(units[j]).value;
      FrameBlock(frames, j, Of(JStr(units[j].0)));
    }
    forall x | x in Concat(frames).rows ensures exists j :: 0 <= j < |units| && CellAt(x, "unit") == Of(JStr(units[j].0)) {
      var j :| 0 <= j < |frames| && x in frames[j].rows;
      var k :| 0 <= k < |frames[j].rows| && frames[j].rows[k] == x;
      assert CellAt(x, "unit") == Of(JStr(units[j].0));
    }
  }

  /** When frame `j`'s rows all carry `u`, so does its block of the
      concatenated rows, which starts after the rows of the frames before it. */
  lemma FrameBlock(frames: seq<Table>, j: int, u: Cell)
    requires 0 <= j < |frames|
    requires forall k :: 0 <= k < |frames[j].rows| ==> CellAt(frames[j].rows[k], "unit") == u
    ensures RowsCarry(AllRows(frames), RowCount(frames[..j]), RowCount(frames[..j]) + |frames[j].rows|, u)
  {
    AllRowsBlock(frames, j);
    BlockCarries(AllRows(frames), frames[j].rows, RowCount(frames[..j]), u);
  }

  /** Rows that copy a block whose rows all carry `u` carry `u`. */
  lemma BlockCarries(rows: seq<Row>, block: seq<Row>, lo: nat, u: Cell)
    requires lo + |block| <= |rows| && rows[lo..lo + |block|] == block
    requires forall k :: 0 <= k < |block| ==> CellAt(block[k], "unit") == u
    ensures RowsCarry(rows, lo, lo + |block|, u)
  {
    forall i | lo <= i < lo + |block| ensures CellAt(rows[i], "unit") == u {
      assert rows[i] == block[i - lo];
    }
  }

  /** The record counts before and up to unit `j` are the row counts of the
      frames before and up to it. */
  lemma BlockBounds(units: seq<(string, Json)>, frames: seq<Table>, j: int)
    requires UnitFrames(units) == Ok(frames) && 0 <= j < |units|
    ensures RecordCount(units[..j]) == RowCount(frames[..j])
    ensures RecordCount(units[..j + 1]) == RowCount(frames[..j]) + |frames[j].rows|
  {
    UnitFramesPrefixAt(units, frames, j);
    UnitFramesPrefixAt(units, frames, j + 1);
    FramesRowCount(units[..j], frames[..j]);
    FramesRowCount(units[..j + 1], frames[..j + 1]);
    assert frames[..j + 1][..j] == frames[..j];
    assert frames[..j + 1][j] == frames[j];
  }

  /** The frames of a prefix of the units are the prefix of the frames. */
  lemma UnitFramesPrefixAt(units: seq<(string, Json)>, frames: seq<Table>, j: int)
    requires UnitFrames(units) == Ok(frames) && 0 <= j <= |units|
    ensures UnitFrames(units[..j]) == Ok(frames[..j])
  {
    var prefix := units[..j];
    forall i | 0 <= i < |prefix|
      ensures Records(prefix[i].1).Ok? && UnitFrame(prefix[i]).value == frames[i]
    {
      assert prefix[i] == units[i];
    }
    var r := UnitFrames(prefix);
    assert r.value == frames[..j];
  }

  /** Converting the date columns leaves `unit` alone. */
  lemma DatesKeepUnit(t: Table, toDate: Cell -> Cell)
    ensures |ProcessDates(t, toDate).rows| == |t.rows|
    ensures forall i :: 0 <= i < |t.rows| ==> CellAt(ProcessDates(t, toDate).rows[i], "unit") == CellAt(t.rows[i], "unit")
  {
    UnitIsNoDate();
    SameColumnCells(ProcessDates(t, toDate), t, "unit");
  }

  lemma {:induction false} FramesRowCount(units: seq<(string, Json)>, frames: seq<Table>)
    requires UnitFrames(units) == Ok(frames)
    ensures RowCount(frames) == RecordCount(units)
    decreases |units|
  {
    if |units| > 0 {
      var last := |units| - 1;
      UnitFramesPrefixAt(units, frames, last);
      FramesRowCount(units[..last], frames[..last]);
      LastFrameRows(units, frames);
    }
  }

  /** The last unit's frame has one row per record of that unit. */
  lemma LastFrameRows(units: seq<(string, Json)>, frames: seq<Table>)
    requires UnitFrames(units) == Ok(frames) && |units| > 0
    ensures |frames| == |units|
    ensures |frames[|units| - 1].rows| == (if units[|units| - 1].1.JArr? then |units[|units| - 1].1.items| else 0)
  {
    assert frames[|units| - 1] == UnitFrame(units[|units| - 1]).value;
  }

  lemma UnitIsNoDate()
    ensures !IsDateName("unit")
  {
  }

  /** The body of `process_frame_data` inside its `try`. */
  function FrameTable(frameData: Json): Result<Table, Exception> {
    match PyIn("data", frameData)
    case Err(_) => Err(DataError)
    case Ok(present) =>
      if !present then Err(ProcessingError("No data found in frame"))
      else
        var data :- AsDataError(PyGetItem(frameData, "data"));
        AsDataError(Records(data))
  }

  /** `process_frame_data`: a frame object without `data` fails with "No
      data found in frame"; with a list of records it gives one row per
      record. */
  function ProcessFrameData(frameData: Json, toDate: Cell -> Cell): (r: Result<Table, Exception>)
    ensures r.Err? ==> r.error.Failed? && r.error.task == "process frame data"
    ensures frameData.JObj? && !Dicts.HasKey(frameData.fields, "data") ==>
      r == Err(Failed("process frame data", ProcessingError("No data found in frame")))
    ensures frameData.JObj? && Dicts.HasKey(frameData.fields, "data") ==>
      var data := Dicts.Get(frameData.fields, "data").value;
      (r.Ok? <==> Records(data).Ok?) && (r.Ok? ==> |r.value.rows| == |data.items|)
  {
    match FrameTable(frameData)
    case Ok(t) => Ok(ProcessDates(t, toDate))
    case Err(e) => Err(Failed("process frame data", e))
  }

  /** ---- calculate_period_metrics ---- */

  /** The rows are in ascending order of `key`. */
  predicate SortedBy(rows: seq<Row>, key: Row -> int) {
    forall i, j :: 0 <= i < j < |rows| ==> key(rows[i]) <= key(rows[j])
  }

  /** A row no greater than any row of a sorted sequence can go in front. */
  lemma SortedCons(y: Row, rows: seq<Row>, key: Row -> int)
    requires SortedBy(rows, key) && forall j :: 0 <= j < |rows| ==> key(y) <= key(rows[j])
    ensures SortedBy([y] + rows, key)
  {
    var r := [y] + rows;
    forall i, j | 0 <= i < j < |r| ensures key(r[i]) <= key(r[j]) {
      assert r[j] == rows[j - 1];
      if i > 0 { assert r[i] == rows[i - 1]; }
    }
  }

  function InsertRow(x: Row, rows: seq<Row>, key: Row -> int): (r: seq<Row>)
    requires SortedBy(rows, key)
    ensures SortedBy(r, key)
    ensures multiset(r) == multiset(rows) + multiset{x}
    ensures forall y :: y in r ==> y == x || y in rows
  {
    if |rows| == 0 then [x]
    else if key(x) <= key(rows[0]) then
      SortedCons(x, rows, key);
      [x] + rows
    else
      SortedTail(rows, key);
      var rest := InsertRow(x, rows[1..], key);
      InsertBehind(x, rows, key, rest);
      [rows[0]] + rest
  }

  /** The rows after the first of a sorted sequence are sorted. */
  lemma SortedTail(rows: seq<Row>, key: Row -> int)
    requires SortedBy(rows, key) && |rows| > 0
    ensures SortedBy(rows[1..], key)
  {
    var tail := rows[1..];
    forall i, j | 0 <= i < j < |tail| ensures key(tail[i]) <= key(tail[j]) {
      assert tail[i] == rows[i + 1] && tail[j] == rows[j + 1];
    }
  }

  /** A row that goes after the first row, inserted into the others, keeps
      the first row in front. */
  lemma InsertBehind(x: Row, rows: seq<Row>, key: Row -> int, rest: seq<Row>)
    requires |rows| > 0 && SortedBy(rows, key) && key(x) > key(rows[0])
    requires SortedBy(rest, key)
    requires multiset(rest) == multiset(rows[1..]) + multiset{x}
    requires forall y :: y in rest ==> y == x || y in rows[1..]
    ensures SortedBy([rows[0]] + rest, key)
    ensures multiset([rows[0]] + rest) == multiset(rows) + multiset{x}
    ensures forall y :: y in [rows[0]] + rest ==> y == x || y in rows
  {
    var tail := rows[1..];
    assert rows == [rows[0]] + tail;
    forall j | 0 <= j < |rest| ensures key(rows[0]) <= key(rest[j]) {
      assert rest[j] in rest;
      if rest[j] != x {
        var k :| 0 <= k < |tail| && tail[k] == rest[j];
        assert tail[k] == rows[k + 1];
      }
    }
    SortedCons(rows[0], rest, key);
  }

  /** `df.sort_values(key)`: the rows in ascending key order (pandas'
      default sort is not stable, so ties may come in any order; this is
      one such order). */
  function SortRows(rows: seq<Row>, key: Row -> int): (r: seq<Row>)
    ensures SortedBy(r, key)
    ensures multiset(r) == multiset(rows)
  {
    if |rows| == 0 then []
    else
      assert rows == [rows[0]] + rows[1..];
      InsertRow(rows[0], SortRows(rows[1..], key), key)
  }

  /** `series.diff(k)`: NaN for the first `k` rows, then the difference to
      the value `k` rows earlier. */
  function Diff(values: seq<Cell>, k: nat): (r: seq<Cell>)
    ensures |r| == |values|
    ensures forall i :: 0 <= i < |values| ==> r[i] == if i < k then Nan else Sub(values[i], values[i - k])
  {
    seq(|values|, i requires 0 <= i < |values| => if i < k then Nan else Sub(values[i], values[i - k]))
  }

  /** The sort key of a row: its `end` date as a day number. */
  function EndKey(endDay: Cell -> int): Row -> int {
    row => endDay(CellAt(row, "end"))
  }

  /** The frame with its rows sorted by `end`. pandas puts NaN/NaT ends
      last; here every `end` cell, missing or not, is placed by its
      `endDay` number. */
  function SortByEnd(df: Table, endDay: Cell -> int): (r: Table)
    ensures r.names == df.names
    ensures multiset(r.rows) == multiset(df.rows)
    ensures forall i, j :: 0 <= i < j < |r.rows| ==> endDay(CellAt(r.rows[i], "end")) <= endDay(CellAt(r.rows[j], "end"))
  {
    var rows := SortRows(df.rows, EndKey(endDay));
    assert forall i :: 0 <= i < |rows| ==> EndKey(endDay)(rows[i]) == endDay(CellAt(rows[i], "end"));
    Table(df.names, rows)
  }

  /** Whether `val` is a numeric column does not depend on the row order. */
  lemma NumericPermuted(a: Table, b: Table)
    requires multiset(a.rows) == multiset(b.rows)
    ensures NumericColumn(Column(a, "val")) ==> NumericColumn(Column(b, "val"))
  {
    var ca, cb := Column(a, "val"), Column(b, "val");
    if NumericColumn(ca) {
      forall i | 0 <= i < |cb| ensures Numeric(cb[i]) && (cb[i].Nan? || exists j :: 0 <= j < |ca| && !ca[j].Nan?) {
        assert b.rows[i] in multiset(a.rows);
        var j :| 0 <= j < |a.rows| && a.rows[j] == b.rows[i];
        assert ca[j] == cb[i];
      }
      if exists i :: 0 <= i < |ca| && IsNumber(ca[i]) {
        var i :| 0 <= i < |ca| && IsNumber(ca[i]);
        assert a.rows[i] in multiset(b.rows);
        var j :| 0 <= j < |b.rows| && b.rows[j] == a.rows[i];
        assert IsNumber(cb[j]);
      }
    }
  }

  /** Sorting by `end` keeps `val` numeric or not. */
  lemma SortedNumeric(df: Table, endDay: Cell -> int)
    ensures NumericColumn(Column(SortByEnd(df, endDay), "val")) <==> NumericColumn(Column(df, "val"))
  {
    var sorted := SortByEnd(df, endDay);
    NumericPermuted(df, sorted);
    NumericPermuted(sorted, df);
  }

  /** The two change columns of a sorted frame. */
  function AddChanges(sorted: Table): (r: Table)
    ensures |r.rows| == |sorted.rows|
    ensures forall c :: c in sorted.names && c != "change_from_previous" && c != "change_from_previous_year" ==>
      Column(r, c) == Column(sorted, c)
    ensures Column(r, "change_from_previous") == Diff(Column(sorted, "val"), 1)
    ensures Column(r, "change_from_previous_year") == Diff(Column(sorted, "val"), 4)
  {
    var vals := Column(sorted, "val");
    var t1 := SetColumn(sorted, "change_from_previous", Diff(vals, 1));
    SetColumn(t1, "change_from_previous_year", Diff(vals, 4))
  }

  /** `calculate_period_metrics`: a frame without both `val` and `end` comes
      back unchanged. Otherwise the rows are sorted by `end` (read through
      `endDay`), and `change_from_previous` and `change_from_previous_year`
      are the differences to the row one and four places earlier (a null or
      NaN on either side gives NaN). When `val` is not a numeric column,
      `diff` raises and the sorted frame comes back without the new
      columns. */
  function CalculatePeriodMetrics(df: Table, endDay: Cell -> int): (r: Table)
    ensures !(HasColumn(df, "val") && HasColumn(df, "end")) ==> r == df
    ensures HasColumn(df, "val") && HasColumn(df, "end") && !NumericColumn(Column(df, "val")) ==>
      r == SortByEnd(df, endDay)
    ensures HasColumn(df, "val") && HasColumn(df, "end") && NumericColumn(Column(df, "val")) ==>
      var sorted := SortByEnd(df, endDay);
      && |r.rows| == |df.rows|
      && (forall c :: c in df.names && c != "change_from_previous" && c != "change_from_previous_year" ==>
            Column(r, c) == Column(sorted, c))
      && Column(r, "change_from_previous") == Diff(Column(sorted, "val"), 1)
      && Column(r, "change_from_previous_year") == Diff(Column(sorted, "val"), 4)
  {
    if HasColumn(df, "val") && HasColumn(df, "end") then
      var sorted := SortByEnd(df, endDay);
      SortedNumeric(df, endDay);
      assert |sorted.rows| == |df.rows| by { assert |multiset(sorted.rows)| == |multiset(df.rows)|; }
      if NumericColumn(Column(sorted, "val")) then AddChanges(sorted) else sorted
    else df
  }
}

=== FILE: cache.dfy ===
/** The on-disk response cache (src/utils/cache.py): the `cache_sec_response`
    decorator and `clear_cache`. The cache directory is a map from file name
    to file content; a file holds a decoded JSON document, or cannot be
    decoded. Clock readings are integer seconds, and md5 is a parameter. */
module ResponseCache {
  import opened Wrappers
  import opened Json
  import Text
  import Dicts

  /** A file of the cache directory. */
  datatype CacheFile = Unreadable | Doc(doc: Json)

  /** The cache directory, which the decorator creates on first use. */
  datatype CacheDir = NoDir | Dir(files: map<string, CacheFile>)

  /** The files of the directory (none when it does not exist yet). */
  function FilesOf(dir: CacheDir): map<string, CacheFile> {
    if dir.Dir? then dir.files else map[]
  }

  /** What happens when the decorator writes the entry: it is written; the
      file cannot be opened (nothing changes); or it was opened, hence
      truncated, and the dump failed (an undecodable file is left). */
  datatype WriteOutcome = Written | OpenFailed | DumpFailed

  /** The two clock readings the decorator takes (on the read path and on
      the write path) and the outcome of the write. */
  datatype CallEnv = CallEnv(readNow: int, writeNow: int, write: WriteOutcome)

  /** The wrapped call's result, the directory afterwards, and whether the
      wrapped function ran. */
  datatype Outcome<+E> = Outcome(result: Result<Json, E>, dir: CacheDir, invoked: bool)

  /** Python's `repr` of a tuple whose items render as `items`. */
  function TupleRepr(items: seq<string>): string {
    if |items| == 1 then "(" + items[0] + ",)" else "(" + Text.Join(", ", items) + ")"
  }

  /** The cache key: function name, `str(args)` and `str(kwargs)`. Positional
      arguments are given by their reprs (a bound method's first argument is
      the client object, whose repr holds its address). */
  function CacheKey(name: string, args: seq<string>, kwargs: seq<(string, Json)>): string {
    name + "_" + TupleRepr(args) + "_" + "{" + ReprFields(kwargs) + "}"
  }

  /** The name of the file an entry with this key lives in. */
  function FileFor(hash: string -> string, key: string): string {
    hash(key) + ".json"
  }

  /** The document the decorator stores. */
  function Entry(cachedAt: int, data: Json, key: string): Json {
    JObj([("cached_at", JNum(cachedAt)), ("data", data), ("cache_key", JStr(key))])
  }

  /** A timedelta is truthy when non-zero; no lifetime means no expiry. */
  predicate Expires(ttl: Option<int>) {
    ttl.Some? && ttl.value != 0
  }

  /** The entry stamped `cachedAt` is stale at `now`: only strictly more
      than the lifetime counts. */
  predicate Expired(ttl: Option<int>, cachedAt: int, now: int) {
    Expires(ttl) && now - cachedAt > ttl.value
  }

  /** The read path: a stored document yields its data when its `cached_at`
      reads as a time, it has not expired, and it has a `data` key; any
      failure on the way is a miss. */
  function Lookup(files: map<string, CacheFile>, file: string, ttl: Option<int>, now: int): (r: Option<Json>)
    ensures r.Some? ==> file in files && files[file].Doc?
    ensures r.Some? ==> exists t :: PyGetItem(files[file].doc, "cached_at") == Ok(JNum(t)) && !Expired(ttl, t, now)
    ensures r.Some? ==> PyGetItem(files[file].doc, "data") == Ok(r.value)
    ensures file in files && files[file].Doc?
            && (exists t :: PyGetItem(files[file].doc, "cached_at") == Ok(JNum(t)) && !Expired(ttl, t, now))
            && PyGetItem(files[file].doc, "data").Ok?
            ==> r == Some(PyGetItem(files[file].doc, "data").value)
  {
    if file !in files || files[file].Unreadable? then None
    else
      var doc := files[file].doc;
      match PyGetItem(doc, "cached_at")
      case Ok(JNum(t)) =>
        if Expired(ttl, t, now) then None
        else
          (match PyGetItem(doc, "data")
           case Ok(d) => Some(d)
           case Err(_) => None)
      case _ => None
  }

  /** The file set after a miss whose wrapped call returned `data`. */
  function Store(files: map<string, CacheFile>, file: string, entry: Json, write: WriteOutcome): map<string, CacheFile> {
    match write
    case Written => files[file := Doc(entry)]
    case OpenFailed => files
    case DumpFailed => files[file := Unreadable]
  }

  /** The wrapper `cache_sec_response(expires_after=ttl)` puts around a
      function: serve a fresh stored entry without calling the function;
      otherwise call it, store its result (a failed write is swallowed) and
      return it. An exception of the function propagates and stores nothing. */
  function CachedCall<E>(dir: CacheDir, hash: string -> string, key: string, ttl: Option<int>,
                         env: CallEnv, compute: Result<Json, E>): (r: Outcome<E>)
    ensures r.dir.Dir?
    ensures var files := FilesOf(dir);
            var hit := Lookup(files, FileFor(hash, key), ttl, env.readNow);
            && (r.invoked <==> hit.None?)
            && (!r.invoked ==> r.result == Ok(hit.value) && r.dir.files == files)
            && (r.invoked ==> r.result == compute)
    ensures forall f :: f != FileFor(hash, key) ==>
              (f in r.dir.files <==> (dir.Dir? && f in dir.files))
              && (f in r.dir.files ==> r.dir.files[f] == dir.files[f])
  {
    var files := FilesOf(dir);
    var file := FileFor(hash, key);
    match Lookup(files, file, ttl, env.readNow)
    case Some(d) => Outcome(Ok(d), Dir(files), false)
    case None =>
      match compute
      case Err(e) => Outcome(Err(e), Dir(files), true)
      case Ok(data) => Outcome(Ok(data), Dir(Store(files, file, Entry(env.writeNow, data, key), env.write)), true)
  }

  lemma EntryFields(t: int, data: Json, key: string)
    ensures PyGetItem(Entry(t, data, key), "cached_at") == Ok(JNum(t))
    ensures PyGetItem(Entry(t, data, key), "data") == Ok(data)
    ensures PyGet(Entry(t, data, key), "cache_key", JStr("")) == Ok(JStr(key))
  {
    var e := Entry(t, data, key);
    assert Dicts.HasKey(e.fields, "cached_at") by { assert e.fields[0].0 == "cached_at"; }
    assert Dicts.HasKey(e.fields, "data") by { assert e.fields[1].0 == "data"; }
    assert Dicts.HasKey(e.fields, "cache_key") by { assert e.fields[2].0 == "cache_key"; }
  }

  /** A stored entry is served back, unchanged, to a repeat call made before
      it expires, and the wrapped function does not run again. */
  lemma CacheRoundTrip<E>(dir: CacheDir, hash: string -> string, key: string, ttl: Option<int>,
                          env1: CallEnv, data: Json, env2: CallEnv, compute2: Result<Json, E>)
    requires Lookup(FilesOf(dir), FileFor(hash, key), ttl, env1.readNow).None?
    requires env1.write == Written
    requires !Expired(ttl, env1.writeNow, env2.readNow)
    ensures var first := CachedCall<E>(dir, hash, key, ttl, env1, Ok(data));
            var second := CachedCall(first.dir, hash, key, ttl, env2, compute2);
            && first.result == Ok(data)
            && second.result == first.result
            && !second.invoked
            && second.dir == first.dir
  {
    EntryFields(env1.writeNow, data, key);
    EntryFields(env2.writeNow, data, key);
  }

  /** An entry already on disk, written by an earlier call or an earlier
      run, is served while it is fresh: the function does not run, and the
      directory is left as it is. */
  lemma KeptEntryServed<E>(files: map<string, CacheFile>, hash: string -> string, key: string, ttl: Option<int>,
                           env: CallEnv, t: int, data: Json, storedKey: string, compute: Result<Json, E>)
    requires FileFor(hash, key) in files && files[FileFor(hash, key)] == Doc(Entry(t, data, storedKey))
    requires !Expired(ttl, t, env.readNow)
    ensures var r := CachedCall(Dir(files), hash, key, ttl, env, compute);
            r.result == Ok(data) && !r.invoked && r.dir == Dir(files)
  {
    EntryFields(t, data, storedKey);
  }

  /** An entry older than a non-zero lifetime is not served: the function
      runs again and its new result replaces the entry. */
  lemma CacheExpiry<E>(dir: CacheDir, hash: string -> string, key: string, ttl: Option<int>,
                       env1: CallEnv, data: Json, env2: CallEnv, compute2: Result<Json, E>)
    requires Lookup(FilesOf(dir), FileFor(hash, key), ttl, env1.readNow).None?
    requires env1.write == Written
    requires Expired(ttl, env1.writeNow, env2.readNow)
    ensures var first := CachedCall<E>(dir, hash, key, ttl, env1, Ok(data));
            var second := CachedCall(first.dir, hash, key, ttl, env2, compute2);
            second.invoked && second.result == compute2
  {
    EntryFields(env1.writeNow, data, key);
  }

  /** Expiry is strict: at exactly the lifetime the entry is still fresh.
      Without a lifetime (or with a zero one) an entry never expires. */
  lemma ExpiryBoundary(ttl: Option<int>, t: int, now: int)
    ensures ttl.Some? && now - t == ttl.value ==> !Expired(ttl, t, now)
    ensures !Expires(ttl) ==> !Expired(ttl, t, now)
    ensures Expires(ttl) && ttl.value > 0 && now >= t + ttl.value + 1 ==> Expired(ttl, t, now)
  {
  }

  /** The stored `cache_key` is never compared on the read path: a key whose
      hash collides with a stored entry's is served that entry's data. */
  lemma HashCollisionServesOtherEntry<E>(dir: CacheDir, hash: string -> string, key1: string, key2: string,
                                         ttl: Option<int>, env1: CallEnv, data: Json, env2: CallEnv, compute2: Result<Json, E>)
    requires key1 != key2 && hash(key1) == hash(key2)
    requires Lookup(FilesOf(dir), FileFor(hash, key1), ttl, env1.readNow).None?
    requires env1.write == Written && !Expired(ttl, env1.writeNow, env2.readNow)
    ensures var first := CachedCall<E>(dir, hash, key1, ttl, env1, Ok(data));
            var second := CachedCall(first.dir, hash, key2, ttl, env2, compute2);
            !second.invoked && second.result == Ok(data)
  {
    EntryFields(env1.writeNow, data, key1);
  }

  /** A call only ever touches its own file: calls whose keys hash apart do
      not disturb each other's entries. */
  lemma CallsIsolated<E>(dir: CacheDir, hash: string -> string, key1: string, key2: string, ttl: Option<int>,
                         env: CallEnv, compute: Result<Json, E>, now: int)
    requires hash(key1) != hash(key2)
    ensures var before := FilesOf(dir);
            var after := CachedCall(dir, hash, key1, ttl, env, compute).dir.files;
            Lookup(after, FileFor(hash, key2), ttl, now) == Lookup(before, FileFor(hash, key2), ttl, now)
  {
    var f1, f2 := FileFor(hash, key1), FileFor(hash, key2);
    assert f1 != f2 by {
      assert f1[..|hash(key1)|] == hash(key1);
      assert f2[..|hash(key2)|] == hash(key2);
      if |hash(key1)| == |hash(key2)| {
        assert f1 != f2;
      } else {
        assert |f1| != |f2|;
      }
    }
  }

  /** A failed write leaves no usable entry: the next call runs the function
      again. */
  lemma FailedWriteRecomputes<E>(dir: CacheDir, hash: string -> string, key: string, ttl: Option<int>,
                                 env1: CallEnv, data: Json, env2: CallEnv, compute2: Result<Json, E>)
    requires Lookup(FilesOf(dir), FileFor(hash, key), ttl, env1.readNow).None?
    requires env1.write == DumpFailed
    ensures var first := CachedCall<E>(dir, hash, key, ttl, env1, Ok(data));
            var second := CachedCall(first.dir, hash, key, ttl, env2, compute2);
            first.result == Ok(data) && second.invoked
  {
  }

  // ---------------------------------------------------------------------
  // clear_cache

  /** The file names `glob("*.json")` lists. */
  predicate IsJsonName(name: string) {
    |name| >= 5 && name[|name| - 5..] == ".json"
  }

  /** The stored key of a cache file contains `pattern`, read as `clear_cache`
      reads it: `doc.get('cache_key', '')`, then Python's `in`; a file for
      which this raises is skipped. */
  predicate KeyMatches(pattern: string, file: CacheFile) {
    file.Doc?
    && match PyGet(file.doc, "cache_key", JStr(""))
       case Ok(k) => PyIn(pattern, k) == Ok(true)
       case Err(_) => false
  }

  /** `clear_cache(pattern)` deletes this file: a listed file, and when the
      pattern is truthy, one whose stored key contains it. */
  predicate Removes(pattern: Option<string>, name: string, file: CacheFile) {
    IsJsonName(name) && (pattern.Some? && |pattern.value| > 0 ==> KeyMatches(pattern.value, file))
  }

  function Removed(files: map<string, CacheFile>, pattern: Option<string>): set<string> {
    set f | f in files && Removes(pattern, f, files[f])
  }

  function Cleared(files: map<string, CacheFile>, pattern: Option<string>): map<string, CacheFile> {
    map f | f in files && !Removes(pattern, f, files[f]) :: files[f]
  }

  /** `clear_cache`: visit the listed files one by one and delete those that
      match; return how many were deleted. A missing directory gives 0. */
  method ClearCache(dir: CacheDir, pattern: Option<string>) returns (count: nat, after: CacheDir)
    ensures dir.NoDir? ==> count == 0 && after == NoDir
    ensures dir.Dir? ==> after == Dir(Cleared(dir.files, pattern)) && count == |Removed(dir.files, pattern)|
  {
    if dir.NoDir? {
      return 0, NoDir;
    }
    var files := dir.files;
    var listing := set f | f in files && IsJsonName(f);
    var remaining := listing;
    var kept := files;
    var removed: set<string> := {};
    count := 0;
    while remaining != {}
      invariant remaining <= listing
      invariant forall f :: f in removed <==> f in listing && f !in remaining && Removes(pattern, f, files[f])
      invariant forall f :: f in kept <==> f in files && f !in removed
      invariant forall f :: f in kept ==> kept[f] == files[f]
      invariant count == |removed|
      decreases |remaining|
    {
      var f :| f in remaining;
      if Removes(pattern, f, files[f]) {
        kept := kept - {f};
        removed := removed + {f};
        count := count + 1;
      }
      remaining := remaining - {f};
    }
    assert removed == Removed(files, pattern);
    assert kept == Cleared(files, pattern);
    return count, Dir(kept);
  }

  /** Clearing without a pattern (or with an empty one) leaves no listed
      file, so every later call misses. */
  lemma ClearAllLeavesNoEntry<E>(files: map<string, CacheFile>, pattern: Option<string>, hash: string -> string,
                                 key: string, ttl: Option<int>, env: CallEnv, compute: Result<Json, E>)
    requires pattern.None? || pattern.value == ""
    ensures forall f :: f in Cleared(files, pattern) ==> !IsJsonName(f)
    ensures CachedCall(Dir(Cleared(files, pattern)), hash, key, ttl, env, compute).invoked
  {
    assert IsJsonName(FileFor(hash, key)) by {
      var f := FileFor(hash, key);
      assert f[|f| - 5..] == ".json";
    }
  }

  /** After clearing with a pattern the entry of any key containing it is
      gone, so a call with that key runs the function. */
  lemma ClearPatternForcesMiss<E>(files: map<string, CacheFile>, pattern: string, hash: string -> string,
                                  key: string, t: int, data: Json, ttl: Option<int>, env: CallEnv, compute: Result<Json, E>)
    requires FileFor(hash, key) in files && files[FileFor(hash, key)] == Doc(Entry(t, data, key))
    requires Text.Contains(key, pattern)
    ensures CachedCall(Dir(Cleared(files, Some(pattern))), hash, key, ttl, env, compute).invoked
  {
    var f := FileFor(hash, key);
    assert f[|f| - 5..] == ".json";
    EntryFields(t, data, key);
    assert KeyMatches(pattern, files[f]);
  }

  /** Clearing is idempotent: a second clear with the same pattern deletes
      nothing and changes nothing. */
  lemma ClearIdempotent(files: map<string, CacheFile>, pattern: Option<string>)
    ensures Removed(Cleared(files, pattern), pattern) == {}
    ensures Cleared(Cleared(files, pattern), pattern) == Cleared(files, pattern)
  {
  }

  /** Clearing only deletes: every kept file is unchanged, and a file is
      kept exactly when it does not match. */
  lemma ClearKeepsTheRest(files: map<string, CacheFile>, pattern: Option<string>)
    ensures Cleared(files, pattern).Keys == files.Keys - Removed(files, pattern)
    ensures forall f :: f in Cleared(files, pattern) ==> Cleared(files, pattern)[f] == files[f]
  {
  }
}

=== FILE: cash_flow_processor.dfy ===
/** `CashFlowProcessor` (src/processors/cash_flow_processor.py). */
module CashFlowProcessor {
  import opened Wrappers
  import opened Json
  import opened Tables
  import Dicts
  import opened BaseProcessor
  import StatementPipeline

  const Operating: string := "(Operating Activities) Cash Flow from Operating Activities"
  const Investing: string := "(Investing Activities) Cash Flow from Investing Activities"
  const Financing: string := "(Financing Activities) Cash Flow from Financing Activities"
  const CapitalExpenditure: string := "(Investing Activities) Purchase of Property, Plant and Equipment"
  const CurrentLiabilities: string := "Total Current Liabilities"

  /** The fields a cash flow statement must have. */
  const Required: seq<string> := [Operating, Investing, Financing]

  const CashFlow: StatementPipeline.Statement := StatementPipeline.Statement(
    "process cash flow statement", "No cash flow data found", "CashFlowTemplate", "OPERATING_ACTIVITIES_MAPPING", Required)

  /** The columns `_calculate_derived_fields` may add. */
  predicate Derived(c: string) {
    c == "Free Cash Flow" || c == "Total Cash Flow" || c == "Operating Cash Flow Ratio"
  }

  /** `operating - abs(capex)`. */
  function FreeCash(operating: Cell, capex: Cell): Cell {
    Sub(operating, Abs(capex))
  }

  /** A cell `Series.any()` counts: NaN is skipped, a JSON value counts when
      truthy, a quotient when its numerator is not zero. */
  predicate NonZero(c: Cell) {
    match c
    case Nan => false
    case Of(v) => Truthy(v)
    case Quot(n, _) => n != 0
  }

  /** `series.any()`. */
  predicate AnyNonZero(values: seq<Cell>) {
    exists i :: 0 <= i < |values| && NonZero(values[i])
  }

  /** `abs(df[CapitalExpenditure])` raises: some value is neither NaN nor a
      number, and it is not a null that a numeric column already holds as
      NaN (a null in an object column reaches `abs` as `None`). */
  predicate AbsRaises(col: seq<Cell>) {
    exists i :: 0 <= i < |col| && !col[i].Nan? && !StatementPipeline.Arith(col[i])
      && (col[i] != Of(JNull) || !NumericColumn(col))
  }

  /** The free cash flow step raises: its inputs are columns and either
      `abs` raises or the difference clashes on some row. */
  predicate FreeCashRaises(df: Table) {
    HasColumn(df, Operating) && HasColumn(df, CapitalExpenditure)
    && (AbsRaises(Column(df, CapitalExpenditure)) || StatementPipeline.Clashes(Column(df, Operating), Column(df, CapitalExpenditure)))
  }

  /** The free cash flow: `operating - abs(capex)` when both are columns;
      `None` when that raises. */
  function FreeCashFlow(df: Table): (r: Option<Table>)
    ensures r.None? <==> FreeCashRaises(df)
    ensures r.Some? ==> forall c :: HasColumn(r.value, c) <==>
      HasColumn(df, c) || (c == "Free Cash Flow" && HasColumn(df, Operating) && HasColumn(df, CapitalExpenditure))
    ensures r.Some? ==> forall c :: c != "Free Cash Flow" && HasColumn(df, c) ==> Column(r.value, c) == Column(df, c)
    ensures r.Some? && HasColumn(df, Operating) && HasColumn(df, CapitalExpenditure) ==>
      Column(r.value, "Free Cash Flow") == Zip(Column(df, Operating), Column(df, CapitalExpenditure), FreeCash)
  {
    if FreeCashRaises(df) then None
    else
      StatementPipeline.WithColumnFrame(df, "Free Cash Flow", Operating, CapitalExpenditure, FreeCash);
      Some(StatementPipeline.WithColumn(df, "Free Cash Flow", Operating, CapitalExpenditure, FreeCash))
  }

  /** The running sum `operating + investing` of the first two totals. */
  function PartialSums(df: Table): (r: seq<Cell>)
    requires HasColumn(df, Operating) && HasColumn(df, Investing)
    ensures |r| == |df.rows|
  {
    Zip(Column(df, Operating), Column(df, Investing), Add)
  }

  /** `operating + investing + financing` raises: the three are columns and
      the first sum, or the second on the first's result, clashes on some
      row. */
  predicate TotalRaises(df: Table) {
    && HasColumn(df, Operating) && HasColumn(df, Investing) && HasColumn(df, Financing)
    && (|| StatementPipeline.Clashes(Column(df, Operating), Column(df, Investing))
        || StatementPipeline.Clashes(PartialSums(df), Column(df, Financing)))
  }

  /** The sum of the three activity totals, when all three are columns;
      `None` when the sum raises. */
  function TotalCashFlow(df: Table): (r: Option<Table>)
    ensures r.None? <==> TotalRaises(df)
    ensures r.Some? ==> forall c :: HasColumn(r.value, c) <==>
      HasColumn(df, c) || (c == "Total Cash Flow" && forall f :: f in Required ==> HasColumn(df, f))
    ensures r.Some? ==> forall c :: c != "Total Cash Flow" && HasColumn(df, c) ==> Column(r.value, c) == Column(df, c)
    ensures r.Some? ==> |r.value.rows| == |df.rows|
    ensures r.Some? && (forall f :: f in Required ==> HasColumn(df, f)) ==>
      forall i :: 0 <= i < |df.rows| ==>
        CellAt(r.value.rows[i], "Total Cash Flow")
          == Add(Add(CellAt(df.rows[i], Operating), CellAt(df.rows[i], Investing)), CellAt(df.rows[i], Financing))
  {
    if TotalRaises(df) then None
    else if HasColumn(df, Operating) && HasColumn(df, Investing) && HasColumn(df, Financing) then
      Some(SetColumn(df, "Total Cash Flow", seq(|df.rows|, i requires 0 <= i < |df.rows| =>
        Add(Add(CellAt(df.rows[i], Operating), CellAt(df.rows[i], Investing)), CellAt(df.rows[i], Financing)))))
    else Some(df)
  }

  /** The ratio step raises: current liabilities has a non-zero value (so
      the quotient is computed) and the quotient clashes on some row. */
  predicate RatioRaises(df: Table) {
    AnyNonZero(Column(df, CurrentLiabilities)) && StatementPipeline.StepRaises(df, Operating, CurrentLiabilities)
  }

  /** The operating cash flow over current liabilities, when those have a
      non-zero value; `None` when the quotient raises. */
  function OperatingRatio(df: Table): (r: Option<Table>)
    ensures r.None? <==> RatioRaises(df)
    ensures r.Some? ==> forall c :: HasColumn(r.value, c) <==>
      (|| HasColumn(df, c)
       || (c == "Operating Cash Flow Ratio" && HasColumn(df, Operating) && HasColumn(df, CurrentLiabilities)
           && AnyNonZero(Column(df, CurrentLiabilities))))
    ensures r.Some? ==> forall c :: c != "Operating Cash Flow Ratio" && HasColumn(df, c) ==> Column(r.value, c) == Column(df, c)
    ensures r.Some? && HasColumn(df, Operating) && HasColumn(df, CurrentLiabilities) && AnyNonZero(Column(df, CurrentLiabilities)) ==>
      Column(r.value, "Operating Cash Flow Ratio") == Zip(Column(df, Operating), Column(df, CurrentLiabilities), StatementPipeline.Divide)
    ensures !AnyNonZero(Column(df, CurrentLiabilities)) ==> r == Some(df)
  {
    if RatioRaises(df) then None
    else if HasColumn(df, Operating) && HasColumn(df, CurrentLiabilities) && AnyNonZero(Column(df, CurrentLiabilities)) then
      Some(StatementPipeline.WithColumn(df, "Operating Cash Flow Ratio", Operating, CurrentLiabilities, StatementPipeline.Divide))
    else Some(df)
  }

  /** Some step of `_calculate_derived_fields` raises on `df`. */
  predicate DerivedRaises(df: Table) {
    FreeCashRaises(df) || TotalRaises(df) || RatioRaises(df)
  }

  /** `_calculate_derived_fields`: free cash flow, the total cash flow and
      the operating cash flow ratio are added in turn when their inputs are
      columns (the ratio only when current liabilities has a non-zero
      value). The columns are assigned to `df` in place, so when a step
      raises, the `except` branch returns the frame with the columns added
      before it. Every other column keeps its values. */
  function CalculateDerivedFields(df: Table): (r: Table)
    ensures forall c :: HasColumn(r, c) ==> HasColumn(df, c) || Derived(c)
    ensures forall c :: HasColumn(df, c) ==> HasColumn(r, c)
    ensures forall c :: HasColumn(df, c) && !Derived(c) ==> Column(r, c) == Column(df, c)
    ensures FreeCashRaises(df) ==> r == df
  {
    match FreeCashFlow(df)
    case None => df
    case Some(t1) =>
      match TotalCashFlow(t1)
      case None => t1
      case Some(t2) =>
        match OperatingRatio(t2)
        case None => t2
        case Some(t3) => t3
  }

  /** The later steps see the same inputs after free cash flow is added,
      and the ratio step the same after the total is added. */
  lemma DerivedSteps(df: Table)
    ensures FreeCashFlow(df).Some? ==> var t1 := FreeCashFlow(df).value;
      && (TotalRaises(t1) <==> TotalRaises(df))
      && (RatioRaises(t1) <==> RatioRaises(df))
      && (TotalCashFlow(t1).Some? ==> (RatioRaises(TotalCashFlow(t1).value) <==> RatioRaises(df)))
  {
    if FreeCashFlow(df).Some? {
      var t1 := FreeCashFlow(df).value;
      if HasColumn(df, Operating) && HasColumn(df, Investing) && HasColumn(df, Financing) {
        assert PartialSums(t1) == PartialSums(df);
      }
      if TotalCashFlow(t1).Some? {
        var t2 := TotalCashFlow(t1).value;
        assert HasColumn(t2, CurrentLiabilities) <==> HasColumn(t1, CurrentLiabilities);
        assert HasColumn(t2, Operating) <==> HasColumn(t1, Operating);
      }
    }
  }

  /** Free cash flow is present exactly when it already was, or its inputs
      are columns and its step does not raise. */
  lemma FreeCashPresent(df: Table)
    ensures HasColumn(CalculateDerivedFields(df), "Free Cash Flow") <==>
      || HasColumn(df, "Free Cash Flow")
      || (HasColumn(df, Operating) && HasColumn(df, CapitalExpenditure) && !FreeCashRaises(df))
  {
    if FreeCashFlow(df).Some? {
      var t1 := FreeCashFlow(df).value;
      if TotalCashFlow(t1).Some? {
        var t2 := TotalCashFlow(t1).value;
        assert HasColumn(t2, "Free Cash Flow") <==> HasColumn(t1, "Free Cash Flow");
        if OperatingRatio(t2).Some? {
          assert HasColumn(OperatingRatio(t2).value, "Free Cash Flow") <==> HasColumn(t2, "Free Cash Flow");
        }
      }
    }
  }

  /** The ratio is present exactly when it already was, or both its inputs
      are columns, current liabilities has a non-zero value and no step
      raises. */
  lemma RatioOnlyWithLiabilities(df: Table)
    ensures HasColumn(CalculateDerivedFields(df), "Operating Cash Flow Ratio") <==>
      || HasColumn(df, "Operating Cash Flow Ratio")
      || (&& HasColumn(df, Operating) && HasColumn(df, CurrentLiabilities) && AnyNonZero(Column(df, CurrentLiabilities))
          && !DerivedRaises(df))
  {
    var ratio := "Operating Cash Flow Ratio";
    DerivedSteps(df);
    if FreeCashFlow(df).Some? {
      var t1 := FreeCashFlow(df).value;
      assert HasColumn(t1, ratio) <==> HasColumn(df, ratio);
      assert HasColumn(t1, Operating) <==> HasColumn(df, Operating);
      assert HasColumn(t1, CurrentLiabilities) <==> HasColumn(df, CurrentLiabilities);
      if TotalCashFlow(t1).Some? {
        var t2 := TotalCashFlow(t1).value;
        assert HasColumn(t2, ratio) <==> HasColumn(t1, ratio);
        assert HasColumn(t2, Operating) <==> HasColumn(t1, Operating);
        assert HasColumn(t2, CurrentLiabilities) <==> HasColumn(t1, CurrentLiabilities);
        if HasColumn(df, CurrentLiabilities) {
          assert Column(t2, CurrentLiabilities) == Column(df, CurrentLiabilities);
        }
      }
    }
  }

  /** The total cash flow is present exactly when it already was, or the
      three activity totals are columns and neither the free cash flow step
      nor the sum raises. */
  lemma TotalPresent(df: Table)
    ensures HasColumn(CalculateDerivedFields(df), "Total Cash Flow") <==>
      || HasColumn(df, "Total Cash Flow")
      || ((forall f :: f in Required ==> HasColumn(df, f)) && !FreeCashRaises(df) && !TotalRaises(df))
  {
    var total := "Total Cash Flow";
    DerivedSteps(df);
    if FreeCashFlow(df).Some? {
      var t1 := FreeCashFlow(df).value;
      assert HasColumn(t1, total) <==> HasColumn(df, total);
      assert (forall f :: f in Required ==> HasColumn(t1, f)) <==> (forall f :: f in Required ==> HasColumn(df, f)) by {
        assert Required == [Operating, Investing, Financing];
      }
      if TotalCashFlow(t1).Some? {
        var t2 := TotalCashFlow(t1).value;
        if OperatingRatio(t2).Some? {
          assert HasColumn(OperatingRatio(t2).value, total) <==> HasColumn(t2, total);
        }
      }
    }
  }

  /** `process_company_facts` with the three section mappings given: a
      result has every required field, and its columns are standard names,
      `period_end_date` or derived fields; it has the total cash flow unless
      the free cash flow or the sum raised. */
  function ProcessCompanyFacts(facts: Json, sections: seq<Dicts.Dict<string>>, toDate: Cell -> Cell): (r: Result<Table, Exception>)
    ensures r.Err? ==> IsProcessingError(r.error)
    ensures facts.JObj? && !Dicts.HasKey(facts.fields, "us-gaap") ==>
      r == Err(ProcessingError("No US GAAP data found in company facts"))
    ensures r.Ok? ==> forall f :: f in Required ==> HasColumn(r.value, f)
    ensures r.Ok? ==> forall c :: HasColumn(r.value, c) ==>
      c == "period_end_date" || StatementPipeline.StandardName(sections, c) || Derived(c)
    ensures r.Ok? <==> StatementPipeline.Standardize(facts, sections, CashFlow, toDate).Ok?
    ensures r.Ok? ==> r.value == CalculateDerivedFields(StatementPipeline.Standardize(facts, sections, CashFlow, toDate).value)
    ensures r.Ok? ==> var s := StatementPipeline.Standardize(facts, sections, CashFlow, toDate).value;
      (HasColumn(r.value, "Total Cash Flow") <==> HasColumn(s, "Total Cash Flow") || (!FreeCashRaises(s) && !TotalRaises(s)))
  {
    var r := StatementPipeline.ProcessCompanyFacts(facts, sections, CashFlow, CalculateDerivedFields, toDate);
    if r.Ok? then TotalPresent(StatementPipeline.Standardize(facts, sections, CashFlow, toDate).value); r else r
  }

  /** `process_company_facts` as written: the template has no
      `OPERATING_ACTIVITIES_MAPPING`, so no input gives a table, and any
      `us-gaap` tag makes it fail with the AttributeError wrapped in a
      ProcessingError. */
  function AsWrittenProcessCompanyFacts(facts: Json): (r: Result<Table, Exception>)
    ensures r.Err? && IsProcessingError(r.error)
    ensures (facts.JObj? && Dicts.HasKey(facts.fields, "us-gaap") && Dicts.Get(facts.fields, "us-gaap").value.JObj?
             && |Dicts.Get(facts.fields, "us-gaap").value.fields| > 0) ==>
      r.error == Failed("process cash flow statement", NoAttribute("CashFlowTemplate", "OPERATING_ACTIVITIES_MAPPING"))
  {
    StatementPipeline.AsWrittenProcessCompanyFacts(facts, CashFlow)
  }
}

=== FILE: cash_flow_template.dfy ===
/** `CashFlowTemplate` (src/templates/cash_flow_template.py): the operating /
    investing / financing sections, the six key-metric attributes, and the
    concept map into them. */
module CashFlowTemplate {
  import opened Wrappers
  import opened TemplateTree
  import Dicts

  /** The attributes the constructor sets, in order. */
  const Attributes: Dicts.Dict<Node> := [
    ("operating_activities", Branch([
      ("net_income", Leaf),
      ("adjustments", Branch([
        ("depreciation_amortization", Leaf), ("stock_based_compensation", Leaf), ("deferred_taxes", Leaf),
        ("asset_impairment", Leaf), ("gain_loss_on_sale", Leaf), ("other_adjustments", Leaf)])),
      ("changes_in_working_capital", Branch([
        ("accounts_receivable", Leaf), ("inventory", Leaf), ("accounts_payable", Leaf),
        ("accrued_liabilities", Leaf), ("other_working_capital", Leaf)]))])),
    ("investing_activities", Branch([
      ("capital_expenditures", Leaf), ("acquisitions", Leaf), ("purchases_of_investments", Leaf),
      ("sales_of_investments", Leaf), ("other_investing_activities", Leaf)])),
    ("financing_activities", Branch([
      ("debt_issuance", Leaf), ("debt_repayment", Leaf), ("stock_issuance", Leaf),
      ("stock_repurchase", Leaf), ("dividends_paid", Leaf), ("other_financing_activities", Leaf)])),
    ("net_cash_operating", Leaf),
    ("net_cash_investing", Leaf),
    ("net_cash_financing", Leaf),
    ("net_change_in_cash", Leaf),
    ("cash_beginning_period", Leaf),
    ("cash_end_period", Leaf)
  ]

  const ConceptMap: Dicts.Dict<seq<string>> := [
    ("NetIncomeLoss", ["operating_activities", "net_income"]),
    ("DepreciationDepletionAndAmortization", ["operating_activities", "adjustments", "depreciation_amortization"]),
    ("ShareBasedCompensation", ["operating_activities", "adjustments", "stock_based_compensation"]),
    ("DeferredIncomeTaxExpenseBenefit", ["operating_activities", "adjustments", "deferred_taxes"]),
    ("AssetImpairmentCharges", ["operating_activities", "adjustments", "asset_impairment"]),
    ("GainLossOnSaleOfBusinessAssets", ["operating_activities", "adjustments", "gain_loss_on_sale"]),
    ("IncreaseDecreaseInAccountsReceivable", ["operating_activities", "changes_in_working_capital", "accounts_receivable"]),
    ("IncreaseDecreaseInInventories", ["operating_activities", "changes_in_working_capital", "inventory"]),
    ("IncreaseDecreaseInAccountsPayable", ["operating_activities", "changes_in_working_capital", "accounts_payable"]),
    ("IncreaseDecreaseInAccruedLiabilities", ["operating_activities", "changes_in_working_capital", "accrued_liabilities"]),
    ("PaymentsToAcquirePropertyPlantAndEquipment", ["investing_activities", "capital_expenditures"]),
    ("PaymentsToAcquireBusinessesNetOfCashAcquired", ["investing_activities", "acquisitions"]),
    ("PaymentsToAcquireInvestments", ["investing_activities", "purchases_of_investments"]),
    ("ProceedsFromSaleAndMaturityOfInvestments", ["investing_activities", "sales_of_investments"]),
    ("ProceedsFromIssuanceOfDebt", ["financing_activities", "debt_issuance"]),
    ("RepaymentsOfDebt", ["financing_activities", "debt_repayment"]),
    ("ProceedsFromIssuanceOfCommonStock", ["financing_activities", "stock_issuance"]),
    ("PaymentsForRepurchaseOfCommonStock", ["financing_activities", "stock_repurchase"]),
    ("PaymentsOfDividends", ["financing_activities", "dividends_paid"]),
    ("NetCashProvidedByUsedInOperatingActivities", ["net_cash_operating"]),
    ("NetCashProvidedByUsedInInvestingActivities", ["net_cash_investing"]),
    ("NetCashProvidedByUsedInFinancingActivities", ["net_cash_financing"]),
    ("CashAndCashEquivalentsPeriodIncreaseDecrease", ["net_change_in_cash"]),
    ("CashAndCashEquivalentsAtCarryingValuePeriodStart", ["cash_beginning_period"]),
    ("CashAndCashEquivalentsAtCarryingValuePeriodEnd", ["cash_end_period"])
  ]

  /** The object `CashFlowTemplate()` builds. */
  const CashFlow: Template := Template(Attributes, ConceptMap)

  /** The six key-metric attributes (each an empty list). */
  predicate KeyMetric(name: string) {
    || name == "net_cash_operating" || name == "net_cash_investing" || name == "net_cash_financing"
    || name == "net_change_in_cash" || name == "cash_beginning_period" || name == "cash_end_period"
  }

  /** The shape every mapped path has: one to three keys, and a single key
      only for a key-metric attribute. */
  predicate PathShape(p: seq<string>) {
    1 <= |p| <= 3 && (|p| == 1 ==> KeyMetric(p[0]))
  }

  /** The net-income and depreciation entries resolve. */
  lemma OperatingHeadPathsResolve()
    ensures forall i :: 0 <= i < 2 ==> Resolves(Root(CashFlow), ConceptMap[i].1)
  {
    assert Root(CashFlow) == Branch(Attributes);
  }

  /** The stock-compensation and deferred-tax entries resolve. */
  lemma AdjustmentPathsResolve()
    ensures forall i :: 2 <= i < 4 ==> Resolves(Root(CashFlow), ConceptMap[i].1)
  {
    assert Root(CashFlow) == Branch(Attributes);
  }

  /** The impairment and gain-on-sale entries resolve. */
  lemma ImpairmentPathsResolve()
    ensures forall i :: 4 <= i < 6 ==> Resolves(Root(CashFlow), ConceptMap[i].1)
  {
    assert Root(CashFlow) == Branch(Attributes);
  }

  /** The receivable and inventory entries of the working capital resolve. */
  lemma ReceivablePathsResolve()
    ensures forall i :: 6 <= i < 8 ==> Resolves(Root(CashFlow), ConceptMap[i].1)
  {
    assert Root(CashFlow) == Branch(Attributes);
  }

  /** The payable and accrued entries of the working capital resolve. */
  lemma PayablePathsResolve()
    ensures forall i :: 8 <= i < 10 ==> Resolves(Root(CashFlow), ConceptMap[i].1)
  {
    assert Root(CashFlow) == Branch(Attributes);
  }

  /** The investing entries of the concept map resolve. */
  lemma InvestingPathsResolve()
    ensures forall i :: 10 <= i < 14 ==> Resolves(Root(CashFlow), ConceptMap[i].1)
  {
    assert Root(CashFlow) == Branch(Attributes);
  }

  /** The debt entries of the financing section resolve. */
  lemma DebtPathsResolve()
    ensures forall i :: 14 <= i < 16 ==> Resolves(Root(CashFlow), ConceptMap[i].1)
  {
    assert Root(CashFlow) == Branch(Attributes);
  }

  /** The stock and dividend entries of the financing section resolve. */
  lemma ShareholderPathsResolve()
    ensures forall i :: 16 <= i < 19 ==> Resolves(Root(CashFlow), ConceptMap[i].1)
  {
    assert Root(CashFlow) == Branch(Attributes);
  }

  /** The key-metric entries of the concept map resolve. */
  lemma KeyMetricPathsResolve()
    ensures forall i :: 19 <= i < 25 ==> Resolves(Root(CashFlow), ConceptMap[i].1)
  {
    assert Root(CashFlow) == Branch(Attributes);
  }

  /** Every path of the concept map is non-empty and names a node of the
      skeleton or a key-metric attribute. */
  lemma CashFlowPathsResolve()
    ensures PathsResolve(CashFlow)
  {
    OperatingHeadPathsResolve();
    AdjustmentPathsResolve();
    ImpairmentPathsResolve();
    ReceivablePathsResolve();
    PayablePathsResolve();
    InvestingPathsResolve();
    DebtPathsResolve();
    ShareholderPathsResolve();
    KeyMetricPathsResolve();
    assert |ConceptMap| == 25;
  }

  lemma PathShapes()
    ensures forall i :: 0 <= i < |ConceptMap| ==> PathShape(ConceptMap[i].1)
  {
  }

  /** `get_path_for_concept`: the mapped path, or [] for an unmapped concept;
      a mapped path names a node and has the shape of `PathShape`. */
  function GetPathForConcept(concept: string): (r: seq<string>)
    ensures Resolves(Root(CashFlow), r)
    ensures r == [] <==> !Dicts.HasKey(ConceptMap, concept)
    ensures r != [] ==> PathShape(r)
    ensures r != [] ==> exists i :: 0 <= i < |ConceptMap| && ConceptMap[i] == (concept, r)
  {
    CashFlowPathsResolve();
    PathShapes();
    PathForConceptResolves(CashFlow, concept);
    PathForConcept(CashFlow, concept)
  }

  /** The `other_*` leaves of the skeleton. */
  lemma OperatingOtherLeaves()
    ensures At(Root(CashFlow), ["operating_activities", "adjustments", "other_adjustments"]) == Some(Leaf)
    ensures At(Root(CashFlow), ["operating_activities", "changes_in_working_capital", "other_working_capital"]) == Some(Leaf)
  {
    assert Root(CashFlow) == Branch(Attributes);
  }

  lemma InvestingOtherLeaf()
    ensures At(Root(CashFlow), ["investing_activities", "other_investing_activities"]) == Some(Leaf)
  {
    assert Root(CashFlow) == Branch(Attributes);
  }

  lemma FinancingOtherLeaf()
    ensures At(Root(CashFlow), ["financing_activities", "other_financing_activities"]) == Some(Leaf)
  {
    var financing := Attributes[2].1;
    assert Child(Attributes, "financing_activities") == Some(financing);
    assert At(financing, ["other_financing_activities"]) == Some(Leaf);
  }

  /** The `other_*` leaves of the skeleton. */
  lemma OtherLeavesExist()
    ensures forall p :: p in OtherLeaves() ==> At(Root(CashFlow), p) == Some(Leaf)
  {
    OperatingOtherLeaves();
    InvestingOtherLeaf();
    FinancingOtherLeaf();
  }

  /** Entries lo to hi of the concept map name none of the `other_*` leaves. */
  lemma OtherLeavesNotIn(lo: nat, hi: nat)
    requires (lo, hi) in {(0, 6), (6, 10), (10, 14), (14, 19), (19, 25)}
    ensures forall i :: lo <= i < hi ==> ConceptMap[i].1 !in OtherLeaves()
  {
    if (lo, hi) == (0, 6) {
      assert forall i :: 0 <= i < 6 ==> ConceptMap[i].1 !in OtherLeaves();
    } else if (lo, hi) == (6, 10) {
      assert forall i :: 6 <= i < 10 ==> ConceptMap[i].1 !in OtherLeaves();
    } else if (lo, hi) == (10, 14) {
      assert forall i :: 10 <= i < 14 ==> ConceptMap[i].1 !in OtherLeaves();
    } else if (lo, hi) == (14, 19) {
      assert forall i :: 14 <= i < 19 ==> ConceptMap[i].1 !in OtherLeaves();
    } else {
      assert forall i :: 19 <= i < 25 ==> ConceptMap[i].1 !in OtherLeaves();
    }
  }

  lemma OtherLeavesNotMapped()
    ensures forall p :: p in OtherLeaves() ==> !Targeted(CashFlow, p)
  {
    OtherLeavesNotIn(0, 6);
    OtherLeavesNotIn(6, 10);
    OtherLeavesNotIn(10, 14);
    OtherLeavesNotIn(14, 19);
    OtherLeavesNotIn(19, 25);
    assert |ConceptMap| == 25;
  }

  /** The `other_*` leaves exist but `get_path_for_concept` never returns
      them: the concept map does not reach every leaf. */
  lemma OtherLeavesUntargeted(concept: string)
    ensures forall p :: p in OtherLeaves() ==> At(Root(CashFlow), p) == Some(Leaf)
    ensures forall p :: p in OtherLeaves() ==> GetPathForConcept(concept) != p
  {
    OtherLeavesExist();
    OtherLeavesNotMapped();
    forall p | p in OtherLeaves() ensures GetPathForConcept(concept) != p {
      UntargetedNeverReturned(CashFlow, p, concept);
    }
  }

  function OtherLeaves(): set<seq<string>> {
    { ["operating_activities", "adjustments", "other_adjustments"],
      ["operating_activities", "changes_in_working_capital", "other_working_capital"],
      ["investing_activities", "other_investing_activities"],
      ["financing_activities", "other_financing_activities"] }
  }
}

=== FILE: company_data.dfy ===
/** `CompanyData` (src/models/company_data.py): a company's submission
    record read from the SEC JSON, its filings, and the three statements
    processed from it. The ORM classes of the same file are not part of this
    model. */
module CompanyData {
  import opened Wrappers
  import opened Json
  import opened Tables
  import Dicts
  import BaseProcessor
  import BalanceSheetProcessor
  import IncomeStatementProcessor
  import CashFlowProcessor

  /** The dataclass. Only `cik` and `sic` are converted (`str(...)`); the
      other fields hold whatever the JSON had, as the dataclass does not
      check types. */
  datatype Company = Company(
    cik: string, entityType: Json, sic: string, sicDescription: Json, name: Json,
    tickers: Json, exchanges: Json, fiscalYearEnd: Json, filings: Json)

  /** The `ValueError` `from_json` raises, with its message. */
  datatype FromJsonError = ValueError(message: string)

  /** Python's type name of a decoded value. */
  function TypeName(j: Json): string {
    match j
    case JNull => "NoneType"
    case JBool(_) => "bool"
    case JNum(_) => "int"
    case JStr(_) => "str"
    case JArr(_) => "list"
    case JObj(_) => "dict"
  }

  /** `data.get(key, default)` on a dict. */
  function Field(fields: seq<(string, Json)>, key: string, default: Json): Json {
    Dicts.Get(fields, key).GetOr(default)
  }

  /** `value` is what `fields` holds under `key` when the key is present,
      and `default` when it is not. */
  predicate ReadOr(fields: seq<(string, Json)>, key: string, default: Json, value: Json) {
    && (Dicts.HasKey(fields, key) ==> Dicts.Get(fields, key) == Some(value))
    && (!Dicts.HasKey(fields, key) ==> value == default)
  }

  /** `CompanyData.from_json(data)`: each field from its camelCase key, with
      '' for missing strings, [] for missing lists and {} for missing
      filings; a missing `cik` or `sic` becomes the text "None". Anything
      other than a dict makes the first `.get` fail, which is re-raised as a
      `ValueError`. */
  function FromJson(data: Json): (r: Result<Company, FromJsonError>)
    ensures r.Ok? <==> data.JObj?
    ensures r.Err? ==> r.error == ValueError("Failed to create CompanyData: '" + TypeName(data) + "' object has no attribute 'get'")
    ensures r.Ok? ==> var f, c := data.fields, r.value;
      && (Dicts.HasKey(f, "cik") ==> c.cik == PyStr(Dicts.Get(f, "cik").value))
      && (!Dicts.HasKey(f, "cik") ==> c.cik == "None")
      && (Dicts.HasKey(f, "sic") ==> c.sic == PyStr(Dicts.Get(f, "sic").value))
      && (!Dicts.HasKey(f, "sic") ==> c.sic == "None")
      && ReadOr(f, "entityType", JStr(""), c.entityType)
      && ReadOr(f, "sicDescription", JStr(""), c.sicDescription)
      && ReadOr(f, "name", JStr(""), c.name)
      && ReadOr(f, "tickers", JArr([]), c.tickers)
      && ReadOr(f, "exchanges", JArr([]), c.exchanges)
      && ReadOr(f, "fiscalYearEnd", JStr(""), c.fiscalYearEnd)
      && ReadOr(f, "filings", JObj([]), c.filings)
  {
    match data
    case JObj(fields) =>
      Ok(Company(
        PyStr(Field(fields, "cik", JNull)),
        Field(fields, "entityType", JStr("")),
        PyStr(Field(fields, "sic", JNull)),
        Field(fields, "sicDescription", JStr("")),
        Field(fields, "name", JStr("")),
        Field(fields, "tickers", JArr([])),
        Field(fields, "exchanges", JArr([])),
        Field(fields, "fiscalYearEnd", JStr("")),
        Field(fields, "filings", JObj([]))))
    case _ => Err(ValueError("Failed to create CompanyData: '" + TypeName(data) + "' object has no attribute 'get'"))
  }

  /** The record as the JSON it was read from (`cik` and `sic` as strings). */
  function ToJson(c: Company): Json {
    JObj([
      ("cik", JStr(c.cik)), ("entityType", c.entityType), ("sic", JStr(c.sic)),
      ("sicDescription", c.sicDescription), ("name", c.name), ("tickers", c.tickers),
      ("exchanges", c.exchanges), ("fiscalYearEnd", c.fiscalYearEnd), ("filings", c.filings)])
  }

  /** The keys of `ToJson` are distinct. */
  lemma ToJsonKeysUnique(c: Company)
    ensures ToJson(c).JObj? && Dicts.UniqueKeys(ToJson(c).fields)
  {
    var f := ToJson(c).fields;
    assert f[0].0 == "cik" && f[1].0 == "entityType" && f[2].0 == "sic";
    assert f[3].0 == "sicDescription" && f[4].0 == "name" && f[5].0 == "tickers";
    assert f[6].0 == "exchanges" && f[7].0 == "fiscalYearEnd" && f[8].0 == "filings";
  }

  /** `ToJson` stores every field under its own key. */
  lemma ToJsonFields(c: Company)
    ensures var fields := ToJson(c).fields;
      && Field(fields, "cik", JNull) == JStr(c.cik)
      && Field(fields, "entityType", JStr("")) == c.entityType
      && Field(fields, "sic", JNull) == JStr(c.sic)
      && Field(fields, "sicDescription", JStr("")) == c.sicDescription
      && Field(fields, "name", JStr("")) == c.name
      && Field(fields, "tickers", JArr([])) == c.tickers
      && Field(fields, "exchanges", JArr([])) == c.exchanges
      && Field(fields, "fiscalYearEnd", JStr("")) == c.fiscalYearEnd
      && Field(fields, "filings", JObj([])) == c.filings
  {
    var fields := ToJson(c).fields;
    ToJsonKeysUnique(c);
    Dicts.GetUnique(fields, 0);
    Dicts.GetUnique(fields, 1);
    Dicts.GetUnique(fields, 2);
    Dicts.GetUnique(fields, 3);
    Dicts.GetUnique(fields, 4);
    Dicts.GetUnique(fields, 5);
    Dicts.GetUnique(fields, 6);
    Dicts.GetUnique(fields, 7);
    Dicts.GetUnique(fields, 8);
  }

  /** Reading back a record's own JSON gives the record. */
  lemma FromJsonRoundTrip(c: Company)
    ensures FromJson(ToJson(c)) == Ok(c)
  {
    ToJsonFields(c);
  }

  // ---------------------------------------------------------------------
  // Filings

  /** The end of `s[:n]` for a sequence of length `len`: a negative `n`
      counts from the end. */
  function SliceEnd(n: int, len: nat): (r: nat)
    ensures r <= len
    ensures n >= 0 ==> r == if n < len then n else len
    ensures n < 0 ==> r == if len + n > 0 then len + n else 0
  {
    if n >= 0 then (if n < len then n else len)
    else if len + n > 0 then len + n else 0
  }

  /** `x[:n]`: lists and strings slice, anything else raises. */
  function SliceTo(x: Json, n: int): (r: Result<Json, PyError>)
    ensures r.Ok? <==> x.JArr? || x.JStr?
    ensures x.JArr? ==> r == Ok(JArr(x.items[..SliceEnd(n, |x.items|)]))
    ensures x.JStr? ==> r == Ok(JStr(x.s[..SliceEnd(n, |x.s|)]))
  {
    match x
    case JArr(items) => Ok(JArr(items[..SliceEnd(n, |items|)]))
    case JStr(s) => Ok(JStr(s[..SliceEnd(n, |s|)]))
    case _ => Err(TypeError)
  }

  /** `self.filings['recent'].get('files', [])` behind the `'recent' in
      self.filings` check: `None` when the check fails (the method returns
      []) and an error when a step raises (caught, the method returns []). */
  function RecentFiles(filings: Json): (r: Result<Option<Json>, PyError>)
    ensures r == Ok(None) <==> (filings.JObj? || filings.JArr? || filings.JStr?) && PyIn("recent", filings) == Ok(false)
    ensures r.Ok? && r.value.Some? <==>
      filings.JObj? && Dicts.HasKey(filings.fields, "recent") && Dicts.Get(filings.fields, "recent").value.JObj?
    ensures r.Ok? && r.value.Some? ==>
      r.value.value == Field(Dicts.Get(filings.fields, "recent").value.fields, "files", JArr([]))
  {
    var present :- PyIn("recent", filings);
    if !present then Ok(None)
    else
      var recent :- PyGetItem(filings, "recent");
      var files :- PyGet(recent, "files", JArr([]));
      Ok(Some(files))
  }

  /** `get_recent_filings(n)`: the first `n` of the recent files; [] when
      there are none or a step raises. */
  function GetRecentFilings(c: Company, n: int): (r: Json)
    ensures r.JArr? || r.JStr?
    ensures RecentFiles(c.filings).Ok? && RecentFiles(c.filings).value.Some? && RecentFiles(c.filings).value.value.JArr? ==>
      var items := RecentFiles(c.filings).value.value.items;
      && r.JArr? && r.items <= items
      && (n >= 0 ==> |r.items| == if n < |items| then n else |items|)
    ensures c.filings.JObj? && !Dicts.HasKey(c.filings.fields, "recent") ==> r == JArr([])
  {
    match RecentFiles(c.filings)
    case Ok(Some(files)) =>
      (match SliceTo(files, n)
       case Ok(v) => v
       case Err(_) => JArr([]))
    case _ => JArr([])
  }

  /** `f.get('form') == form_type`. */
  predicate FormIs(f: Json, form: string)
    requires f.JObj?
  {
    Dicts.Get(f.fields, "form") == Some(JStr(form))
  }

  /** `[f for f in filings if f.get('form') == form_type]` over a list of dicts. */
  function FilterForm(items: seq<Json>, form: string): (r: seq<Json>)
    requires forall i :: 0 <= i < |items| ==> items[i].JObj?
    ensures |r| <= |items|
    ensures forall x :: x in r <==> x in items && FormIs(x, form)
  {
    if |items| == 0 then []
    else
      var init := items[..|items| - 1];
      var last := items[|items| - 1];
      assert items == init + [last];
      FilterForm(init, form) + (if FormIs(last, form) then [last] else [])
  }

  /** The filter keeps the order: filtering a concatenation concatenates
      the filtered parts. */
  lemma {:induction false} FilterFormAppend(a: seq<Json>, b: seq<Json>, form: string)
    requires forall i :: 0 <= i < |a| ==> a[i].JObj?
    requires forall i :: 0 <= i < |b| ==> b[i].JObj?
    ensures forall i :: 0 <= i < |a + b| ==> (a + b)[i].JObj?
    ensures FilterForm(a + b, form) == FilterForm(a, form) + FilterForm(b, form)
    decreases |b|
  {
    if |b| > 0 {
      var b' := b[..|b| - 1];
      var last := b[|b| - 1];
      assert b == b' + [last];
      assert a + b == (a + b') + [last];
      FilterFormAppend(a, b', form);
      FilterFormSnoc(a + b', last, form);
      FilterFormSnoc(b', last, form);
    } else {
      assert a + b == a;
    }
  }

  /** Filtering one more file adds it when it has the form. */
  lemma FilterFormSnoc(items: seq<Json>, x: Json, form: string)
    requires forall i :: 0 <= i < |items| ==> items[i].JObj?
    requires x.JObj?
    ensures forall i :: 0 <= i < |items + [x]| ==> (items + [x])[i].JObj?
    ensures FilterForm(items + [x], form) == FilterForm(items, form) + (if FormIs(x, form) then [x] else [])
  {
    var s := items + [x];
    assert s[..|s| - 1] == items && s[|s| - 1] == x;
  }

  /** The comprehension over any files value: a list of dicts is filtered;
      an empty container gives []; anything else raises (`.get` on a
      non-dict element or key, or iterating a scalar). */
  function Filtered(files: Json, form: string): (r: Result<seq<Json>, PyError>)
    ensures files.JArr? && (forall i :: 0 <= i < |files.items| ==> files.items[i].JObj?) ==>
      r == Ok(FilterForm(files.items, form))
  {
    match files
    case JArr(items) =>
      if forall i :: 0 <= i < |items| ==> items[i].JObj? then Ok(FilterForm(items, form)) else Err(AttributeError)
    case JObj(fields) => if |fields| == 0 then Ok([]) else Err(AttributeError)
    case JStr(s) => if |s| == 0 then Ok([]) else Err(AttributeError)
    case _ => Err(TypeError)
  }

  /** `get_filing_details(form_type)`: the recent files with that form, in
      order, or all of them when `form_type` is missing or empty; [] when
      there are none or a step raises. */
  function GetFilingDetails(c: Company, formType: Option<string>): (r: Json)
    ensures c.filings.JObj? && !Dicts.HasKey(c.filings.fields, "recent") ==> r == JArr([])
    ensures RecentFiles(c.filings).Ok? && RecentFiles(c.filings).value.Some? ==>
      var files := RecentFiles(c.filings).value.value;
      && (formType.None? || formType.value == "" ==> r == files)
      && (formType.Some? && formType.value != "" && files.JArr?
          && (forall i :: 0 <= i < |files.items| ==> files.items[i].JObj?) ==>
            r == JArr(FilterForm(files.items, formType.value)))
  {
    match RecentFiles(c.filings)
    case Ok(Some(files)) =>
      if formType.Some? && formType.value != "" then
        match Filtered(files, formType.value)
        case Ok(kept) => JArr(kept)
        case Err(_) => JArr([])
      else files
    case _ => JArr([])
  }

  // ---------------------------------------------------------------------
  // Financial statements

  /** The three processors `process_financial_statements` runs, each as its
      `process_company_facts`. */
  datatype Processors = Processors(
    balance: Json -> Result<Table, BaseProcessor.Exception>,
    income: Json -> Result<Table, BaseProcessor.Exception>,
    cashFlow: Json -> Result<Table, BaseProcessor.Exception>)

  /** The frame a processor leaves: its table, or an empty frame when it
      raises. */
  function Outcome(r: Result<Table, BaseProcessor.Exception>): Table {
    match r
    case Ok(t) => t
    case Err(_) => Empty
  }

  /** `process_financial_statements()`: always the three statement keys, in
      order, each with its processor's table run on the filings, or an empty
      frame when that processor raises. */
  function ProcessFinancialStatements(c: Company, p: Processors): (r: Dicts.Dict<Table>)
    ensures Dicts.Keys(r) == ["balance_sheet", "income_statement", "cash_flow"]
    ensures Dicts.UniqueKeys(r)
    ensures Dicts.Get(r, "balance_sheet") == Some(Outcome(p.balance(c.filings)))
    ensures Dicts.Get(r, "income_statement") == Some(Outcome(p.income(c.filings)))
    ensures Dicts.Get(r, "cash_flow") == Some(Outcome(p.cashFlow(c.filings)))
  {
    var r := [("balance_sheet", Outcome(p.balance(c.filings))),
              ("income_statement", Outcome(p.income(c.filings))),
              ("cash_flow", Outcome(p.cashFlow(c.filings)))];
    Dicts.GetUnique(r, 0);
    Dicts.GetUnique(r, 1);
    Dicts.GetUnique(r, 2);
    r
  }

  /** One processor failing changes only its own entry. */
  lemma FailureIsolated(c: Company, p: Processors, q: Processors)
    requires p.income(c.filings) == q.income(c.filings) && p.cashFlow(c.filings) == q.cashFlow(c.filings)
    requires p.balance(c.filings).Err?
    ensures Dicts.Get(ProcessFinancialStatements(c, q), "income_statement") == Dicts.Get(ProcessFinancialStatements(c, p), "income_statement")
    ensures Dicts.Get(ProcessFinancialStatements(c, q), "cash_flow") == Dicts.Get(ProcessFinancialStatements(c, p), "cash_flow")
    ensures Dicts.Get(ProcessFinancialStatements(c, p), "balance_sheet") == Some(Empty)
  {
  }

  /** The processors as written. */
  const AsWrittenProcessors: Processors := Processors(
    BalanceSheetProcessor.AsWrittenProcessCompanyFacts,
    IncomeStatementProcessor.AsWrittenProcessCompanyFacts,
    CashFlowProcessor.AsWrittenProcessCompanyFacts)

  /** With the processors as written, every statement comes out empty,
      whatever the filings. */
  lemma AsWrittenAllEmpty(c: Company)
    ensures var r := ProcessFinancialStatements(c, AsWrittenProcessors);
      && Dicts.Get(r, "balance_sheet") == Some(Empty)
      && Dicts.Get(r, "income_statement") == Some(Empty)
      && Dicts.Get(r, "cash_flow") == Some(Empty)
  {
    assert BalanceSheetProcessor.AsWrittenProcessCompanyFacts(c.filings).Err?;
    assert IncomeStatementProcessor.AsWrittenProcessCompanyFacts(c.filings).Err?;
    assert CashFlowProcessor.AsWrittenProcessCompanyFacts(c.filings).Err?;
  }

  /** The processors with the section mappings supplied. */
  function IntendedProcessors(balance: seq<Dicts.Dict<string>>, income: seq<Dicts.Dict<string>>,
                              cashFlow: seq<Dicts.Dict<string>>, toDate: Cell -> Cell): Processors {
    Processors(
      f => BalanceSheetProcessor.ProcessCompanyFacts(f, balance, toDate),
      f => IncomeStatementProcessor.ProcessCompanyFacts(f, income, toDate),
      f => CashFlowProcessor.ProcessCompanyFacts(f, cashFlow, toDate))
  }

  /** The method hands the processors the submission `filings`, not company
      facts: a filings dict without `us-gaap` (the shape the filing methods
      above read, with `recent`) gives three empty statements even with the
      mappings supplied. */
  lemma FilingsHaveNoFacts(c: Company, balance: seq<Dicts.Dict<string>>, income: seq<Dicts.Dict<string>>,
                           cashFlow: seq<Dicts.Dict<string>>, toDate: Cell -> Cell)
    requires c.filings.JObj? && !Dicts.HasKey(c.filings.fields, "us-gaap")
    ensures var r := ProcessFinancialStatements(c, IntendedProcessors(balance, income, cashFlow, toDate));
      && Dicts.Get(r, "balance_sheet") == Some(Empty)
      && Dicts.Get(r, "income_statement") == Some(Empty)
      && Dicts.Get(r, "cash_flow") == Some(Empty)
  {
    assert BalanceSheetProcessor.ProcessCompanyFacts(c.filings, balance, toDate).Err?;
    assert IncomeStatementProcessor.ProcessCompanyFacts(c.filings, income, toDate).Err?;
    assert CashFlowProcessor.ProcessCompanyFacts(c.filings, cashFlow, toDate).Err?;
  }
}

=== FILE: data_processor.dfy ===
/** `facts_to_dataframe` (src/utils/data_processor.py): the company facts
    document flattened into one frame per taxonomy, concept and unit. */
module DataProcessor {
  import opened Wrappers
  import opened Json
  import opened Tables
  import Dicts
  import BaseProcessor

  /** One unit of one concept of one taxonomy: what a single pass of the
      innermost loop works on. */
  datatype Entry = Entry(taxonomy: string, concept: string, caption: Json, unit: string, values: Json)

  /** The key a frame is stored under: `f"{taxonomy}_{concept_name}_{unit_type}"`. */
  function Key(e: Entry): string {
    e.taxonomy + "_" + e.concept + "_" + e.unit
  }

  /** The metadata column names every frame gets. */
  const Metadata: seq<string> := ["taxonomy", "concept", "unit", "label"]

  /** Convert column `c` in place when the frame has it. */
  function ConvertIfPresent(df: Table, c: string, toDate: Cell -> Cell): (r: Table)
    ensures r.names == df.names && |r.rows| == |df.rows|
    ensures c in df.names ==> forall i :: 0 <= i < |df.rows| ==> CellAt(r.rows[i], c) == toDate(CellAt(df.rows[i], c))
    ensures forall d :: d != c ==> Column(r, d) == Column(df, d)
    ensures c !in df.names ==> r == df
  {
    if c in df.names then BaseProcessor.ConvertColumn(df, c, toDate) else df
  }

  /** Every row of the frame carries the entry's metadata. */
  predicate CarriesMetadata(t: Table, e: Entry) {
    forall i :: 0 <= i < |t.rows| ==>
      && CellAt(t.rows[i], "taxonomy") == Of(JStr(e.taxonomy))
      && CellAt(t.rows[i], "concept") == Of(JStr(e.concept))
      && CellAt(t.rows[i], "unit") == Of(JStr(e.unit))
      && CellAt(t.rows[i], "label") == Of(e.caption)
  }

  /** The four metadata columns set to the taxonomy, concept, unit and label. */
  function Tagged(df: Table, e: Entry): (r: Table)
    ensures |r.rows| == |df.rows|
    ensures forall c :: c in r.names <==> c in Metadata || c in df.names
    ensures CarriesMetadata(r, e)
  {
    var t1 := SetConstant(df, "taxonomy", Of(JStr(e.taxonomy)));
    var t2 := SetConstant(t1, "concept", Of(JStr(e.concept)));
    var t3 := SetConstant(t2, "unit", Of(JStr(e.unit)));
    var r := SetConstant(t3, "label", Of(e.caption));
    assert Column(r, "taxonomy") == Column(t3, "taxonomy") == Column(t2, "taxonomy") == Column(t1, "taxonomy");
    assert Column(r, "concept") == Column(t3, "concept") == Column(t2, "concept");
    assert Column(r, "unit") == Column(t3, "unit");
    SameColumnCells(r, t1, "taxonomy");
    SameColumnCells(r, t2, "concept");
    SameColumnCells(r, t3, "unit");
    r
  }

  /** `end` and `filed` converted to dates where present; nothing else changes. */
  function Dated(t: Table, toDate: Cell -> Cell): (r: Table)
    ensures r.names == t.names && |r.rows| == |t.rows|
    ensures forall c :: c != "end" && c != "filed" ==> Column(r, c) == Column(t, c)
  {
    ConvertIfPresent(ConvertIfPresent(t, "end", toDate), "filed", toDate)
  }

  /** Converting the dates keeps the metadata. */
  lemma DatedKeepsMetadata(t: Table, e: Entry, toDate: Cell -> Cell)
    requires CarriesMetadata(t, e)
    ensures CarriesMetadata(Dated(t, toDate), e)
  {
    var r := Dated(t, toDate);
    SameColumnCells(r, t, "taxonomy");
    SameColumnCells(r, t, "concept");
    SameColumnCells(r, t, "unit");
    SameColumnCells(r, t, "label");
  }

  /** The frame of one unit: `pd.DataFrame(values)`, the four metadata
      columns set to the taxonomy, concept, unit and label, and `end` and
      `filed` converted to dates. A frame is built exactly when the values
      are a list of records; it has one row per record, and every row
      carries the metadata. */
  function UnitFrame(e: Entry, toDate: Cell -> Cell): (r: Result<Table, PyError>)
    ensures r.Ok? <==> e.values.JArr? && forall i :: 0 <= i < |e.values.items| ==> e.values.items[i].JObj?
    ensures r.Ok? ==> |r.value.rows| == |e.values.items|
    ensures r.Ok? ==> forall c :: c in r.value.names <==> c in Metadata || SomeRecordHas(e.values.items, c)
    ensures r.Ok? ==> CarriesMetadata(r.value, e)
  {
    var df :- Records(e.values);
    var t := Tagged(df, e);
    var r := Dated(t, toDate);
    DatedKeepsMetadata(t, e, toDate);
    Ok(r)
  }

  /** ---- the flat reference: one loop over all units ---- */

  /** Store the frame of every entry under its key, in order, so that a later
      entry replaces an earlier one with the same key; the first entry whose
      frame cannot be built aborts with its error. */
  function Store(acc: Dicts.Dict<Table>, entries: seq<Entry>, frame: Entry -> Result<Table, PyError>): (r: Result<Dicts.Dict<Table>, PyError>)
    ensures r.Ok? <==> forall i :: 0 <= i < |entries| ==> frame(entries[i]).Ok?
    decreases |entries|
  {
    if |entries| == 0 then Ok(acc)
    else
      var df :- frame(entries[0]);
      assert forall i :: 1 <= i < |entries| ==> entries[i] == entries[1..][i - 1];
      Store(Dicts.Put(acc, Key(entries[0]), df), entries[1..], frame)
  }

  /** No later entry has the same key as entry `i`. */
  predicate LastWithKey(entries: seq<Entry>, i: int)
    requires 0 <= i < |entries|
  {
    forall j :: i < j < |entries| ==> Key(entries[j]) != Key(entries[i])
  }

  /** Storing a non-empty sequence stores the first entry's frame, then the rest. */
  lemma StoreFirst(acc: Dicts.Dict<Table>, entries: seq<Entry>, frame: Entry -> Result<Table, PyError>)
    requires Store(acc, entries, frame).Ok? && |entries| > 0
    ensures frame(entries[0]).Ok?
    ensures Store(acc, entries, frame) == Store(Dicts.Put(acc, Key(entries[0]), frame(entries[0]).value), entries[1..], frame)
  {
  }

  /** Some entry has key `k`. */
  predicate Keyed(entries: seq<Entry>, k: string) {
    exists i :: 0 <= i < |entries| && Key(entries[i]) == k
  }

  /** A key is stored exactly when the accumulator or some entry has it. */
  lemma {:induction false} StoreKeys(acc: Dicts.Dict<Table>, entries: seq<Entry>, frame: Entry -> Result<Table, PyError>, k: string)
    requires Store(acc, entries, frame).Ok?
    ensures Dicts.HasKey(Store(acc, entries, frame).value, k) <==>
      Dicts.HasKey(acc, k) || Keyed(entries, k)
    decreases |entries|
  {
    if |entries| > 0 {
      var e, rest := entries[0], entries[1..];
      StoreFirst(acc, entries, frame);
      var acc' := Dicts.Put(acc, Key(e), frame(e).value);
      StoreKeys(acc', rest, frame, k);
      Dicts.PutHasKey(acc, Key(e), frame(e).value, k);
      if Keyed(rest, k) {
        var i :| 0 <= i < |rest| && Key(rest[i]) == k;
        assert Key(entries[i + 1]) == k;
      }
      if Keyed(entries, k) {
        var i :| 0 <= i < |entries| && Key(entries[i]) == k;
        if i > 0 { assert Key(rest[i - 1]) == k; }
      }
    }
  }

  /** A key no entry has keeps its accumulated frame. */
  lemma {:induction false} StoreOthers(acc: Dicts.Dict<Table>, entries: seq<Entry>, frame: Entry -> Result<Table, PyError>, k: string)
    requires Store(acc, entries, frame).Ok?
    requires forall i :: 0 <= i < |entries| ==> Key(entries[i]) != k
    ensures Dicts.Get(Store(acc, entries, frame).value, k) == Dicts.Get(acc, k)
    decreases |entries|
  {
    if |entries| > 0 {
      StoreFirst(acc, entries, frame);
      var rest := entries[1..];
      var acc' := Dicts.Put(acc, Key(entries[0]), frame(entries[0]).value);
      assert Key(entries[0]) != k;
      assert Dicts.Get(acc', k) == Dicts.Get(acc, k);
      forall j | 0 <= j < |rest| ensures Key(rest[j]) != k {
        assert rest[j] == entries[j + 1];
      }
      StoreOthers(acc', rest, frame, k);
    }
  }

  /** Dropping the first entry keeps every later entry last with its key. */
  lemma LastWithKeyTail(entries: seq<Entry>, i: int)
    requires 0 < i < |entries| && LastWithKey(entries, i)
    ensures entries[1..][i - 1] == entries[i] && LastWithKey(entries[1..], i - 1)
  {
    var rest := entries[1..];
    forall j | i - 1 < j < |rest| ensures Key(rest[j]) != Key(rest[i - 1]) {
      assert rest[j] == entries[j + 1];
    }
  }

  /** The first entry, when no later entry shares its key, leaves its frame
      under its key. */
  lemma StoreLastFirst(acc: Dicts.Dict<Table>, entries: seq<Entry>, frame: Entry -> Result<Table, PyError>)
    requires Store(acc, entries, frame).Ok? && |entries| > 0 && LastWithKey(entries, 0)
    ensures frame(entries[0]).Ok?
    ensures Dicts.Get(Store(acc, entries, frame).value, Key(entries[0])) == Some(frame(entries[0]).value)
  {
    var e, rest := entries[0], entries[1..];
    StoreFirst(acc, entries, frame);
    var acc' := Dicts.Put(acc, Key(e), frame(e).value);
    assert forall j :: 0 <= j < |rest| ==> Key(rest[j]) != Key(e) by {
      forall j | 0 <= j < |rest| ensures Key(rest[j]) != Key(e) {
        assert rest[j] == entries[j + 1];
      }
    }
    StoreOthers(acc', rest, frame, Key(e));
  }

  /** The key of the last entry with that key maps to that entry's frame. */
  lemma {:induction false} StoreLast(acc: Dicts.Dict<Table>, entries: seq<Entry>, frame: Entry -> Result<Table, PyError>, i: int)
    requires Store(acc, entries, frame).Ok?
    requires 0 <= i < |entries| && LastWithKey(entries, i)
    ensures frame(entries[i]).Ok?
    ensures Dicts.Get(Store(acc, entries, frame).value, Key(entries[i])) == Some(frame(entries[i]).value)
    decreases |entries|
  {
    if i > 0 {
      StoreFirst(acc, entries, frame);
      LastWithKeyTail(entries, i);
      StoreLast(Dicts.Put(acc, Key(entries[0]), frame(entries[0]).value), entries[1..], frame, i - 1);
    } else {
      StoreLastFirst(acc, entries, frame);
    }
  }

  /** Storing keeps keys unique. */
  lemma {:induction false} StoreUnique(acc: Dicts.Dict<Table>, entries: seq<Entry>, frame: Entry -> Result<Table, PyError>)
    requires Store(acc, entries, frame).Ok? && Dicts.UniqueKeys(acc)
    ensures Dicts.UniqueKeys(Store(acc, entries, frame).value)
    decreases |entries|
  {
    if |entries| > 0 {
      StoreFirst(acc, entries, frame);
      StoreUnique(Dicts.Put(acc, Key(entries[0]), frame(entries[0]).value), entries[1..], frame);
    }
  }

  /** Storing a concatenation stores the first part, then the second. */
  lemma {:induction false} StoreAppend(acc: Dicts.Dict<Table>, a: seq<Entry>, b: seq<Entry>, frame: Entry -> Result<Table, PyError>)
    ensures Store(acc, a + b, frame) ==
      (match Store(acc, a, frame)
       case Ok(m) => Store(m, b, frame)
       case Err(e) => Err(e))
    decreases |a|
  {
    if |a| > 0 {
      assert (a + b)[0] == a[0] && (a + b)[1..] == a[1..] + b;
      match frame(a[0])
      case Ok(df) => StoreAppend(Dicts.Put(acc, Key(a[0]), df), a[1..], b, frame);
      case Err(_) =>
    } else {
      assert a + b == b;
    }
  }

  /** ---- the nested loops as written ---- */

  /** The entries of one concept's units, all with the concept's label. */
  function UnitEntries(taxonomy: string, concept: string, caption: Json, units: seq<(string, Json)>): (r: seq<Entry>)
    ensures |r| == |units|
    ensures forall k :: 0 <= k < |units| ==> r[k] == Entry(taxonomy, concept, caption, units[k].0, units[k].1)
  {
    seq(|units|, k requires 0 <= k < |units| => Entry(taxonomy, concept, caption, units[k].0, units[k].1))
  }

  /** The innermost loop: one frame per unit, stored under its key. */
  function StoreUnits(acc: Dicts.Dict<Table>, taxonomy: string, concept: string, caption: Json,
                      units: seq<(string, Json)>, frame: Entry -> Result<Table, PyError>): (r: Result<Dicts.Dict<Table>, PyError>)
    ensures r == Store(acc, UnitEntries(taxonomy, concept, caption, units), frame)
    decreases |units|
  {
    if |units| == 0 then Ok(acc)
    else
      var e := Entry(taxonomy, concept, caption, units[0].0, units[0].1);
      var df :- frame(e);
      var r := StoreUnits(Dicts.Put(acc, Key(e), df), taxonomy, concept, caption, units[1..], frame);
      assert UnitEntries(taxonomy, concept, caption, units)[1..] == UnitEntries(taxonomy, concept, caption, units[1..]);
      r
  }

  /** The units a concept contributes, read as the loop reads them:
      `concept_data.get('units')` (a non-dict concept raises), nothing when
      that is falsy, else the items of `concept_data['units']` (a truthy
      non-dict raises) with `concept_data.get('label', '')`. */
  function ConceptUnits(data: Json): (r: Result<(seq<(string, Json)>, Json), PyError>)
    ensures r.Ok? <==> data.JObj? && (var u := Dicts.Get(data.fields, "units"); u.None? || !Truthy(u.value) || u.value.JObj?)
    ensures r.Ok? && |r.value.0| > 0 ==> Dicts.Get(data.fields, "units") == Some(JObj(r.value.0))
    ensures r.Ok? && (Dicts.Get(data.fields, "units").None? || !Truthy(Dicts.Get(data.fields, "units").value)) ==> r.value.0 == []
    ensures r.Ok? ==> r.value.1 == Dicts.Get(data.fields, "label").GetOr(JStr(""))
  {
    var units :- PyGet(data, "units", JNull);
    var caption := Dicts.Get(data.fields, "label").GetOr(JStr(""));
    if !Truthy(units) then Ok(([], caption))
    else
      var unitItems :- PyItems(units);
      Ok((unitItems, caption))
  }

  /** The loop over one taxonomy's concepts. */
  function StoreConcepts(acc: Dicts.Dict<Table>, taxonomy: string, concepts: seq<(string, Json)>,
                         frame: Entry -> Result<Table, PyError>): (r: Result<Dicts.Dict<Table>, PyError>)
    decreases |concepts|
  {
    if |concepts| == 0 then Ok(acc)
    else
      var (units, caption) :- ConceptUnits(concepts[0].1);
      var acc' :- StoreUnits(acc, taxonomy, concepts[0].0, caption, units, frame);
      StoreConcepts(acc', taxonomy, concepts[1..], frame)
  }

  /** The loop over the taxonomies (`concepts.items()` raises on a non-dict). */
  function StoreTaxonomies(acc: Dicts.Dict<Table>, taxonomies: seq<(string, Json)>,
                           frame: Entry -> Result<Table, PyError>): (r: Result<Dicts.Dict<Table>, PyError>)
    decreases |taxonomies|
  {
    if |taxonomies| == 0 then Ok(acc)
    else
      var concepts :- PyItems(taxonomies[0].1);
      var acc' :- StoreConcepts(acc, taxonomies[0].0, concepts, frame);
      StoreTaxonomies(acc', taxonomies[1..], frame)
  }

  /** `facts_to_dataframe`: the taxonomies under `facts` (none when the key
      is missing) walked by the nested loops. */
  function FactsToDataframe(facts: Json, toDate: Cell -> Cell): (r: Result<Dicts.Dict<Table>, PyError>)
    ensures !facts.JObj? ==> r.Err?
    ensures facts.JObj? && !Dicts.HasKey(facts.fields, "facts") ==> r == Ok([])
  {
    var taxonomies :- PyGet(facts, "facts", JObj([]));
    var items :- PyItems(taxonomies);
    StoreTaxonomies([], items, Framer(toDate))
  }

  /** The frame builder the loops use. */
  function Framer(toDate: Cell -> Cell): Entry -> Result<Table, PyError> {
    e => UnitFrame(e, toDate)
  }

  /** ---- the nested loops against the flat reference ---- */

  /** All the entries of one taxonomy's concepts, in loop order; a concept
      whose units are missing or falsy contributes none. */
  function ConceptEntries(taxonomy: string, concepts: seq<(string, Json)>): (r: Result<seq<Entry>, PyError>)
    ensures r.Ok? <==> forall j :: 0 <= j < |concepts| ==> ConceptUnits(concepts[j].1).Ok?
    decreases |concepts|
  {
    if |concepts| == 0 then Ok([])
    else
      var (units, caption) :- ConceptUnits(concepts[0].1);
      var rest :- ConceptEntries(taxonomy, concepts[1..]);
      assert forall j :: 1 <= j < |concepts| ==> concepts[j] == concepts[1..][j - 1];
      Ok(UnitEntries(taxonomy, concepts[0].0, caption, units) + rest)
  }

  /** All the entries of all taxonomies, in loop order. */
  function Entries(taxonomies: seq<(string, Json)>): (r: Result<seq<Entry>, PyError>)
    decreases |taxonomies|
  {
    if |taxonomies| == 0 then Ok([])
    else
      var concepts :- PyItems(taxonomies[0].1);
      var first :- ConceptEntries(taxonomies[0].0, concepts);
      var rest :- Entries(taxonomies[1..]);
      Ok(first + rest)
  }

  /** The concept loop stores exactly the concept entries, one after the
      other. */
  lemma {:induction false} StoreConceptsFlat(acc: Dicts.Dict<Table>, taxonomy: string, concepts: seq<(string, Json)>,
                                             frame: Entry -> Result<Table, PyError>)
    ensures ConceptEntries(taxonomy, concepts).Ok? ==>
      StoreConcepts(acc, taxonomy, concepts, frame) == Store(acc, ConceptEntries(taxonomy, concepts).value, frame)
    ensures ConceptEntries(taxonomy, concepts).Err? ==> StoreConcepts(acc, taxonomy, concepts, frame).Err?
    decreases |concepts|
  {
    if |concepts| > 0 {
      var cu := ConceptUnits(concepts[0].1);
      if cu.Ok? {
        var (units, caption) := cu.value;
        var mine := UnitEntries(taxonomy, concepts[0].0, caption, units);
        var rest := ConceptEntries(taxonomy, concepts[1..]);
        if rest.Ok? { StoreAppend(acc, mine, rest.value, frame); }
        match Store(acc, mine, frame)
        case Ok(m) => StoreConceptsFlat(m, taxonomy, concepts[1..], frame);
        case Err(_) =>
      }
    }
  }

  /** The taxonomy loop stores exactly the entries, one after the other. */
  lemma {:induction false} StoreTaxonomiesFlat(acc: Dicts.Dict<Table>, taxonomies: seq<(string, Json)>,
                                               frame: Entry -> Result<Table, PyError>)
    ensures Entries(taxonomies).Ok? ==> StoreTaxonomies(acc, taxonomies, frame) == Store(acc, Entries(taxonomies).value, frame)
    ensures Entries(taxonomies).Err? ==> StoreTaxonomies(acc, taxonomies, frame).Err?
    decreases |taxonomies|
  {
    if |taxonomies| > 0 && taxonomies[0].1.JObj? {
      var concepts := taxonomies[0].1.fields;
      StoreConceptsFlat(acc, taxonomies[0].0, concepts, frame);
      var first := ConceptEntries(taxonomies[0].0, concepts);
      if first.Ok? {
        var rest := Entries(taxonomies[1..]);
        if rest.Ok? { StoreAppend(acc, first.value, rest.value, frame); }
        match Store(acc, first.value, frame)
        case Ok(m) => StoreTaxonomiesFlat(m, taxonomies[1..], frame);
        case Err(_) =>
      }
    }
  }

  /** ---- where the entries come from ---- */

  /** `data` is a concept whose `units` dict has `e`'s unit with `e`'s
      values, and whose label (default '') is `e`'s. */
  predicate HasUnit(data: Json, e: Entry) {
    && data.JObj?
    && e.caption == Dicts.Get(data.fields, "label").GetOr(JStr(""))
    && var u := Dicts.Get(data.fields, "units");
    && u.Some? && u.value.JObj?
    && exists k :: 0 <= k < |u.value.fields| && u.value.fields[k] == (e.unit, e.values)
  }

  /** `e` comes from one of the concepts of taxonomy `taxonomy`. */
  predicate ConceptOrigin(taxonomy: string, concepts: seq<(string, Json)>, e: Entry) {
    e.taxonomy == taxonomy && exists j :: 0 <= j < |concepts| && concepts[j].0 == e.concept && HasUnit(concepts[j].1, e)
  }

  /** `e` comes from a unit of a concept of a taxonomy. */
  predicate Origin(taxonomies: seq<(string, Json)>, e: Entry) {
    exists i :: 0 <= i < |taxonomies| && taxonomies[i].1.JObj? && ConceptOrigin(taxonomies[i].0, taxonomies[i].1.fields, e)
  }

  /** The entries read from one concept are exactly its units. */
  lemma ConceptUnitsMembers(taxonomy: string, concept: string, data: Json, e: Entry)
    requires ConceptUnits(data).Ok?
    ensures var (units, caption) := ConceptUnits(data).value;
      e in UnitEntries(taxonomy, concept, caption, units) <==>
        e.taxonomy == taxonomy && e.concept == concept && HasUnit(data, e)
  {
    var (units, caption) := ConceptUnits(data).value;
    var es := UnitEntries(taxonomy, concept, caption, units);
    if e in es {
      var k :| 0 <= k < |es| && es[k] == e;
      assert units[k] == (e.unit, e.values);
    }
    if e.taxonomy == taxonomy && e.concept == concept && HasUnit(data, e) {
      var u := Dicts.Get(data.fields, "units").value;
      var k :| 0 <= k < |u.fields| && u.fields[k] == (e.unit, e.values);
      assert Truthy(u);
      assert units == u.fields;
      assert es[k] == e;
    }
  }

  /** One entry is among a taxonomy's entries exactly when it comes from
      one of its concepts. */
  lemma {:induction false} ConceptEntriesMember(taxonomy: string, concepts: seq<(string, Json)>, e: Entry)
    requires ConceptEntries(taxonomy, concepts).Ok?
    ensures e in ConceptEntries(taxonomy, concepts).value <==> ConceptOrigin(taxonomy, concepts, e)
    decreases |concepts|
  {
    if |concepts| > 0 {
      var tail := concepts[1..];
      ConceptEntriesMember(taxonomy, tail, e);
      ConceptUnitsMembers(taxonomy, concepts[0].0, concepts[0].1, e);
      if ConceptOrigin(taxonomy, tail, e) {
        var j :| 0 <= j < |tail| && tail[j].0 == e.concept && HasUnit(tail[j].1, e);
        assert concepts[j + 1] == tail[j];
      }
      if ConceptOrigin(taxonomy, concepts, e) {
        var j :| 0 <= j < |concepts| && concepts[j].0 == e.concept && HasUnit(concepts[j].1, e);
        if j > 0 {
          assert tail[j - 1] == concepts[j];
        }
      }
    }
  }

  /** The entries of a taxonomy are exactly the units of its concepts: a
      concept whose units are missing or falsy contributes none. */
  lemma ConceptEntriesMembers(taxonomy: string, concepts: seq<(string, Json)>)
    requires ConceptEntries(taxonomy, concepts).Ok?
    ensures forall e :: e in ConceptEntries(taxonomy, concepts).value <==> ConceptOrigin(taxonomy, concepts, e)
  {
    forall e ensures e in ConceptEntries(taxonomy, concepts).value <==> ConceptOrigin(taxonomy, concepts, e) {
      ConceptEntriesMember(taxonomy, concepts, e);
    }
  }

  /** One entry is among all the entries exactly when it comes from a unit
      of a concept of a taxonomy. */
  lemma {:induction false} EntriesMember(taxonomies: seq<(string, Json)>, e: Entry)
    requires Entries(taxonomies).Ok?
    ensures e in Entries(taxonomies).value <==> Origin(taxonomies, e)
    decreases |taxonomies|
  {
    if |taxonomies| > 0 {
      var tail := taxonomies[1..];
      EntriesMember(tail, e);
      ConceptEntriesMember(taxonomies[0].0, taxonomies[0].1.fields, e);
      if Origin(tail, e) {
        var i :| 0 <= i < |tail| && tail[i].1.JObj? && ConceptOrigin(tail[i].0, tail[i].1.fields, e);
        assert taxonomies[i + 1] == tail[i];
      }
      if Origin(taxonomies, e) {
        var i :| 0 <= i < |taxonomies| && taxonomies[i].1.JObj? && ConceptOrigin(taxonomies[i].0, taxonomies[i].1.fields, e);
        if i > 0 {
          assert tail[i - 1] == taxonomies[i];
        }
      }
    }
  }

  /** The entries of all taxonomies are exactly the units of their concepts. */
  lemma EntriesMembers(taxonomies: seq<(string, Json)>)
    requires Entries(taxonomies).Ok?
    ensures forall e :: e in Entries(taxonomies).value <==> Origin(taxonomies, e)
  {
    forall e ensures e in Entries(taxonomies).value <==> Origin(taxonomies, e) {
      EntriesMember(taxonomies, e);
    }
  }

  /** The entries of a facts document, in loop order. */
  function FactEntries(facts: Json): (r: Result<seq<Entry>, PyError>)
    ensures r.Ok? ==> && facts.JObj? && Dicts.Get(facts.fields, "facts").GetOr(JObj([])).JObj?
                      && forall e :: e in r.value <==> Origin(Dicts.Get(facts.fields, "facts").GetOr(JObj([])).fields, e)
  {
    var taxonomies :- PyGet(facts, "facts", JObj([]));
    var items :- PyItems(taxonomies);
    var entries :- Entries(items);
    EntriesMembers(items);
    Ok(entries)
  }

  /** Every unit frame of a stored sequence was built. */
  lemma FramesBuilt(entries: seq<Entry>, toDate: Cell -> Cell)
    requires Store([], entries, Framer(toDate)).Ok?
    ensures forall i :: 0 <= i < |entries| ==> UnitFrame(entries[i], toDate).Ok?
  {
    var frame := Framer(toDate);
    assert forall i :: 0 <= i < |entries| ==> frame(entries[i]) == UnitFrame(entries[i], toDate);
  }

  /** A key is stored exactly when some entry has it. */
  lemma StoredKeys(entries: seq<Entry>, toDate: Cell -> Cell)
    requires Store([], entries, Framer(toDate)).Ok?
    ensures var r := Store([], entries, Framer(toDate)).value;
      forall k :: Dicts.HasKey(r, k) <==> Keyed(entries, k)
  {
    var frame := Framer(toDate);
    var r := Store([], entries, frame).value;
    forall k ensures Dicts.HasKey(r, k) <==> Keyed(entries, k) {
      StoreKeys([], entries, frame, k);
    }
  }

  /** The frame under a key is the one built for the last entry with it. */
  lemma StoredLast(entries: seq<Entry>, toDate: Cell -> Cell)
    requires Store([], entries, Framer(toDate)).Ok?
    ensures var r := Store([], entries, Framer(toDate)).value;
      forall i :: 0 <= i < |entries| && LastWithKey(entries, i) ==>
        Dicts.Get(r, Key(entries[i])) == Some(UnitFrame(entries[i], toDate).value)
  {
    var frame := Framer(toDate);
    var r := Store([], entries, frame).value;
    forall i | 0 <= i < |entries| && LastWithKey(entries, i)
      ensures Dicts.Get(r, Key(entries[i])) == Some(UnitFrame(entries[i], toDate).value)
    {
      StoreLast([], entries, frame, i);
    }
  }

  /** `facts_to_dataframe` stores every unit of every concept of every
      taxonomy, and nothing else: a key is present exactly when some unit
      has it, the frame under it is the one built for the LAST unit with
      that key, and no key is stored twice. */
  lemma FactsToDataframeContents(facts: Json, toDate: Cell -> Cell)
    requires FactsToDataframe(facts, toDate).Ok?
    ensures FactEntries(facts).Ok?
    ensures forall i :: 0 <= i < |FactEntries(facts).value| ==> UnitFrame(FactEntries(facts).value[i], toDate).Ok?
    ensures var r := FactsToDataframe(facts, toDate).value;
      var entries := FactEntries(facts).value;
      && (forall k :: Dicts.HasKey(r, k) <==> Keyed(entries, k))
      && (forall i :: 0 <= i < |entries| && LastWithKey(entries, i) ==>
            Dicts.Get(r, Key(entries[i])) == Some(UnitFrame(entries[i], toDate).value))
      && Dicts.UniqueKeys(r)
  {
    var taxonomies := Dicts.Get(facts.fields, "facts").GetOr(JObj([]));
    var frame := Framer(toDate);
    assert FactsToDataframe(facts, toDate) == StoreTaxonomies([], taxonomies.fields, frame);
    StoreTaxonomiesFlat([], taxonomies.fields, frame);
    var entries := Entries(taxonomies.fields).value;
    assert FactEntries(facts) == Ok(entries);
    assert FactsToDataframe(facts, toDate) == Store([], entries, frame);
    FramesBuilt(entries, toDate);
    StoredKeys(entries, toDate);
    StoredLast(entries, toDate);
    StoreUnique([], entries, frame);
  }
}

=== FILE: dicts.dfy ===
/** Python dicts as insertion-ordered association lists. Lookups return the
    first entry with the key; `Put` keeps keys unique, so on dicts it builds
    the first entry is the only one. */
module Dicts {
  import opened Wrappers

  type Dict<V> = seq<(string, V)>

  /** `k` is a key of the dict. */
  predicate HasKey<V>(d: Dict<V>, k: string) {
    exists i :: 0 <= i < |d| && d[i].0 == k
  }

  /** No key occurs twice. */
  predicate UniqueKeys<V>(d: Dict<V>) {
    forall i, j :: 0 <= i < j < |d| ==> d[i].0 != d[j].0
  }

  /** `list(d.keys())`. */
  function Keys<V>(d: Dict<V>): (r: seq<string>)
    ensures |r| == |d|
    ensures forall i :: 0 <= i < |d| ==> r[i] == d[i].0
  {
    if |d| == 0 then [] else [d[0].0] + Keys(d[1..])
  }

  /** The value stored under `k` (the first entry with that key). */
  function Get<V>(d: Dict<V>, k: string): (r: Option<V>)
    ensures r.Some? <==> HasKey(d, k)
    ensures r.Some? ==> exists i :: 0 <= i < |d| && d[i] == (k, r.value)
  {
    if |d| == 0 then None
    else if d[0].0 == k then Some(d[0].1)
    else
      var r := Get(d[1..], k);
      assert HasKey(d[1..], k) ==> HasKey(d, k);
      assert HasKey(d, k) ==> HasKey(d[1..], k) by {
        if HasKey(d, k) {
          var i :| 0 <= i < |d| && d[i].0 == k;
          assert i > 0 && d[1..][i - 1].0 == k;
        }
      }
      r
  }

  /** In a dict without repeated keys, `Get` finds the entry at any position. */
  lemma {:induction false} GetUnique<V>(d: Dict<V>, i: nat)
    requires UniqueKeys(d) && i < |d|
    ensures Get(d, d[i].0) == Some(d[i].1)
  {
    if i > 0 {
      assert d[1..][i - 1] == d[i];
      GetUnique(d[1..], i - 1);
    }
  }

  /** The tail of a dict without repeated keys has none either, and does
      not have the first key. */
  lemma UniqueTail<V>(d: Dict<V>)
    requires UniqueKeys(d) && |d| > 0
    ensures UniqueKeys(d[1..]) && !HasKey(d[1..], d[0].0)
  {
    forall i, j | 0 <= i < j < |d[1..]| ensures d[1..][i].0 != d[1..][j].0 {
      assert d[1..][i] == d[i + 1] && d[1..][j] == d[j + 1];
    }
    forall i | 0 <= i < |d[1..]| ensures d[1..][i].0 != d[0].0 {
      assert d[1..][i] == d[i + 1];
    }
  }

  /** A prefix of a dict without repeated keys has none either. */
  lemma UniquePrefix<V>(d: Dict<V>)
    requires UniqueKeys(d) && |d| > 0
    ensures UniqueKeys(d[..|d| - 1])
  {
    var p := d[..|d| - 1];
    forall i, j | 0 <= i < j < |p| ensures p[i].0 != p[j].0 {
      assert p[i] == d[i] && p[j] == d[j];
    }
  }

  /** A new key in front of a dict without repeated keys repeats none. */
  lemma UniqueCons<V>(x: (string, V), d: Dict<V>)
    requires UniqueKeys(d) && !HasKey(d, x.0)
    ensures UniqueKeys([x] + d)
  {
    var r := [x] + d;
    forall i, j | 0 <= i < j < |r| ensures r[i].0 != r[j].0 {
      assert r[j] == d[j - 1];
      if i > 0 { assert r[i] == d[i - 1]; }
    }
  }

  /** `d[k] = v`: an existing key keeps its position and takes the new value;
      a new key goes at the end. */
  function Put<V>(d: Dict<V>, k: string, v: V): (r: Dict<V>)
    ensures Get(r, k) == Some(v)
    ensures forall k' :: k' != k ==> Get(r, k') == Get(d, k')
    ensures HasKey(d, k) ==> |r| == |d| && forall i :: 0 <= i < |d| ==> r[i].0 == d[i].0
    ensures !HasKey(d, k) ==> r == d + [(k, v)]
    ensures UniqueKeys(d) ==> UniqueKeys(r)
  {
    if |d| == 0 then [(k, v)]
    else if d[0].0 == k then
      var r := [(k, v)] + d[1..];
      PutFront(d, k, v, r);
      r
    else
      var rest := Put(d[1..], k, v);
      var r := [d[0]] + rest;
      PutConsGet(d, k, v, rest, r);
      PutConsKeys(d, k, v, rest, r);
      assert UniqueKeys(d) ==> UniqueKeys(r) by {
        if UniqueKeys(d) {
          UniqueTail(d);
          assert Get(rest, d[0].0) == Get(d[1..], d[0].0);
          UniqueCons(d[0], rest);
        }
      }
      r
  }

  /** Overwriting the first entry keeps every other lookup and every key. */
  lemma PutFront<V>(d: Dict<V>, k: string, v: V, r: Dict<V>)
    requires |d| > 0 && d[0].0 == k && r == [(k, v)] + d[1..]
    ensures Get(r, k) == Some(v)
    ensures forall k' :: k' != k ==> Get(r, k') == Get(d, k')
    ensures HasKey(d, k) && |r| == |d| && forall i :: 0 <= i < |d| ==> r[i].0 == d[i].0
    ensures UniqueKeys(d) ==> UniqueKeys(r)
  {
    assert r[1..] == d[1..];
    assert d[0].0 == k;
    forall i | 0 <= i < |d| ensures r[i].0 == d[i].0 {
      if i > 0 { assert r[i] == d[i]; }
    }
  }

  /** Lookups after putting into the tail behind a different first key. */
  lemma PutConsGet<V>(d: Dict<V>, k: string, v: V, rest: Dict<V>, r: Dict<V>)
    requires |d| > 0 && d[0].0 != k && r == [d[0]] + rest
    requires Get(rest, k) == Some(v)
    requires forall k' :: k' != k ==> Get(rest, k') == Get(d[1..], k')
    ensures Get(r, k) == Some(v)
    ensures forall k' :: k' != k ==> Get(r, k') == Get(d, k')
  {
    assert r[1..] == rest && r[0] == d[0];
    forall k' | k' != k ensures Get(r, k') == Get(d, k') {
      if d[0].0 != k' {
        assert Get(r, k') == Get(rest, k');
      }
    }
  }

  /** Keys after putting into the tail behind a different first key. */
  lemma PutConsKeys<V>(d: Dict<V>, k: string, v: V, rest: Dict<V>, r: Dict<V>)
    requires |d| > 0 && d[0].0 != k && r == [d[0]] + rest
    requires HasKey(d[1..], k) ==> |rest| == |d[1..]| && forall i :: 0 <= i < |d[1..]| ==> rest[i].0 == d[1..][i].0
    requires !HasKey(d[1..], k) ==> rest == d[1..] + [(k, v)]
    ensures HasKey(d, k) ==> |r| == |d| && forall i :: 0 <= i < |d| ==> r[i].0 == d[i].0
    ensures !HasKey(d, k) ==> r == d + [(k, v)]
  {
    assert HasKey(d, k) <==> HasKey(d[1..], k) by {
      if HasKey(d, k) {
        var i :| 0 <= i < |d| && d[i].0 == k;
        assert i > 0 && d[1..][i - 1].0 == k;
      }
      if HasKey(d[1..], k) {
        var i :| 0 <= i < |d[1..]| && d[1..][i].0 == k;
        assert d[i + 1].0 == k;
      }
    }
    if HasKey(d, k) {
      forall i | 0 <= i < |d| ensures r[i].0 == d[i].0 {
        if i > 0 { assert r[i] == rest[i - 1] && d[i] == d[1..][i - 1]; }
      }
    } else {
      assert d == [d[0]] + d[1..];
    }
  }

  /** Every entry of `Put(d, k, v)` is the new one or an entry of `d`. */
  lemma {:induction false} PutEntries<V>(d: Dict<V>, k: string, v: V, i: nat)
    requires i < |Put(d, k, v)|
    ensures Put(d, k, v)[i] == (k, v) || Put(d, k, v)[i] in d
  {
    if |d| > 0 && d[0].0 != k && i > 0 {
      PutEntries(d[1..], k, v, i - 1);
    }
  }

  /** The keys after `Put`: the old ones and the new one. */
  lemma PutHasKey<V>(d: Dict<V>, k: string, v: V, k': string)
    ensures HasKey(Put(d, k, v), k') <==> HasKey(d, k') || k' == k
  {
    if k' != k {
      assert Get(Put(d, k, v), k') == Get(d, k');
    }
  }

  /** The keys listed by `Keys` are exactly the keys of the dict. */
  lemma KeysHasKey<V>(d: Dict<V>, k: string)
    ensures k in Keys(d) <==> HasKey(d, k)
  {
    if k in Keys(d) {
      var j :| 0 <= j < |d| && Keys(d)[j] == k;
      assert d[j].0 == k;
    }
    if HasKey(d, k) {
      var j :| 0 <= j < |d| && d[j].0 == k;
      assert Keys(d)[j] == k;
    }
  }
}

=== FILE: income_statement_processor.dfy ===
/** `IncomeStatementProcessor` (src/processors/income_statement_processor.py). */
module IncomeStatementProcessor {
  import opened Wrappers
  import opened Json
  import opened Tables
  import Dicts
  import opened BaseProcessor
  import StatementPipeline

  /** The fields an income statement must have (the source's spelling). */
  const Required: seq<string> := ["Revenue", "Gross Profit", "Operating Income", "Net Income (loss) (continous operations)"]

  const Income: StatementPipeline.Statement := StatementPipeline.Statement(
    "process income statement", "No income statement data found", "IncomeStatementTemplate", "REVENUE_MAPPING", Required)

  /** The columns `_calculate_derived_fields` may add. */
  predicate Derived(c: string) {
    c == "Gross Profit Margin" || c == "Operating Margin" || c == "Net Profit Margin"
  }

  /** Some step of `_calculate_derived_fields` raises on `df`: a
      numerator or `Revenue` holds a value that is not a number. */
  predicate DerivedRaises(df: Table) {
    || StatementPipeline.StepRaises(df, "Gross Profit", "Revenue")
    || StatementPipeline.StepRaises(df, "Operating Income", "Revenue")
    || StatementPipeline.StepRaises(df, "Net Income (loss) (continous operations)", "Revenue")
  }

  /** `_calculate_derived_fields`: the gross, operating and net profit
      margins are added in turn, each only when its numerator and `Revenue`
      are columns. The columns are assigned to `df` in place, so when a
      step raises, the `except` branch returns the frame with the margins
      added before it. Every other column keeps its values (see
      `DerivedFieldValues` for the added ones). */
  function CalculateDerivedFields(df: Table): (r: Table)
    ensures forall c :: HasColumn(r, c) ==> HasColumn(df, c) || Derived(c)
    ensures forall c :: HasColumn(df, c) ==> HasColumn(r, c)
    ensures forall c :: HasColumn(df, c) && !Derived(c) ==> Column(r, c) == Column(df, c)
    ensures StatementPipeline.StepRaises(df, "Gross Profit", "Revenue") ==> r == df
  {
    var gross, operating, net := "Gross Profit Margin", "Operating Margin", "Net Profit Margin";
    var netIncome := "Net Income (loss) (continous operations)";
    match StatementPipeline.TryWithColumn(df, gross, "Gross Profit", "Revenue", StatementPipeline.Percent)
    case None => df
    case Some(t1) =>
      StatementPipeline.WithColumnFrame(df, gross, "Gross Profit", "Revenue", StatementPipeline.Percent);
      match StatementPipeline.TryWithColumn(t1, operating, "Operating Income", "Revenue", StatementPipeline.Percent)
      case None => t1
      case Some(t2) =>
        StatementPipeline.WithColumnFrame(t1, operating, "Operating Income", "Revenue", StatementPipeline.Percent);
        match StatementPipeline.TryWithColumn(t2, net, netIncome, "Revenue", StatementPipeline.Percent)
        case None => t2
        case Some(t3) =>
          StatementPipeline.WithColumnFrame(t2, net, netIncome, "Revenue", StatementPipeline.Percent);
          t3
  }

  /** The three frames `_calculate_derived_fields` may return, and which
      step's failure returns which. */
  lemma DerivedSteps(df: Table)
    ensures var gross, operating, net := "Gross Profit Margin", "Operating Margin", "Net Profit Margin";
      var netIncome := "Net Income (loss) (continous operations)";
      var t1 := StatementPipeline.WithColumn(df, gross, "Gross Profit", "Revenue", StatementPipeline.Percent);
      var t2 := StatementPipeline.WithColumn(t1, operating, "Operating Income", "Revenue", StatementPipeline.Percent);
      var r := CalculateDerivedFields(df);
      && (StatementPipeline.StepRaises(df, "Gross Profit", "Revenue") ==> r == df)
      && ((!StatementPipeline.StepRaises(df, "Gross Profit", "Revenue")
           && StatementPipeline.StepRaises(df, "Operating Income", "Revenue")) ==> r == t1)
      && ((!StatementPipeline.StepRaises(df, "Gross Profit", "Revenue")
           && !StatementPipeline.StepRaises(df, "Operating Income", "Revenue")
           && StatementPipeline.StepRaises(df, netIncome, "Revenue")) ==> r == t2)
      && (!DerivedRaises(df) ==> r == StatementPipeline.WithColumn(t2, net, netIncome, "Revenue", StatementPipeline.Percent))
  {
    var gross, operating := "Gross Profit Margin", "Operating Margin";
    var netIncome := "Net Income (loss) (continous operations)";
    var t1 := StatementPipeline.WithColumn(df, gross, "Gross Profit", "Revenue", StatementPipeline.Percent);
    StatementPipeline.WithColumnRaises(df, gross, "Gross Profit", "Revenue", StatementPipeline.Percent, "Operating Income", "Revenue");
    StatementPipeline.WithColumnRaises(df, gross, "Gross Profit", "Revenue", StatementPipeline.Percent, netIncome, "Revenue");
    StatementPipeline.WithColumnRaises(t1, operating, "Operating Income", "Revenue", StatementPipeline.Percent, netIncome, "Revenue");
  }

  /** Each margin a run adds is, row by row, its numerator over `Revenue`,
      times 100. */
  lemma DerivedFieldValues(df: Table)
    ensures var r := CalculateDerivedFields(df);
      && (HasColumn(df, "Gross Profit") && HasColumn(df, "Revenue")
          && !StatementPipeline.StepRaises(df, "Gross Profit", "Revenue") ==>
            Column(r, "Gross Profit Margin") == Zip(Column(df, "Gross Profit"), Column(df, "Revenue"), StatementPipeline.Percent))
      && (HasColumn(df, "Operating Income") && HasColumn(df, "Revenue")
          && !StatementPipeline.StepRaises(df, "Gross Profit", "Revenue")
          && !StatementPipeline.StepRaises(df, "Operating Income", "Revenue") ==>
            Column(r, "Operating Margin") == Zip(Column(df, "Operating Income"), Column(df, "Revenue"), StatementPipeline.Percent))
      && (HasColumn(df, "Net Income (loss) (continous operations)") && HasColumn(df, "Revenue") && !DerivedRaises(df) ==>
            Column(r, "Net Profit Margin") ==
              Zip(Column(df, "Net Income (loss) (continous operations)"), Column(df, "Revenue"), StatementPipeline.Percent))
  {
    var gross, operating, net := "Gross Profit Margin", "Operating Margin", "Net Profit Margin";
    var netIncome := "Net Income (loss) (continous operations)";
    var t1 := StatementPipeline.WithColumn(df, gross, "Gross Profit", "Revenue", StatementPipeline.Percent);
    var t2 := StatementPipeline.WithColumn(t1, operating, "Operating Income", "Revenue", StatementPipeline.Percent);
    DerivedSteps(df);
    if HasColumn(df, "Gross Profit") && HasColumn(df, "Revenue") {
      StatementPipeline.WithColumnKeeps(t1, operating, "Operating Income", "Revenue", StatementPipeline.Percent, gross);
      StatementPipeline.WithColumnKeeps(t2, net, netIncome, "Revenue", StatementPipeline.Percent, gross);
    }
    if HasColumn(df, "Revenue") {
      StatementPipeline.WithColumnKeeps(df, gross, "Gross Profit", "Revenue", StatementPipeline.Percent, "Revenue");
      StatementPipeline.WithColumnKeeps(t1, operating, "Operating Income", "Revenue", StatementPipeline.Percent, "Revenue");
    }
    if HasColumn(df, "Operating Income") && HasColumn(df, "Revenue") {
      StatementPipeline.WithColumnKeeps(df, gross, "Gross Profit", "Revenue", StatementPipeline.Percent, "Operating Income");
      StatementPipeline.WithColumnKeeps(t2, net, netIncome, "Revenue", StatementPipeline.Percent, operating);
    }
    if HasColumn(df, netIncome) && HasColumn(df, "Revenue") {
      StatementPipeline.WithColumnKeeps(df, gross, "Gross Profit", "Revenue", StatementPipeline.Percent, netIncome);
      StatementPipeline.WithColumnKeeps(t1, operating, "Operating Income", "Revenue", StatementPipeline.Percent, netIncome);
    }
  }

  /** A margin is present exactly when it was already there, or its
      numerator and `Revenue` are columns and neither its step nor an
      earlier one raises. */
  lemma DerivedFieldsPresent(df: Table)
    ensures var r := CalculateDerivedFields(df);
      && (HasColumn(r, "Gross Profit Margin") <==>
            || HasColumn(df, "Gross Profit Margin")
            || (HasColumn(df, "Gross Profit") && HasColumn(df, "Revenue")
                && !StatementPipeline.StepRaises(df, "Gross Profit", "Revenue")))
      && (HasColumn(r, "Operating Margin") <==>
            || HasColumn(df, "Operating Margin")
            || (HasColumn(df, "Operating Income") && HasColumn(df, "Revenue")
                && !StatementPipeline.StepRaises(df, "Gross Profit", "Revenue")
                && !StatementPipeline.StepRaises(df, "Operating Income", "Revenue")))
      && (HasColumn(r, "Net Profit Margin") <==>
            || HasColumn(df, "Net Profit Margin")
            || (HasColumn(df, "Net Income (loss) (continous operations)") && HasColumn(df, "Revenue") && !DerivedRaises(df)))
  {
    var gross, operating, net := "Gross Profit Margin", "Operating Margin", "Net Profit Margin";
    var netIncome := "Net Income (loss) (continous operations)";
    var t1 := StatementPipeline.WithColumn(df, gross, "Gross Profit", "Revenue", StatementPipeline.Percent);
    var t2 := StatementPipeline.WithColumn(t1, operating, "Operating Income", "Revenue", StatementPipeline.Percent);
    DerivedSteps(df);
    StatementPipeline.WithColumnHas(df, gross, "Gross Profit", "Revenue", StatementPipeline.Percent, gross);
    StatementPipeline.WithColumnHas(df, gross, "Gross Profit", "Revenue", StatementPipeline.Percent, operating);
    StatementPipeline.WithColumnHas(df, gross, "Gross Profit", "Revenue", StatementPipeline.Percent, net);
    StatementPipeline.WithColumnHas(df, gross, "Gross Profit", "Revenue", StatementPipeline.Percent, "Operating Income");
    StatementPipeline.WithColumnHas(df, gross, "Gross Profit", "Revenue", StatementPipeline.Percent, "Revenue");
    StatementPipeline.WithColumnHas(df, gross, "Gross Profit", "Revenue", StatementPipeline.Percent, netIncome);
    StatementPipeline.WithColumnHas(t1, operating, "Operating Income", "Revenue", StatementPipeline.Percent, gross);
    StatementPipeline.WithColumnHas(t1, operating, "Operating Income", "Revenue", StatementPipeline.Percent, operating);
    StatementPipeline.WithColumnHas(t1, operating, "Operating Income", "Revenue", StatementPipeline.Percent, net);
    StatementPipeline.WithColumnHas(t1, operating, "Operating Income", "Revenue", StatementPipeline.Percent, "Revenue");
    StatementPipeline.WithColumnHas(t1, operating, "Operating Income", "Revenue", StatementPipeline.Percent, netIncome);
    StatementPipeline.WithColumnHas(t2, net, netIncome, "Revenue", StatementPipeline.Percent, gross);
    StatementPipeline.WithColumnHas(t2, net, netIncome, "Revenue", StatementPipeline.Percent, operating);
    StatementPipeline.WithColumnHas(t2, net, netIncome, "Revenue", StatementPipeline.Percent, net);
  }

  /** For a frame with every required field, each margin is there exactly
      when it already was or neither its step nor an earlier one raises. */
  lemma MarginsPresent(df: Table)
    requires forall f :: f in Required ==> HasColumn(df, f)
    ensures var r := CalculateDerivedFields(df);
      && (HasColumn(r, "Gross Profit Margin") <==>
            HasColumn(df, "Gross Profit Margin") || !StatementPipeline.StepRaises(df, "Gross Profit", "Revenue"))
      && (HasColumn(r, "Operating Margin") <==>
            || HasColumn(df, "Operating Margin")
            || (!StatementPipeline.StepRaises(df, "Gross Profit", "Revenue")
                && !StatementPipeline.StepRaises(df, "Operating Income", "Revenue")))
      && (HasColumn(r, "Net Profit Margin") <==> HasColumn(df, "Net Profit Margin") || !DerivedRaises(df))
  {
    DerivedFieldsPresent(df);
    assert Required[0] in Required && Required[1] in Required && Required[2] in Required && Required[3] in Required;
  }

  /** `process_company_facts` with the three section mappings given: a
      result has every required field, and its columns are standard names,
      `period_end_date` or margins; it has the gross profit margin unless its
      step raised and the net profit margin unless any step raised. */
  function ProcessCompanyFacts(facts: Json, sections: seq<Dicts.Dict<string>>, toDate: Cell -> Cell): (r: Result<Table, Exception>)
    ensures r.Err? ==> IsProcessingError(r.error)
    ensures facts.JObj? && !Dicts.HasKey(facts.fields, "us-gaap") ==>
      r == Err(ProcessingError("No US GAAP data found in company facts"))
    ensures r.Ok? ==> forall f :: f in Required ==> HasColumn(r.value, f)
    ensures r.Ok? ==> forall c :: HasColumn(r.value, c) ==>
      c == "period_end_date" || StatementPipeline.StandardName(sections, c) || Derived(c)
    ensures r.Ok? <==> StatementPipeline.Standardize(facts, sections, Income, toDate).Ok?
    ensures r.Ok? ==> r.value == CalculateDerivedFields(StatementPipeline.Standardize(facts, sections, Income, toDate).value)
    ensures r.Ok? ==> var s := StatementPipeline.Standardize(facts, sections, Income, toDate).value;
      && (HasColumn(r.value, "Gross Profit Margin") <==>
            HasColumn(s, "Gross Profit Margin") || !StatementPipeline.StepRaises(s, "Gross Profit", "Revenue"))
      && (HasColumn(r.value, "Net Profit Margin") <==> HasColumn(s, "Net Profit Margin") || !DerivedRaises(s))
  {
    var r := StatementPipeline.ProcessCompanyFacts(facts, sections, Income, CalculateDerivedFields, toDate);
    if r.Ok? then MarginsPresent(StatementPipeline.Standardize(facts, sections, Income, toDate).value); r else r
  }

  /** `process_company_facts` as written: the template has no
      `REVENUE_MAPPING`, so no input gives a table, and any `us-gaap` tag
      makes it fail with the AttributeError wrapped in a ProcessingError. */
  function AsWrittenProcessCompanyFacts(facts: Json): (r: Result<Table, Exception>)
    ensures r.Err? && IsProcessingError(r.error)
    ensures (facts.JObj? && Dicts.HasKey(facts.fields, "us-gaap") && Dicts.Get(facts.fields, "us-gaap").value.JObj?
             && |Dicts.Get(facts.fields, "us-gaap").value.fields| > 0) ==>
      r.error == Failed("process income statement", NoAttribute("IncomeStatementTemplate", "REVENUE_MAPPING"))
  {
    StatementPipeline.AsWrittenProcessCompanyFacts(facts, Income)
  }
}

=== FILE: income_statement_template.dfy ===
/** `IncomeStatementTemplate` (src/templates/income_statement_template.py):
    the revenue / cost / other-income / tax sections, the key-metric
    attributes, and the concept map into them. */
module IncomeStatementTemplate {
  import opened Wrappers
  import opened TemplateTree
  import Dicts

  /** The attributes the constructor sets, in order. */
  const Attributes: Dicts.Dict<Node> := [
    ("revenues", Branch([("net_sales", Leaf), ("other_revenue", Leaf)])),
    ("costs_and_expenses", Branch([
      ("cost_of_goods_sold", Leaf),
      ("operating_expenses", Branch([
        ("selling_general_admin", Leaf), ("research_development", Leaf),
        ("depreciation_amortization", Leaf), ("other_operating_expenses", Leaf)]))])),
    ("other_income_expense", Branch([
      ("interest_income", Leaf), ("interest_expense", Leaf),
      ("other_non_operating_income", Leaf), ("other_non_operating_expense", Leaf)])),
    ("income_taxes", Branch([("current_tax_expense", Leaf), ("deferred_tax_expense", Leaf)])),
    ("gross_profit", Leaf),
    ("operating_income", Leaf),
    ("income_before_tax", Leaf),
    ("net_income", Leaf),
    ("earnings_per_share", Branch([("basic", Leaf), ("diluted", Leaf)]))
  ]

  const ConceptMap: Dicts.Dict<seq<string>> := [
    ("Revenues", ["revenues"]),
    ("SalesRevenueNet", ["revenues", "net_sales"]),
    ("OtherRevenue", ["revenues", "other_revenue"]),
    ("CostOfGoodsAndServicesSold", ["costs_and_expenses", "cost_of_goods_sold"]),
    ("SellingGeneralAndAdministrativeExpense", ["costs_and_expenses", "operating_expenses", "selling_general_admin"]),
    ("ResearchAndDevelopmentExpense", ["costs_and_expenses", "operating_expenses", "research_development"]),
    ("DepreciationAndAmortization", ["costs_and_expenses", "operating_expenses", "depreciation_amortization"]),
    ("OtherOperatingExpenses", ["costs_and_expenses", "operating_expenses", "other_operating_expenses"]),
    ("InterestIncome", ["other_income_expense", "interest_income"]),
    ("InterestExpense", ["other_income_expense", "interest_expense"]),
    ("OtherNonoperatingIncomeExpense", ["other_income_expense", "other_non_operating_income"]),
    ("IncomeTaxExpenseBenefit", ["income_taxes"]),
    ("CurrentIncomeTaxExpense", ["income_taxes", "current_tax_expense"]),
    ("DeferredIncomeTaxExpense", ["income_taxes", "deferred_tax_expense"]),
    ("GrossProfit", ["gross_profit"]),
    ("OperatingIncomeLoss", ["operating_income"]),
    ("IncomeLossFromContinuingOperationsBeforeIncomeTaxesExtraordinaryItemsNoncontrollingInterest", ["income_before_tax"]),
    ("NetIncomeLoss", ["net_income"]),
    ("EarningsPerShareBasic", ["earnings_per_share", "basic"]),
    ("EarningsPerShareDiluted", ["earnings_per_share", "diluted"])
  ]

  /** The object `IncomeStatementTemplate()` builds. */
  const Income: Template := Template(Attributes, ConceptMap)

  /** The attribute names a mapped path can start with. */
  predicate Section(name: string) {
    || name == "revenues" || name == "costs_and_expenses" || name == "other_income_expense"
    || name == "income_taxes" || name == "gross_profit" || name == "operating_income"
    || name == "income_before_tax" || name == "net_income" || name == "earnings_per_share"
  }

  /** Entries 0 to 4 of the concept map name nodes of the skeleton. */
  lemma PathsResolve0()
    ensures forall i :: 0 <= i < 5 ==> Resolves(Root(Income), ConceptMap[i].1)
  {
    assert Root(Income) == Branch(Attributes);
  }

  /** Entries 5 to 9 of the concept map name nodes of the skeleton. */
  lemma PathsResolve1()
    ensures forall i :: 5 <= i < 10 ==> Resolves(Root(Income), ConceptMap[i].1)
  {
    assert Root(Income) == Branch(Attributes);
  }

  /** Entries 10 to 14 of the concept map name nodes of the skeleton. */
  lemma PathsResolve2()
    ensures forall i :: 10 <= i < 15 ==> Resolves(Root(Income), ConceptMap[i].1)
  {
    assert Root(Income) == Branch(Attributes);
  }

  /** Entries 15 to 19 of the concept map name nodes of the skeleton. */
  lemma PathsResolve3()
    ensures forall i :: 15 <= i < 20 ==> Resolves(Root(Income), ConceptMap[i].1)
  {
    assert Root(Income) == Branch(Attributes);
  }

  /** Every path of the concept map is non-empty and names a node of the
      skeleton. */
  lemma IncomePathsResolve()
    ensures PathsResolve(Income)
  {
    PathsResolve0();
    PathsResolve1();
    PathsResolve2();
    PathsResolve3();
    assert |ConceptMap| == 20;
  }

  /** Every attribute name is a section. */
  lemma AttributeSection(k: string)
    requires Dicts.HasKey(Income.attributes, k)
    ensures Section(k)
  {
    var i :| 0 <= i < |Income.attributes| && Income.attributes[i].0 == k;
  }

  /** `get_path_for_concept`: the mapped path, or [] for an unmapped concept;
      a mapped path names a node and starts with one of the attributes. */
  function GetPathForConcept(concept: string): (r: seq<string>)
    ensures Resolves(Root(Income), r)
    ensures r == [] <==> !Dicts.HasKey(ConceptMap, concept)
    ensures r != [] ==> Section(r[0])
    ensures r != [] ==> exists i :: 0 <= i < |ConceptMap| && ConceptMap[i] == (concept, r)
  {
    IncomePathsResolve();
    PathForConceptResolves(Income, concept);
    var r := PathForConcept(Income, concept);
    if r == [] then r
    else
      ResolvesHead(Income, r);
      AttributeSection(r[0]);
      r
  }

  /** The leaf no concept maps to. */
  const NonOperatingExpense: seq<string> := ["other_income_expense", "other_non_operating_expense"]

  lemma NonOperatingExpenseNotIn(lo: nat, hi: nat)
    requires (lo, hi) in {(0, 5), (5, 10), (10, 15), (15, 20)}
    ensures forall i :: lo <= i < hi ==> ConceptMap[i].1 != NonOperatingExpense
  {
    if (lo, hi) == (0, 5) {
      assert forall i :: 0 <= i < 5 ==> ConceptMap[i].1[0] != "other_income_expense";
    } else if (lo, hi) == (5, 10) {
      assert ConceptMap[8].1[1] != NonOperatingExpense[1];
      assert ConceptMap[9].1[1] != NonOperatingExpense[1];
      assert forall i :: 5 <= i < 8 ==> ConceptMap[i].1[0] != "other_income_expense";
    } else if (lo, hi) == (10, 15) {
      assert ConceptMap[10].1[1] != NonOperatingExpense[1];
      assert forall i :: 11 <= i < 15 ==> ConceptMap[i].1[0] != "other_income_expense";
    } else {
      assert forall i :: 15 <= i < 20 ==> ConceptMap[i].1[0] != "other_income_expense";
    }
  }

  /** The leaf `other_income_expense.other_non_operating_expense` exists. */
  lemma NonOperatingExpenseLeaf()
    ensures At(Root(Income), NonOperatingExpense) == Some(Leaf)
  {
    assert Root(Income) == Branch(Attributes);
  }

  /** No concept maps to `other_income_expense.other_non_operating_expense`. */
  lemma NonOperatingExpenseUntargeted()
    ensures !Targeted(Income, NonOperatingExpense)
  {
    NonOperatingExpenseNotIn(0, 5);
    NonOperatingExpenseNotIn(5, 10);
    NonOperatingExpenseNotIn(10, 15);
    NonOperatingExpenseNotIn(15, 20);
    assert |ConceptMap| == 20;
  }

  /** The leaf `other_income_expense.other_non_operating_expense` exists but
      `get_path_for_concept` never returns it, so the concept map does not
      reach every leaf. */
  lemma MapNotOnto(concept: string)
    ensures At(Root(Income), NonOperatingExpense) == Some(Leaf)
    ensures GetPathForConcept(concept) != NonOperatingExpense
  {
    NonOperatingExpenseLeaf();
    NonOperatingExpenseUntargeted();
    UntargetedNeverReturned(Income, NonOperatingExpense, concept);
  }
}

=== FILE: industry_analyzer.dfy ===
/** `IndustryAnalyzer` (src/utils/industry_analyzer.py): industry-wide
    frames for a fixed registry of metrics, a company's percentile among its
    peers, and the top companies by a metric. The client's `get_frames` is a
    parameter: a function from the request to its outcome. */
module IndustryAnalyzer {
  import opened Wrappers
  import opened Json
  import opened Tables
  import Dicts
  import Text
  import SecClient
  import RequestPolicy

  /** The frames concept and unit a metric is read from. */
  datatype MetricConfig = MetricConfig(tag: string, unit: string)

  /** `key_metrics`: the supported metrics, in declaration order. */
  const KeyMetrics: Dicts.Dict<MetricConfig> := [
    ("Assets", MetricConfig("Assets", "USD")),
    ("Revenue", MetricConfig("Revenues", "USD")),
    ("NetIncome", MetricConfig("NetIncomeLoss", "USD")),
    ("OperatingIncome", MetricConfig("OperatingIncomeLoss", "USD")),
    ("EarningsPerShare", MetricConfig("EarningsPerShareDiluted", "USD-per-shares"))
  ]

  /** The registry's keys, in order. */
  lemma RegistryKeys()
    ensures Dicts.Keys(KeyMetrics) == ["Assets", "Revenue", "NetIncome", "OperatingIncome", "EarningsPerShare"]
  {
    var ks := Dicts.Keys(KeyMetrics);
    assert ks[0] == "Assets" && ks[1] == "Revenue" && ks[2] == "NetIncome";
    assert ks[3] == "OperatingIncome" && ks[4] == "EarningsPerShare";
  }

  /** The five keys are distinct. */
  lemma RegistryUnique()
    ensures Dicts.UniqueKeys(KeyMetrics)
  {
    assert KeyMetrics[0].0 == "Assets" && KeyMetrics[1].0 == "Revenue" && KeyMetrics[2].0 == "NetIncome";
    assert KeyMetrics[3].0 == "OperatingIncome" && KeyMetrics[4].0 == "EarningsPerShare";
  }

  /** A name is supported exactly when it is one of the five. */
  lemma RegistryHasKey(m: string)
    ensures Dicts.HasKey(KeyMetrics, m) <==>
      m == "Assets" || m == "Revenue" || m == "NetIncome" || m == "OperatingIncome" || m == "EarningsPerShare"
  {
    RegistryKeys();
    Dicts.KeysHasKey(KeyMetrics, m);
  }

  /** The registry has exactly the five metrics, each once, with their
      concepts and units. */
  lemma Registry()
    ensures Dicts.Keys(KeyMetrics) == ["Assets", "Revenue", "NetIncome", "OperatingIncome", "EarningsPerShare"]
    ensures Dicts.UniqueKeys(KeyMetrics)
    ensures forall m :: Dicts.HasKey(KeyMetrics, m) <==>
      m == "Assets" || m == "Revenue" || m == "NetIncome" || m == "OperatingIncome" || m == "EarningsPerShare"
    ensures Dicts.Get(KeyMetrics, "Assets") == Some(MetricConfig("Assets", "USD"))
    ensures Dicts.Get(KeyMetrics, "Revenue") == Some(MetricConfig("Revenues", "USD"))
    ensures Dicts.Get(KeyMetrics, "EarningsPerShare") == Some(MetricConfig("EarningsPerShareDiluted", "USD-per-shares"))
  {
    RegistryKeys();
    RegistryUnique();
    forall m ensures Dicts.HasKey(KeyMetrics, m) <==>
      m == "Assets" || m == "Revenue" || m == "NetIncome" || m == "OperatingIncome" || m == "EarningsPerShare"
    {
      RegistryHasKey(m);
    }
    Dicts.GetUnique(KeyMetrics, 0);
    Dicts.GetUnique(KeyMetrics, 1);
    Dicts.GetUnique(KeyMetrics, 4);
  }

  /** What `get_frames` does with a request: its JSON payload or the error it raises. */
  type Fetch = SecClient.Request -> Result<Json, SecClient.ClientError>

  /** The `get_frames` call for a metric: `us-gaap`, its tag and unit, the
      year, and the quarter passed by keyword even when it is `None`;
      `instantaneous` is left out. */
  function FramesRequest(config: MetricConfig, year: int, quarter: Option<int>): SecClient.Request {
    SecClient.Frames("us-gaap", config.tag, config.unit, year, SecClient.Given(quarter), SecClient.Omitted)
  }

  /** The `try` body shared by `get_industry_metrics` and
      `get_peer_rankings`: fetch the frame and build a frame from its
      `data`. Any exception is caught, so the outcome is only whether a
      frame came out. */
  function MetricFrame(config: MetricConfig, year: int, quarter: Option<int>, fetch: Fetch): (r: Option<Table>)
    ensures r.Some? <==>
      && fetch(FramesRequest(config, year, quarter)).Ok?
      && var j := fetch(FramesRequest(config, year, quarter)).value;
      && j.JObj? && Dicts.HasKey(j.fields, "data")
      && Records(Dicts.Get(j.fields, "data").value).Ok?
    ensures r.Some? ==> r.value == Records(Dicts.Get(fetch(FramesRequest(config, year, quarter)).value.fields, "data").value).value
  {
    match fetch(FramesRequest(config, year, quarter))
    case Err(_) => None
    case Ok(j) =>
      match PyIn("data", j)
      case Ok(true) =>
        (match PyGetItem(j, "data")
         case Ok(d) =>
           (match Records(d)
            case Ok(df) => Some(df)
            case Err(_) => None)
         case Err(_) => None)
      case _ => None
  }

  /** `metrics or list(self.key_metrics.keys())`. */
  function Requested(metrics: Option<seq<string>>): seq<string> {
    if metrics.None? || |metrics.value| == 0 then Dicts.Keys(KeyMetrics) else metrics.value
  }

  /** The frame a requested metric contributes: none for an unsupported
      name or a failed fetch. */
  function Contribution(m: string, year: int, quarter: Option<int>, fetch: Fetch): Option<Table> {
    match Dicts.Get(KeyMetrics, m)
    case None => None
    case Some(config) => MetricFrame(config, year, quarter, fetch)
  }

  /** The loop of `get_industry_metrics` over the requested names: a
      metric is present exactly when it was requested and contributes a
      frame, and it holds that frame. */
  function Collect(names: seq<string>, year: int, quarter: Option<int>, fetch: Fetch): (r: Dicts.Dict<Table>)
    ensures forall m :: Dicts.HasKey(r, m) <==> m in names && Contribution(m, year, quarter, fetch).Some?
    ensures forall m :: Dicts.HasKey(r, m) ==> Dicts.Get(r, m) == Contribution(m, year, quarter, fetch)
    ensures Dicts.UniqueKeys(r)
  {
    if |names| == 0 then []
    else
      var init := names[..|names| - 1];
      var m := names[|names| - 1];
      assert names == init + [m];
      var prev := Collect(init, year, quarter, fetch);
      match Contribution(m, year, quarter, fetch)
      case None => prev
      case Some(df) =>
        CollectPut(prev, init, m, df, year, quarter, fetch);
        Dicts.Put(prev, m, df)
  }

  /** One step of `Collect` that stores a frame keeps its promises. */
  lemma CollectPut(prev: Dicts.Dict<Table>, init: seq<string>, m: string, df: Table, year: int, quarter: Option<int>, fetch: Fetch)
    requires Contribution(m, year, quarter, fetch) == Some(df)
    requires forall m' :: Dicts.HasKey(prev, m') <==> m' in init && Contribution(m', year, quarter, fetch).Some?
    requires forall m' :: Dicts.HasKey(prev, m') ==> Dicts.Get(prev, m') == Contribution(m', year, quarter, fetch)
    ensures var r := Dicts.Put(prev, m, df);
      && (forall m' :: Dicts.HasKey(r, m') <==> m' in init + [m] && Contribution(m', year, quarter, fetch).Some?)
      && (forall m' :: Dicts.HasKey(r, m') ==> Dicts.Get(r, m') == Contribution(m', year, quarter, fetch))
  {
    var r := Dicts.Put(prev, m, df);
    forall m' ensures Dicts.HasKey(r, m') <==> m' in init + [m] && Contribution(m', year, quarter, fetch).Some?
      ensures Dicts.HasKey(r, m') ==> Dicts.Get(r, m') == Contribution(m', year, quarter, fetch)
    {
      Dicts.PutHasKey(prev, m, df, m');
      assert m' in init + [m] <==> m' in init || m' == m;
    }
  }

  /** `get_industry_metrics(year, quarter, metrics)`. */
  function GetIndustryMetrics(year: int, quarter: Option<int>, metrics: Option<seq<string>>, fetch: Fetch): (r: Dicts.Dict<Table>)
    ensures forall m :: Dicts.HasKey(r, m) ==> m in Requested(metrics) && Dicts.HasKey(KeyMetrics, m)
    ensures forall m :: Dicts.HasKey(r, m) <==> m in Requested(metrics) && Contribution(m, year, quarter, fetch).Some?
    ensures forall m :: Dicts.HasKey(r, m) ==> Dicts.Get(r, m) == Contribution(m, year, quarter, fetch)
    ensures Dicts.UniqueKeys(r)
  {
    Collect(Requested(metrics), year, quarter, fetch)
  }

  /** A fetch that refuses what the client's own checks refuse, as every
      uncached call does (`SecClient.Perform`). */
  ghost predicate Validating(fetch: Fetch, base: string) {
    forall r :: SecClient.RequestUrl(base, r).Err? ==> fetch(r).Err?
  }

  /** The client's request routine refuses every request with a bad CIK or
      quarter. */
  lemma PerformValidates(c: SecClient.Client, server: string -> (nat -> RequestPolicy.Reply))
    ensures Validating(r => SecClient.Perform(c, server, r).0, c.baseUrl)
  {
  }

  /** With a quarter outside 1-4, every fetch is refused and no metric is
      returned. */
  lemma InvalidQuarterNoMetrics(year: int, quarter: Option<int>, metrics: Option<seq<string>>, fetch: Fetch, base: string)
    requires SecClient.QuarterGiven(quarter) && !(1 <= quarter.value <= 4)
    requires Validating(fetch, base)
    ensures GetIndustryMetrics(year, quarter, metrics, fetch) == []
  {
    var r := GetIndustryMetrics(year, quarter, metrics, fetch);
    if |r| > 0 {
      var m := r[0].0;
      assert Dicts.HasKey(r, m);
      InvalidQuarterRefused(m, year, quarter, fetch, base);
    }
  }

  /** With a quarter outside 1-4, no metric contributes a frame. */
  lemma InvalidQuarterRefused(m: string, year: int, quarter: Option<int>, fetch: Fetch, base: string)
    requires SecClient.QuarterGiven(quarter) && !(1 <= quarter.value <= 4)
    requires Validating(fetch, base)
    ensures Contribution(m, year, quarter, fetch).None?
  {
    if Dicts.HasKey(KeyMetrics, m) {
      var config := Dicts.Get(KeyMetrics, m).value;
      assert SecClient.RequestUrl(base, FramesRequest(config, year, quarter)).Err?;
    }
  }

  /** A supported metric whose frame has an empty `data` list is present,
      with an empty frame. */
  lemma EmptyDataEmptyFrame(m: string, year: int, quarter: Option<int>, metrics: Option<seq<string>>, fetch: Fetch)
    requires m in Requested(metrics) && Dicts.HasKey(KeyMetrics, m)
    requires fetch(FramesRequest(Dicts.Get(KeyMetrics, m).value, year, quarter)) == Ok(JObj([("data", JArr([]))]))
    ensures Dicts.HasKey(GetIndustryMetrics(year, quarter, metrics, fetch), m)
    ensures IsEmpty(Dicts.Get(GetIndustryMetrics(year, quarter, metrics, fetch), m).value)
  {
    EmptyDataContribution(m, year, quarter, fetch);
  }

  /** An empty `data` list contributes an empty frame. */
  lemma EmptyDataContribution(m: string, year: int, quarter: Option<int>, fetch: Fetch)
    requires Dicts.HasKey(KeyMetrics, m)
    requires fetch(FramesRequest(Dicts.Get(KeyMetrics, m).value, year, quarter)) == Ok(JObj([("data", JArr([]))]))
    ensures Contribution(m, year, quarter, fetch).Some?
    ensures IsEmpty(Contribution(m, year, quarter, fetch).value)
  {
    var fields := [("data", JArr([]))];
    assert fields[0].0 == "data";
    assert Dicts.Get(fields, "data") == Some(JArr([]));
    var df := Records(JArr([])).value;
    assert |df.rows| == 0;
    assert MetricFrame(Dicts.Get(KeyMetrics, m).value, year, quarter, fetch) == Some(df);
  }

  // ---------------------------------------------------------------------
  // Company position

  /** `a <= v` in a numeric column: a comparison with NaN (or with a null,
      which the column holds as NaN) is false. */
  predicate AtMost(a: Cell, v: Cell) {
    IsNumber(a) && IsNumber(v) && a.v.n <= v.v.n
  }

  /** `(column <= v).sum()`: how many values are at most `v`. */
  function CountAtMost(col: seq<Cell>, v: Cell): (r: nat)
    ensures r == |set i | 0 <= i < |col| && AtMost(col[i], v)|
    ensures r <= |col|
    ensures (exists i :: 0 <= i < |col| && col[i] == v && IsNumber(v)) ==> r >= 1
    ensures (forall i :: 0 <= i < |col| ==> AtMost(col[i], v)) ==> r == |col|
    ensures (forall i :: 0 <= i < |col| ==> !AtMost(col[i], v)) ==> r == 0
  {
    if |col| == 0 then 0
    else
      var init := col[..|col| - 1];
      assert forall i :: 0 <= i < |init| ==> init[i] == col[i];
      AtMostIndicesSnoc(col, v);
      CountAtMost(init, v) + (if AtMost(col[|col| - 1], v) then 1 else 0)
  }

  /** The values at most `v` are those among all values but the last, and
      the last one if it is. */
  lemma AtMostIndicesSnoc(col: seq<Cell>, v: Cell)
    requires |col| > 0
    ensures var n := |col| - 1;
      |set i | 0 <= i < |col| && AtMost(col[i], v)| ==
      |set i | 0 <= i < n && AtMost(col[..n][i], v)| + (if AtMost(col[n], v) then 1 else 0)
  {
    var n := |col| - 1;
    var a := set i | 0 <= i < n && AtMost(col[..n][i], v);
    var s := set i | 0 <= i < |col| && AtMost(col[i], v);
    assert forall i :: 0 <= i < n ==> col[..n][i] == col[i];
    if AtMost(col[n], v) {
      assert s == a + {n};
      assert n !in a;
    } else {
      assert s == a;
    }
  }

  /** One row of the analysis. The median and mean of the industry column
      are left out (floating point); the percentile is kept as the count of
      values at most the company's and the number of companies. */
  datatype Position = Position(metric: string, companyValue: Cell, atOrBelow: nat, numCompanies: nat, period: string)

  /** `(df['val'] <= company_value).mean() * 100`, as an exact fraction. */
  function Percentile(p: Position): Cell {
    Ratio(Of(JNum(p.atOrBelow)), Of(JNum(p.numCompanies)), 100)
  }

  /** The period label: `Q{quarter}{year}` for a truthy quarter, else `FY{year}`. */
  function Period(year: int, quarter: Option<int>): (r: string)
    ensures SecClient.QuarterGiven(quarter) ==> r == "Q" + Text.IntToString(quarter.value) + Text.IntToString(year)
    ensures !SecClient.QuarterGiven(quarter) ==> r == "FY" + Text.IntToString(year)
  {
    (if SecClient.QuarterGiven(quarter) then "Q" + Text.IntToString(quarter.value) else "FY") + Text.IntToString(year)
  }

  /** The positions of the elements of `xs` that `keep` accepts, in order. */
  function Where<T>(xs: seq<T>, keep: T -> bool): (r: seq<nat>)
    ensures forall k :: 0 <= k < |r| ==> r[k] < |xs| && keep(xs[r[k]])
    ensures forall i :: 0 <= i < |xs| && keep(xs[i]) ==> i in r
    ensures forall k, l :: 0 <= k < l < |r| ==> r[k] < r[l]
  {
    if |xs| == 0 then []
    else
      var prev := Where(xs[..|xs| - 1], keep);
      var r := if keep(xs[|xs| - 1]) then prev + [|xs| - 1] else prev;
      WhereStep(xs, keep, prev);
      r
  }

  /** Extending the positions kept among all elements but the last by the
      last one, if it is kept, gives the positions kept among all. */
  lemma WhereStep<T>(xs: seq<T>, keep: T -> bool, prev: seq<nat>)
    requires |xs| > 0
    requires forall k :: 0 <= k < |prev| ==> prev[k] < |xs| - 1 && keep(xs[..|xs| - 1][prev[k]])
    requires forall i :: 0 <= i < |xs| - 1 && keep(xs[..|xs| - 1][i]) ==> i in prev
    requires forall k, l :: 0 <= k < l < |prev| ==> prev[k] < prev[l]
    ensures var r := if keep(xs[|xs| - 1]) then prev + [|xs| - 1] else prev;
      && (forall k :: 0 <= k < |r| ==> r[k] < |xs| && keep(xs[r[k]]))
      && (forall i :: 0 <= i < |xs| && keep(xs[i]) ==> i in r)
      && (forall k, l :: 0 <= k < l < |r| ==> r[k] < r[l])
  {
    var init := xs[..|xs| - 1];
    var r := if keep(xs[|xs| - 1]) then prev + [|xs| - 1] else prev;
    forall k | 0 <= k < |r| ensures r[k] < |xs| && keep(xs[r[k]]) {
      if k < |prev| {
        assert r[k] == prev[k] && init[prev[k]] == xs[prev[k]];
      }
    }
    forall k, l | 0 <= k < l < |r| ensures r[k] < r[l] {
      if l < |prev| {
        assert r[k] == prev[k] && r[l] == prev[l];
      } else {
        assert r[k] == prev[k] && r[l] == |xs| - 1;
      }
    }
    forall i | 0 <= i < |xs| && keep(xs[i]) ensures i in r {
      if i < |init| {
        assert init[i] == xs[i];
        assert i in prev;
        var k :| 0 <= k < |prev| && prev[k] == i;
        assert r[k] == i;
      } else {
        assert r[|r| - 1] == i;
      }
    }
  }

  /** A row whose `cik` is the argument. */
  function HasCik(cik: string): Row -> bool {
    row => CellAt(row, "cik") == Of(JStr(cik))
  }

  /** The rows of `df` whose `cik` equals the argument. */
  function MatchingRows(rows: seq<Row>, cik: string): (r: seq<nat>)
    ensures forall k :: 0 <= k < |r| ==> r[k] < |rows| && CellAt(rows[r[k]], "cik") == Of(JStr(cik))
    ensures forall i :: 0 <= i < |rows| && CellAt(rows[i], "cik") == Of(JStr(cik)) ==> i in r
    ensures forall k, l :: 0 <= k < l < |r| ==> r[k] < r[l]
  {
    var r := Where(rows, HasCik(cik));
    assert forall i :: 0 <= i < |rows| ==> (HasCik(cik)(rows[i]) <==> CellAt(rows[i], "cik") == Of(JStr(cik)));
    r
  }

  /** The body of the loop of `analyze_company_position` for one metric:
      nothing for an empty frame, for a frame without `cik` or `val`, for a
      company that is not in it, or for a `val` column that is not numeric
      (the comparison raises and the metric is skipped); otherwise the first
      matching row's value (NaN for a null), how many values are at most
      it, and the number of companies. */
  function MetricPosition(metric: string, df: Table, cik: string, period: string): (r: Option<Position>)
    ensures r.Some? <==>
      && !IsEmpty(df) && HasColumn(df, "cik") && HasColumn(df, "val")
      && |MatchingRows(df.rows, cik)| > 0
      && NumericColumn(Column(df, "val"))
    ensures r.Some? ==> var p := r.value;
      && p.metric == metric && p.period == period
      && p.numCompanies == |df.rows|
      && p.companyValue == AsNumber(CellAt(df.rows[MatchingRows(df.rows, cik)[0]], "val"))
      && p.atOrBelow == CountAtMost(Column(df, "val"), p.companyValue)
      && p.atOrBelow <= p.numCompanies
      && (IsNumber(p.companyValue) ==> p.atOrBelow >= 1)
  {
    if IsEmpty(df) || !HasColumn(df, "cik") then None
    else
      var matches := MatchingRows(df.rows, cik);
      if |matches| == 0 || !HasColumn(df, "val") then None
      else
        var col := Column(df, "val");
        if !NumericColumn(col) then None
        else
          var v := AsNumber(col[matches[0]]);
          assert IsNumber(v) ==> col[matches[0]] == v;
          Some(Position(metric, v, CountAtMost(col, v), |df.rows|, period))
  }

  /** `p` is the position some metric of `items` gives. */
  predicate FromSomeMetric(items: Dicts.Dict<Table>, cik: string, period: string, p: Position) {
    exists i :: 0 <= i < |items| && MetricPosition(items[i].0, items[i].1, cik, period) == Some(p)
  }

  /** A metric whose frame gives a position. */
  function HasPosition(cik: string, period: string): ((string, Table)) -> bool {
    (item: (string, Table)) => MetricPosition(item.0, item.1, cik, period).Some?
  }

  /** The loop over the industry frames, in their order: one position per
      metric whose frame gives one, in the order of the metrics. */
  function Positions(items: Dicts.Dict<Table>, cik: string, period: string): (r: seq<Position>)
    ensures var idx := Where(items, HasPosition(cik, period));
      && |r| == |idx|
      && forall k :: 0 <= k < |r| ==>
           MetricPosition(items[idx[k]].0, items[idx[k]].1, cik, period) == Some(r[k])
    ensures |r| <= |items|
    ensures forall k :: 0 <= k < |r| ==> FromSomeMetric(items, cik, period, r[k])
    ensures forall i :: 0 <= i < |items| && MetricPosition(items[i].0, items[i].1, cik, period).Some? ==>
      MetricPosition(items[i].0, items[i].1, cik, period).value in r
  {
    if |items| == 0 then []
    else
      var init := items[..|items| - 1];
      var prev := Positions(init, cik, period);
      var q := MetricPosition(items[|items| - 1].0, items[|items| - 1].1, cik, period);
      var r := if q.Some? then prev + [q.value] else prev;
      PositionsStep(items, cik, period, prev);
      PositionsIndexed(items, cik, period, r);
      r
  }

  /** Positions follow the kept metrics after the last metric, given that
      they do before it. */
  lemma PositionsStep(items: Dicts.Dict<Table>, cik: string, period: string, prev: seq<Position>)
    requires |items| > 0
    requires var idx := Where(items[..|items| - 1], HasPosition(cik, period));
      && |prev| == |idx|
      && forall k :: 0 <= k < |prev| ==>
           MetricPosition(items[..|items| - 1][idx[k]].0, items[..|items| - 1][idx[k]].1, cik, period) == Some(prev[k])
    ensures var q := MetricPosition(items[|items| - 1].0, items[|items| - 1].1, cik, period);
      var r := if q.Some? then prev + [q.value] else prev;
      var idx := Where(items, HasPosition(cik, period));
      && |r| == |idx|
      && forall k :: 0 <= k < |r| ==> MetricPosition(items[idx[k]].0, items[idx[k]].1, cik, period) == Some(r[k])
  {
    var init := items[..|items| - 1];
    var before := Where(init, HasPosition(cik, period));
    var q := MetricPosition(items[|items| - 1].0, items[|items| - 1].1, cik, period);
    var r := if q.Some? then prev + [q.value] else prev;
    var idx := Where(items, HasPosition(cik, period));
    assert idx == if q.Some? then before + [|items| - 1] else before;
    forall k | 0 <= k < |r|
      ensures MetricPosition(items[idx[k]].0, items[idx[k]].1, cik, period) == Some(r[k])
    {
      if k < |prev| {
        assert idx[k] == before[k] && r[k] == prev[k] && init[before[k]] == items[before[k]];
      }
    }
  }

  /** Positions taken from the kept metrics, in order, each come from some
      metric, and every metric with a position has it among them. */
  lemma PositionsIndexed(items: Dicts.Dict<Table>, cik: string, period: string, r: seq<Position>)
    requires var idx := Where(items, HasPosition(cik, period));
      && |r| == |idx|
      && forall k :: 0 <= k < |r| ==> MetricPosition(items[idx[k]].0, items[idx[k]].1, cik, period) == Some(r[k])
    ensures |r| <= |items|
    ensures forall k :: 0 <= k < |r| ==> FromSomeMetric(items, cik, period, r[k])
    ensures forall i :: 0 <= i < |items| && MetricPosition(items[i].0, items[i].1, cik, period).Some? ==>
      MetricPosition(items[i].0, items[i].1, cik, period).value in r
  {
    var idx := Where(items, HasPosition(cik, period));
    WhereBounded(idx, |items|);
    forall i | 0 <= i < |items| && MetricPosition(items[i].0, items[i].1, cik, period).Some?
      ensures MetricPosition(items[i].0, items[i].1, cik, period).value in r
    {
      assert HasPosition(cik, period)(items[i]);
      var k :| 0 <= k < |idx| && idx[k] == i;
      assert MetricPosition(items[i].0, items[i].1, cik, period) == Some(r[k]);
    }
  }

  /** A strictly increasing sequence of indices below `n` has at most `n`
      elements. */
  lemma {:induction false} WhereBounded(idx: seq<nat>, n: nat)
    requires forall k :: 0 <= k < |idx| ==> idx[k] < n
    requires forall k, l :: 0 <= k < l < |idx| ==> idx[k] < idx[l]
    ensures |idx| <= n
    decreases n
  {
    if |idx| > 0 {
      var m := idx[|idx| - 1];
      WhereBounded(idx[..|idx| - 1], m);
    }
  }

  /** The positions name the kept metrics in the order of the metrics, and,
      the metrics being distinct, each metric at most once. */
  lemma PositionsInMetricOrder(items: Dicts.Dict<Table>, cik: string, period: string)
    ensures var r, idx := Positions(items, cik, period), Where(items, HasPosition(cik, period));
      && |r| == |idx|
      && (forall k :: 0 <= k < |r| ==> r[k].metric == Dicts.Keys(items)[idx[k]])
      && (forall k, l :: 0 <= k < l < |r| ==> idx[k] < idx[l])
      && (Dicts.UniqueKeys(items) ==> forall k, l :: 0 <= k < l < |r| ==> r[k].metric != r[l].metric)
  {
    var r, idx := Positions(items, cik, period), Where(items, HasPosition(cik, period));
    forall k | 0 <= k < |r| ensures r[k].metric == Dicts.Keys(items)[idx[k]] {
      assert MetricPosition(items[idx[k]].0, items[idx[k]].1, cik, period) == Some(r[k]);
    }
  }

  /** What every kept position says: the period, a metric of the frames,
      and a count within the number of companies that includes the
      company's own value. */
  lemma PositionsFacts(items: Dicts.Dict<Table>, cik: string, period: string)
    ensures var r := Positions(items, cik, period);
      forall k :: 0 <= k < |r| ==>
        && r[k].period == period && Dicts.HasKey(items, r[k].metric)
        && r[k].atOrBelow <= r[k].numCompanies
        && (IsNumber(r[k].companyValue) ==> r[k].atOrBelow >= 1)
  {
    var r := Positions(items, cik, period);
    forall k | 0 <= k < |r|
      ensures r[k].period == period && Dicts.HasKey(items, r[k].metric)
      ensures r[k].atOrBelow <= r[k].numCompanies && (IsNumber(r[k].companyValue) ==> r[k].atOrBelow >= 1)
    {
      var i :| 0 <= i < |items| && MetricPosition(items[i].0, items[i].1, cik, period) == Some(r[k]);
      assert items[i].0 == r[k].metric;
    }
  }

  /** `analyze_company_position(cik, year, quarter, metrics)`: one row per
      fetched metric whose frame lists the company, each the position that
      metric's frame gives, in the order of the fetched metrics and each
      metric once. */
  function AnalyzeCompanyPosition(cik: string, year: int, quarter: Option<int>, metrics: Option<seq<string>>, fetch: Fetch): (r: seq<Position>)
    ensures forall k :: 0 <= k < |r| ==>
      && r[k].period == Period(year, quarter)
      && Dicts.HasKey(KeyMetrics, r[k].metric) && r[k].metric in Requested(metrics)
      && r[k].atOrBelow <= r[k].numCompanies
      && (IsNumber(r[k].companyValue) ==> r[k].atOrBelow >= 1)
    ensures forall k :: 0 <= k < |r| ==>
      FromSomeMetric(GetIndustryMetrics(year, quarter, metrics, fetch), cik, Period(year, quarter), r[k])
    ensures var items := GetIndustryMetrics(year, quarter, metrics, fetch);
      forall i :: 0 <= i < |items| && MetricPosition(items[i].0, items[i].1, cik, Period(year, quarter)).Some? ==>
        MetricPosition(items[i].0, items[i].1, cik, Period(year, quarter)).value in r
    ensures var items := GetIndustryMetrics(year, quarter, metrics, fetch);
      var idx := Where(items, HasPosition(cik, Period(year, quarter)));
      && |r| == |idx|
      && (forall k :: 0 <= k < |r| ==> r[k].metric == Dicts.Keys(items)[idx[k]])
      && (forall k, l :: 0 <= k < l < |r| ==> idx[k] < idx[l] && r[k].metric != r[l].metric)
  {
    var items := GetIndustryMetrics(year, quarter, metrics, fetch);
    PositionsFacts(items, cik, Period(year, quarter));
    PositionsInMetricOrder(items, cik, Period(year, quarter));
    Positions(items, cik, Period(year, quarter))
  }

  /** The peers 1, 2 and 3 million with the company at 2 million: two of
      three values are at most the company's, a percentile of 200/3. */
  lemma MiddleOfThree()
    ensures var col := [Of(JNum(1000000)), Of(JNum(2000000)), Of(JNum(3000000))];
      CountAtMost(col, Of(JNum(2000000))) == 2
  {
    var col := [Of(JNum(1000000)), Of(JNum(2000000)), Of(JNum(3000000))];
    var v := Of(JNum(2000000));
    assert col[..2] == [Of(JNum(1000000)), Of(JNum(2000000))];
    assert col[..2][..1] == [Of(JNum(1000000))];
    assert col[..2][..1][..0] == [];
  }

  // ---------------------------------------------------------------------
  // Peer rankings

  /** A row that takes part in `nlargest`: its position and value. */
  datatype Ranked = Ranked(pos: nat, val: int)

  /** `a` comes no later than `b` in `nlargest` order: a larger value
      first, and on equal values the earlier row first. */
  predicate Precedes(a: Ranked, b: Ranked) {
    a.val > b.val || (a.val == b.val && a.pos <= b.pos)
  }

  predicate RankOrdered(s: seq<Ranked>) {
    forall i, j :: 0 <= i < j < |s| ==> Precedes(s[i], s[j])
  }

  function InsertRanked(x: Ranked, s: seq<Ranked>): (r: seq<Ranked>)
    requires RankOrdered(s)
    ensures RankOrdered(r)
    ensures multiset(r) == multiset(s) + multiset{x}
  {
    if |s| == 0 then [x]
    else if Precedes(x, s[0]) then
      [x] + s
    else
      var rest := InsertRanked(x, s[1..]);
      assert s == [s[0]] + s[1..];
      forall j | 0 <= j < |rest| ensures Precedes(s[0], rest[j]) {
        assert rest[j] in multiset(rest);
        if rest[j] != x {
          assert rest[j] in multiset(s[1..]);
          var k :| 0 <= k < |s[1..]| && s[1..][k] == rest[j];
          assert s[1..][k] == s[k + 1];
        }
      }
      [s[0]] + rest
  }

  /** The rows in `nlargest` order. */
  function SortRanked(s: seq<Ranked>): (r: seq<Ranked>)
    ensures RankOrdered(r)
    ensures multiset(r) == multiset(s)
  {
    if |s| == 0 then []
    else
      assert s == [s[0]] + s[1..];
      InsertRanked(s[0], SortRanked(s[1..]))
  }

  /** The rows with a number in `val`, in row order: the rows `nlargest`
      ranks by value. */
  function Candidates(col: seq<Cell>): (r: seq<Ranked>)
    ensures forall k :: 0 <= k < |r| ==> r[k].pos < |col| && col[r[k].pos] == Of(JNum(r[k].val))
    ensures forall i :: 0 <= i < |col| && IsNumber(col[i]) ==> Ranked(i, col[i].v.n) in r
    ensures forall k, l :: 0 <= k < l < |r| ==> r[k].pos < r[l].pos
  {
    if |col| == 0 then []
    else
      var init := col[..|col| - 1];
      var prev := Candidates(init);
      assert forall i :: 0 <= i < |init| ==> init[i] == col[i];
      var c := col[|col| - 1];
      if IsNumber(c) then prev + [Ranked(|col| - 1, c.v.n)] else prev
  }

  /** The rows whose `val` is NaN (or null), in row order: `nlargest` puts
      them after all the numbers. Every row is a candidate or a gap. */
  function Gaps(col: seq<Cell>): (r: seq<nat>)
    ensures forall k :: 0 <= k < |r| ==> r[k] < |col| && !IsNumber(col[r[k]])
    ensures forall i :: 0 <= i < |col| && !IsNumber(col[i]) ==> i in r
    ensures forall k, l :: 0 <= k < l < |r| ==> r[k] < r[l]
  {
    if |col| == 0 then []
    else
      var init := col[..|col| - 1];
      var prev := Gaps(init);
      assert forall i :: 0 <= i < |init| ==> init[i] == col[i];
      if IsNumber(col[|col| - 1]) then prev else prev + [|col| - 1]
  }

  /** `nlargest(n)` over the candidates: the first `n` in ranking order (no
      rows for `n <= 0`). */
  function TopN(cands: seq<Ranked>, n: int): (r: seq<Ranked>)
    ensures |r| == if n <= 0 then 0 else if n < |cands| then n else |cands|
    ensures RankOrdered(r)
    ensures forall k :: 0 <= k < |r| ==> r[k] in cands
  {
    var sorted := SortRanked(cands);
    var k := if n <= 0 then 0 else if n < |cands| then n else |cands|;
    assert |sorted| == |cands| by { assert |multiset(sorted)| == |multiset(cands)|; }
    forall i | 0 <= i < k ensures sorted[i] in cands {
      assert sorted[i] in multiset(sorted);
    }
    sorted[..k]
  }

  /** Nothing left out of the top `n` ranks above anything kept. */
  lemma TopNIsTop(cands: seq<Ranked>, n: int, c: Ranked)
    requires c in cands && c !in TopN(cands, n)
    ensures forall k :: 0 <= k < |TopN(cands, n)| ==> Precedes(TopN(cands, n)[k], c)
  {
    var sorted := SortRanked(cands);
    assert c in multiset(sorted) by { assert c in multiset(cands); }
    var j :| 0 <= j < |sorted| && sorted[j] == c;
    var r := TopN(cands, n);
    assert r == sorted[..|r|];
    assert j >= |r|;
  }

  /** The peer ranking of five companies with 1 to 5 million in `val` and
      `top_n = 3`: three rows, naming the fifth, fourth and third company. */
  lemma PeerRankingOfFive(df: Table, unit: string)
    requires HasColumn(df, "val") && HasColumn(df, "entityName") && HasColumn(df, "cik")
    requires Column(df, "val") == Millions()
    ensures var r := Rank(df, unit, 3);
      && r.names == ["entityName", "val", "cik"] && |r.rows| == 3
      && forall k :: 0 <= k < 3 ==> CellAt(r.rows[k], "entityName") == CellAt(df.rows[4 - k], "entityName")
  {
    MillionsIncrease(Column(df, "val"));
    PeerRankingIncreasing(df, unit, 3);
  }

  /** The example column holds numbers that increase. */
  lemma MillionsIncrease(col: seq<Cell>)
    requires col == Millions()
    ensures |col| == 5
    ensures forall i :: 0 <= i < |col| ==> IsNumber(col[i]) && Value(col[i]) == 1000000 * (i + 1)
    ensures forall i, j :: 0 <= i < j < |col| ==> Value(col[i]) < Value(col[j])
  {
  }

  /** A `val` column of numbers that increase down the frame, and
      `0 < n <= len(df)`: `n` rows, naming the last `n` companies from the
      bottom up. */
  lemma PeerRankingIncreasing(df: Table, unit: string, n: int)
    requires HasColumn(df, "val") && HasColumn(df, "entityName") && HasColumn(df, "cik")
    requires var col := Column(df, "val");
      && (forall i :: 0 <= i < |col| ==> IsNumber(col[i]))
      && (forall i, j :: 0 <= i < j < |col| ==> Value(col[i]) < Value(col[j]))
    requires 0 < n <= |df.rows|
    ensures var r := Rank(df, unit, n);
      && r.names == ["entityName", "val", "cik"] && |r.rows| == n
      && forall k :: 0 <= k < n ==> CellAt(r.rows[k], "entityName") == CellAt(df.rows[|df.rows| - 1 - k], "entityName")
  {
    RankOfIncreasing(df, unit, n);
    RankingsOfIncreasing(df, unit, n);
  }

  /** With all three columns present and a column of numbers, the frame is
      ranked: the table holds the rankings. */
  lemma RankOfIncreasing(df: Table, unit: string, n: int)
    requires HasColumn(df, "val") && HasColumn(df, "entityName") && HasColumn(df, "cik")
    requires var col := Column(df, "val");
      |col| > 0 && forall i :: 0 <= i < |col| ==> IsNumber(col[i])
    ensures Rank(df, unit, n) == Table(["entityName", "val", "cik"], Rankings(df, unit, n))
  {
    AllNumbersNumeric(Column(df, "val"));
  }

  /** The rankings of a column of increasing numbers name the last `n`
      companies from the bottom up. */
  lemma RankingsOfIncreasing(df: Table, unit: string, n: int)
    requires HasColumn(df, "val")
    requires var col := Column(df, "val");
      && (forall i :: 0 <= i < |col| ==> IsNumber(col[i]))
      && (forall i, j :: 0 <= i < j < |col| ==> Value(col[i]) < Value(col[j]))
    requires 0 < n <= |df.rows|
    ensures |Rankings(df, unit, n)| == n && NamedBottomUp(Rankings(df, unit, n), df.rows, n)
  {
    var top := TopN(Candidates(Column(df, "val")), n);
    TopCountsDown(Column(df, "val"), n);
    RankedRowsCountingDown(df, unit, n, Rankings(df, unit, n), top);
  }

  /** Rows ranked from positions that count down from the last row name the
      last `n` companies from the bottom up. */
  lemma RankedRowsCountingDown(df: Table, unit: string, n: int, rows: seq<Row>, top: seq<Ranked>)
    requires top == TopN(Candidates(Column(df, "val")), n)
    requires |top| == n && CountsDown(top, |df.rows|)
    requires RankedRows(df, unit, n, rows)
    ensures NamedBottomUp(rows, df.rows, n)
  {
    RankedNames(df, unit, n, rows);
    NamesBottomUp(df.rows, rows, top);
  }

  /** Every kept number's ranking names the company of its row. */
  lemma RankedNames(df: Table, unit: string, n: int, rows: seq<Row>)
    requires RankedRows(df, unit, n, rows)
    ensures NamedAt(rows, df.rows, TopN(Candidates(Column(df, "val")), n))
  {
    var top := TopN(Candidates(Column(df, "val")), n);
    forall k | 0 <= k < |top|
      ensures top[k].pos < |df.rows| && CellAt(rows[k], "entityName") == CellAt(df.rows[top[k].pos], "entityName")
    {
      RankedName(df, unit, n, rows, k);
    }
  }

  /** Ranking `k` names the company of the row at position `top[k].pos`. */
  predicate NamedAt(rows: seq<Row>, dfRows: seq<Row>, top: seq<Ranked>) {
    && |top| <= |rows|
    && forall k :: 0 <= k < |top| ==>
         top[k].pos < |dfRows| && CellAt(rows[k], "entityName") == CellAt(dfRows[top[k].pos], "entityName")
  }

  /** The positions count down from the last of `len` rows. */
  predicate CountsDown(top: seq<Ranked>, len: nat) {
    |top| <= len && forall k :: 0 <= k < |top| ==> top[k].pos == len - 1 - k
  }

  /** The first `n` rows name the companies of the last `n` frame rows,
      the last one first. */
  predicate NamedBottomUp(rows: seq<Row>, dfRows: seq<Row>, n: nat) {
    && n <= |rows| && n <= |dfRows|
    && forall k :: 0 <= k < n ==> CellAt(rows[k], "entityName") == CellAt(dfRows[|dfRows| - 1 - k], "entityName")
  }

  /** Names taken from the rows at positions that count up from the last
      row are those rows' names, bottom up. */
  lemma NamesBottomUp(dfRows: seq<Row>, rows: seq<Row>, top: seq<Ranked>)
    requires CountsDown(top, |dfRows|) && NamedAt(rows, dfRows, top)
    ensures NamedBottomUp(rows, dfRows, |top|)
  {
    forall k | 0 <= k < |top| ensures CellAt(rows[k], "entityName") == CellAt(dfRows[|dfRows| - 1 - k], "entityName") {
      assert top[k].pos == |dfRows| - 1 - k;
    }
  }

  /** Ranking `k` names the company of the row at its position. */
  lemma RankedName(df: Table, unit: string, n: int, rows: seq<Row>, k: nat)
    requires RankedRows(df, unit, n, rows)
    requires k < |TopN(Candidates(Column(df, "val")), n)|
    ensures var top := TopN(Candidates(Column(df, "val")), n);
      top[k].pos < |df.rows| && CellAt(rows[k], "entityName") == CellAt(df.rows[top[k].pos], "entityName")
  {
    var top := TopN(Candidates(Column(df, "val")), n);
    RankedTop(df, unit, n, rows, k);
    RankedRowName(df.rows[top[k].pos], unit, top[k].val);
  }

  /** A ranked row keeps the company's name. */
  lemma RankedRowName(row: Row, unit: string, v: int)
    ensures CellAt(RankedRow(row, unit, v), "entityName") == CellAt(row, "entityName")
  {
  }

  /** A non-empty column of numbers is numeric. */
  lemma AllNumbersNumeric(col: seq<Cell>)
    requires |col| > 0 && forall i :: 0 <= i < |col| ==> IsNumber(col[i])
    ensures NumericColumn(col)
  {
    assert IsNumber(col[0]);
  }

  /** Ranking `k` of the kept numbers is the row at its position. */
  lemma RankedTop(df: Table, unit: string, n: int, rows: seq<Row>, k: nat)
    requires RankedRows(df, unit, n, rows)
    requires k < |TopN(Candidates(Column(df, "val")), n)|
    ensures var top := TopN(Candidates(Column(df, "val")), n);
      top[k].pos < |df.rows| && rows[k] == RankedRow(df.rows[top[k].pos], unit, top[k].val)
  {
  }

  /** The `val` column of the ranking example: 1 to 5 million. */
  function Millions(): seq<Cell> {
    [Of(JNum(1000000)), Of(JNum(2000000)), Of(JNum(3000000)), Of(JNum(4000000)), Of(JNum(5000000))]
  }

  /** Numbers that increase down the column: the top `n` are the last `n`
      rows, the last row first. */
  lemma TopOfIncreasing(col: seq<Cell>, n: nat)
    requires forall i :: 0 <= i < |col| ==> IsNumber(col[i])
    requires forall i, j :: 0 <= i < j < |col| ==> Value(col[i]) < Value(col[j])
    requires n <= |col|
    ensures var r := TopN(Candidates(col), n);
      |r| == n && forall k :: 0 <= k < n ==> r[k] == Ranked(|col| - 1 - k, Value(col[|col| - 1 - k]))
    ensures CountsDown(TopN(Candidates(col), n), |col|)
  {
    var cands := Candidates(col);
    AllCandidates(col);
    IncreasingCandidates(col);
    TopOfIncreasingValues(cands, n);
    Reindex(col, cands, TopN(cands, n), n);
  }

  /** Numbers that increase down the column: the top `n` positions count
      down from the last row. */
  lemma TopCountsDown(col: seq<Cell>, n: nat)
    requires forall i :: 0 <= i < |col| ==> IsNumber(col[i])
    requires forall i, j :: 0 <= i < j < |col| ==> Value(col[i]) < Value(col[j])
    requires n <= |col|
    ensures |TopN(Candidates(col), n)| == n && CountsDown(TopN(Candidates(col), n), |col|)
  {
    TopOfIncreasing(col, n);
  }

  /** Candidates with strictly increasing values: the top `n` are the last
      `n`, the last one first. */
  lemma TopOfIncreasingValues(cands: seq<Ranked>, n: nat)
    requires n <= |cands|
    requires forall i, j :: 0 <= i < j < |cands| ==> cands[i].val < cands[j].val
    ensures var r := TopN(cands, n);
      |r| == n && forall k :: 0 <= k < n ==> r[k] == cands[|cands| - 1 - k]
  {
    SortIncreasing(cands);
    TopOfReversed(cands, n);
  }

  /** The last `n` candidates of a column of numbers, read back as rows. */
  lemma Reindex(col: seq<Cell>, cands: seq<Ranked>, r: seq<Ranked>, n: nat)
    requires forall i :: 0 <= i < |col| ==> IsNumber(col[i])
    requires |cands| == |col| && forall k :: 0 <= k < |col| ==> cands[k] == Ranked(k, Value(col[k]))
    requires n <= |cands| && |r| == n && forall k :: 0 <= k < n ==> r[k] == cands[|cands| - 1 - k]
    ensures forall k :: 0 <= k < n ==> r[k] == Ranked(|col| - 1 - k, Value(col[|col| - 1 - k]))
  {
    forall k | 0 <= k < n ensures r[k] == Ranked(|col| - 1 - k, Value(col[|col| - 1 - k])) {
      var i := |col| - 1 - k;
      assert r[k] == cands[i];
    }
  }

  /** Increasing numbers give candidates with increasing values. */
  lemma IncreasingCandidates(col: seq<Cell>)
    requires forall i :: 0 <= i < |col| ==> IsNumber(col[i])
    requires forall i, j :: 0 <= i < j < |col| ==> Value(col[i]) < Value(col[j])
    ensures var cands := Candidates(col);
      forall i, j :: 0 <= i < j < |cands| ==> cands[i].val < cands[j].val
  {
    var cands := Candidates(col);
    AllCandidates(col);
    forall i, j | 0 <= i < j < |cands| ensures cands[i].val < cands[j].val {
      assert cands[i].val == Value(col[i]) && cands[j].val == Value(col[j]);
    }
  }

  /** When the ranking order is the reverse, the top `n` are the last `n`
      candidates, the last one first. */
  lemma TopOfReversed(cands: seq<Ranked>, n: nat)
    requires n <= |cands|
    requires SortRanked(cands) == Reversed(cands)
    ensures var r := TopN(cands, n);
      |r| == n && forall k :: 0 <= k < n ==> r[k] == cands[|cands| - 1 - k]
  {
    assert TopN(cands, n) == Reversed(cands)[..n];
  }

  /** The number in a cell, or 0. */
  function Value(c: Cell): int {
    if IsNumber(c) then c.v.n else 0
  }

  /** In a column of numbers every row is a candidate, in row order. */
  lemma {:induction false} AllCandidates(col: seq<Cell>)
    requires forall i :: 0 <= i < |col| ==> IsNumber(col[i])
    ensures var r := Candidates(col);
      |r| == |col| && forall k :: 0 <= k < |col| ==> r[k] == Ranked(k, Value(col[k]))
  {
    if |col| > 0 {
      AllCandidates(col[..|col| - 1]);
    }
  }

  /** The rows in reverse. */
  function Reversed(s: seq<Ranked>): (r: seq<Ranked>)
    ensures |r| == |s| && forall k :: 0 <= k < |s| ==> r[k] == s[|s| - 1 - k]
  {
    if |s| == 0 then [] else Reversed(s[1..]) + [s[0]]
  }

  /** Values that strictly increase are ranked in reverse. */
  lemma {:induction false} SortIncreasing(s: seq<Ranked>)
    requires forall i, j :: 0 <= i < j < |s| ==> s[i].val < s[j].val
    ensures SortRanked(s) == Reversed(s)
  {
    if |s| > 0 {
      var tail := s[1..];
      assert s == [s[0]] + tail;
      SortIncreasing(tail);
      var rest := SortRanked(tail);
      LastIsLeast(s[0], tail, rest);
      InsertLast(s[0], rest);
    }
  }

  /** A row smaller than every row after it precedes none of them once
      they are reversed. */
  lemma LastIsLeast(x: Ranked, tail: seq<Ranked>, rest: seq<Ranked>)
    requires forall j :: 0 <= j < |tail| ==> x.val < tail[j].val
    requires rest == Reversed(tail)
    ensures forall k :: 0 <= k < |rest| ==> !Precedes(x, rest[k])
  {
  }

  /** A row that every sorted row precedes, and none the other way, goes
      last. */
  lemma {:induction false} InsertLast(x: Ranked, s: seq<Ranked>)
    requires RankOrdered(s)
    requires forall k :: 0 <= k < |s| ==> !Precedes(x, s[k])
    ensures InsertRanked(x, s) == s + [x]
  {
    if |s| > 0 {
      InsertLast(x, s[1..]);
      assert s == [s[0]] + s[1..];
    }
  }

  /** `'${:,.0f}'` and `'{:,.2f}'` on an integer: digits grouped by
      threes with commas, after a minus sign for a negative number. */
  function GroupDigits(d: string): (r: string)
    ensures |d| > 0 ==> |r| == |d| + (|d| - 1) / 3
    ensures |d| <= 3 ==> r == d
    decreases |d|
  {
    if |d| <= 3 then d else GroupDigits(d[..|d| - 3]) + "," + d[|d| - 3..]
  }

  /** The text with every comma removed. */
  function Uncomma(s: string): string {
    if |s| == 0 then "" else Uncomma(s[..|s| - 1]) + (if s[|s| - 1] == ',' then "" else [s[|s| - 1]])
  }

  lemma {:induction false} UncommaAppend(a: string, b: string)
    ensures Uncomma(a + b) == Uncomma(a) + Uncomma(b)
    decreases |b|
  {
    if |b| > 0 {
      assert (a + b)[..|a + b| - 1] == a + b[..|b| - 1];
      UncommaAppend(a, b[..|b| - 1]);
    } else {
      assert a + b == a;
    }
  }

  /** Removing the separators gives back the digits. */
  lemma {:induction false} GroupDigitsUncomma(d: string)
    requires Text.AllDigits(d)
    ensures Uncomma(GroupDigits(d)) == d
    decreases |d|
  {
    if |d| <= 3 {
      NoCommaUncomma(d);
    } else {
      var head := d[..|d| - 3];
      var tail := d[|d| - 3..];
      assert Text.AllDigits(head) && Text.AllDigits(tail);
      var g := GroupDigits(head);
      assert GroupDigits(d) == g + ("," + tail);
      GroupDigitsUncomma(head);
      UncommaAppend(g, "," + tail);
      CommaUncomma(tail);
      assert Uncomma(GroupDigits(d)) == head + tail;
      assert head + tail == d;
    }
  }

  /** A comma stands exactly at every fourth place counted from the end. */
  predicate CommaEveryFourth(r: string) {
    forall k :: 0 <= k < |r| ==> (r[k] == ',' <==> (|r| - k) % 4 == 0)
  }

  /** The digits go in groups of three from the right, one comma between
      groups. */
  lemma {:induction false} GroupDigitsCommas(d: string)
    requires Text.AllDigits(d)
    ensures CommaEveryFourth(GroupDigits(d))
    decreases |d|
  {
    var r := GroupDigits(d);
    if |d| <= 3 {
      forall k | 0 <= k < |r| ensures r[k] == ',' <==> (|r| - k) % 4 == 0 {
        assert Text.IsDigit(d[k]);
        assert 0 < |r| - k < 4;
      }
    } else {
      var head, tail := d[..|d| - 3], d[|d| - 3..];
      assert Text.AllDigits(head) && Text.AllDigits(tail);
      GroupDigitsCommas(head);
      var g := GroupDigits(head);
      assert r == g + "," + tail;
      forall k | 0 <= k < |r| ensures r[k] == ',' <==> (|r| - k) % 4 == 0 {
        assert |r| == |g| + 4;
        if k < |g| {
          assert r[k] == g[k];
          assert (|g| - k + 4) % 4 == (|g| - k) % 4;
        } else if k > |g| {
          assert r[k] == tail[k - |g| - 1];
          assert Text.IsDigit(tail[k - |g| - 1]);
          assert 0 < |r| - k < 4;
        } else {
          assert r[k] == ',' && |r| - k == 4;
        }
      }
    }
  }

  /** A leading separator disappears. */
  lemma CommaUncomma(tail: string)
    requires Text.AllDigits(tail)
    ensures Uncomma("," + tail) == tail
  {
    UncommaAppend(",", tail);
    NoCommaUncomma(tail);
    assert Uncomma(",") == "" by { assert ","[..0] == ""; }
  }

  lemma {:induction false} NoCommaUncomma(d: string)
    requires Text.AllDigits(d)
    ensures Uncomma(d) == d
    decreases |d|
  {
    if |d| > 0 {
      assert Text.AllDigits(d[..|d| - 1]);
      NoCommaUncomma(d[..|d| - 1]);
      assert Text.IsDigit(d[|d| - 1]);
      assert d == d[..|d| - 1] + [d[|d| - 1]];
    }
  }

  /** `format(v, ',')` for an integer. */
  function Grouped(v: int): string {
    if v < 0 then "-" + GroupDigits(Text.NatToString(-v)) else GroupDigits(Text.NatToString(v))
  }

  /** The grouped number without its separators is `str(v)`. */
  lemma GroupedUncomma(v: int)
    ensures Uncomma(Grouped(v)) == Text.IntToString(v)
  {
    var digits := Text.NatToString(if v < 0 then -v else v);
    GroupDigitsUncomma(digits);
    if v < 0 {
      UncommaAppend("-", GroupDigits(digits));
      assert Uncomma("-") == "-" by { assert "-"[..0] == ""; }
    }
  }

  /** The formatted value: `$` and whole units for a USD metric, two
      decimals otherwise. */
  function FormatValue(unit: string, v: int): (r: string)
    ensures Uncomma(r) == if unit == "USD" then "$" + Text.IntToString(v) else Text.IntToString(v) + ".00"
  {
    var g := Grouped(v);
    GroupedUncomma(v);
    if unit == "USD" then
      UncommaAppend("$", g);
      assert Uncomma("$") == "$" by { assert "$"[..0] == ""; }
      "$" + g
    else
      UncommaAppend(g, ".00");
      assert Uncomma(".00") == ".00" by {
        assert ".00"[..2] == ".0" && ".0"[..1] == "." && "."[..0] == "";
      }
      g + ".00"
  }

  /** A ranked row as returned: `entityName`, the formatted `val` and `cik`. */
  function RankedRow(row: Row, unit: string, v: int): Row {
    map["entityName" := CellAt(row, "entityName"), "val" := Of(JStr(FormatValue(unit, v))), "cik" := CellAt(row, "cik")]
  }

  /** A NaN row as returned: both formats print NaN as `nan`. */
  function GapRow(row: Row, unit: string): Row {
    map["entityName" := CellAt(row, "entityName"), "val" := Of(JStr(if unit == "USD" then "$nan" else "nan")), "cik" := CellAt(row, "cik")]
  }

  /** `get_peer_rankings` refuses an unsupported metric before fetching. */
  datatype RankingError = UnsupportedMetric(metric: string)

  /** How many rows `nlargest(n)` returns from a frame of `rows` rows. */
  function Shown(n: int, rows: nat): nat {
    if n <= 0 then 0 else if n < rows then n else rows
  }

  /** The rankings for a frame that came out of the fetch: nothing for an
      empty frame, for a `val` column that `nlargest` refuses (missing or
      not numeric) or when `entityName` or `cik` is missing; otherwise
      `min(n, len(df))` rows: the numbers in ranking order, then the NaN
      rows in row order, formatted. */
  function Rank(df: Table, unit: string, topN: int): (r: Table)
    ensures r == Empty <==>
      || IsEmpty(df) || !HasColumn(df, "val") || !NumericColumn(Column(df, "val"))
      || !HasColumn(df, "entityName") || !HasColumn(df, "cik")
    ensures r != Empty ==> r.names == ["entityName", "val", "cik"]
    ensures r != Empty ==> |r.rows| == Shown(topN, |df.rows|)
    ensures r != Empty ==> RankedRows(df, unit, topN, r.rows)
  {
    if IsEmpty(df) || !HasColumn(df, "val") then Empty
    else
      var col := Column(df, "val");
      if !NumericColumn(col) then Empty
      else if !HasColumn(df, "entityName") || !HasColumn(df, "cik") then Empty
      else
        Table(["entityName", "val", "cik"], Rankings(df, unit, topN))
  }

  /** The rows of the rankings: the numbers in ranking order, then NaN rows
      in row order. */
  predicate RankedRows(df: Table, unit: string, topN: int, rows: seq<Row>) {
    var col := Column(df, "val");
    var top := TopN(Candidates(col), topN);
    var gaps := Gaps(col);
    && |top| <= |rows| <= |top| + |gaps|
    && (forall k :: 0 <= k < |top| ==>
          top[k].pos < |df.rows| && rows[k] == RankedRow(df.rows[top[k].pos], unit, top[k].val))
    && var rest := rows[|top|..];
       forall j :: 0 <= j < |rest| ==> gaps[j] < |df.rows| && rest[j] == GapRow(df.rows[gaps[j]], unit)
  }

  /** The first `min(n, len(df))` rankings. */
  function Rankings(df: Table, unit: string, topN: int): (r: seq<Row>)
    ensures |r| == Shown(topN, |df.rows|)
    ensures RankedRows(df, unit, topN, r)
  {
    var col := Column(df, "val");
    var top, gaps := TopN(Candidates(col), topN), Gaps(col);
    RankBounds(col, topN);
    RankRows(df.rows, unit, top, gaps, Shown(topN, |df.rows|))
  }

  /** Every row is a candidate or a gap. */
  lemma {:induction false} GapsCount(col: seq<Cell>)
    ensures |Gaps(col)| + |Candidates(col)| == |col|
  {
    if |col| > 0 {
      GapsCount(col[..|col| - 1]);
    }
  }

  /** The kept numbers fill at most `min(n, len)` rows, and the NaN rows
      make up the rest; every kept position is a row. */
  lemma RankBounds(col: seq<Cell>, topN: int)
    ensures var top := TopN(Candidates(col), topN);
      && |top| <= Shown(topN, |col|) <= |top| + |Gaps(col)|
      && (forall k :: 0 <= k < |top| ==> top[k].pos < |col|)
      && (forall j :: 0 <= j < |Gaps(col)| ==> Gaps(col)[j] < |col|)
  {
    var cands := Candidates(col);
    GapsCount(col);
    ShownSplit(topN, |cands|, |Gaps(col)|);
    TopInRange(col, topN);
  }

  /** Of `c + g` rows, `min(n, c + g)` are at least the `min(n, c)` of the
      first `c` and at most `g` more. */
  lemma ShownSplit(n: int, c: nat, g: nat)
    ensures Shown(n, c) <= Shown(n, c + g) <= Shown(n, c) + g
  {
  }

  /** Every kept position is a row. */
  lemma TopInRange(col: seq<Cell>, topN: int)
    ensures var top := TopN(Candidates(col), topN);
      forall k :: 0 <= k < |top| ==> top[k].pos < |col|
  {
    var cands := Candidates(col);
    var top := TopN(cands, topN);
    forall k | 0 <= k < |top| ensures top[k].pos < |col| {
      var l :| 0 <= l < |cands| && cands[l] == top[k];
    }
  }

  /** The first `shown` rankings: the kept numbers, then NaN rows. */
  function RankRows(rows: seq<Row>, unit: string, top: seq<Ranked>, gaps: seq<nat>, shown: nat): (r: seq<Row>)
    requires |top| <= shown <= |top| + |gaps|
    requires forall k :: 0 <= k < |top| ==> top[k].pos < |rows|
    requires forall k :: 0 <= k < |gaps| ==> gaps[k] < |rows|
    ensures |r| == shown
    ensures forall k :: 0 <= k < |top| ==> r[k] == RankedRow(rows[top[k].pos], unit, top[k].val)
    ensures forall j :: 0 <= j < shown - |top| ==> r[|top|..][j] == GapRow(rows[gaps[j]], unit)
  {
    var numbers := seq(|top|, k requires 0 <= k < |top| => RankedRow(rows[top[k].pos], unit, top[k].val));
    var nans := seq(shown - |top|, j requires 0 <= j < shown - |top| => GapRow(rows[gaps[j]], unit));
    assert (numbers + nans)[|top|..] == nans;
    numbers + nans
  }

  /** `get_peer_rankings(metric, year, quarter, top_n)`. */
  function GetPeerRankings(metric: string, year: int, quarter: Option<int>, topN: int, fetch: Fetch): (r: Result<Table, RankingError>)
    ensures r.Err? <==> !Dicts.HasKey(KeyMetrics, metric)
    ensures r.Err? ==> r.error == UnsupportedMetric(metric)
    ensures r.Ok? && Contribution(metric, year, quarter, fetch).None? ==> r.value == Empty
    ensures r.Ok? && Contribution(metric, year, quarter, fetch).Some? ==>
      r.value == Rank(Contribution(metric, year, quarter, fetch).value, Dicts.Get(KeyMetrics, metric).value.unit, topN)
  {
    match Dicts.Get(KeyMetrics, metric)
    case None => Err(UnsupportedMetric(metric))
    case Some(config) =>
      match MetricFrame(config, year, quarter, fetch)
      case None => Ok(Empty)
      case Some(df) => Ok(Rank(df, config.unit, topN))
  }

  /** An unsupported metric is refused without any fetch: the answer does
      not depend on what `get_frames` would return. */
  lemma UnsupportedBeforeFetch(metric: string, year: int, quarter: Option<int>, topN: int, f: Fetch, g: Fetch)
    requires !Dicts.HasKey(KeyMetrics, metric)
    ensures GetPeerRankings(metric, year, quarter, topN, f) == GetPeerRankings(metric, year, quarter, topN, g)
  {
  }
}

=== FILE: json.dfy ===
/** Decoded JSON values and the Python operations the core applies to them
    (`k in d`, `d[k]`, `d.get(k, default)`, `d.items()`, truthiness, `str(x)`).
    Objects keep their key order, as Python dicts do (see `Dicts`). */
module Json {
  import opened Wrappers
  import opened Dicts
  import Text

  /** A decoded JSON document. Numbers are integers (floating point is not
      part of this model). `json.loads` never produces an object with a
      repeated key (a later duplicate replaces the earlier one), while
      `JObj`'s fields may repeat one; lookups read the first occurrence, and
      the statements about keys that need uniqueness require `UniqueKeys`. */
  datatype Json =
    | JNull
    | JBool(b: bool)
    | JNum(n: int)
    | JStr(s: string)
    | JArr(items: seq<Json>)
    | JObj(fields: seq<(string, Json)>)

  /** The Python exceptions that dict/list operations raise on ill-typed values. */
  datatype PyError = KeyError(key: string) | TypeError | AttributeError

  /** Python truthiness of a decoded value. */
  predicate Truthy(j: Json) {
    match j
    case JNull => false
    case JBool(b) => b
    case JNum(n) => n != 0
    case JStr(s) => |s| > 0
    case JArr(items) => |items| > 0
    case JObj(fields) => |fields| > 0
  }

  /** Python's `key in container` for a string key. */
  function PyIn(key: string, container: Json): (r: Result<bool, PyError>)
    ensures container.JObj? ==> r == Ok(HasKey(container.fields, key))
    ensures container.JArr? ==> r == Ok(JStr(key) in container.items)
    ensures r.Err? <==> !(container.JObj? || container.JArr? || container.JStr?)
  {
    match container
    case JObj(fields) => Ok(HasKey(fields, key))
    case JArr(items) => Ok(JStr(key) in items)
    case JStr(s) => Ok(Text.Contains(s, key))
    case _ => Err(TypeError)
  }

  /** Python's `container[key]` for a string key. */
  function PyGetItem(container: Json, key: string): (r: Result<Json, PyError>)
    ensures r.Ok? <==> container.JObj? && HasKey(container.fields, key)
    ensures r.Ok? ==> Some(r.value) == Get(container.fields, key)
  {
    match container
    case JObj(fields) =>
      (match Get(fields, key)
       case Some(v) => Ok(v)
       case None => Err(KeyError(key)))
    case _ => Err(TypeError)
  }

  /** Python's `container.get(key, default)`. */
  function PyGet(container: Json, key: string, default: Json): (r: Result<Json, PyError>)
    ensures r.Ok? <==> container.JObj?
    ensures r.Ok? && HasKey(container.fields, key) ==> Some(r.value) == Get(container.fields, key)
    ensures r.Ok? && !HasKey(container.fields, key) ==> r.value == default
  {
    match container
    case JObj(fields) => Ok(Get(fields, key).GetOr(default))
    case _ => Err(AttributeError)
  }

  /** Python's `container.items()`. */
  function PyItems(container: Json): (r: Result<seq<(string, Json)>, PyError>)
    ensures r.Ok? <==> container.JObj?
    ensures r.Ok? ==> r.value == container.fields
  {
    match container
    case JObj(fields) => Ok(fields)
    case _ => Err(AttributeError)
  }

  /** Python's `repr(x)` (strings are shown in single quotes; escaping of
      quotes and control characters inside strings is not modelled). */
  function Repr(j: Json): string
    decreases j
  {
    match j
    case JNull => "None"
    case JBool(b) => if b then "True" else "False"
    case JNum(n) => Text.IntToString(n)
    case JStr(s) => "'" + s + "'"
    case JArr(items) => "[" + ReprItems(items) + "]"
    case JObj(fields) => "{" + ReprFields(fields) + "}"
  }

  function ReprItems(items: seq<Json>): string
    decreases items
  {
    if |items| == 0 then ""
    else if |items| == 1 then Repr(items[0])
    else Repr(items[0]) + ", " + ReprItems(items[1..])
  }

  function ReprFields(fields: seq<(string, Json)>): string
    decreases fields
  {
    if |fields| == 0 then ""
    else
      assert fields[0].1 < fields[0];
      var head := "'" + fields[0].0 + "': " + Repr(fields[0].1);
      if |fields| == 1 then head else head + ", " + ReprFields(fields[1..])
  }

  /** Python's `str(x)`: strings render as themselves, everything else as `repr`. */
  function PyStr(j: Json): (r: string)
    ensures !j.JStr? ==> r == Repr(j)
  {
    if j.JStr? then j.s else Repr(j)
  }
}

=== FILE: request_policy.dfy ===
/** The network layer of the API client (src/utils/sec_client.py): the retry
    loop of `_make_request` over an abstract server, and the `_rate_limit`
    throttle over an abstract integer clock. Time is counted in ticks. */
module RequestPolicy {
  import opened Wrappers
  import opened Json

  /** What the server answers to one request: an HTTP response (with a JSON
      body when the body decodes) or a transport failure (timeout, refused
      connection, ...). */
  datatype Reply = Response(status: int, body: Option<Json>) | TransportError

  /** The two exceptions `_make_request` raises once it gives up. */
  datatype Failure = RateLimitExceeded | DataRetrievalFailed

  /** A 429 answer: raised as the rate-limit error. */
  predicate RateLimited(r: Reply) {
    r.Response? && r.status == 429
  }

  /** An answer whose status passes `raise_for_status` and whose body decodes. */
  predicate Succeeded(r: Reply) {
    r.Response? && r.status != 429 && !(400 <= r.status < 600) && r.body.Some?
  }

  /** What the client does, in order: call the throttle, send, sleep. */
  datatype Step = Throttle | Send | Sleep(duration: int)

  /** Outcome of `_make_request`: the payload (`None` when no attempt was
      made), or the exception raised, plus the steps taken. */
  datatype Attempts = Attempts(result: Result<Option<Json>, Failure>, trace: seq<Step>)

  function CountSends(trace: seq<Step>): nat {
    if |trace| == 0 then 0 else (if trace[0] == Send then 1 else 0) + CountSends(trace[1..])
  }

  function TotalSleep(trace: seq<Step>): int {
    if |trace| == 0 then 0
    else (if trace[0].Sleep? then trace[0].duration else 0) + TotalSleep(trace[1..])
  }

  /** Every request is immediately preceded by a call to the throttle. */
  predicate ThrottledSends(trace: seq<Step>) {
    forall i :: 0 <= i < |trace| && trace[i] == Send ==> i > 0 && trace[i - 1] == Throttle
  }

  /** No attempt in [from, upto) succeeded. */
  predicate NoSuccessIn(server: nat -> Reply, from: nat, upto: int) {
    forall j: nat :: from <= j < upto ==> !Succeeded(server(j))
  }

  /** `j` is the first successful attempt at or after `from`. */
  predicate FirstSuccessAt(server: nat -> Reply, from: nat, j: nat) {
    from <= j && Succeeded(server(j)) && NoSuccessIn(server, from, j)
  }

  lemma CountSendsAppend(a: seq<Step>, b: seq<Step>)
    ensures CountSends(a + b) == CountSends(a) + CountSends(b)
    ensures TotalSleep(a + b) == TotalSleep(a) + TotalSleep(b)
  {
    if |a| == 0 {
      assert a + b == b;
    } else {
      assert (a + b)[0] == a[0];
      assert (a + b)[1..] == a[1..] + b;
      CountSendsAppend(a[1..], b);
    }
  }

  lemma ThrottledAppend(a: seq<Step>, b: seq<Step>)
    requires ThrottledSends(a) && ThrottledSends(b) && (|b| == 0 || b[0] != Send)
    ensures ThrottledSends(a + b)
  {
    forall i | 0 <= i < |a + b| && (a + b)[i] == Send
      ensures i > 0 && (a + b)[i - 1] == Throttle
    {
      if i >= |a| {
        assert b[i - |a|] == Send;
      }
    }
  }

  /** The first successful attempt in [from, upto), if any. */
  function FirstSuccess(server: nat -> Reply, from: nat, upto: int): (r: Option<nat>)
    ensures r.Some? ==> FirstSuccessAt(server, from, r.value) && r.value < upto
    ensures r.None? ==> NoSuccessIn(server, from, upto)
    decreases upto - from
  {
    if upto <= from then None
    else if Succeeded(server(from)) then Some(from)
    else FirstSuccess(server, from + 1, upto)
  }

  /** Attempt number `k` (0-based) of the `for attempt in range(max_retries)`
      loop and every attempt after it. */
  function Attempt(k: nat, maxRetries: int, retryDelay: int, server: nat -> Reply): (r: Attempts)
    requires k < maxRetries
    ensures match FirstSuccess(server, k, maxRetries)
            case Some(j) => r.result == Ok(Some(server(j).body.value)) && CountSends(r.trace) == j - k + 1
            case None =>
              && r.result == Err(if RateLimited(server(maxRetries - 1)) then RateLimitExceeded else DataRetrievalFailed)
              && CountSends(r.trace) == maxRetries - k
    ensures ThrottledSends(r.trace) && |r.trace| > 0 && r.trace[0] == Throttle
    decreases maxRetries - k
  {
    var reply := server(k);
    var head := [Throttle, Send];
    assert CountSends(head) == 1;
    if Succeeded(reply) then
      Attempts(Ok(Some(reply.body.value)), head)
    else if k == maxRetries - 1 then
      Attempts(Err(if RateLimited(reply) then RateLimitExceeded else DataRetrievalFailed), head)
    else
      var pause := if RateLimited(reply) then retryDelay * (k + 1) else retryDelay;
      var rest := Attempt(k + 1, maxRetries, retryDelay, server);
      var prefix := head + [Sleep(pause)];
      CountSendsAppend(prefix, rest.trace);
      CountSendsAppend(head, [Sleep(pause)]);
      assert CountSends([Sleep(pause)]) == 0;
      ThrottledAppend(prefix, rest.trace);
      Attempts(rest.result, prefix + rest.trace)
  }

  /** `_make_request`: up to `maxRetries` throttled attempts; the first
      decodable 2xx-class answer is returned; a 429 sleeps `retryDelay *
      (attempt + 1)` and any other failure sleeps `retryDelay` before the
      next attempt; on the last attempt the 429 is raised as the rate-limit
      error and any other failure as the data error. With no attempts the
      loop falls through and returns `None`. */
  function MakeRequest(maxRetries: int, retryDelay: int, server: nat -> Reply): (r: Attempts)
    ensures maxRetries <= 0 ==> r == Attempts(Ok(None), [])
    ensures r.result == Ok(None) ==> maxRetries <= 0
    ensures ThrottledSends(r.trace)
    ensures forall j: nat :: FirstSuccessAt(server, 0, j) && j < maxRetries ==>
              r.result == Ok(Some(server(j).body.value)) && CountSends(r.trace) == j + 1
    ensures maxRetries > 0 && NoSuccessIn(server, 0, maxRetries) ==>
              && r.result == Err(if RateLimited(server(maxRetries - 1)) then RateLimitExceeded else DataRetrievalFailed)
              && CountSends(r.trace) == maxRetries
  {
    if maxRetries <= 0 then Attempts(Ok(None), [])
    else
      var r := Attempt(0, maxRetries, retryDelay, server);
      FirstSuccessUnique(server, maxRetries);
      r
  }

  /** The first success, when there is one, is the one `FirstSuccess` finds. */
  lemma FirstSuccessUnique(server: nat -> Reply, upto: int)
    ensures forall j: nat :: FirstSuccessAt(server, 0, j) && j < upto ==> FirstSuccess(server, 0, upto) == Some(j)
    ensures NoSuccessIn(server, 0, upto) ==> FirstSuccess(server, 0, upto).None?
  {
  }

  /** A failed attempt that is not the last one sleeps and hands over to the
      next attempt. */
  lemma AttemptUnfold(k: nat, maxRetries: int, retryDelay: int, server: nat -> Reply)
    requires k < maxRetries - 1 && !Succeeded(server(k))
    ensures var pause := if RateLimited(server(k)) then retryDelay * (k + 1) else retryDelay;
            var rest := Attempt(k + 1, maxRetries, retryDelay, server);
            Attempt(k, maxRetries, retryDelay, server) == Attempts(rest.result, [Throttle, Send, Sleep(pause)] + rest.trace)
  {
    var pause := if RateLimited(server(k)) then retryDelay * (k + 1) else retryDelay;
    assert [Throttle, Send] + [Sleep(pause)] == [Throttle, Send, Sleep(pause)];
  }

  /** Sleep and send totals of one attempt's steps. */
  lemma AttemptSteps(pause: int)
    ensures CountSends([Throttle, Send]) == 1 && TotalSleep([Throttle, Send]) == 0
    ensures CountSends([Throttle, Send, Sleep(pause)]) == 1 && TotalSleep([Throttle, Send, Sleep(pause)]) == pause
  {
    var t3: seq<Step> := [Sleep(pause)];
    assert t3[1..] == [];
    assert CountSends(t3) == 0 && TotalSleep(t3) == pause;
    var t2 := [Send] + t3;
    assert t2[1..] == t3;
    assert CountSends(t2) == 1 && TotalSleep(t2) == pause;
    var t1 := [Throttle] + t2;
    assert t1[1..] == t2;
    assert t1 == [Throttle, Send, Sleep(pause)];
    var u2: seq<Step> := [Send];
    assert u2[1..] == [];
    var u1 := [Throttle] + u2;
    assert u1[1..] == u2;
    assert u1 == [Throttle, Send];
  }

  /** One failed attempt's steps in front of the rest add one send and its pause. */
  lemma PrefixSteps(pause: int, rest: seq<Step>)
    ensures CountSends([Throttle, Send, Sleep(pause)] + rest) == 1 + CountSends(rest)
    ensures TotalSleep([Throttle, Send, Sleep(pause)] + rest) == pause + TotalSleep(rest)
  {
    AttemptSteps(pause);
    CountSendsAppend([Throttle, Send, Sleep(pause)], rest);
  }

  /** 1 + 2 + ... + n. */
  function Triangle(n: nat): nat {
    if n == 0 then 0 else Triangle(n - 1) + n
  }

  /** Sleep of the linear back-off for attempts k .. n-1: d*(k+1) + ... + d*n. */
  function Backoff(k: nat, n: nat, d: int): int
    decreases n - k
  {
    if k >= n then 0 else d * (k + 1) + Backoff(k + 1, n, d)
  }

  /** Against a server that always answers 429, attempt `k` onwards sleeps
      `retryDelay * (k+1) + ... + retryDelay * (maxRetries-1)` in total: the
      back-off is linear in the attempt number. */
  lemma {:induction false} AlwaysRateLimitedFrom(k: nat, maxRetries: int, retryDelay: int, server: nat -> Reply)
    requires k < maxRetries
    requires forall j: nat :: RateLimited(server(j))
    ensures TotalSleep(Attempt(k, maxRetries, retryDelay, server).trace) == Backoff(k, maxRetries - 1, retryDelay)
    decreases maxRetries - k
  {
    if k == maxRetries - 1 {
      assert RateLimited(server(k));
      LastAttemptFails(k, maxRetries, retryDelay, server);
    } else {
      assert RateLimited(server(k));
      AlwaysRateLimitedFrom(k + 1, maxRetries, retryDelay, server);
      RateLimitedStep(k, maxRetries, retryDelay, server);
    }
  }

  /** Against a server that never succeeds, every attempt fails and the last
      one decides the error. */
  lemma NeverSucceeds(k: nat, maxRetries: int, retryDelay: int, server: nat -> Reply)
    requires k < maxRetries
    requires forall j: nat :: !Succeeded(server(j))
    ensures Attempt(k, maxRetries, retryDelay, server).result
      == Err(if RateLimited(server(maxRetries - 1)) then RateLimitExceeded else DataRetrievalFailed)
  {
    assert NoSuccessIn(server, k, maxRetries);
  }

  /** Against a server that always answers 429, every attempt fails and the
      last one raises the rate-limit error. */
  lemma RateLimitedResult(k: nat, maxRetries: int, retryDelay: int, server: nat -> Reply)
    requires k < maxRetries
    requires forall j: nat :: RateLimited(server(j))
    ensures Attempt(k, maxRetries, retryDelay, server).result == Err(RateLimitExceeded)
  {
    NeverSucceeds(k, maxRetries, retryDelay, server);
    assert RateLimited(server(maxRetries - 1));
  }

  /** Against a server that always fails without a 429, every attempt fails
      and the last one raises the data error. */
  lemma FailingResult(k: nat, maxRetries: int, retryDelay: int, server: nat -> Reply)
    requires k < maxRetries
    requires forall j: nat :: !Succeeded(server(j)) && !RateLimited(server(j))
    ensures Attempt(k, maxRetries, retryDelay, server).result == Err(DataRetrievalFailed)
  {
    NeverSucceeds(k, maxRetries, retryDelay, server);
    assert !RateLimited(server(maxRetries - 1));
  }

  /** A 429 on a non-last attempt adds the attempt's linear pause to the sleep
      of the attempts after it: if those sleep the back-off from attempt
      `k + 1`, attempt `k` onwards sleeps the back-off from `k`. */
  lemma RateLimitedStep(k: nat, maxRetries: int, retryDelay: int, server: nat -> Reply)
    requires k < maxRetries - 1 && RateLimited(server(k))
    requires TotalSleep(Attempt(k + 1, maxRetries, retryDelay, server).trace) == Backoff(k + 1, maxRetries - 1, retryDelay)
    ensures TotalSleep(Attempt(k, maxRetries, retryDelay, server).trace) == Backoff(k, maxRetries - 1, retryDelay)
  {
    var pause := retryDelay * (k + 1);
    var rest := Attempt(k + 1, maxRetries, retryDelay, server);
    AttemptUnfold(k, maxRetries, retryDelay, server);
    PrefixSteps(pause, rest.trace);
    assert Backoff(k, maxRetries - 1, retryDelay) == pause + Backoff(k + 1, maxRetries - 1, retryDelay);
  }

  /** `d * a + d * b == d * (a + b)`. */
  lemma Distribute(d: int, a: int, b: int)
    ensures d * a + d * b == d * (a + b)
  {
  }

  /** The linear back-off sums to `d` times a triangular number. */
  lemma {:induction false} BackoffClosedForm(k: nat, n: nat, d: int)
    requires k <= n
    ensures Backoff(k, n, d) == d * (Triangle(n) - Triangle(k))
    decreases n - k
  {
    if k < n {
      BackoffClosedForm(k + 1, n, d);
      assert Triangle(k + 1) == Triangle(k) + (k + 1);
      Distribute(d, k + 1, Triangle(n) - Triangle(k + 1));
    }
  }


  /** A server that always answers 429 makes `_make_request` raise the
      rate-limit error after `maxRetries` requests and `retryDelay * (1 + 2 +
      ... + (maxRetries-1))` ticks of sleep. */
  lemma AlwaysRateLimited(maxRetries: int, retryDelay: int, server: nat -> Reply)
    requires maxRetries > 0
    requires forall j: nat :: RateLimited(server(j))
    ensures MakeRequest(maxRetries, retryDelay, server).result == Err(RateLimitExceeded)
    ensures CountSends(MakeRequest(maxRetries, retryDelay, server).trace) == maxRetries
    ensures TotalSleep(MakeRequest(maxRetries, retryDelay, server).trace) == retryDelay * Triangle(maxRetries - 1)
  {
    RateLimitedResult(0, maxRetries, retryDelay, server);
    AlwaysRateLimitedFrom(0, maxRetries, retryDelay, server);
    BackoffClosedForm(0, maxRetries - 1, retryDelay);
  }

  /** Against a server that always fails without a 429, every pause is the
      flat `retryDelay`. */
  lemma {:induction false} AlwaysFailingFrom(k: nat, maxRetries: int, retryDelay: int, server: nat -> Reply)
    requires k < maxRetries
    requires forall j: nat :: !Succeeded(server(j)) && !RateLimited(server(j))
    ensures TotalSleep(Attempt(k, maxRetries, retryDelay, server).trace) == Flat(k, maxRetries - 1, retryDelay)
    decreases maxRetries - k
  {
    assert !Succeeded(server(k)) && !RateLimited(server(k));
    if k == maxRetries - 1 {
      LastAttemptFails(k, maxRetries, retryDelay, server);
    } else {
      AlwaysFailingFrom(k + 1, maxRetries, retryDelay, server);
      FailedStep(k, maxRetries, retryDelay, server);
    }
  }

  /** The last attempt, failing, raises its error after one request and no sleep. */
  lemma LastAttemptFails(k: nat, maxRetries: int, retryDelay: int, server: nat -> Reply)
    requires k == maxRetries - 1 && !Succeeded(server(k))
    ensures Attempt(k, maxRetries, retryDelay, server)
      == Attempts(Err(if RateLimited(server(k)) then RateLimitExceeded else DataRetrievalFailed), [Throttle, Send])
    ensures TotalSleep(Attempt(k, maxRetries, retryDelay, server).trace) == 0
  {
    AttemptSteps(0);
  }

  /** Sleep of the flat back-off for attempts k .. n-1: `d` each. */
  function Flat(k: nat, n: nat, d: int): int
    decreases n - k
  {
    if k >= n then 0 else d + Flat(k + 1, n, d)
  }

  /** The flat back-off sums to `d` times the number of pauses. */
  lemma {:induction false} FlatClosedForm(k: nat, n: nat, d: int)
    requires k <= n
    ensures Flat(k, n, d) == d * (n - k)
    decreases n - k
  {
    if k < n {
      FlatClosedForm(k + 1, n, d);
      MulPred(n - k, d);
    }
  }

  /** A failure other than a 429 on a non-last attempt adds the flat pause to
      the sleep of the attempts after it: if those sleep the flat back-off
      from attempt `k + 1`, attempt `k` onwards sleeps it from `k`. */
  lemma FailedStep(k: nat, maxRetries: int, retryDelay: int, server: nat -> Reply)
    requires k < maxRetries - 1 && !Succeeded(server(k)) && !RateLimited(server(k))
    requires TotalSleep(Attempt(k + 1, maxRetries, retryDelay, server).trace) == Flat(k + 1, maxRetries - 1, retryDelay)
    ensures TotalSleep(Attempt(k, maxRetries, retryDelay, server).trace) == Flat(k, maxRetries - 1, retryDelay)
  {
    AttemptUnfold(k, maxRetries, retryDelay, server);
    PrefixSteps(retryDelay, Attempt(k + 1, maxRetries, retryDelay, server).trace);
    assert Flat(k, maxRetries - 1, retryDelay) == retryDelay + Flat(k + 1, maxRetries - 1, retryDelay);
  }

  /** A server that always fails (transport error, 4xx/5xx other than 429,
      undecodable body) makes `_make_request` raise the data error after
      `maxRetries` requests and `retryDelay * (maxRetries-1)` ticks of sleep. */
  lemma AlwaysFailing(maxRetries: int, retryDelay: int, server: nat -> Reply)
    requires maxRetries > 0
    requires forall j: nat :: !Succeeded(server(j)) && !RateLimited(server(j))
    ensures MakeRequest(maxRetries, retryDelay, server).result == Err(DataRetrievalFailed)
    ensures TotalSleep(MakeRequest(maxRetries, retryDelay, server).trace) == retryDelay * (maxRetries - 1)
  {
    FailingResult(0, maxRetries, retryDelay, server);
    AlwaysFailingFrom(0, maxRetries, retryDelay, server);
    FlatClosedForm(0, maxRetries - 1, retryDelay);
  }

  // ---------------------------------------------------------------------
  // Throttle

  /** One call of `_rate_limit` at clock reading `now`, with the previous
      request stamped `last`: it sleeps `wait` ticks and stamps the new
      request at the clock reading after the sleep, which is `now + wait`
      plus the `drift` the clock advanced beyond the requested sleep. */
  datatype Pause = Pause(wait: int, stamp: int)

  function RateLimit(now: int, last: int, minInterval: int, drift: nat): (p: Pause)
    ensures p.wait > 0 <==> now - last < minInterval
    ensures p.wait >= 0
    ensures p.stamp == (if now >= last + minInterval then now else last + minInterval) + drift
  {
    var elapsed := now - last;
    var wait := if elapsed < minInterval then minInterval - elapsed else 0;
    Pause(wait, now + wait + drift)
  }

  /** A sequence of throttled requests under a monotone clock: before call
      `i` the clock has moved `gap` ticks past the previous stamp, and the
      sleep overshoots by `drift`. Returns the stamps. */
  function Stamps(last: int, minInterval: int, calls: seq<(nat, nat)>): (r: seq<int>)
    decreases |calls|
    ensures |r| == |calls|
    ensures |r| > 0 ==> r[0] >= last + minInterval
    ensures forall i :: 0 < i < |r| ==> r[i] - r[i - 1] >= minInterval
  {
    if |calls| == 0 then []
    else
      var p := RateLimit(last + calls[0].0, last, minInterval, calls[0].1);
      [p.stamp] + Stamps(p.stamp, minInterval, calls[1..])
  }

  /** N consecutive throttled requests span at least (N-1) minimum intervals. */
  lemma StampsSpan(last: int, minInterval: int, calls: seq<(nat, nat)>)
    requires |calls| > 0
    ensures var r := Stamps(last, minInterval, calls);
            r[|r| - 1] - r[0] >= (|r| - 1) * minInterval
  {
    var r := Stamps(last, minInterval, calls);
    GapsSpan(r, minInterval, |r| - 1);
  }

  /** Stamps at least `m` apart, `n + 1` of them, span at least `n` gaps. */
  lemma {:induction false} GapsSpan(r: seq<int>, m: int, n: nat)
    requires n == |r| - 1
    requires forall i :: 0 < i < |r| ==> r[i] - r[i - 1] >= m
    ensures r[n] - r[0] >= n * m
  {
    if n > 0 {
      var s := r[..n];
      assert forall i :: 0 <= i < |s| ==> s[i] == r[i];
      GapsSpan(s, m, n - 1);
      assert s[n - 1] == r[n - 1] && s[0] == r[0];
      MulPred(n, m);
    }
  }

  /** One factor of `m` less. */
  lemma MulPred(n: int, m: int)
    ensures n * m == (n - 1) * m + m
  {
  }
}

=== FILE: sec_client.dfy ===
/** The pure part of the API client (src/utils/sec_client.py): CIK
    normalisation, the frame period string, the endpoint URLs and the cache
    lifetimes of the endpoints. */
module SecClient {
  import opened Wrappers
  import opened Text
  import opened Json
  import RequestPolicy
  import ResponseCache

  /** The exceptions the client raises: `ValueError` for a bad CIK or
      quarter, and the two request failures of `_make_request`. */
  datatype ClientError = InvalidCik | InvalidQuarter | RateLimitExceeded | DataRetrievalFailed

  // ---------------------------------------------------------------------
  // CIK

  /** A CIK the client accepts: after trimming whitespace it is a string of
      ASCII digits that denotes a positive number. */
  predicate ValidCik(cik: string) {
    AllDigits(Strip(cik)) && DigitsValue(Strip(cik)) > 0
  }

  /** The number a valid CIK denotes. */
  function CikNumber(cik: string): nat
    requires ValidCik(cik)
  {
    DigitsValue(Strip(cik))
  }

  /** The canonical form of a CIK number: its decimal rendering, zero-padded
      to ten digits. */
  function CanonicalCik(n: nat): (r: string)
    ensures IsDigitString(r) && |r| >= 10
    ensures DigitsValue(r) == n
  {
    var s := NatToString(n);
    var r := ZFill(s, 10);
    LeadingZerosValue(|r| - |s|, s);
    NatToStringValue(n);
    r
  }

  lemma StripDigits(s: string)
    requires AllDigits(s)
    ensures Strip(s) == s
  {
  }

  lemma ValidateCikFacts(cik: string)
    ensures var z := StripLeadingZeros(Strip(cik));
            && (IsDigitString(z) <==> ValidCik(cik))
            && (IsDigitString(z) ==> ZFill(z, 10) == CanonicalCik(CikNumber(cik)))
  {
    var t := Strip(cik);
    if IsDigitString(StripLeadingZeros(t)) {
      SignificantDigits(t);
    } else {
      NoSignificantDigits(t);
    }
  }

  /** Digits left after dropping the leading zeros: the whole string is a
      digit string of a positive number, whose canonical form pads them. */
  lemma SignificantDigits(t: string)
    requires IsDigitString(StripLeadingZeros(t))
    ensures AllDigits(t) && DigitsValue(t) > 0
    ensures ZFill(StripLeadingZeros(t), 10) == CanonicalCik(DigitsValue(t))
  {
    var z := StripLeadingZeros(t);
    LeadingZerosValue(|t| - |z|, z);
    LeadingNonZeroPositive(z);
    CanonicalDigits(z);
  }

  /** Nothing or a non-digit left after dropping the leading zeros: the
      string is not the digit string of a positive number. */
  lemma NoSignificantDigits(t: string)
    requires !IsDigitString(StripLeadingZeros(t))
    ensures !(AllDigits(t) && DigitsValue(t) > 0)
  {
    var z := StripLeadingZeros(t);
    var k := |t| - |z|;
    if AllDigits(t) {
      assert z == t[k..];
      assert AllDigits(z);
      LeadingZerosValue(k, z);
    }
  }

  /** `_validate_cik`: trim whitespace, drop leading zeros, require a
      non-empty digit string, pad to ten digits. Accepted exactly when the
      CIK is valid, and then the result is the canonical form of its number. */
  function ValidateCik(cik: string): (r: Result<string, ClientError>)
    ensures r.Ok? <==> ValidCik(cik)
    ensures r.Err? ==> r.error == InvalidCik
    ensures r.Ok? ==> r.value == CanonicalCik(CikNumber(cik))
  {
    ValidateCikFacts(cik);
    var significant := StripLeadingZeros(Strip(cik));
    if !IsDigitString(significant) then Err(InvalidCik)
    else Ok(ZFill(significant, 10))
  }

  /** A normalised CIK is accepted again and normalises to itself. */
  lemma ValidateCikIdempotent(cik: string)
    requires ValidCik(cik)
    ensures ValidCik(ValidateCik(cik).value)
    ensures ValidateCik(ValidateCik(cik).value) == ValidateCik(cik)
  {
    var r := ValidateCik(cik).value;
    StripDigits(r);
  }

  /** Two accepted CIKs normalise to the same string exactly when they
      denote the same number ("320193", "0000320193" and " 320193 " are the
      same company). */
  lemma ValidateCikSameCompany(a: string, b: string)
    requires ValidCik(a) && ValidCik(b)
    ensures ValidateCik(a) == ValidateCik(b) <==> CikNumber(a) == CikNumber(b)
  {
  }

  /** A digit string without leading zeros is accepted and padded, and so
      is the same string behind any run of zeros. */
  lemma SignificantDigitsAccepted(k: nat, d: string)
    requires IsDigitString(d) && d[0] != '0'
    ensures ValidateCik(Repeat('0', k) + d) == Ok(ZFill(d, 10))
  {
    var t := Repeat('0', k) + d;
    LeadingZerosValue(k, d);
    StripDigits(t);
    LeadingNonZeroPositive(d);
    CanonicalDigits(d);
  }

  /** A run of zeros is not a CIK. */
  lemma ZerosRejected(t: string)
    requires forall i :: 0 <= i < |t| ==> t[i] == '0'
    ensures ValidateCik(t) == Err(InvalidCik)
  {
    assert t == Repeat('0', |t|) + "";
    LeadingZerosValue(|t|, "");
    StripDigits(t);
  }

  /** Text with a non-digit inside (not at its ends) is refused. */
  lemma NonDigitRejected(s: string, i: nat)
    requires i < |s| && !IsDigit(s[i])
    requires !IsSpace(s[0]) && !IsSpace(s[|s| - 1])
    ensures ValidateCik(s) == Err(InvalidCik)
  {
    StripUnchanged(s);
  }

  // ---------------------------------------------------------------------
  // Frame period

  /** A quarter argument is truthy in Python when given and non-zero. */
  predicate QuarterGiven(quarter: Option<int>) {
    quarter.Some? && quarter.value != 0
  }

  /** The period a frames request asks for: a calendar year, or quarter 1-4
      of it, the latter optionally as an instant (balance-sheet) reading. */
  datatype FrameSpec = FrameSpec(year: int, quarter: nat, instantaneous: bool)

  predicate WellFormedSpec(s: FrameSpec) {
    s.quarter <= 4 && (s.quarter == 0 ==> !s.instantaneous)
  }

  /** The spec a frames call denotes: a missing or zero quarter means the
      whole year, and then `instantaneous` is ignored. */
  function RequestedSpec(year: int, quarter: Option<int>, instantaneous: bool): FrameSpec
    requires !QuarterGiven(quarter) || 1 <= quarter.value <= 4
  {
    if QuarterGiven(quarter) then FrameSpec(year, quarter.value, instantaneous)
    else FrameSpec(year, 0, false)
  }

  /** The period string of `get_frames`: `CY2023`, `CY2023Q1` or `CY2023Q4I`;
      a quarter that is given (truthy) and outside 1-4 is refused. */
  function FramePeriod(year: int, quarter: Option<int>, instantaneous: bool): (r: Result<string, ClientError>)
    ensures r.Err? <==> QuarterGiven(quarter) && !(1 <= quarter.value <= 4)
    ensures r.Err? ==> r.error == InvalidQuarter
    ensures r.Ok? ==> |r.value| > 2 && r.value[..2] == "CY"
  {
    if QuarterGiven(quarter) && !(1 <= quarter.value <= 4) then Err(InvalidQuarter)
    else if QuarterGiven(quarter) then
      var p := "CY" + IntToString(year) + "Q" + IntToString(quarter.value);
      Ok(if instantaneous then p + "I" else p)
    else Ok("CY" + IntToString(year))
  }

  /** Reads a canonical decimal integer (optional minus sign, no leading
      zeros, no "-0"). */
  function ParseInt(t: string): (r: Option<int>)
    ensures r.Some? ==> IntToString(r.value) == t
  {
    if |t| > 0 && t[0] == '-' then
      var d := t[1..];
      if IsDigitString(d) && d[0] != '0' then
        CanonicalDigits(d);
        LeadingNonZeroPositive(d);
        var v: int := DigitsValue(d);
        Some(-v)
      else None
    else if IsDigitString(t) && (|t| == 1 || t[0] != '0') then
      CanonicalDigits(t);
      Some(DigitsValue(t))
    else None
  }

  /** The rendering of a positive number has no leading zero. */
  lemma PositiveRendering(n: nat)
    requires n > 0
    ensures var d := NatToString(n); IsDigitString(d) && d[0] != '0' && DigitsValue(d) == n
  {
    NatToStringValue(n);
    var d := NatToString(n);
    if |d| == 1 {
      assert d[..0] == "";
      assert DigitsValue(d) == DigitValue(d[0]);
    }
  }

  lemma ParseNegative(i: int)
    requires i < 0
    ensures ParseInt(IntToString(i)) == Some(i)
  {
    PositiveRendering(-i);
    ParseMinusDigits(NatToString(-i));
  }

  /** A minus sign before digits without a leading zero reads as the negated
      number. */
  lemma ParseMinusDigits(d: string)
    requires IsDigitString(d) && d[0] != '0'
    ensures var v: int := DigitsValue(d); ParseInt("-" + d) == Some(-v)
  {
    var t := "-" + d;
    assert t[0] == '-' && t[1..] == d;
  }

  lemma ParseIntToString(i: int)
    ensures ParseInt(IntToString(i)) == Some(i)
  {
    if i < 0 {
      ParseNegative(i);
    } else {
      NatToStringValue(i);
    }
  }

  /** Reads a period string back into the spec it names. */
  function ParseFramePeriod(p: string): (r: Option<FrameSpec>)
    ensures r.Some? ==> WellFormedSpec(r.value)
  {
    if |p| < 2 || p[..2] != "CY" then None
    else
      var body := p[2..];
      var inst := |body| > 0 && body[|body| - 1] == 'I';
      var core := if inst then body[..|body| - 1] else body;
      if |core| >= 2 && core[|core| - 2] == 'Q' && '1' <= core[|core| - 1] <= '4' then
        match ParseInt(core[..|core| - 2])
        case Some(y) => Some(FrameSpec(y, DigitValue(core[|core| - 1]), inst))
        case None => None
      else if inst then None
      else
        match ParseInt(core)
        case Some(y) => Some(FrameSpec(y, 0, false))
        case None => None
  }

  /** The period string of a spec. */
  function PeriodOf(s: FrameSpec): string
    requires WellFormedSpec(s)
  {
    var p := "CY" + IntToString(s.year);
    if s.quarter == 0 then p
    else p + "Q" + [DigitChar(s.quarter)] + (if s.instantaneous then "I" else "")
  }

  /** The rendering of an integer ends in a digit and holds no letter. */
  lemma IntToStringShape(i: int)
    ensures var t := IntToString(i);
            && IsDigit(t[|t| - 1])
            && forall k :: 0 <= k < |t| ==> t[k] == '-' || IsDigit(t[k])
  {
    var t := IntToString(i);
    if i < 0 {
      var n := NatToString(-i);
      assert t == "-" + n;
      assert forall k :: 1 <= k < |t| ==> t[k] == n[k - 1];
    }
  }

  lemma FramePeriodIsPeriodOf(year: int, quarter: Option<int>, instantaneous: bool)
    requires FramePeriod(year, quarter, instantaneous).Ok?
    ensures WellFormedSpec(RequestedSpec(year, quarter, instantaneous))
    ensures FramePeriod(year, quarter, instantaneous).value == PeriodOf(RequestedSpec(year, quarter, instantaneous))
  {
    if QuarterGiven(quarter) {
      assert IntToString(quarter.value) == [DigitChar(quarter.value)];
    }
  }

  lemma {:induction false} ParseAnnual(year: int)
    ensures ParseFramePeriod(PeriodOf(FrameSpec(year, 0, false))) == Some(FrameSpec(year, 0, false))
  {
    var y := IntToString(year);
    var p := "CY" + y;
    assert p[..2] == "CY" && p[2..] == y;
    IntToStringShape(year);
    ParseIntToString(year);
    assert y[|y| - 1] != 'I';
    assert |y| >= 2 ==> y[|y| - 2] != 'Q';
  }

  /** Four strings appended after "CY", regrouped. */
  lemma Regroup(a: string, b: string, c: string, d: string)
    ensures "CY" + (a + b + c + d) == "CY" + a + b + c + d
  {
  }

  /** How the parser takes apart the body of a quarterly period. */
  lemma QuarterBody(y: string, d: char, inst: bool)
    requires IsDigit(d)
    ensures var core := y + "Q" + [d];
            var body := core + (if inst then "I" else "");
            && (|body| > 0 && body[|body| - 1] == 'I') == inst
            && (if inst then body[..|body| - 1] else body) == core
            && |core| >= 2 && core[|core| - 2] == 'Q' && core[|core| - 1] == d && core[..|core| - 2] == y
  {
    var core := y + "Q" + [d];
    if inst {
      assert (core + "I")[..|core|] == core;
    }
  }

  lemma {:induction false} ParseQuarter(s: FrameSpec)
    requires WellFormedSpec(s) && s.quarter > 0
    ensures ParseFramePeriod(PeriodOf(s)) == Some(s)
  {
    var y, d := IntToString(s.year), DigitChar(s.quarter);
    var sfx := if s.instantaneous then "I" else "";
    var body := y + "Q" + [d] + sfx;
    var p := "CY" + body;
    Regroup(y, "Q", [d], sfx);
    assert PeriodOf(s) == p;
    assert p[..2] == "CY" && p[2..] == body;
    QuarterBody(y, d, s.instantaneous);
    ParseIntToString(s.year);
  }

  /** Reading a rendered spec gives the spec back. */
  lemma ParsePeriodOf(s: FrameSpec)
    requires WellFormedSpec(s)
    ensures ParseFramePeriod(PeriodOf(s)) == Some(s)
  {
    if s.quarter == 0 {
      ParseAnnual(s.year);
    } else {
      ParseQuarter(s);
    }
  }

  /** The rendered period names the requested spec: reading it back gives
      the year, the quarter (0 for the whole year) and the instant flag. */
  lemma FramePeriodRoundTrip(year: int, quarter: Option<int>, instantaneous: bool)
    requires FramePeriod(year, quarter, instantaneous).Ok?
    ensures ParseFramePeriod(FramePeriod(year, quarter, instantaneous).value)
            == Some(RequestedSpec(year, quarter, instantaneous))
  {
    FramePeriodIsPeriodOf(year, quarter, instantaneous);
    ParsePeriodOf(RequestedSpec(year, quarter, instantaneous));
  }

  /** A string ending in `Q` and one more character, taken apart. */
  lemma QuarterCore(core: string)
    requires |core| >= 2 && core[|core| - 2] == 'Q'
    ensures core == core[..|core| - 2] + "Q" + [core[|core| - 1]]
  {
    assert core[|core| - 2..] == "Q" + [core[|core| - 1]];
  }

  /** A string with an optional final `I`, taken apart. */
  lemma InstantSuffix(body: string, inst: bool)
    requires inst <==> |body| > 0 && body[|body| - 1] == 'I'
    ensures body == (if inst then body[..|body| - 1] else body) + (if inst then "I" else "")
  {
    if inst {
      assert body[|body| - 1..] == "I";
    }
  }

  /** The pieces a quarterly period string is made of. */
  /** A quarterly period string put back together from the pieces the
      parser cuts it into. */
  lemma Reassemble(p: string, inst: bool)
    requires |p| >= 2 && p[..2] == "CY"
    requires inst <==> |p[2..]| > 0 && p[2..][|p[2..]| - 1] == 'I'
    requires var core := if inst then p[2..][..|p[2..]| - 1] else p[2..];
             |core| >= 2 && core[|core| - 2] == 'Q'
    ensures var core := if inst then p[2..][..|p[2..]| - 1] else p[2..];
            p == "CY" + core[..|core| - 2] + "Q" + [core[|core| - 1]] + (if inst then "I" else "")
  {
    var body := p[2..];
    var core := if inst then body[..|body| - 1] else body;
    QuarterCore(core);
    InstantSuffix(body, inst);
    assert p == "CY" + body;
    Regroup(core[..|core| - 2], "Q", [core[|core| - 1]], if inst then "I" else "");
  }

  /** The pieces a quarterly period string is made of. */
  lemma {:induction false} QuarterPieces(p: string) returns (y: string, c: char, inst: bool)
    requires ParseFramePeriod(p).Some? && ParseFramePeriod(p).value.quarter > 0
    ensures p == "CY" + y + "Q" + [c] + (if inst then "I" else "")
    ensures var s := ParseFramePeriod(p).value;
            ParseInt(y) == Some(s.year) && IsDigit(c) && s.quarter == DigitValue(c) && s.instantaneous == inst
  {
    var body := p[2..];
    inst := |body| > 0 && body[|body| - 1] == 'I';
    var core := if inst then body[..|body| - 1] else body;
    c := core[|core| - 1];
    y := core[..|core| - 2];
    Reassemble(p, inst);
  }

  lemma {:induction false} ParsedQuarterForm(p: string)
    requires ParseFramePeriod(p).Some? && ParseFramePeriod(p).value.quarter > 0
    ensures PeriodOf(ParseFramePeriod(p).value) == p
  {
    var s := ParseFramePeriod(p).value;
    var y, c, inst := QuarterPieces(p);
    assert IntToString(s.year) == y;
    assert DigitChar(s.quarter) == c;
  }

  lemma {:induction false} ParsedAnnualForm(p: string)
    requires ParseFramePeriod(p).Some? && ParseFramePeriod(p).value.quarter == 0
    ensures PeriodOf(ParseFramePeriod(p).value) == p
  {
    var body := p[2..];
    assert p == "CY" + body;
  }

  /** Every period string the parser accepts is the rendering of the spec it
      reads: no two strings name the same period. */
  lemma ParseFramePeriodRoundTrip(p: string)
    requires ParseFramePeriod(p).Some?
    ensures PeriodOf(ParseFramePeriod(p).value) == p
  {
    if ParseFramePeriod(p).value.quarter > 0 {
      ParsedQuarterForm(p);
    } else {
      ParsedAnnualForm(p);
    }
  }

  /** Distinct specs give distinct period strings, so distinct frames
      requests never share a URL. */
  lemma FramePeriodInjective(y1: int, q1: Option<int>, i1: bool, y2: int, q2: Option<int>, i2: bool)
    requires FramePeriod(y1, q1, i1).Ok? && FramePeriod(y2, q2, i2).Ok?
    ensures FramePeriod(y1, q1, i1) == FramePeriod(y2, q2, i2) <==> RequestedSpec(y1, q1, i1) == RequestedSpec(y2, q2, i2)
  {
    FramePeriodRoundTrip(y1, q1, i1);
    FramePeriodRoundTrip(y2, q2, i2);
  }

  lemma FramePeriodExamples()
    ensures FramePeriod(2023, None, false) == Ok("CY2023")
    ensures FramePeriod(2023, Some(0), true) == Ok("CY2023")
    ensures FramePeriod(2023, Some(1), false) == Ok("CY2023Q1")
    ensures FramePeriod(2023, Some(4), true) == Ok("CY2023Q4I")
    ensures FramePeriod(2023, Some(5), false) == Err(InvalidQuarter)
    ensures FramePeriod(2023, Some(-1), false) == Err(InvalidQuarter)
  {
    var y := IntToString(2023);
    Year2023();
    assert IntToString(1) == "1" && IntToString(4) == "4";
    assert "CY" + y == "CY2023";
    assert "CY" + y + "Q" + "1" == "CY2023Q1";
    assert "CY" + y + "Q" + "4" + "I" == "CY2023Q4I";
  }

  lemma Year2023()
    ensures IntToString(2023) == "2023"
  {
    assert NatToString(2) == "2";
    assert NatToString(20) == "20";
    assert NatToString(202) == "202";
  }

  // ---------------------------------------------------------------------
  // Endpoints

  /** The client as its methods see it: `repr(self)` (the default object
      repr, which holds the object's address), the base URL and the retry
      settings. */
  datatype Client = Client(selfRepr: string, baseUrl: string, maxRetries: int, retryDelay: int)

  /** `SECClient()`: the SEC data host, and the retry settings read from the
      configuration (by default 3 attempts and a 1-second base delay). */
  function NewClient(selfRepr: string, maxRetries: int, retryDelay: int): (c: Client)
    ensures c.selfRepr == selfRepr && c.maxRetries == maxRetries && c.retryDelay == retryDelay
    ensures c.baseUrl == "https://data.sec.gov"
  {
    Client(selfRepr, "https://data.sec.gov", maxRetries, retryDelay)
  }

  /** An optional parameter as the caller supplied it: left out, so the
      default applies and the argument is not part of the cache key, or
      passed with a value, where passing `None` is itself a value. */
  datatype Arg<T> = Omitted | Given(value: Option<T>)

  /** The value the method body sees: the default `None` when left out. */
  function ArgValue<T>(a: Arg<T>): Option<T> {
    if a.Given? then a.value else None
  }

  /** One call of a public endpoint, with the arguments the caller passed.
      `get_frames`'s `quarter` (default `None`) and `instantaneous` (default
      `False`) may be left out or passed. */
  datatype Request =
    | CompanyList
    | Submissions(cik: string)
    | CompanyFacts(cik: string)
    | CompanyConcept(cik: string, taxonomy: string, tag: string)
    | Frames(taxonomy: string, tag: string, unit: string, year: int, quarter: Arg<int>, instantaneous: Arg<bool>)

  predicate NeedsCik(r: Request) {
    r.Submissions? || r.CompanyFacts? || r.CompanyConcept?
  }

  /** The URL an endpoint requests, or the `ValueError` it raises first. */
  function RequestUrl(base: string, r: Request): (u: Result<string, ClientError>)
    ensures u.Err? <==> (NeedsCik(r) && !ValidCik(r.cik))
                        || (r.Frames? && QuarterGiven(ArgValue(r.quarter)) && !(1 <= ArgValue(r.quarter).value <= 4))
    ensures u.Err? ==> u.error == if r.Frames? then InvalidQuarter else InvalidCik
  {
    match r
    case CompanyList => Ok(base + "/files/company_tickers.json")
    case Submissions(cik) =>
      var c :- ValidateCik(cik);
      Ok(base + "/submissions/CIK" + c + ".json")
    case CompanyFacts(cik) =>
      var c :- ValidateCik(cik);
      Ok(base + "/api/xbrl/companyfacts/CIK" + c + ".json")
    case CompanyConcept(cik, taxonomy, tag) =>
      var c :- ValidateCik(cik);
      var suffix := "/" + taxonomy + "/" + tag + ".json";
      Ok(base + "/api/xbrl/companyconcept/CIK" + c + suffix)
    case Frames(taxonomy, tag, unit, year, quarter, instantaneous) =>
      var period :- FramePeriod(year, ArgValue(quarter), ArgValue(instantaneous).GetOr(false));
      var prefix := base + "/api/xbrl/frames/" + taxonomy + "/" + tag + "/" + unit + "/";
      Ok(prefix + period + ".json")
  }

  /** The same URL for two spellings of a CIK exactly when they denote the
      same company: the CIK endpoints address companies by number. */
  lemma SubmissionsUrlIdentifiesCompany(base: string, a: string, b: string)
    requires ValidCik(a) && ValidCik(b)
    ensures RequestUrl(base, Submissions(a)) == RequestUrl(base, Submissions(b)) <==> CikNumber(a) == CikNumber(b)
  {
    if RequestUrl(base, Submissions(a)) == RequestUrl(base, Submissions(b)) {
      CancelMiddle(base + "/submissions/CIK", CanonicalCik(CikNumber(a)), CanonicalCik(CikNumber(b)), ".json");
    }
  }

  lemma CompanyFactsUrlIdentifiesCompany(base: string, a: string, b: string)
    requires ValidCik(a) && ValidCik(b)
    ensures RequestUrl(base, CompanyFacts(a)) == RequestUrl(base, CompanyFacts(b)) <==> CikNumber(a) == CikNumber(b)
  {
    if RequestUrl(base, CompanyFacts(a)) == RequestUrl(base, CompanyFacts(b)) {
      CancelMiddle(base + "/api/xbrl/companyfacts/CIK", CanonicalCik(CikNumber(a)), CanonicalCik(CikNumber(b)), ".json");
    }
  }

  lemma CompanyConceptUrlIdentifiesCompany(base: string, a: string, b: string, taxonomy: string, tag: string)
    requires ValidCik(a) && ValidCik(b)
    ensures RequestUrl(base, CompanyConcept(a, taxonomy, tag)) == RequestUrl(base, CompanyConcept(b, taxonomy, tag))
            <==> CikNumber(a) == CikNumber(b)
  {
    var x, y := CanonicalCik(CikNumber(a)), CanonicalCik(CikNumber(b));
    var p, q := base + "/api/xbrl/companyconcept/CIK", "/" + taxonomy + "/" + tag + ".json";
    ConceptUrl(base, a, taxonomy, tag);
    ConceptUrl(base, b, taxonomy, tag);
    if p + x + q == p + y + q {
      CancelMiddle(p, x, y, q);
      assert DigitsValue(x) == DigitsValue(y);
    }
  }

  /** The concept URL of a valid CIK: the canonical CIK between the
      endpoint's prefix and the taxonomy and tag. */
  lemma ConceptUrl(base: string, c: string, taxonomy: string, tag: string)
    requires ValidCik(c)
    ensures RequestUrl(base, CompanyConcept(c, taxonomy, tag))
            == Ok(base + "/api/xbrl/companyconcept/CIK" + CanonicalCik(CikNumber(c)) + ("/" + taxonomy + "/" + tag + ".json"))
  {
  }

  /** The prefix every frames URL of one concept and unit shares. */
  function FramesPrefix(base: string, taxonomy: string, tag: string, unit: string): string {
    base + "/api/xbrl/frames/" + taxonomy + "/" + tag + "/" + unit + "/"
  }

  lemma FramesUrlShape(base: string, taxonomy: string, tag: string, unit: string, y: int, q: Arg<int>, i: Arg<bool>)
    requires RequestUrl(base, Frames(taxonomy, tag, unit, y, q, i)).Ok?
    ensures RequestUrl(base, Frames(taxonomy, tag, unit, y, q, i)).value
            == FramesPrefix(base, taxonomy, tag, unit) + FramePeriod(y, ArgValue(q), ArgValue(i).GetOr(false)).value + ".json"
  {
  }

  /** For one concept and unit, two frames requests share a URL exactly when
      they ask for the same period. */
  lemma FramesUrlIdentifiesPeriod(base: string, taxonomy: string, tag: string, unit: string,
                                  y1: int, q1: Arg<int>, i1: Arg<bool>, y2: int, q2: Arg<int>, i2: Arg<bool>)
    requires RequestUrl(base, Frames(taxonomy, tag, unit, y1, q1, i1)).Ok? && RequestUrl(base, Frames(taxonomy, tag, unit, y2, q2, i2)).Ok?
    ensures RequestUrl(base, Frames(taxonomy, tag, unit, y1, q1, i1)) == RequestUrl(base, Frames(taxonomy, tag, unit, y2, q2, i2))
            <==> RequestedSpec(y1, ArgValue(q1), ArgValue(i1).GetOr(false)) == RequestedSpec(y2, ArgValue(q2), ArgValue(i2).GetOr(false))
  {
    var a1, b1 := ArgValue(q1), ArgValue(i1).GetOr(false);
    var a2, b2 := ArgValue(q2), ArgValue(i2).GetOr(false);
    var p1, p2 := FramePeriod(y1, a1, b1).value, FramePeriod(y2, a2, b2).value;
    FramesUrlShape(base, taxonomy, tag, unit, y1, q1, i1);
    FramesUrlShape(base, taxonomy, tag, unit, y2, q2, i2);
    if RequestUrl(base, Frames(taxonomy, tag, unit, y1, q1, i1)) == RequestUrl(base, Frames(taxonomy, tag, unit, y2, q2, i2)) {
      CancelMiddle(FramesPrefix(base, taxonomy, tag, unit), p1, p2, ".json");
    }
    FramePeriodInjective(y1, a1, b1, y2, a2, b2);
  }

  /** How long an endpoint's responses are cached, in seconds. */
  datatype Caching = NotCached | CachedFor(seconds: int)

  /** The decorators in effect. `get_company_facts` is defined twice and the
      second, undecorated definition is the one the class keeps. */
  function Lifetime(r: Request): Caching {
    match r
    case CompanyList => CachedFor(86400)
    case Submissions(_) => CachedFor(21600)
    case CompanyFacts(_) => NotCached
    case CompanyConcept(_, _, _) => CachedFor(604800)
    case Frames(_, _, _, _, _, _) => CachedFor(2592000)
  }

  /** The lifetimes the decorators were written with: seven days for the
      company facts as well. */
  function IntendedLifetime(r: Request): (c: Caching)
    ensures c.CachedFor? && c.seconds > 0
    ensures !r.CompanyFacts? ==> c == Lifetime(r)
  {
    if r.CompanyFacts? then CachedFor(604800) else Lifetime(r)
  }

  function MethodName(r: Request): string {
    match r
    case CompanyList => "get_company_list"
    case Submissions(_) => "get_company_submissions"
    case CompanyFacts(_) => "get_company_facts"
    case CompanyConcept(_, _, _) => "get_company_concept"
    case Frames(_, _, _, _, _, _) => "get_frames"
  }

  /** An optional argument as it appears among the passed ones: absent when
      left out, `None` when passed as `None`. */
  function ArgField<T>(name: string, a: Arg<T>, enc: T -> Json): seq<(string, Json)> {
    match a
    case Omitted => []
    case Given(None) => [(name, JNull)]
    case Given(Some(v)) => [(name, enc(v))]
  }

  /** The arguments the caller passed, by parameter name, in declaration order. */
  function Passed(r: Request): seq<(string, Json)> {
    match r
    case CompanyList => []
    case Submissions(cik) => [("cik", JStr(cik))]
    case CompanyFacts(cik) => [("cik", JStr(cik))]
    case CompanyConcept(cik, taxonomy, tag) => [("cik", JStr(cik)), ("taxonomy", JStr(taxonomy)), ("tag", JStr(tag))]
    case Frames(taxonomy, tag, unit, year, quarter, instantaneous) =>
      [("taxonomy", JStr(taxonomy)), ("tag", JStr(tag)), ("unit", JStr(unit)), ("year", JNum(year))]
      + ArgField("quarter", quarter, (q: int) => JNum(q))
      + ArgField("instantaneous", instantaneous, (b: bool) => JBool(b))
  }

  function Reprs(args: seq<(string, Json)>): (r: seq<string>)
    ensures |r| == |args|
    ensures forall i :: 0 <= i < |args| ==> r[i] == Repr(args[i].1)
  {
    if |args| == 0 then [] else [Repr(args[0].1)] + Reprs(args[1..])
  }

  /** How the caller passed the arguments: positionally or by keyword. */
  datatype ArgStyle = Positional | Keyword

  /** The cache key the decorator builds: `self` is the first positional
      argument, so its repr is part of every key. */
  function CallKey(c: Client, r: Request, style: ArgStyle): string {
    match style
    case Positional => ResponseCache.CacheKey(MethodName(r), [c.selfRepr] + Reprs(Passed(r)), [])
    case Keyword => ResponseCache.CacheKey(MethodName(r), [c.selfRepr], Passed(r))
  }

  /** The cache key without the client object: the same for every client. */
  function SharedKey(r: Request, style: ArgStyle): string {
    match style
    case Positional => ResponseCache.CacheKey(MethodName(r), Reprs(Passed(r)), [])
    case Keyword => ResponseCache.CacheKey(MethodName(r), [], Passed(r))
  }

  /** The body of an endpoint method: validate, build the URL, and run
      `_make_request` against the server's replies for that URL. Returns the
      result and the number of HTTP requests sent. */
  function Perform(c: Client, server: string -> (nat -> RequestPolicy.Reply), r: Request): (p: (Result<Json, ClientError>, nat))
    ensures RequestUrl(c.baseUrl, r).Err? ==> p == (Err(RequestUrl(c.baseUrl, r).error), 0)
    ensures p.1 <= if c.maxRetries <= 0 then 0 else c.maxRetries
    ensures p.0.Err? ==> RequestUrl(c.baseUrl, r).Err? || p.0.error == RateLimitExceeded || p.0.error == DataRetrievalFailed
    ensures RequestUrl(c.baseUrl, r).Ok? && c.maxRetries > 0 ==> p.1 > 0
  {
    match RequestUrl(c.baseUrl, r)
    case Err(e) => (Err(e), 0)
    case Ok(url) =>
      var a := RequestPolicy.MakeRequest(c.maxRetries, c.retryDelay, server(url));
      var sends := RequestPolicy.CountSends(a.trace);
      SendsBounded(c.maxRetries, c.retryDelay, server(url));
      var result := match a.result
        case Ok(Some(j)) => Ok(j)
        case Ok(None) => Ok(JNull)
        case Err(RateLimitExceeded) => Err(RateLimitExceeded)
        case Err(DataRetrievalFailed) => Err(DataRetrievalFailed);
      (result, sends)
  }

  /** `_make_request` sends at least one and at most `maxRetries` requests. */
  lemma SendsBounded(maxRetries: int, retryDelay: int, server: nat -> RequestPolicy.Reply)
    ensures var n := RequestPolicy.CountSends(RequestPolicy.MakeRequest(maxRetries, retryDelay, server).trace);
            (maxRetries <= 0 ==> n == 0) && (maxRetries > 0 ==> 1 <= n <= maxRetries)
  {
    if maxRetries > 0 {
      var f := RequestPolicy.FirstSuccess(server, 0, maxRetries);
      RequestPolicy.FirstSuccessUnique(server, maxRetries);
    }
  }

  /** The result of an endpoint call, the cache directory afterwards and the
      number of HTTP requests sent. */
  datatype ClientCall = ClientCall(result: Result<Json, ClientError>, dir: ResponseCache.CacheDir, requests: nat)

  /** An endpoint call with the given lifetimes in effect. */
  function CallWith(lifetime: Caching, c: Client, dir: ResponseCache.CacheDir, hash: string -> string, key: string,
                    env: ResponseCache.CallEnv, server: string -> (nat -> RequestPolicy.Reply), r: Request): (k: ClientCall)
    ensures lifetime.NotCached? ==> k == ClientCall(Perform(c, server, r).0, dir, Perform(c, server, r).1)
    ensures lifetime.CachedFor? ==>
              var o := ResponseCache.CachedCall(dir, hash, key, Some(lifetime.seconds), env, Perform(c, server, r).0);
              && k.result == o.result && k.dir == o.dir
              && k.requests == (if o.invoked then Perform(c, server, r).1 else 0)
  {
    var p := Perform(c, server, r);
    match lifetime
    case NotCached => ClientCall(p.0, dir, p.1)
    case CachedFor(ttl) =>
      var o := ResponseCache.CachedCall(dir, hash, key, Some(ttl), env, p.0);
      ClientCall(o.result, o.dir, if o.invoked then p.1 else 0)
  }

  /** A public endpoint call, as the class defines it. */
  function Call(c: Client, dir: ResponseCache.CacheDir, hash: string -> string, env: ResponseCache.CallEnv,
                server: string -> (nat -> RequestPolicy.Reply), r: Request, style: ArgStyle): ClientCall
  {
    CallWith(Lifetime(r), c, dir, hash, CallKey(c, r, style), env, server, r)
  }

  /** A public endpoint call with the lifetimes the decorators were written
      with, keyed without the client object. */
  function IntendedCall(c: Client, dir: ResponseCache.CacheDir, hash: string -> string, env: ResponseCache.CallEnv,
                        server: string -> (nat -> RequestPolicy.Reply), r: Request, style: ArgStyle): ClientCall
  {
    CallWith(IntendedLifetime(r), c, dir, hash, SharedKey(r, style), env, server, r)
  }

  /** Bad arguments never reach the network: a call whose CIK or quarter is
      refused sends nothing, and unless a stored entry answers it, raises. */
  lemma BadArgumentsSendNothing(c: Client, dir: ResponseCache.CacheDir, hash: string -> string, env: ResponseCache.CallEnv,
                                server: string -> (nat -> RequestPolicy.Reply), r: Request, style: ArgStyle)
    requires RequestUrl(c.baseUrl, r).Err?
    ensures Call(c, dir, hash, env, server, r, style).requests == 0
    ensures var k := Call(c, dir, hash, env, server, r, style);
            Lifetime(r).NotCached? ||
            ResponseCache.Lookup(ResponseCache.FilesOf(dir), ResponseCache.FileFor(hash, CallKey(c, r, style)),
                                 Some(Lifetime(r).seconds), env.readNow).None?
            ==> k.result == Err(RequestUrl(c.baseUrl, r).error)
  {
  }

  /** A cached endpoint answers a repeat call from its stored entry for the
      whole lifetime: the second call sends no request and returns the first
      call's result. */
  lemma RepeatCallServedFromCache(c: Client, dir: ResponseCache.CacheDir, hash: string -> string,
                                  env1: ResponseCache.CallEnv, env2: ResponseCache.CallEnv,
                                  server: string -> (nat -> RequestPolicy.Reply), r: Request, style: ArgStyle)
    requires Lifetime(r).CachedFor?
    requires ResponseCache.Lookup(ResponseCache.FilesOf(dir), ResponseCache.FileFor(hash, CallKey(c, r, style)),
                                  Some(Lifetime(r).seconds), env1.readNow).None?
    requires Perform(c, server, r).0.Ok? && env1.write == ResponseCache.Written
    requires env2.readNow - env1.writeNow <= Lifetime(r).seconds
    ensures var first := Call(c, dir, hash, env1, server, r, style);
            var second := Call(c, first.dir, hash, env2, server, r, style);
            second.requests == 0 && second.result == first.result && first.result == Perform(c, server, r).0
  {
    var key := CallKey(c, r, style);
    ResponseCache.CacheRoundTrip(dir, hash, key, Some(Lifetime(r).seconds), env1, Perform(c, server, r).0.value, env2,
                                 Perform(c, server, r).0);
  }

  /** As written, company facts are never cached: every call goes to the
      network, however recent the previous identical call. */
  lemma CompanyFactsAlwaysFetched(c: Client, dir: ResponseCache.CacheDir, hash: string -> string,
                                  env1: ResponseCache.CallEnv, env2: ResponseCache.CallEnv,
                                  server: string -> (nat -> RequestPolicy.Reply), cik: string, style: ArgStyle)
    requires ValidCik(cik) && c.maxRetries > 0
    ensures var first := Call(c, dir, hash, env1, server, CompanyFacts(cik), style);
            var second := Call(c, first.dir, hash, env2, server, CompanyFacts(cik), style);
            first.requests > 0 && second.requests > 0 && second.dir == dir
  {
    var r := CompanyFacts(cik);
    assert Lifetime(r).NotCached?;
    assert RequestUrl(c.baseUrl, r).Ok?;
    var p := Perform(c, server, r);
    assert Call(c, dir, hash, env1, server, r, style) == ClientCall(p.0, dir, p.1);
    assert Call(c, dir, hash, env2, server, r, style) == ClientCall(p.0, dir, p.1);
  }

  /** With the intended seven-day lifetime a repeat company-facts call made
      within the week is served from the cache. */
  lemma IntendedCompanyFactsCached(c: Client, dir: ResponseCache.CacheDir, hash: string -> string,
                                   env1: ResponseCache.CallEnv, env2: ResponseCache.CallEnv,
                                   server: string -> (nat -> RequestPolicy.Reply), cik: string, style: ArgStyle)
    requires ResponseCache.Lookup(ResponseCache.FilesOf(dir), ResponseCache.FileFor(hash, SharedKey(CompanyFacts(cik), style)),
                                  Some(604800), env1.readNow).None?
    requires Perform(c, server, CompanyFacts(cik)).0.Ok? && env1.write == ResponseCache.Written
    requires env2.readNow - env1.writeNow <= 604800
    ensures var first := IntendedCall(c, dir, hash, env1, server, CompanyFacts(cik), style);
            var second := IntendedCall(c, first.dir, hash, env2, server, CompanyFacts(cik), style);
            second.requests == 0 && second.result == first.result
  {
    var r := CompanyFacts(cik);
    ResponseCache.CacheRoundTrip(dir, hash, SharedKey(r, style), Some(604800), env1, Perform(c, server, r).0.value, env2,
                                 Perform(c, server, r).0);
  }

  /** Passing `quarter=None` and leaving `quarter` out ask for the same
      frames but are cached apart: the key lists the arguments as passed, and
      only the first lists the quarter. `get_industry_metrics` and
      `get_peer_rankings` always pass it, so their calls for a whole year do
      not share entries with calls that leave it out. */
  lemma ExplicitNoneCachedApart(c: Client, taxonomy: string, tag: string, unit: string, year: int, style: ArgStyle)
    ensures var passed := Frames(taxonomy, tag, unit, year, Given(None), Omitted);
            var omitted := Frames(taxonomy, tag, unit, year, Omitted, Omitted);
            && RequestUrl(c.baseUrl, passed) == RequestUrl(c.baseUrl, omitted)
            && CallKey(c, passed, style) != CallKey(c, omitted, style)
  {
    var passed := Frames(taxonomy, tag, unit, year, Given(None), Omitted);
    var omitted := Frames(taxonomy, tag, unit, year, Omitted, Omitted);
    var base := Passed(omitted);
    var q := ("quarter", JNull);
    assert Passed(passed) == base + [q];
    KeyShape(c, passed, style);
    KeyShape(c, omitted, style);
    match style
    case Keyword =>
      ReprFieldsSnoc(base, q);
    case Positional =>
      assert Reprs(base + [q]) == Reprs(base) + [Repr(q.1)];
      JoinSnoc(", ", Reprs(base), Repr(q.1));
    assert |Tail(passed, style)| > |Tail(omitted, style)|;
  }

  /** Rendering one more keyword argument extends the rendering. */
  lemma {:induction false} ReprFieldsSnoc(fields: seq<(string, Json)>, x: (string, Json))
    requires |fields| > 0
    ensures ReprFields(fields + [x]) == ReprFields(fields) + (", " + ("'" + x.0 + "': " + Repr(x.1)))
    decreases |fields|
  {
    var all := fields + [x];
    var head := "'" + fields[0].0 + "': " + Repr(fields[0].1);
    var tail := "'" + x.0 + "': " + Repr(x.1);
    assert all[0] == fields[0];
    if |fields| == 1 {
      assert all[1..] == [x];
      assert ReprFields(all) == (head + ", ") + tail;
      assert ReprFields(fields) == head;
      ConcatRegroup(head, ", ", tail);
    } else {
      var rest := ReprFields(fields[1..]);
      assert all[1..] == fields[1..] + [x];
      ReprFieldsSnoc(fields[1..], x);
      assert ReprFields(all) == (head + ", ") + (rest + (", " + tail));
      assert ReprFields(fields) == (head + ", ") + rest;
      ConcatRegroup(head + ", ", rest, ", " + tail);
    }
  }

  lemma ConcatRegroup(a: string, b: string, c: string)
    ensures a + (b + c) == (a + b) + c
  {
  }

  /** Joining one more part extends the join. */
  lemma {:induction false} JoinSnoc(sep: string, parts: seq<string>, last: string)
    requires |parts| > 0
    ensures Join(sep, parts + [last]) == Join(sep, parts) + sep + last
    decreases |parts|
  {
    var all := parts + [last];
    assert all[0] == parts[0];
    if |parts| == 1 {
      assert all[1..] == [last];
    } else {
      assert all[1..] == parts[1..] + [last];
      JoinSnoc(sep, parts[1..], last);
    }
  }

  /** Two spellings of one CIK share a URL but not a cache entry: the key
      holds the argument as passed, not the normalised CIK. */
  lemma SpellingsCachedApart(c: Client, a: string, b: string, style: ArgStyle)
    requires ValidCik(a) && ValidCik(b) && CikNumber(a) == CikNumber(b) && a != b
    ensures RequestUrl(c.baseUrl, Submissions(a)) == RequestUrl(c.baseUrl, Submissions(b))
    ensures CallKey(c, Submissions(a), style) != CallKey(c, Submissions(b), style)
  {
    SubmissionsUrlIdentifiesCompany(c.baseUrl, a, b);
    KeyShape(c, Submissions(a), style);
    KeyShape(c, Submissions(b), style);
    var pre, post := SubmissionsTail(a, style);
    var pre', post' := SubmissionsTail(b, style);
    var p := MethodName(Submissions(a)) + "_(" + c.selfRepr;
    assert MethodName(Submissions(b)) == MethodName(Submissions(a));
    if CallKey(c, Submissions(a), style) == CallKey(c, Submissions(b), style) {
      CancelPrefix(p, Tail(Submissions(a), style), Tail(Submissions(b), style));
      CancelMiddle(pre, a, b, post);
    }
  }

  /** The argument sits in the key between fixed text. */
  lemma SubmissionsTail(cik: string, style: ArgStyle) returns (pre: string, post: string)
    ensures Tail(Submissions(cik), style) == pre + cik + post
    ensures style.Positional? ==> pre == ", '" && post == "')_{}"
    ensures style.Keyword? ==> pre == ",)_{'cik': '" && post == "'}"
  {
    var q := "'" + cik + "'";
    assert Reprs(Passed(Submissions(cik))) == [q];
    assert Join(", ", [q]) == q;
    match style
    case Positional =>
      pre, post := ", '", "')_{}";
      assert Tail(Submissions(cik), style) == ", " + q + ")" + "_{}";
    case Keyword =>
      pre, post := ",)_{'cik': '", "'}";
      assert ReprFields(Passed(Submissions(cik))) == "'cik': " + q;
      assert Tail(Submissions(cik), style) == ",)_{" + ("'cik': " + q) + "}";
  }

  /** As written, two client objects never share cache entries: the key of
      every call embeds `repr(self)`, which differs between objects. So a
      stored entry is of no use to a new client (and hence to a new run). */
  lemma ClientsCachedApart(c1: Client, c2: Client, r: Request, style: ArgStyle)
    requires c1.selfRepr != c2.selfRepr
    ensures CallKey(c1, r, style) != CallKey(c2, r, style)
  {
    var name := MethodName(r);
    if CallKey(c1, r, style) == CallKey(c2, r, style) {
      KeyShape(c1, r, style);
      KeyShape(c2, r, style);
      CancelMiddle(name + "_(", c1.selfRepr, c2.selfRepr, Tail(r, style));
    }
  }

  /** What follows `repr(self)` in a key. */
  function Tail(r: Request, style: ArgStyle): string {
    var args := Reprs(Passed(r));
    match style
    case Positional =>
      (if |args| == 0 then ",)" else ", " + Join(", ", args) + ")") + "_{}"
    case Keyword => ",)_{" + ReprFields(Passed(r)) + "}"
  }

  lemma KeyShape(c: Client, r: Request, style: ArgStyle)
    ensures CallKey(c, r, style) == MethodName(r) + "_(" + c.selfRepr + Tail(r, style)
  {
    match style
    case Positional => KeyShapePositional(c, r);
    case Keyword => KeyShapeKeyword(c, r);
  }

  /** Regrouping the pieces of a tuple of several items. */
  lemma TupleRegroup(first: string, joined: string)
    ensures "(" + (first + ", " + joined) + ")" == "(" + first + (", " + joined + ")")
  {
  }

  /** The tuple of the client object followed by the other arguments. */
  lemma TupleAfterSelf(selfRepr: string, args: seq<string>)
    ensures ResponseCache.TupleRepr([selfRepr] + args)
            == "(" + selfRepr + (if |args| == 0 then ",)" else ", " + Join(", ", args) + ")")
  {
    var all := [selfRepr] + args;
    if |args| > 0 {
      assert all[0] == selfRepr && all[1..] == args;
      var joined := Join(", ", args);
      assert Join(", ", all) == selfRepr + ", " + joined;
      assert ResponseCache.TupleRepr(all) == "(" + (selfRepr + ", " + joined) + ")";
      TupleRegroup(selfRepr, joined);
    }
  }

  /** Regrouping the pieces of a positional key. */
  lemma PositionalRegroup(name: string, selfRepr: string, rest: string)
    ensures name + "_" + ("(" + selfRepr + rest) + "_" + "{" + "" + "}" == name + "_(" + selfRepr + (rest + "_{}")
  {
  }

  lemma KeyShapePositional(c: Client, r: Request)
    ensures CallKey(c, r, Positional) == MethodName(r) + "_(" + c.selfRepr + Tail(r, Positional)
  {
    var args := Reprs(Passed(r));
    var rest := if |args| == 0 then ",)" else ", " + Join(", ", args) + ")";
    TupleAfterSelf(c.selfRepr, args);
    assert ReprFields([]) == "";
    PositionalRegroup(MethodName(r), c.selfRepr, rest);
  }

  lemma KeyShapeKeyword(c: Client, r: Request)
    ensures CallKey(c, r, Keyword) == MethodName(r) + "_(" + c.selfRepr + Tail(r, Keyword)
  {
    var fields := ReprFields(Passed(r));
    assert Tail(r, Keyword) == ",)_{" + fields + "}";
    assert ResponseCache.TupleRepr([c.selfRepr]) == "(" + c.selfRepr + ",)";
    KeywordRegroup(MethodName(r), c.selfRepr, fields);
  }

  /** Regrouping the pieces of a keyword key. */
  lemma KeywordRegroup(name: string, selfRepr: string, fields: string)
    ensures name + "_" + ("(" + selfRepr + ",)") + "_" + "{" + fields + "}" == name + "_(" + selfRepr + (",)_{" + fields + "}")
  {
  }

  /** With the key left without the client object, a second client is
      served the entry a first client stored. */
  lemma IntendedCacheShared(c1: Client, c2: Client, dir: ResponseCache.CacheDir, hash: string -> string,
                            env1: ResponseCache.CallEnv, env2: ResponseCache.CallEnv,
                            server: string -> (nat -> RequestPolicy.Reply), r: Request, style: ArgStyle)
    requires ResponseCache.Lookup(ResponseCache.FilesOf(dir), ResponseCache.FileFor(hash, SharedKey(r, style)),
                                  Some(IntendedLifetime(r).seconds), env1.readNow).None?
    requires Perform(c1, server, r).0.Ok? && env1.write == ResponseCache.Written
    requires env2.readNow - env1.writeNow <= IntendedLifetime(r).seconds
    ensures var first := IntendedCall(c1, dir, hash, env1, server, r, style);
            var second := IntendedCall(c2, first.dir, hash, env2, server, r, style);
            second.requests == 0 && second.result == first.result
  {
    ResponseCache.CacheRoundTrip(dir, hash, SharedKey(r, style), Some(IntendedLifetime(r).seconds), env1,
                                 Perform(c1, server, r).0.value, env2, Perform(c2, server, r).0);
  }
}

=== FILE: statement_pipeline.dfy ===
/** `process_company_facts`, which the balance sheet, income statement and
    cash flow processors of src/processors each spell out with
    the same steps: pick the `us-gaap` tags their section mappings know,
    merge their `val` series on `end`, standardize every section, put the
    sections side by side, add `period_end_date`, validate the required
    fields and add the derived fields. What differs between the three is a
    `Statement`, the section mappings and the derived-field step. */
module StatementPipeline {
  import opened Wrappers
  import opened Json
  import opened Tables
  import Dicts
  import opened BaseProcessor

  /** What distinguishes one processor: its failure wording, the template
      class and the first mapping attribute the code reads from it, and the
      required fields. */
  datatype Statement = Statement(
    task: string,
    noData: string,
    template: string,
    firstMapping: string,
    required: seq<string>)

  /** `tag in mapping` for one of the section mappings. */
  predicate Mapped(sections: seq<Dicts.Dict<string>>, tag: string) {
    exists s :: 0 <= s < |sections| && Dicts.HasKey(sections[s], tag)
  }

  /** Some section maps some tag to the standard name `c`. */
  predicate StandardName(sections: seq<Dicts.Dict<string>>, c: string) {
    exists s, j :: 0 <= s < |sections| && 0 <= j < |sections[s]| && sections[s][j].1 == c
  }

  /** ---- selecting the statement's items ---- */

  /** The USD records of one tag as a frame, when the tag has any:
      `'units' in data and 'USD' in data['units']`, then
      `pd.DataFrame(data['units']['USD'])`. */
  function UsdRecords(data: Json): (r: Result<Option<Table>, Exception>)
    ensures data.JObj? && !Dicts.HasKey(data.fields, "units") ==> r == Ok(None)
    ensures r.Ok? && r.value.Some? ==> data.JObj? && Dicts.HasKey(data.fields, "units")
  {
    var hasUnits :- AsDataError(PyIn("units", data));
    if !hasUnits then Ok(None)
    else
      var units :- AsDataError(PyGetItem(data, "units"));
      var hasUsd :- AsDataError(PyIn("USD", units));
      if !hasUsd then Ok(None)
      else
        var usd :- AsDataError(PyGetItem(units, "USD"));
        var t :- AsDataError(Records(usd));
        Ok(Some(t))
  }

  /** `usd` gives the tag's records as a non-empty frame. */
  predicate Supplied(usd: Json -> Result<Option<Table>, Exception>, data: Json) {
    usd(data).Ok? && usd(data).value.Some? && !IsEmpty(usd(data).value.value)
  }

  /** The item dict the loop keeps: unique tags, each mapped by some
      section and holding a non-empty frame. */
  predicate GoodItems(sections: seq<Dicts.Dict<string>>, items: Dicts.Dict<Table>) {
    && Dicts.UniqueKeys(items)
    && (forall i :: 0 <= i < |items| ==> !IsEmpty(items[i].1))
    && (forall i :: 0 <= i < |items| ==> Mapped(sections, items[i].0))
  }

  /** One pass of the loop: a mapped tag whose records are non-empty is
      stored; reading the records of a mapped tag may raise. */
  function SelectStep(prev: Dicts.Dict<Table>, sections: seq<Dicts.Dict<string>>, entry: (string, Json),
                      usd: Json -> Result<Option<Table>, Exception>): (r: Result<Dicts.Dict<Table>, Exception>)
    requires GoodItems(sections, prev)
    ensures r.Ok? <==> (Mapped(sections, entry.0) ==> usd(entry.1).Ok?)
    ensures r.Ok? ==> GoodItems(sections, r.value)
    ensures r.Ok? && Mapped(sections, entry.0) && Supplied(usd, entry.1) ==>
      r.value == Dicts.Put(prev, entry.0, usd(entry.1).value.value) && |r.value| > 0
    ensures r.Ok? && !(Mapped(sections, entry.0) && Supplied(usd, entry.1)) ==> r.value == prev
  {
    if !Mapped(sections, entry.0) then Ok(prev)
    else
      var frame :- usd(entry.1);
      if frame.None? || IsEmpty(frame.value) then Ok(prev)
      else
        var r := Dicts.Put(prev, entry.0, frame.value);
        assert forall i :: 0 <= i < |r| ==> Mapped(sections, r[i].0) && !IsEmpty(r[i].1) by {
          forall i | 0 <= i < |r| ensures Mapped(sections, r[i].0) && !IsEmpty(r[i].1) {
            Dicts.PutEntries(prev, entry.0, frame.value, i);
            if r[i] != (entry.0, frame.value) {
              var k :| 0 <= k < |prev| && prev[k] == r[i];
            }
          }
        }
        assert |r| > 0 by { assert Dicts.HasKey(r, entry.0); }
        Ok(r)
  }

  /** The loop over `facts['us-gaap'].items()` that fills the item dict, the
      records of each tag read by `usd` (which is `UsdRecords`). */
  function SelectItems(entries: seq<(string, Json)>, sections: seq<Dicts.Dict<string>>,
                       usd: Json -> Result<Option<Table>, Exception>): (r: Result<Dicts.Dict<Table>, Exception>)
    ensures r.Ok? <==> forall i :: 0 <= i < |entries| && Mapped(sections, entries[i].0) ==> usd(entries[i].1).Ok?
    ensures r.Ok? ==> Dicts.UniqueKeys(r.value)
    ensures r.Ok? ==> forall i :: 0 <= i < |r.value| ==> !IsEmpty(r.value[i].1)
    ensures r.Ok? ==> forall i :: 0 <= i < |r.value| ==> Mapped(sections, r.value[i].0)
    ensures r.Ok? ==> (|r.value| == 0 <==>
      forall i :: 0 <= i < |entries| && Mapped(sections, entries[i].0) ==> !Supplied(usd, entries[i].1))
    decreases |entries|
  {
    if |entries| == 0 then Ok([])
    else
      var init := entries[..|entries| - 1];
      var last := entries[|entries| - 1];
      assert entries == init + [last];
      SelectAppend(init, last, sections, usd);
      var prev :- SelectItems(init, sections, usd);
      SelectStep(prev, sections, last, usd)
  }

  /** The loop's two conditions over the entries, one entry at a time. */
  lemma SelectAppend(init: seq<(string, Json)>, last: (string, Json), sections: seq<Dicts.Dict<string>>,
                     usd: Json -> Result<Option<Table>, Exception>)
    ensures var entries := init + [last];
      (forall i :: 0 <= i < |entries| && Mapped(sections, entries[i].0) ==> usd(entries[i].1).Ok?)
      <==> (forall i :: 0 <= i < |init| && Mapped(sections, init[i].0) ==> usd(init[i].1).Ok?)
           && (Mapped(sections, last.0) ==> usd(last.1).Ok?)
    ensures var entries := init + [last];
      (forall i :: 0 <= i < |entries| && Mapped(sections, entries[i].0) ==> !Supplied(usd, entries[i].1))
      <==> (forall i :: 0 <= i < |init| && Mapped(sections, init[i].0) ==> !Supplied(usd, init[i].1))
           && !(Mapped(sections, last.0) && Supplied(usd, last.1))
  {
    var entries := init + [last];
    assert forall i :: 0 <= i < |init| ==> entries[i] == init[i];
    assert entries[|init|] == last;
  }

  /** Every tag the loop reads with a non-empty frame ends up in the item
      dict with that frame. */
  lemma {:induction false} SelectedItem(entries: seq<(string, Json)>, sections: seq<Dicts.Dict<string>>,
                                        usd: Json -> Result<Option<Table>, Exception>, i: nat)
    requires Dicts.UniqueKeys(entries) && i < |entries|
    requires SelectItems(entries, sections, usd).Ok?
    requires Mapped(sections, entries[i].0) && Supplied(usd, entries[i].1)
    ensures Dicts.Get(SelectItems(entries, sections, usd).value, entries[i].0) == usd(entries[i].1).value
    decreases |entries|
  {
    var init := entries[..|entries| - 1];
    var last := entries[|entries| - 1];
    SelectUnfold(entries, sections, usd);
    var prev := SelectItems(init, sections, usd).value;
    var r := SelectStep(prev, sections, last, usd).value;
    if i < |init| {
      assert init[i] == entries[i];
      Dicts.UniquePrefix(entries);
      SelectedItem(init, sections, usd, i);
      assert last.0 != entries[i].0 by { assert last == entries[|entries| - 1]; }
      SelectStepOther(prev, sections, last, usd, entries[i].0);
    } else {
      assert last == entries[i];
    }
  }

  /** The loop over all entries is one more pass after the loop over all
      but the last. */
  lemma SelectUnfold(entries: seq<(string, Json)>, sections: seq<Dicts.Dict<string>>,
                     usd: Json -> Result<Option<Table>, Exception>)
    requires |entries| > 0 && SelectItems(entries, sections, usd).Ok?
    ensures var init := entries[..|entries| - 1];
      && SelectItems(init, sections, usd).Ok?
      && SelectStep(SelectItems(init, sections, usd).value, sections, entries[|entries| - 1], usd)
         == SelectItems(entries, sections, usd)
  {
    var init := entries[..|entries| - 1];
    var last := entries[|entries| - 1];
    assert entries == init + [last];
    SelectAppend(init, last, sections, usd);
  }

  /** A pass over another tag leaves the lookup of `tag` as it was. */
  lemma SelectStepOther(prev: Dicts.Dict<Table>, sections: seq<Dicts.Dict<string>>, entry: (string, Json),
                        usd: Json -> Result<Option<Table>, Exception>, tag: string)
    requires GoodItems(sections, prev) && SelectStep(prev, sections, entry, usd).Ok? && entry.0 != tag
    ensures Dicts.Get(SelectStep(prev, sections, entry, usd).value, tag) == Dicts.Get(prev, tag)
  {
  }

  /** ---- combining the items ---- */

  /** `tag_df[['end', 'val']]` with its columns renamed to `end` and the tag. */
  function Pick(t: Table, tag: string): (r: Table)
    ensures r.names == ["end", tag] && |r.rows| == |t.rows|
    ensures tag != "end" ==> Column(r, "end") == Column(t, "end") && Column(r, tag) == Column(t, "val")
  {
    Table(["end", tag], seq(|t.rows|, i requires 0 <= i < |t.rows| =>
      map["end" := CellAt(t.rows[i], "end"), tag := CellAt(t.rows[i], "val")]))
  }

  /** A frame the combining loop takes: it has both `val` and `end`. */
  predicate Combined(t: Table) {
    HasColumn(t, "val") && HasColumn(t, "end")
  }

  /** Frames with the same column have the same keys in it. */
  lemma SameColumnSameKeys(a: Table, b: Table, on: string)
    requires Column(a, on) == Column(b, on)
    ensures Keys(a, on) == Keys(b, on)
  {
    forall k | k in Keys(a, on) ensures k in Keys(b, on) {
      var i :| 0 <= i < |a.rows| && CellAt(a.rows[i], on) == k;
      assert Column(b, on)[i] == k;
    }
    forall k | k in Keys(b, on) ensures k in Keys(a, on) {
      var i :| 0 <= i < |b.rows| && CellAt(b.rows[i], on) == k;
      assert Column(a, on)[i] == k;
    }
  }

  /** A non-empty left frame keeps an outer merge non-empty. */
  lemma MergeNonEmpty(left: Table, right: Table, on: string)
    requires !IsEmpty(left)
    ensures !IsEmpty(MergeOuter(left, right, on))
  {
    var r := MergeOuter(left, right, on);
    assert left.names[0] in r.names;
    assert CellAt(left.rows[0], on) in Keys(r, on);
  }

  /** One turn of the combining loop for a frame with `val` and `end`: the
      picked series becomes the frame when the frame is still empty, and is
      merged into it on `end` otherwise. */
  function CombineStep(df: Table, tag: string, t: Table): (r: Table)
    requires !IsEmpty(t) && Combined(t)
    ensures !IsEmpty(r)
    ensures forall c :: HasColumn(r, c) <==> c == "end" || c == tag || (!IsEmpty(df) && HasColumn(df, c))
    ensures tag != "end" ==> Keys(r, "end") == (if IsEmpty(df) then {} else Keys(df, "end")) + Keys(t, "end")
  {
    var p := Pick(t, tag);
    assert tag != "end" ==> Keys(p, "end") == Keys(t, "end") by {
      if tag != "end" { SameColumnSameKeys(p, t, "end"); }
    }
    if IsEmpty(df) then p
    else
      MergeNonEmpty(df, p, "end");
      MergeOuter(df, p, "end")
  }

  /** Some frame that takes part is stored under `c`. */
  predicate TakenUnder(items: Dicts.Dict<Table>, c: string) {
    exists i :: 0 <= i < |items| && items[i].0 == c && Combined(items[i].1)
  }

  /** The combining loop over the item dict. */
  function Combine(items: Dicts.Dict<Table>): (r: Table)
    requires forall i :: 0 <= i < |items| ==> !IsEmpty(items[i].1)
    ensures r == Empty <==> forall i :: 0 <= i < |items| ==> !Combined(items[i].1)
    ensures r != Empty ==> !IsEmpty(r)
    ensures forall i :: 0 <= i < |items| && Combined(items[i].1) ==> HasColumn(r, items[i].0) && HasColumn(r, "end")
    ensures forall c :: HasColumn(r, c) ==> c == "end" || TakenUnder(items, c)
    decreases |items|
  {
    if |items| == 0 then Empty
    else
      var init := items[..|items| - 1];
      var last := items[|items| - 1];
      CombineInit(items, init, last);
      var prev := Combine(init);
      if !Combined(last.1) then
        CombineSkips(items, init, last, prev);
        prev
      else
        var r := CombineStep(prev, last.0, last.1);
        CombineTakes(items, init, last, prev, r);
        r
  }

  /** The frames before the last one are the dict without its last entry. */
  lemma CombineInit(items: Dicts.Dict<Table>, init: Dicts.Dict<Table>, last: (string, Table))
    requires |items| > 0 && init == items[..|items| - 1] && last == items[|items| - 1]
    requires forall i :: 0 <= i < |items| ==> !IsEmpty(items[i].1)
    ensures items == init + [last]
    ensures forall i :: 0 <= i < |init| ==> !IsEmpty(init[i].1)
  {
    forall i | 0 <= i < |init| ensures !IsEmpty(init[i].1) {
      assert init[i] == items[i];
    }
  }

  /** A last frame without `val` or `end` leaves the combined frame as it was. */
  lemma CombineSkips(items: Dicts.Dict<Table>, init: Dicts.Dict<Table>, last: (string, Table), prev: Table)
    requires items == init + [last] && !Combined(last.1)
    requires prev == Empty <==> forall i :: 0 <= i < |init| ==> !Combined(init[i].1)
    requires forall i :: 0 <= i < |init| && Combined(init[i].1) ==> HasColumn(prev, init[i].0) && HasColumn(prev, "end")
    requires forall c :: HasColumn(prev, c) ==> c == "end" || TakenUnder(init, c)
    ensures prev == Empty <==> forall i :: 0 <= i < |items| ==> !Combined(items[i].1)
    ensures forall i :: 0 <= i < |items| && Combined(items[i].1) ==> HasColumn(prev, items[i].0) && HasColumn(prev, "end")
    ensures forall c :: HasColumn(prev, c) ==> c == "end" || TakenUnder(items, c)
  {
    forall i | 0 <= i < |init| ensures items[i] == init[i] { }
    assert items[|init|] == last;
    forall c | HasColumn(prev, c) && c != "end" ensures TakenUnder(items, c) {
      var i :| 0 <= i < |init| && init[i].0 == c && Combined(init[i].1);
      assert items[i] == init[i];
    }
  }

  /** A last frame with `val` and `end` is merged in under its name. */
  lemma CombineTakes(items: Dicts.Dict<Table>, init: Dicts.Dict<Table>, last: (string, Table), prev: Table, r: Table)
    requires items == init + [last] && Combined(last.1) && !IsEmpty(last.1)
    requires r == CombineStep(prev, last.0, last.1)
    requires prev != Empty ==> !IsEmpty(prev)
    requires forall i :: 0 <= i < |init| && Combined(init[i].1) ==> HasColumn(prev, init[i].0) && HasColumn(prev, "end")
    requires forall c :: HasColumn(prev, c) ==> c == "end" || TakenUnder(init, c)
    ensures r != Empty && !IsEmpty(r)
    ensures forall i :: 0 <= i < |items| && Combined(items[i].1) ==> HasColumn(r, items[i].0) && HasColumn(r, "end")
    ensures forall c :: HasColumn(r, c) ==> c == "end" || TakenUnder(items, c)
  {
    assert r != Empty by { assert !IsEmpty(r); }
    forall i | 0 <= i < |items| && Combined(items[i].1) ensures HasColumn(r, items[i].0) {
      if i < |init| {
        assert items[i] == init[i];
        assert HasColumn(prev, init[i].0);
      } else {
        assert items[i] == last;
      }
    }
    forall c | HasColumn(r, c) && c != "end" ensures TakenUnder(items, c) {
      if c != last.0 {
        assert HasColumn(prev, c);
        var i :| 0 <= i < |init| && init[i].0 == c && Combined(init[i].1);
        assert items[i] == init[i];
      } else {
        assert items[|init|] == last;
      }
    }
  }

  /** A period end occurs in one of the frames that take part. */
  predicate InSomeFrame(items: Dicts.Dict<Table>, k: Cell) {
    exists i :: 0 <= i < |items| && Combined(items[i].1) && k in Keys(items[i].1, "end")
  }

  /** The period-end dates of the combined frame are exactly those of the
      frames that took part: the outer merge on "end" loses no period and
      invents none. */
  lemma {:induction false} CombineKeys(items: Dicts.Dict<Table>)
    requires forall i :: 0 <= i < |items| ==> !IsEmpty(items[i].1) && items[i].0 != "end"
    ensures forall k :: k in Keys(Combine(items), "end") <==> InSomeFrame(items, k)
  {
    if |items| > 0 {
      var init := items[..|items| - 1];
      assert forall i :: 0 <= i < |init| ==> init[i] == items[i];
      CombineKeys(init);
      assert items == init + [items[|items| - 1]];
      if Combined(items[|items| - 1].1) {
        CombineKeysTaken(init, items[|items| - 1]);
      } else {
        CombineKeysSkipped(init, items[|items| - 1]);
      }
    }
  }

  /** Merging the last frame in adds its period ends to those combined so far. */
  lemma CombineTakenKeys(init: Dicts.Dict<Table>, last: (string, Table))
    requires Combined(last.1) && !IsEmpty(last.1) && last.0 != "end"
    requires forall i :: 0 <= i < |init| ==> !IsEmpty(init[i].1)
    ensures Keys(Combine(init + [last]), "end") == Keys(Combine(init), "end") + Keys(last.1, "end")
  {
    var items := init + [last];
    assert items[..|items| - 1] == init;
    assert forall i :: 0 <= i < |items| ==> !IsEmpty(items[i].1);
    var prev := Combine(init);
    assert Combine(items) == CombineStep(prev, last.0, last.1);
    if IsEmpty(prev) {
      assert prev == Empty;
    }
  }

  /** Appending a merged frame adds exactly its period ends. */
  lemma InSomeFrameAppend(init: Dicts.Dict<Table>, last: (string, Table), a: set<Cell>, k: Cell)
    requires Combined(last.1)
    requires forall k :: k in a <==> InSomeFrame(init, k)
    ensures k in a + Keys(last.1, "end") <==> InSomeFrame(init + [last], k)
  {
    var items := init + [last];
    if k in a + Keys(last.1, "end") {
      if k in a {
        var i :| 0 <= i < |init| && Combined(init[i].1) && k in Keys(init[i].1, "end");
        assert items[i] == init[i];
      } else {
        assert items[|init|] == last;
      }
    }
    if InSomeFrame(items, k) {
      var i :| 0 <= i < |items| && Combined(items[i].1) && k in Keys(items[i].1, "end");
      if i < |init| {
        assert init[i] == items[i];
      }
    }
  }

  /** The step of `CombineKeys` where the last frame is merged in. */
  lemma CombineKeysTaken(init: Dicts.Dict<Table>, last: (string, Table))
    requires Combined(last.1) && !IsEmpty(last.1) && last.0 != "end"
    requires forall i :: 0 <= i < |init| ==> !IsEmpty(init[i].1) && init[i].0 != "end"
    requires forall k :: k in Keys(Combine(init), "end") <==> InSomeFrame(init, k)
    ensures forall k :: k in Keys(Combine(init + [last]), "end") <==> InSomeFrame(init + [last], k)
  {
    CombineTakenKeys(init, last);
    InSomeFrameAppendAll(init, last, Keys(Combine(init), "end"));
  }

  /** Appending a merged frame adds exactly its period ends, for every date. */
  lemma InSomeFrameAppendAll(init: Dicts.Dict<Table>, last: (string, Table), a: set<Cell>)
    requires Combined(last.1)
    requires forall k :: k in a <==> InSomeFrame(init, k)
    ensures forall k :: k in a + Keys(last.1, "end") <==> InSomeFrame(init + [last], k)
  {
    forall k ensures k in a + Keys(last.1, "end") <==> InSomeFrame(init + [last], k) {
      InSomeFrameAppend(init, last, a, k);
    }
  }

  /** The step of `CombineKeys` where the last frame is skipped. */
  lemma CombineKeysSkipped(init: Dicts.Dict<Table>, last: (string, Table))
    requires !Combined(last.1) && !IsEmpty(last.1)
    requires forall i :: 0 <= i < |init| ==> !IsEmpty(init[i].1)
    requires forall k :: k in Keys(Combine(init), "end") <==> InSomeFrame(init, k)
    ensures forall k :: k in Keys(Combine(init + [last]), "end") <==> InSomeFrame(init + [last], k)
  {
    var items := init + [last];
    assert items[..|items| - 1] == init;
    assert forall i :: 0 <= i < |init| ==> init[i] == items[i];
    assert Combine(items) == Combine(init);
    forall k | InSomeFrame(items, k) ensures InSomeFrame(init, k) {
      var i :| 0 <= i < |items| && Combined(items[i].1) && k in Keys(items[i].1, "end");
      assert i < |init| && init[i] == items[i];
    }
    forall k | InSomeFrame(init, k) ensures InSomeFrame(items, k) {
      var i :| 0 <= i < |init| && Combined(init[i].1) && k in Keys(init[i].1, "end");
      assert items[i] == init[i];
    }
  }



  /** ---- putting the sections side by side ---- */

  /** Row `i` of a frame, or no cells past its end. */
  function RowAt(t: Table, i: nat): Row {
    if i < |t.rows| then t.rows[i] else map[]
  }

  /** `pd.concat([a, b], axis=1)` for frames on the same 0..n-1 index. */
  function HConcat(a: Table, b: Table): (r: Table)
    ensures r.names == a.names + b.names
    ensures |r.rows| == if |a.rows| < |b.rows| then |b.rows| else |a.rows|
    ensures forall c, i :: c in b.names && 0 <= i < |b.rows| ==> CellAt(r.rows[i], c) == CellAt(b.rows[i], c)
  {
    var n := if |a.rows| < |b.rows| then |b.rows| else |a.rows|;
    Table(a.names + b.names, seq(n, i requires 0 <= i < n => RowAt(a, i) - (set c | c in b.names) + RowAt(b, i)))
  }

  /** `pd.concat(parts, axis=1)`. */
  function HConcatAll(parts: seq<Table>): (r: Table)
    ensures forall c :: HasColumn(r, c) <==> exists s :: 0 <= s < |parts| && HasColumn(parts[s], c)
    decreases |parts|
  {
    if |parts| == 0 then Empty
    else
      var init := parts[..|parts| - 1];
      assert forall s :: 0 <= s < |init| ==> init[s] == parts[s];
      var prev := HConcatAll(init);
      var r := HConcat(prev, parts[|parts| - 1]);
      assert forall c :: HasColumn(r, c) ==> exists s :: 0 <= s < |parts| && HasColumn(parts[s], c) by {
        forall c | HasColumn(r, c) ensures exists s :: 0 <= s < |parts| && HasColumn(parts[s], c) {
          if !HasColumn(parts[|parts| - 1], c) {
            assert HasColumn(prev, c);
            var s :| 0 <= s < |init| && HasColumn(init[s], c);
          }
        }
      }
      assert forall c :: (exists s :: 0 <= s < |parts| && HasColumn(parts[s], c)) ==> HasColumn(r, c) by {
        forall c | exists s :: 0 <= s < |parts| && HasColumn(parts[s], c) ensures HasColumn(r, c) {
          var s :| 0 <= s < |parts| && HasColumn(parts[s], c);
          if s < |init| {
            assert HasColumn(init[s], c);
            assert HasColumn(prev, c);
          }
        }
      }
      r
  }

  /** Parts that are each empty or `n` rows long give a frame that is empty
      or `n` rows long. */
  lemma {:induction false} HConcatAllRows(parts: seq<Table>, n: nat)
    requires forall s :: 0 <= s < |parts| ==> parts[s] == Empty || |parts[s].rows| == n
    ensures HConcatAll(parts) == Empty || |HConcatAll(parts).rows| == n
    decreases |parts|
  {
    if |parts| > 0 {
      var init := parts[..|parts| - 1];
      assert forall s :: 0 <= s < |init| ==> init[s] == parts[s];
      HConcatAllRows(init, n);
    }
  }

  /** ---- the whole method ---- */

  /** The frame of merged item series, dates converted. */
  function ItemSeries(items: Dicts.Dict<Table>, toDate: Cell -> Cell): (df: Table)
    requires forall i :: 0 <= i < |items| ==> !IsEmpty(items[i].1)
    ensures forall c :: HasColumn(df, c) <==> HasColumn(Combine(items), c)
  {
    ProcessDates(Combine(items), toDate)
  }

  /** Every section of the series frame, standardized. */
  function Sections(df: Table, sections: seq<Dicts.Dict<string>>): (parts: seq<Table>)
    ensures |parts| == |sections|
    ensures forall s :: 0 <= s < |sections| ==> parts[s] == StandardizeLineItems(df, sections[s])
  {
    seq(|sections|, s requires 0 <= s < |sections| => StandardizeLineItems(df, sections[s]))
  }

  /** The standardized sections side by side have the standard names of the
      tags present in the series frame, and no other column. */
  lemma SectionColumns(df: Table, sections: seq<Dicts.Dict<string>>)
    ensures forall c :: HasColumn(HConcatAll(Sections(df, sections)), c) ==> StandardName(sections, c)
    ensures forall s, j :: 0 <= s < |sections| && 0 <= j < |sections[s]| && HasColumn(df, sections[s][j].0) ==>
      HasColumn(HConcatAll(Sections(df, sections)), sections[s][j].1)
  {
    var parts := Sections(df, sections);
    var result := HConcatAll(parts);
    forall c | HasColumn(result, c) ensures StandardName(sections, c) {
      var s :| 0 <= s < |parts| && HasColumn(parts[s], c);
      var i :| 0 <= i < |sections[s]| && sections[s][i].1 == c && HasColumn(df, sections[s][i].0);
    }
    forall s, j | 0 <= s < |sections| && 0 <= j < |sections[s]| && HasColumn(df, sections[s][j].0)
      ensures HasColumn(result, sections[s][j].1)
    {
      assert Source(df, sections[s], sections[s][j].1).Some?;
      assert HasColumn(parts[s], sections[s][j].1);
    }
  }

  /** The sections side by side, with `period_end_date` when the series
      frame has `end`. */
  function SideBySide(df: Table, sections: seq<Dicts.Dict<string>>): (r: Table)
    ensures forall c :: HasColumn(r, c) ==> c == "period_end_date" || StandardName(sections, c)
    ensures forall s, j :: 0 <= s < |sections| && 0 <= j < |sections[s]| && HasColumn(df, sections[s][j].0) ==>
      HasColumn(r, sections[s][j].1)
    ensures HasColumn(df, "end") ==> HasColumn(r, "period_end_date")
  {
    var parts := Sections(df, sections);
    var result := HConcatAll(parts);
    SectionColumns(df, sections);
    if HasColumn(df, "end") then
      HConcatAllRows(parts, |df.rows|);
      SetColumn(result, "period_end_date", Column(df, "end"))
    else
      result
  }

  /** The body of the `try` up to the derived fields. */
  function Standardize(facts: Json, sections: seq<Dicts.Dict<string>>, st: Statement, toDate: Cell -> Cell): (r: Result<Table, Exception>)
    ensures facts.JObj? && !Dicts.HasKey(facts.fields, "us-gaap") ==>
      r == Err(ProcessingError("No US GAAP data found in company facts"))
    ensures r.Ok? ==> forall f :: f in st.required ==> HasColumn(r.value, f)
    ensures r.Ok? ==> forall c :: HasColumn(r.value, c) ==> c == "period_end_date" || StandardName(sections, c)
  {
    var hasGaap :- AsDataError(PyIn("us-gaap", facts));
    if !hasGaap then Err(ProcessingError("No US GAAP data found in company facts"))
    else
      var gaap :- AsDataError(PyGetItem(facts, "us-gaap"));
      var entries :- AsDataError(PyItems(gaap));
      var items :- SelectItems(entries, sections, UsdRecords);
      if |items| == 0 then Err(ProcessingError(st.noData))
      else
        var result := SideBySide(ItemSeries(items, toDate), sections);
        var valid :- ValidateRequiredFields(result, st.required);
        Ok(result)
  }

  /** The two `except` clauses: a ProcessingError leaves as it is, anything
      else as "Failed to {task}: ...". */
  function Reraise(task: string, e: Exception): (r: Exception)
    ensures IsProcessingError(r)
    ensures IsProcessingError(e) ==> r == e
    ensures !IsProcessingError(e) ==> Message(r) == if Message(e).Some? then Some("Failed to " + task + ": " + Message(e).value) else None
  {
    if IsProcessingError(e) then e else Failed(task, e)
  }

  /** `process_company_facts` with the section mappings given: every failure
      is a ProcessingError; a result passed validation before the derived
      step. */
  function ProcessCompanyFacts(facts: Json, sections: seq<Dicts.Dict<string>>, st: Statement,
                               derive: Table -> Table, toDate: Cell -> Cell): (r: Result<Table, Exception>)
    ensures r.Err? ==> IsProcessingError(r.error)
    ensures facts.JObj? && !Dicts.HasKey(facts.fields, "us-gaap") ==>
      r == Err(ProcessingError("No US GAAP data found in company facts"))
    ensures r.Ok? <==> Standardize(facts, sections, st, toDate).Ok?
    ensures r.Ok? ==> r.value == derive(Standardize(facts, sections, st, toDate).value)
  {
    match Standardize(facts, sections, st, toDate)
    case Ok(t) => Ok(derive(t))
    case Err(e) => Err(Reraise(st.task, e))
  }

  /** The `us-gaap` entry `i` feeds the required field `f`: section `s` maps
      its tag to `f` at position `j`, and its USD records form a non-empty
      frame with `val` and `end`. */
  predicate Feeds(entries: seq<(string, Json)>, sections: seq<Dicts.Dict<string>>, i: int, s: int, j: int, f: string) {
    && 0 <= i < |entries| && 0 <= s < |sections| && 0 <= j < |sections[s]|
    && sections[s][j] == (entries[i].0, f)
    && Supplied(UsdRecords, entries[i].1)
    && Combined(UsdRecords(entries[i].1).value.value)
  }

  /** A required field fed by an entry is a column of the combined frame. */
  lemma FedFieldPresent(entries: seq<(string, Json)>, sections: seq<Dicts.Dict<string>>, toDate: Cell -> Cell,
                        i: int, s: int, j: int, f: string)
    requires Dicts.UniqueKeys(entries) && SelectItems(entries, sections, UsdRecords).Ok?
    requires Feeds(entries, sections, i, s, j, f)
    ensures HasColumn(SideBySide(ItemSeries(SelectItems(entries, sections, UsdRecords).value, toDate), sections), f)
  {
    var items := SelectItems(entries, sections, UsdRecords).value;
    assert Mapped(sections, entries[i].0) by { assert sections[s][j].0 == entries[i].0; }
    SelectedItem(entries, sections, UsdRecords, i);
    var k :| 0 <= k < |items| && items[k] == (entries[i].0, UsdRecords(entries[i].1).value.value);
    assert HasColumn(Combine(items), items[k].0);
    assert HasColumn(ItemSeries(items, toDate), sections[s][j].0);
  }

  /** An entry that feeds a field is selected, so the selection is not empty. */
  lemma FedItemsNonEmpty(entries: seq<(string, Json)>, sections: seq<Dicts.Dict<string>>, i: int, s: int, j: int, f: string)
    requires SelectItems(entries, sections, UsdRecords).Ok?
    requires Feeds(entries, sections, i, s, j, f)
    ensures |SelectItems(entries, sections, UsdRecords).value| > 0
  {
    assert Mapped(sections, entries[i].0) by { assert sections[s][j].0 == entries[i].0; }
  }

  /** `Standardize` succeeds once the tags read cleanly, some were selected
      and the side-by-side frame has every required field. */
  lemma StandardizeSucceeds(facts: Json, sections: seq<Dicts.Dict<string>>, st: Statement, toDate: Cell -> Cell)
    requires facts.JObj? && Dicts.HasKey(facts.fields, "us-gaap")
    requires Dicts.Get(facts.fields, "us-gaap").value.JObj?
    requires var entries := Dicts.Get(facts.fields, "us-gaap").value.fields;
      && SelectItems(entries, sections, UsdRecords).Ok?
      && |SelectItems(entries, sections, UsdRecords).value| > 0
      && forall f :: f in st.required ==>
           HasColumn(SideBySide(ItemSeries(SelectItems(entries, sections, UsdRecords).value, toDate), sections), f)
    ensures Standardize(facts, sections, st, toDate).Ok?
  {
  }

  /** Company facts whose `us-gaap` dict feeds every required field, and
      whose statement tags all read without error, are processed into a
      table. */
  lemma SuppliedFactsProcess(facts: Json, sections: seq<Dicts.Dict<string>>, st: Statement, toDate: Cell -> Cell)
    requires facts.JObj? && Dicts.HasKey(facts.fields, "us-gaap")
    requires Dicts.Get(facts.fields, "us-gaap").value.JObj?
    requires var entries := Dicts.Get(facts.fields, "us-gaap").value.fields;
      && Dicts.UniqueKeys(entries)
      && (forall i :: 0 <= i < |entries| && Mapped(sections, entries[i].0) ==> UsdRecords(entries[i].1).Ok?)
      && (forall f :: f in st.required ==> exists i, s, j :: Feeds(entries, sections, i, s, j, f))
    requires |st.required| > 0
    ensures Standardize(facts, sections, st, toDate).Ok?
  {
    var entries := Dicts.Get(facts.fields, "us-gaap").value.fields;
    var items := SelectItems(entries, sections, UsdRecords).value;
    forall f | f in st.required
      ensures HasColumn(SideBySide(ItemSeries(items, toDate), sections), f)
    {
      var i, s, j :| Feeds(entries, sections, i, s, j, f);
      FedFieldPresent(entries, sections, toDate, i, s, j, f);
    }
    var f0 := st.required[0];
    assert f0 in st.required;
    var i, s, j :| Feeds(entries, sections, i, s, j, f0);
    FedItemsNonEmpty(entries, sections, i, s, j, f0);
    StandardizeSucceeds(facts, sections, st, toDate);
  }

  /** When every mapped tag reads cleanly but none has USD records, the
      statement's own "no data" error is raised. */
  lemma NothingSuppliedNoData(facts: Json, sections: seq<Dicts.Dict<string>>, st: Statement, toDate: Cell -> Cell)
    requires facts.JObj? && Dicts.HasKey(facts.fields, "us-gaap")
    requires Dicts.Get(facts.fields, "us-gaap").value.JObj?
    requires var entries := Dicts.Get(facts.fields, "us-gaap").value.fields;
      forall i :: 0 <= i < |entries| && Mapped(sections, entries[i].0) ==>
        UsdRecords(entries[i].1).Ok? && !Supplied(UsdRecords, entries[i].1)
    ensures Standardize(facts, sections, st, toDate) == Err(ProcessingError(st.noData))
  {
    var entries := Dicts.Get(facts.fields, "us-gaap").value.fields;
    var items := SelectItems(entries, sections, UsdRecords);
    assert items.Ok? && |items.value| == 0;
  }

  /** The body of the `try` as the processors write it: the first `us-gaap`
      tag looks up a mapping attribute the template does not have. */
  function AsWrittenBody(facts: Json, st: Statement): (r: Result<Table, Exception>)
    ensures r.Err?
  {
    var hasGaap :- AsDataError(PyIn("us-gaap", facts));
    if !hasGaap then Err(ProcessingError("No US GAAP data found in company facts"))
    else
      var gaap :- AsDataError(PyGetItem(facts, "us-gaap"));
      var entries :- AsDataError(PyItems(gaap));
      if |entries| > 0 then Err(NoAttribute(st.template, st.firstMapping))
      else Err(ProcessingError(st.noData))
  }

  /** `process_company_facts` as written: it never returns a table; facts
      with any `us-gaap` tag fail with the missing attribute, an empty
      `us-gaap` dict with "No ... data found". */
  function AsWrittenProcessCompanyFacts(facts: Json, st: Statement): (r: Result<Table, Exception>)
    ensures r.Err? && IsProcessingError(r.error)
    ensures facts.JObj? && Dicts.HasKey(facts.fields, "us-gaap") && Dicts.Get(facts.fields, "us-gaap").value.JObj? ==>
      r.error == if |Dicts.Get(facts.fields, "us-gaap").value.fields| > 0
                 then Failed(st.task, NoAttribute(st.template, st.firstMapping))
                 else ProcessingError(st.noData)
  {
    Err(Reraise(st.task, AsWrittenBody(facts, st).error))
  }

  /** ---- derived fields ---- */

  /** `a / b`. */
  function Divide(a: Cell, b: Cell): Cell {
    Ratio(a, b, 1)
  }

  /** `(a / b) * 100`. */
  function Percent(a: Cell, b: Cell): Cell {
    Ratio(a, b, 100)
  }

  /** `if a in df.columns and b in df.columns: df[name] = f(df[a], df[b])`,
      element by element. */
  function WithColumn(df: Table, name: string, a: string, b: string, f: (Cell, Cell) -> Cell): (r: Table)
    ensures !(HasColumn(df, a) && HasColumn(df, b)) ==> r == df
    ensures HasColumn(df, a) && HasColumn(df, b) ==>
      && r.names == (if name in df.names then df.names else df.names + [name])
      && Column(r, name) == Zip(Column(df, a), Column(df, b), f)
    ensures forall c :: c != name && c in df.names ==> Column(r, c) == Column(df, c)
  {
    if HasColumn(df, a) && HasColumn(df, b) then
      SetColumn(df, name, Zip(Column(df, a), Column(df, b), f))
    else df
  }

  /** The columns after `WithColumn`, for one column name. */
  lemma WithColumnHas(df: Table, name: string, a: string, b: string, f: (Cell, Cell) -> Cell, c: string)
    ensures HasColumn(WithColumn(df, name, a, b, f), c) <==> HasColumn(df, c) || (c == name && HasColumn(df, a) && HasColumn(df, b))
  {
  }

  /** The columns after `WithColumn`: the old ones, values kept except under
      `name`, and possibly `name`. */
  lemma WithColumnFrame(df: Table, name: string, a: string, b: string, f: (Cell, Cell) -> Cell)
    ensures forall c :: HasColumn(WithColumn(df, name, a, b, f), c) ==> HasColumn(df, c) || c == name
    ensures forall c :: HasColumn(df, c) ==> HasColumn(WithColumn(df, name, a, b, f), c)
    ensures forall c :: HasColumn(df, c) && c != name ==> Column(WithColumn(df, name, a, b, f), c) == Column(df, c)
  {
  }

  /** `WithColumn` keeps every other column, values included. */
  lemma WithColumnKeeps(df: Table, name: string, a: string, b: string, f: (Cell, Cell) -> Cell, c: string)
    requires c != name && HasColumn(df, c)
    ensures HasColumn(WithColumn(df, name, a, b, f), c)
    ensures Column(WithColumn(df, name, a, b, f), c) == Column(df, c)
  {
  }

  /** A value pandas' arithmetic passes over: NaN, or a null, which the
      masked fallback for object columns leaves as NaN. */
  predicate Missing(c: Cell) {
    c.Nan? || c == Of(JNull)
  }

  /** A value arithmetic computes with: a number or a quotient. */
  predicate Arith(c: Cell) {
    c.Quot? || (c.Of? && c.v.JNum?)
  }

  /** `a op b` raises `TypeError` on one row: both values are there and one
      of them is not a number (a string, a boolean, a list or a dict). */
  predicate Clash(a: Cell, b: Cell) {
    !Missing(a) && !Missing(b) && !(Arith(a) && Arith(b))
  }

  /** Some row of two columns clashes. */
  predicate Clashes(a: seq<Cell>, b: seq<Cell>) {
    exists i :: 0 <= i < |a| && i < |b| && Clash(a[i], b[i])
  }

  /** `df[a] op df[b]` under `if a in df.columns and b in df.columns`
      raises: both are columns and some row clashes. */
  predicate StepRaises(df: Table, a: string, b: string) {
    HasColumn(df, a) && HasColumn(df, b) && Clashes(Column(df, a), Column(df, b))
  }

  /** On a row that does not clash, a missing operand gives NaN and two
      numbers give a number. */
  lemma NoClashArithmetic(a: Cell, b: Cell, scale: int)
    requires !a.Quot? && !b.Quot? && !Clash(a, b)
    ensures Sub(a, b).Nan? <==> Missing(a) || Missing(b)
    ensures Add(a, b).Nan? <==> Missing(a) || Missing(b)
    ensures Ratio(a, b, scale).Nan? <==> Missing(a) || Missing(b)
  {
  }

  /** `WithColumn` inside the `try` of `_calculate_derived_fields`: `None`
      when the operation raises, and the frame with the new column
      otherwise. */
  function TryWithColumn(df: Table, name: string, a: string, b: string, f: (Cell, Cell) -> Cell): (r: Option<Table>)
    ensures r.None? <==> StepRaises(df, a, b)
    ensures r.Some? ==> r.value == WithColumn(df, name, a, b, f)
  {
    if StepRaises(df, a, b) then None else Some(WithColumn(df, name, a, b, f))
  }

  /** Adding a column leaves whether a step on two other columns raises. */
  lemma WithColumnRaises(df: Table, name: string, a: string, b: string, f: (Cell, Cell) -> Cell, x: string, y: string)
    requires x != name && y != name
    ensures StepRaises(WithColumn(df, name, a, b, f), x, y) <==> StepRaises(df, x, y)
  {
    WithColumnFrame(df, name, a, b, f);
  }
}

=== FILE: tables.dfy ===
/** The pandas DataFrame operations the processors rely on, over a small
    table model: ordered column names and rows, each row a map from column
    name to cell (a missing entry reads as NaN). Every table has the default
    0..n-1 row index, so column assignment is positional. */
module Tables {
  import opened Wrappers
  import opened Json
  import Dicts

  /** One cell: NaN, a value taken from the decoded JSON records, or an exact
      quotient `num / den` standing for the float pandas computes by
      division (floating point is not modelled). */
  datatype Cell = Nan | Of(v: Json) | Quot(num: int, den: int)

  type Row = map<string, Cell>

  datatype Table = Table(names: seq<string>, rows: seq<Row>)

  /** `pd.DataFrame()`. */
  const Empty: Table := Table([], [])

  /** The cell a row holds for a column. */
  function CellAt(row: Row, c: string): Cell {
    if c in row then row[c] else Nan
  }

  /** `c in df.columns`. */
  predicate HasColumn(t: Table, c: string) {
    c in t.names
  }

  /** `df.empty`: no columns or no rows. */
  predicate IsEmpty(t: Table) {
    |t.names| == 0 || |t.rows| == 0
  }

  /** `df[c]` as the sequence of its values. */
  function Column(t: Table, c: string): (r: seq<Cell>)
    ensures |r| == |t.rows|
    ensures forall i :: 0 <= i < |t.rows| ==> r[i] == CellAt(t.rows[i], c)
  {
    seq(|t.rows|, i requires 0 <= i < |t.rows| => CellAt(t.rows[i], c))
  }

  /** A frame with neither rows nor columns takes the length of the first
      column assigned to it; any other frame needs a column of its own
      length. */
  predicate Fits(t: Table, values: seq<Cell>) {
    (|t.names| == 0 && |t.rows| == 0) || |values| == |t.rows|
  }

  /** `df[c] = values`: an existing column keeps its position, a new one goes
      last; no other column changes. */
  function SetColumn(t: Table, c: string, values: seq<Cell>): (r: Table)
    requires Fits(t, values)
    ensures r.names == if c in t.names then t.names else t.names + [c]
    ensures |r.rows| == |values|
    ensures Column(r, c) == values
    ensures forall d :: d != c && d in t.names ==> Column(r, d) == Column(t, d)
  {
    if |t.names| == 0 && |t.rows| == 0 then
      Table([c], seq(|values|, i requires 0 <= i < |values| => map[c := values[i]]))
    else
      Table(if c in t.names then t.names else t.names + [c],
            seq(|t.rows|, i requires 0 <= i < |t.rows| => t.rows[i][c := values[i]]))
  }

  /** `df[c] = v` for a scalar `v`: every row gets `v`. */
  function SetConstant(t: Table, c: string, v: Cell): (r: Table)
    ensures r.names == if c in t.names then t.names else t.names + [c]
    ensures |r.rows| == |t.rows|
    ensures forall i :: 0 <= i < |r.rows| ==> CellAt(r.rows[i], c) == v
    ensures forall d :: d != c ==> Column(r, d) == Column(t, d)
  {
    Table(if c in t.names then t.names else t.names + [c],
          seq(|t.rows|, i requires 0 <= i < |t.rows| => t.rows[i][c := v]))
  }

  /** The column names of `a` followed by those of `b` not already present:
      the column order pandas gives a frame built from several sources. */
  function AddNames(a: seq<string>, b: seq<string>): (r: seq<string>)
    ensures |a| <= |r| && r[..|a|] == a
    ensures forall c :: c in r <==> c in a || c in b
    ensures (forall i, j :: 0 <= i < j < |a| ==> a[i] != a[j]) ==> forall i, j :: 0 <= i < j < |r| ==> r[i] != r[j]
    decreases |b|
  {
    if |b| == 0 then a
    else if b[0] in a then AddNames(a, b[1..])
    else
      var r := AddNames(a + [b[0]], b[1..]);
      assert (a + [b[0]])[..|a|] == a;
      r
  }

  /** One decoded JSON object as a row. */
  function RowOf(fields: seq<(string, Json)>): (r: Row)
    ensures forall k :: k in r <==> Dicts.HasKey(fields, k)
  {
    map k | k in Dicts.Keys(fields) :: Of(Dicts.Get(fields, k).GetOr(JNull))
  }

  /** Some record has key `c`. */
  predicate SomeRecordHas(items: seq<Json>, c: string)
    requires forall i :: 0 <= i < |items| ==> items[i].JObj?
  {
    exists i :: 0 <= i < |items| && Dicts.HasKey(items[i].fields, c)
  }

  /** `pd.DataFrame(records)` for a list of JSON objects: one row per record;
      the columns are the keys in order of first appearance. Anything other
      than a list of objects is rejected. */
  function Records(values: Json): (r: Result<Table, PyError>)
    ensures r.Ok? <==> values.JArr? && forall i :: 0 <= i < |values.items| ==> values.items[i].JObj?
    ensures r.Ok? ==> |r.value.rows| == |values.items|
    ensures r.Ok? ==> forall i :: 0 <= i < |values.items| ==> r.value.rows[i] == RowOf(values.items[i].fields)
    ensures r.Ok? ==> forall c :: c in r.value.names <==> SomeRecordHas(values.items, c)
  {
    match values
    case JArr(items) =>
      if forall i :: 0 <= i < |items| ==> items[i].JObj? then
        RecordNames(items);
        Ok(RecordTable(items))
      else Err(TypeError)
    case _ => Err(TypeError)
  }

  function RecordTable(items: seq<Json>): (t: Table)
    requires forall i :: 0 <= i < |items| ==> items[i].JObj?
    ensures |t.rows| == |items|
    ensures forall i :: 0 <= i < |items| ==> t.rows[i] == RowOf(items[i].fields)
  {
    if |items| == 0 then Empty
    else
      var last := items[|items| - 1];
      var prev := RecordTable(items[..|items| - 1]);
      var rows := prev.rows + [RowOf(last.fields)];
      assert forall i :: 0 <= i < |items| - 1 ==> rows[i] == prev.rows[i] && items[..|items| - 1][i] == items[i];
      Table(AddNames(prev.names, Dicts.Keys(last.fields)), rows)
  }

  /** Some record has a key exactly when an earlier record or the last one has it. */
  lemma RecordNamesStep(items: seq<Json>, c: string)
    requires |items| > 0 && forall i :: 0 <= i < |items| ==> items[i].JObj?
    ensures SomeRecordHas(items, c) <==>
      SomeRecordHas(items[..|items| - 1], c) || Dicts.HasKey(items[|items| - 1].fields, c)
  {
    var init := items[..|items| - 1];
    if SomeRecordHas(init, c) {
      var i :| 0 <= i < |init| && Dicts.HasKey(init[i].fields, c);
      assert init[i] == items[i];
    }
    if SomeRecordHas(items, c) {
      var i :| 0 <= i < |items| && Dicts.HasKey(items[i].fields, c);
      if i < |init| { assert init[i] == items[i]; }
    }
  }

  /** The columns of a record table are the keys of its records. */
  lemma {:induction false} RecordNames(items: seq<Json>)
    requires forall i :: 0 <= i < |items| ==> items[i].JObj?
    ensures forall c :: c in RecordTable(items).names <==> SomeRecordHas(items, c)
  {
    if |items| > 0 {
      var last := items[|items| - 1];
      var init := items[..|items| - 1];
      RecordNames(init);
      forall c ensures c in RecordTable(items).names <==> SomeRecordHas(items, c) {
        Dicts.KeysHasKey(last.fields, c);
        RecordNamesStep(items, c);
      }
    }
  }

  /** `pd.concat(frames, ignore_index=True)`: the rows one after the other,
      the columns in order of first appearance. */
  function Concat(ts: seq<Table>): (r: Table)
    ensures |r.rows| == RowCount(ts)
    ensures forall c :: c in r.names <==> exists i :: 0 <= i < |ts| && c in ts[i].names
    ensures forall x :: x in r.rows <==> exists i :: 0 <= i < |ts| && x in ts[i].rows
  {
    if |ts| == 0 then Empty
    else
      var prev := Concat(ts[..|ts| - 1]);
      var r := Table(AddNames(prev.names, ts[|ts| - 1].names), prev.rows + ts[|ts| - 1].rows);
      assert forall c :: c in r.names <==> exists i :: 0 <= i < |ts| && c in ts[i].names by {
        forall c ensures c in r.names <==> exists i :: 0 <= i < |ts| && c in ts[i].names {
          if exists i :: 0 <= i < |ts| && c in ts[i].names {
            var i :| 0 <= i < |ts| && c in ts[i].names;
            if i < |ts| - 1 { assert ts[..|ts| - 1][i] == ts[i]; }
          }
        }
      }
      assert forall x :: x in r.rows <==> exists i :: 0 <= i < |ts| && x in ts[i].rows by {
        forall x ensures x in r.rows <==> exists i :: 0 <= i < |ts| && x in ts[i].rows {
          if x in prev.rows {
            var i :| 0 <= i < |ts| - 1 && x in ts[..|ts| - 1][i].rows;
            assert ts[..|ts| - 1][i] == ts[i];
          }
          if exists i :: 0 <= i < |ts| && x in ts[i].rows {
            var i :| 0 <= i < |ts| && x in ts[i].rows;
            if i < |ts| - 1 { assert ts[..|ts| - 1][i] == ts[i]; }
          }
        }
      }
      r
  }

  /** The total number of rows of a list of frames. */
  function RowCount(ts: seq<Table>): nat {
    if |ts| == 0 then 0 else RowCount(ts[..|ts| - 1]) + |ts[|ts| - 1].rows|
  }

  /** The rows of the frames, one frame after the other. */
  function AllRows(ts: seq<Table>): (r: seq<Row>)
    ensures |r| == RowCount(ts)
  {
    if |ts| == 0 then [] else AllRows(ts[..|ts| - 1]) + ts[|ts| - 1].rows
  }

  /** `Concat` keeps the rows of its frames in order. */
  lemma {:induction false} ConcatAllRows(ts: seq<Table>)
    ensures Concat(ts).rows == AllRows(ts)
    decreases |ts|
  {
    if |ts| > 0 {
      ConcatAllRows(ts[..|ts| - 1]);
    }
  }

  /** The rows of `ts[j]` follow the rows of the frames before it. */
  lemma {:induction false} AllRowsBlock(ts: seq<Table>, j: int)
    requires 0 <= j < |ts|
    ensures RowCount(ts[..j]) + |ts[j].rows| <= |AllRows(ts)|
    ensures AllRows(ts)[RowCount(ts[..j])..RowCount(ts[..j]) + |ts[j].rows|] == ts[j].rows
    decreases |ts|
  {
    var last := |ts| - 1;
    var prev := ts[..last];
    var whole, before := AllRows(ts), AllRows(prev);
    assert whole == before + ts[last].rows;
    if j == last {
      assert ts[..j] == prev;
    } else {
      AllRowsBlock(prev, j);
      assert prev[..j] == ts[..j] && prev[j] == ts[j];
      var lo := RowCount(ts[..j]);
      assert whole[lo..lo + |ts[j].rows|] == before[lo..lo + |ts[j].rows|];
    }
  }

  /** The values a key column takes over some rows. */
  function KeysOf(rows: seq<Row>, on: string): set<Cell> {
    set i | 0 <= i < |rows| :: CellAt(rows[i], on)
  }

  /** The values a column takes. */
  function Keys(t: Table, on: string): set<Cell> {
    KeysOf(t.rows, on)
  }

  lemma KeysOfConcat(a: seq<Row>, b: seq<Row>, on: string)
    ensures KeysOf(a + b, on) == KeysOf(a, on) + KeysOf(b, on)
  {
    var ab := a + b;
    forall k | k in KeysOf(ab, on) ensures k in KeysOf(a, on) + KeysOf(b, on) {
      var i :| 0 <= i < |ab| && CellAt(ab[i], on) == k;
      if i >= |a| { assert ab[i] == b[i - |a|]; }
    }
    forall k | k in KeysOf(b, on) ensures k in KeysOf(ab, on) {
      var i :| 0 <= i < |b| && CellAt(b[i], on) == k;
      assert ab[|a| + i] == b[i];
    }
    forall k | k in KeysOf(a, on) ensures k in KeysOf(ab, on) {
      var i :| 0 <= i < |a| && CellAt(a[i], on) == k;
      assert ab[i] == a[i];
    }
  }

  /** A key belongs to a list of rows iff some row has it. */
  lemma KeysOfMember(rows: seq<Row>, on: string, x: Row)
    requires x in rows
    ensures CellAt(x, on) in KeysOf(rows, on)
  {
    var i :| 0 <= i < |rows| && rows[i] == x;
  }

  /** The rows of `rows` whose `on` cell is `k`. */
  function Matching(rows: seq<Row>, on: string, k: Cell): (r: seq<Row>)
    ensures forall x :: x in r <==> x in rows && CellAt(x, on) == k
  {
    if |rows| == 0 then []
    else (if CellAt(rows[0], on) == k then [rows[0]] else []) + Matching(rows[1..], on, k)
  }

  /** A left row joined with a right row: the union of their cells. */
  function Join(l: Row, r: Row): Row {
    l + r
  }

  /** The rows an outer merge produces for one left row: the row joined with
      every right row of the same key, or the row alone when there is none. */
  function Joined(l: Row, right: seq<Row>, on: string): (r: seq<Row>)
    ensures KeysOf(r, on) == {CellAt(l, on)}
  {
    var ms := Matching(right, on, CellAt(l, on));
    if |ms| == 0 then
      assert KeysOf([l], on) == {CellAt(l, on)} by { assert [l][0] == l; }
      [l]
    else
      var r := seq(|ms|, i requires 0 <= i < |ms| => Join(l, ms[i]));
      assert CellAt(r[0], on) == CellAt(l, on) by { assert ms[0] in ms; }
      forall k | k in KeysOf(r, on) ensures k == CellAt(l, on) {
        var i :| 0 <= i < |r| && CellAt(r[i], on) == k;
        assert ms[i] in ms;
      }
      r
  }

  /** The rows an outer merge produces for the left rows, in order. */
  function LeftPart(left: seq<Row>, right: seq<Row>, on: string): (r: seq<Row>)
    ensures KeysOf(r, on) == KeysOf(left, on)
  {
    if |left| == 0 then []
    else
      var here := Joined(left[0], right, on);
      var rest := LeftPart(left[1..], right, on);
      KeysOfConcat(here, rest, on);
      KeysOfConcat([left[0]], left[1..], on);
      assert [left[0]] + left[1..] == left;
      here + rest
  }

  /** The right rows whose key no left row has. */
  function Unmatched(right: seq<Row>, left: seq<Row>, on: string): (r: seq<Row>)
    ensures KeysOf(r, on) == KeysOf(right, on) - KeysOf(left, on)
  {
    if |right| == 0 then []
    else
      var here := if CellAt(right[0], on) in KeysOf(left, on) then [] else [right[0]];
      var rest := Unmatched(right[1..], left, on);
      KeysOfConcat(here, rest, on);
      KeysOfConcat([right[0]], right[1..], on);
      assert [right[0]] + right[1..] == right;
      here + rest
  }

  /** `pd.merge(left, right, on=on, how='outer')` for frames that share no
      column but `on` (row order aside: pandas sorts the keys). */
  function MergeOuter(left: Table, right: Table, on: string): (r: Table)
    ensures forall c :: c in r.names <==> c in left.names || c in right.names
    ensures Keys(r, on) == Keys(left, on) + Keys(right, on)
  {
    var lp := LeftPart(left.rows, right.rows, on);
    var um := Unmatched(right.rows, left.rows, on);
    KeysOfConcat(lp, um, on);
    Table(AddNames(left.names, right.names), lp + um)
  }

  /** A number (not NaN). */
  predicate IsNumber(c: Cell) {
    c.Of? && c.v.JNum?
  }

  /** A value a numeric column can hold: a number, NaN, or a JSON null,
      which such a column stores as NaN. */
  predicate Numeric(c: Cell) {
    c.Nan? || (c.Of? && (c.v.JNum? || c.v.JNull?))
  }

  /** The value as a numeric column holds it: a null reads as NaN. */
  function AsNumber(c: Cell): (r: Cell)
    ensures Numeric(c) ==> (r.Nan? <==> !IsNumber(c))
    ensures IsNumber(c) ==> r == c
  {
    if c == Of(JNull) then Nan else c
  }

  /** A column pandas gives a numeric dtype: every value a number, NaN or
      null, and either some number or no value at all. A column of nulls
      keeps Python `None` objects, which neither `diff`, the comparisons nor
      `nlargest` accept. */
  predicate NumericColumn(col: seq<Cell>) {
    && (forall i :: 0 <= i < |col| ==> Numeric(col[i]))
    && ((exists i :: 0 <= i < |col| && IsNumber(col[i])) || (forall i :: 0 <= i < |col| ==> col[i].Nan?))
  }

  /** `a - b` on two cells: integers subtract, anything else gives NaN. */
  function Sub(a: Cell, b: Cell): Cell {
    if a.Of? && a.v.JNum? && b.Of? && b.v.JNum? then Of(JNum(a.v.n - b.v.n)) else Nan
  }

  /** `a + b` on two cells. */
  function Add(a: Cell, b: Cell): Cell {
    if a.Of? && a.v.JNum? && b.Of? && b.v.JNum? then Of(JNum(a.v.n + b.v.n)) else Nan
  }

  /** `abs(a)`. */
  function Abs(a: Cell): Cell {
    if a.Of? && a.v.JNum? then Of(JNum(if a.v.n < 0 then -a.v.n else a.v.n)) else Nan
  }

  /** `a / b * scale`, kept as an exact quotient. */
  function Ratio(a: Cell, b: Cell, scale: int): Cell {
    if a.Of? && a.v.JNum? && b.Of? && b.v.JNum? then Quot(a.v.n * scale, b.v.n) else Nan
  }

  /** Element-wise combination of two equally long columns. */
  function Zip(a: seq<Cell>, b: seq<Cell>, f: (Cell, Cell) -> Cell): (r: seq<Cell>)
    requires |a| == |b|
    ensures |r| == |a| && forall i :: 0 <= i < |a| ==> r[i] == f(a[i], b[i])
  {
    seq(|a|, i requires 0 <= i < |a| => f(a[i], b[i]))
  }

  /** Frames that agree on a column agree on it cell by cell. */
  lemma SameColumnCells(a: Table, b: Table, c: string)
    requires Column(a, c) == Column(b, c)
    ensures forall i :: 0 <= i < |a.rows| ==> CellAt(a.rows[i], c) == CellAt(b.rows[i], c)
  {
    forall i | 0 <= i < |a.rows| ensures CellAt(a.rows[i], c) == CellAt(b.rows[i], c) {
      assert Column(a, c)[i] == Column(b, c)[i];
    }
  }
}

=== FILE: template_tree.dfy ===
/** What the three statement templates (src/templates/) have in common: a
    skeleton of nested dicts whose leaves are empty lists, and a
    `concept_map` from SEC taxonomy concepts to paths of keys into that
    skeleton, read by `get_path_for_concept`. */
module TemplateTree {
  import opened Wrappers
  import Dicts

  /** A node of a skeleton: a leaf stands for one of the empty lists the
      constructor creates, a branch for a dict of named children. */
  datatype Node = Leaf | Branch(children: Dicts.Dict<Node>)

  /** The child stored under `k`, searching from position `from`: the
      lookup of `Dicts.Get` (see `ChildIsGet`) written by index, so that
      concrete skeletons unfold cheaply. */
  function ChildFrom(children: Dicts.Dict<Node>, k: string, from: nat): Option<Node>
    decreases |children| - from
  {
    if from >= |children| then None
    else if children[from].0 == k then Some(children[from].1)
    else ChildFrom(children, k, from + 1)
  }

  /** The child stored under `k`. */
  function Child(children: Dicts.Dict<Node>, k: string): Option<Node> {
    ChildFrom(children, k, 0)
  }

  lemma {:induction false} ChildFromIsGet(children: Dicts.Dict<Node>, k: string, from: nat)
    requires from <= |children|
    ensures ChildFrom(children, k, from) == Dicts.Get(children[from..], k)
    decreases |children| - from
  {
    if from < |children| && children[from].0 != k {
      ChildFromIsGet(children, k, from + 1);
      assert children[from..][1..] == children[from + 1..];
    }
  }

  lemma ChildIsGet(children: Dicts.Dict<Node>, k: string)
    ensures Child(children, k) == Dicts.Get(children, k)
  {
    ChildFromIsGet(children, k, 0);
    assert children[0..] == children;
  }

  /** The node a path of keys leads to, if every key exists on the way. */
  function At(n: Node, path: seq<string>): Option<Node>
    decreases |path|
  {
    if |path| == 0 then Some(n)
    else if !n.Branch? then None
    else match Child(n.children, path[0])
      case None => None
      case Some(child) => At(child, path[1..])
  }

  /** The path names an existing node. */
  predicate Resolves(n: Node, path: seq<string>) {
    At(n, path).Some?
  }

  /** A template object: its attributes (the skeleton's top level) and its
      `concept_map`. */
  datatype Template = Template(attributes: Dicts.Dict<Node>, conceptMap: Dicts.Dict<seq<string>>)

  function Root(t: Template): Node {
    Branch(t.attributes)
  }

  /** `get_path_for_concept`: `concept_map.get(concept, [])`. */
  function PathForConcept(t: Template, concept: string): seq<string> {
    Dicts.Get(t.conceptMap, concept).GetOr([])
  }

  /** Some concept is mapped to exactly this path. */
  predicate Targeted(t: Template, path: seq<string>) {
    exists i :: 0 <= i < |t.conceptMap| && t.conceptMap[i].1 == path
  }

  /** Every mapped path is non-empty and names a node of the skeleton. */
  predicate PathsResolve(t: Template) {
    forall i :: 0 <= i < |t.conceptMap| ==> |t.conceptMap[i].1| > 0 && Resolves(Root(t), t.conceptMap[i].1)
  }

  /** In a template whose mapped paths resolve, the path returned for any
      concept names a node, it is empty exactly when the concept is not
      mapped, and otherwise it is the path the concept is mapped to. */
  lemma PathForConceptResolves(t: Template, concept: string)
    requires PathsResolve(t)
    ensures Resolves(Root(t), PathForConcept(t, concept))
    ensures PathForConcept(t, concept) == [] <==> !Dicts.HasKey(t.conceptMap, concept)
    ensures PathForConcept(t, concept) != [] ==> Targeted(t, PathForConcept(t, concept))
    ensures PathForConcept(t, concept) != [] ==>
      exists i :: 0 <= i < |t.conceptMap| && t.conceptMap[i] == (concept, PathForConcept(t, concept))
  {
    if Dicts.HasKey(t.conceptMap, concept) {
      var i :| 0 <= i < |t.conceptMap| && t.conceptMap[i] == (concept, PathForConcept(t, concept));
    }
  }

  /** A mapped path starts with one of the template's attributes. */
  lemma {:induction false} ResolvesHead(t: Template, path: seq<string>)
    requires Resolves(Root(t), path) && path != []
    ensures Dicts.HasKey(t.attributes, path[0])
  {
    ChildIsGet(t.attributes, path[0]);
  }

  /** A path that no concept maps to is never returned. */
  lemma UntargetedNeverReturned(t: Template, path: seq<string>, concept: string)
    requires !Targeted(t, path) && path != []
    ensures PathForConcept(t, concept) != path
  {
    if Dicts.HasKey(t.conceptMap, concept) {
      var i :| 0 <= i < |t.conceptMap| && t.conceptMap[i] == (concept, PathForConcept(t, concept));
    }
  }
}

=== FILE: text.dfy ===
/** String helpers with Python's semantics, restricted to what the client and
    the processors use: `str.strip()`, `str.lstrip('0')`, `str.isdigit()`,
    `str.zfill(w)`, `str(int)`, `p in s`, `str.lower()` and `sep.join(xs)`. */
module Text {

  /** Python's `str.isspace()` for one character (the full list of
      whitespace code points of the Basic Multilingual Plane). */
  predicate IsSpace(c: char) {
    || c == ' ' || c == '\t' || c == '\n' || c == '\r'
    || c == '\U{000B}' || c == '\U{000C}'
    || ('\U{001C}' <= c <= '\U{001F}')
    || c == '\U{0085}' || c == '\U{00A0}' || c == '\U{1680}'
    || ('\U{2000}' <= c <= '\U{200A}')
    || c == '\U{2028}' || c == '\U{2029}' || c == '\U{202F}'
    || c == '\U{205F}' || c == '\U{3000}'
  }

  /** Drop leading whitespace. */
  function TrimStart(s: string): (r: string)
    ensures |r| == 0 || !IsSpace(r[0])
    ensures |r| <= |s| && r == s[|s| - |r|..]
    ensures forall i :: 0 <= i < |s| - |r| ==> IsSpace(s[i])
    decreases |s|
  {
    if |s| > 0 && IsSpace(s[0]) then TrimStart(s[1..]) else s
  }

  /** Drop trailing whitespace. */
  function TrimEnd(s: string): (r: string)
    ensures |r| == 0 || !IsSpace(r[|r| - 1])
    ensures |r| <= |s| && r == s[..|r|]
    ensures forall i :: |r| <= i < |s| ==> IsSpace(s[i])
    decreases |s|
  {
    if |s| > 0 && IsSpace(s[|s| - 1]) then TrimEnd(s[..|s| - 1]) else s
  }

  /** Python's `s.strip()` with no argument. */
  function Strip(s: string): string {
    TrimEnd(TrimStart(s))
  }

  predicate IsDigit(c: char) {
    '0' <= c <= '9'
  }

  /** Every character is an ASCII digit (true of the empty string). */
  predicate AllDigits(s: string) {
    forall i :: 0 <= i < |s| ==> IsDigit(s[i])
  }

  /** Python's `s.isdigit()` on ASCII text: non-empty and all digits. */
  predicate IsDigitString(s: string) {
    |s| > 0 && AllDigits(s)
  }

  /** `n` copies of `c`. */
  function Repeat(c: char, n: nat): (r: string)
    ensures |r| == n
    ensures forall i :: 0 <= i < n ==> r[i] == c
  {
    if n == 0 then [] else [c] + Repeat(c, n - 1)
  }

  /** Python's `s.lstrip('0')`. */
  function StripLeadingZeros(s: string): (r: string)
    ensures |r| == 0 || r[0] != '0'
    ensures |r| <= |s|
    ensures s == Repeat('0', |s| - |r|) + r
    decreases |s|
  {
    if |s| > 0 && s[0] == '0' then
      var r := StripLeadingZeros(s[1..]);
      assert s == [s[0]] + s[1..];
      r
    else
      s
  }

  /** Python's `s.zfill(width)` for a string without a sign character. */
  function ZFill(s: string, width: nat): (r: string)
    ensures |r| == if |s| >= width then |s| else width
    ensures r == Repeat('0', |r| - |s|) + s
  {
    if |s| >= width then s else Repeat('0', width - |s|) + s
  }

  function DigitValue(c: char): nat
    requires IsDigit(c)
  {
    (c as int - '0' as int) as nat
  }

  function DigitChar(d: nat): (c: char)
    requires d < 10
    ensures IsDigit(c) && DigitValue(c) == d
  {
    ('0' as int + d) as char
  }

  /** The number a string of decimal digits denotes. */
  function DigitsValue(s: string): nat
    requires AllDigits(s)
  {
    if |s| == 0 then 0 else DigitsValue(s[..|s| - 1]) * 10 + DigitValue(s[|s| - 1])
  }

  /** Python's `str(n)` for a natural number: decimal, no leading zeros. */
  function NatToString(n: nat): (r: string)
    ensures IsDigitString(r)
    ensures |r| == 1 || r[0] != '0'
  {
    if n < 10 then [DigitChar(n)] else NatToString(n / 10) + [DigitChar(n % 10)]
  }

  /** Python's `str(i)` for an integer. */
  function IntToString(i: int): (r: string)
    ensures |r| > 0
    ensures i >= 0 ==> r == NatToString(i)
    ensures i < 0 ==> r == "-" + NatToString(-i)
  {
    if i < 0 then "-" + NatToString(-i) else NatToString(i)
  }

  /** Rendering a natural number and reading it back gives the number. */
  lemma {:induction false} NatToStringValue(n: nat)
    ensures DigitsValue(NatToString(n)) == n
  {
    if n >= 10 {
      NatToStringValue(n / 10);
      var s := NatToString(n);
      assert s[..|s| - 1] == NatToString(n / 10);
    }
  }

  /** Leading zeros do not change the value of a digit string. */
  lemma {:induction false} LeadingZerosValue(k: nat, s: string)
    requires AllDigits(s)
    ensures AllDigits(Repeat('0', k) + s)
    ensures DigitsValue(Repeat('0', k) + s) == DigitsValue(s)
    decreases |s|, k
  {
    var t := Repeat('0', k) + s;
    if |s| == 0 {
      assert t == Repeat('0', k);
      if k > 0 {
        assert t[..|t| - 1] == Repeat('0', k - 1) + s;
        LeadingZerosValue(k - 1, s);
      }
    } else {
      var p := s[..|s| - 1];
      assert t[..|t| - 1] == Repeat('0', k) + p;
      LeadingZerosValue(k, p);
    }
  }

  /** A digit string whose first digit is not zero denotes a positive number. */
  lemma {:induction false} LeadingNonZeroPositive(s: string)
    requires IsDigitString(s) && s[0] != '0'
    ensures DigitsValue(s) > 0
    decreases |s|
  {
    if |s| > 1 {
      LeadingNonZeroPositive(s[..|s| - 1]);
    }
  }

  /** A digit string without leading zeros is the rendering of its own value:
      the decimal rendering is the unique canonical form of a number. */
  lemma {:induction false} CanonicalDigits(s: string)
    requires IsDigitString(s) && (|s| == 1 || s[0] != '0')
    ensures NatToString(DigitsValue(s)) == s
    decreases |s|
  {
    if |s| > 1 {
      var p := s[..|s| - 1];
      CanonicalDigits(p);
      LeadingNonZeroPositive(p);
      var v := DigitsValue(s);
      assert v / 10 == DigitsValue(p) && v % 10 == DigitValue(s[|s| - 1]);
      assert s == p + [s[|s| - 1]];
    }
  }

  /** Text that neither starts nor ends with whitespace is its own strip. */
  lemma StripUnchanged(s: string)
    requires |s| > 0 ==> !IsSpace(s[0]) && !IsSpace(s[|s| - 1])
    ensures Strip(s) == s
  {
  }

  /** Equal strings with the same beginning have the same rest. */
  lemma CancelPrefix(p: string, x: string, y: string)
    requires p + x == p + y
    ensures x == y
  {
    assert x == (p + x)[|p|..];
  }

  /** Equal strings with the same surroundings have the same middle. */
  lemma CancelMiddle(p: string, x: string, y: string, q: string)
    requires p + x + q == p + y + q
    ensures x == y
  {
    assert |x| == |y|;
    assert x == (p + x + q)[|p|..|p| + |x|];
    assert y == (p + y + q)[|p|..|p| + |y|];
  }

  /** Python's `p in s` for strings: `p` occurs in `s` as a contiguous block. */
  predicate Contains(s: string, p: string)
    decreases |s|
  {
    (|p| <= |s| && s[..|p|] == p) || (|s| > 0 && Contains(s[1..], p))
  }

  /** The empty pattern occurs in every string. */
  lemma EmptyContained(s: string)
    ensures Contains(s, "")
  {
    assert s[..0] == "";
  }

  /** ASCII part of Python's `str.lower()`. */
  function LowerChar(c: char): char {
    if 'A' <= c <= 'Z' then (c as int + 32) as char else c
  }

  function Lower(s: string): (r: string)
    ensures |r| == |s|
    ensures forall i :: 0 <= i < |s| ==> r[i] == LowerChar(s[i])
  {
    if |s| == 0 then [] else [LowerChar(s[0])] + Lower(s[1..])
  }

  /** Python's `sep.join(parts)`. */
  function Join(sep: string, parts: seq<string>): string {
    if |parts| == 0 then ""
    else if |parts| == 1 then parts[0]
    else parts[0] + sep + Join(sep, parts[1..])
  }
}

=== FILE: wrappers.dfy ===
/** Failure-compatible Option and Result types shared by every module of the model. */
module Wrappers {

  /** A value that may be absent (Python's `None`). */
  datatype Option<+T> = None | Some(value: T) {

    /** The wrapped value, or `default` when absent. */
    function GetOr(default: T): T {
      match this
      case Some(v) => v
      case None => default
    }
  }

  /** The outcome of an operation that raises: `Err` carries the exception kind. */
  datatype Result<+T, +E> = Ok(value: T) | Err(error: E) {

    predicate IsFailure() {
      Err?
    }

    function PropagateFailure<U>(): Result<U, E>
      requires Err?
    {
      Err(error)
    }

    function Extract(): T
      requires Ok?
    {
      value
    }
  }
}
